=== FILE: README.md ===
# blueSLab core in Dafny

blueSLab is a web-automation assistant. This project models its in-memory rule, registry and state-machine components as pure functions over immutable values, and proves properties about them. The modelled components are:

- **Interruption handler.** It holds patterns, actions and prioritised rules. It gates pages by white/blacklist, finds the first firing rule, runs its actions, learns new rules from a recording, and imports and exports rules.
- **Popup-handler plugin.** It gates actions when disabled, applies its own domain gate, keeps per-pattern statistics, stores and lists custom patterns, keeps the white/blacklists, and detects popups.
- **Workflow manager.** It covers steps and their dictionary form, the step map with its order, dependency- and condition-gated next-step selection, the bounded retry loop of one step, the run loop, and the manager's start/pause/resume/cancel/retry/delete transitions.
- **Settings manager.** It covers deep merge, get/set with change detection, delete, reset to defaults, and the interruption white/blacklist domain sets.
- **The two plugin registries.** The registry in `core/plugin_system.py` covers:
  - priority-sorted registration;
  - criteria filtering;
  - dependency-first initialisation;
  - cleanup.

  The type/name plugin manager in `core/plugin_manager.py` covers enable/disable/configure, initialisation, execution and shutdown.
- **The recognition and automation plugin bases.** These are their result dictionaries and the initialisation guard.
- **The CSS selector plugin.** It builds selectors for a recognition target, reorders its strategies, and searches for the first selector that finds an element.
- **Command-to-task matching.** It scores commands, extracts and validates parameters, and picks the best task above the threshold.
- **Small helpers:**
  - the command-input history, task board and log viewer;
  - the GUI's workflow-JSON conversion and validation, and its settings form mapping;
  - the web application's task, project, account and form rules.

The browser page, the clock, JSON text decoding and encoding, regular-expression search and plugin outcomes are all parameters of the model. URLs are reduced to their host (`urlparse(url).netloc`, port included). Python dictionaries are Dafny maps. Where dictionary insertion order is observable, they are sequences of pairs instead: the rule store, the selector attributes, and the `results` of a run. Integers are unbounded, and match scores are whole tenths.

Shared modules:

| module | what it holds |
|---|---|
| `Wrappers` | `Option` / `Result` |
| `PyStr` | Python's strip, split, join, ASCII lower/upper and substring tests |
| `Json` | JSON values with Python truthiness and `dict.get` |
| `Domains` | the exact-or-`*.suffix` domain entry shared by both gates |
| `Sorting` | a stable sort by descending key, as Python's `sorted(..., reverse=True)` |
| `Seqs` | distinctness |

## Model

| member | source | states |
|---|---|---|
| Domains.AnyEntryMatches | core/interruption_handler.py:83-92 | a host matches a domain list iff some entry equals it or is `*.s` with the host ending in `.s` |
| Domains.WildcardMatches | core/interruption_handler.py:89-90 | a `*.s` entry matches exactly the hosts ending in `.s` (and the literal `*.s`) |
| Domains.WildcardExcludesBareDomain | core/interruption_handler.py:89-90 | `*.s` does not match the bare domain `s` |
| Domains.WildcardMatchesSubdomain | core/interruption_handler.py:89-90 | `*.s` matches every `x.s` |
| Domains.PlainEntryMatchesExactly | core/interruption_handler.py:85-86 | an entry without `*.` matches only the identical host |
| InterruptionHandler.NewPattern | core/interruption_handler.py:25-37 | a new pattern has no last-applied time and zero success and failure counts |
| InterruptionHandler.PatternToDict | core/interruption_handler.py:39-52 | the dictionary holds the ten pattern keys, with last_applied and domains as stored |
| InterruptionHandler.StampField | core/interruption_handler.py:67-68 | a missing or falsy time reads as none; a non-string time fails; otherwise a non-empty time string |
| InterruptionHandler.NewRule | core/interruption_handler.py:145-156 | a new rule has never triggered and keeps the given id, pattern, actions and priority |
| InterruptionHandler.MatchesDomain | core/interruption_handler.py:75-92 | an empty domain list matches every host; otherwise some entry must match |
| InterruptionHandler.PatternSucceeded | core/interruption_handler.py:98-101 | one more success, failures unchanged, last-applied set, domains and enabled flag kept |
| InterruptionHandler.PatternFailed | core/interruption_handler.py:103-106 | one more failure, successes unchanged, last-applied set |
| InterruptionHandler.Triggered | core/interruption_handler.py:195-198 | a detected rule's trigger count and its pattern's success count each rise by exactly one and the pattern's last-applied time is set; everything else is kept |
| InterruptionHandler.DetectionFailed | core/interruption_handler.py:406-408 | a detection that raised adds one failure to the pattern and sets its last-applied time; the trigger count and everything else are kept |
| InterruptionHandler.PatternFromDict | core/interruption_handler.py:55-73 | a dictionary missing any required key is refused; a decoded pattern is well-formed |
| InterruptionHandler.PatternRoundTrip | core/interruption_handler.py:39-73 | loading a saved pattern gives back the same pattern, counters and timestamps included |
| InterruptionHandler.PatternDefaults | core/interruption_handler.py:55-73 | a dictionary with only the required keys loads as an enabled pattern for all domains with zero counters |
| InterruptionHandler.ActionFromDict | core/interruption_handler.py:131-139 | a dictionary missing any required key is refused |
| InterruptionHandler.ActionToDict | core/interruption_handler.py:120-128 | the dictionary holds the five action keys, with the action data as stored |
| InterruptionHandler.ActionRoundTrip | core/interruption_handler.py:120-139 | loading a saved action gives back the same action |
| InterruptionHandler.ActionsToJson | core/interruption_handler.py:164 | one dictionary per action, in order |
| InterruptionHandler.ActionsFromJson | core/interruption_handler.py:176 | a decoded action list has one action per entry, each decoded from that entry |
| InterruptionHandler.ActionsRoundTrip | core/interruption_handler.py:164-176 | the action list survives saving and loading, order included |
| InterruptionHandler.RuleFromDict | core/interruption_handler.py:173-193 | a dictionary missing the pattern, actions, id or name is refused |
| InterruptionHandler.RuleToDict | core/interruption_handler.py:158-170 | the dictionary holds the nine rule keys, the pattern's dictionary and one entry per action |
| InterruptionHandler.RuleRoundTrip | core/interruption_handler.py:158-193 | loading a saved rule gives back the same rule: id, name, priority, enabled flag, trigger count, pattern and ordered actions |
| InterruptionHandler.IndexOf | core/interruption_handler.py:321-323 | the first position holding the id, and none exactly when the id is not stored |
| InterruptionHandler.GetRule | core/interruption_handler.py:321-323 | a rule is returned exactly when its id is stored, and it is the stored rule with that id |
| InterruptionHandler.Put | core/interruption_handler.py:284-292 | storing by id: the id now gives the new rule, other ids are unaffected, and a new id is appended at the end |
| InterruptionHandler.PutLookups | core/interruption_handler.py:284-292 | overwriting in place keeps ids unique and changes only that id's lookup |
| InterruptionHandler.AppendLookups | core/interruption_handler.py:284-292 | appending a new id keeps ids unique and changes only that id's lookup |
| InterruptionHandler.Delete | core/interruption_handler.py:300 | deleting an id removes exactly the rules with that id |
| InterruptionHandler.DeleteLookups | core/interruption_handler.py:300 | after deletion the id is absent and every other lookup is unchanged |
| InterruptionHandler.UniqueLookup | core/interruption_handler.py:284-292 | in a store keyed by id, equal ids mean the same rule |
| InterruptionHandler.AddRule | core/interruption_handler.py:284-292 | inserts or overwrites by rule id; other rules, the gate lists and the enabled flag are unchanged |
| InterruptionHandler.RemoveRule | core/interruption_handler.py:294-303 | true iff the id was stored; false leaves the handler unchanged; afterwards the id is gone and other ids are unchanged |
| InterruptionHandler.UpdateRule | core/interruption_handler.py:305-314 | true iff the id was stored, replacing that rule in place; false leaves the handler unchanged |
| InterruptionHandler.GetRules | core/interruption_handler.py:316-319 | the stored rules, as a permutation, in non-increasing priority |
| InterruptionHandler.GetRulesStable | core/interruption_handler.py:316-319 | rules of equal priority keep their insertion order |
| InterruptionHandler.OnSettingsChanged | core/interruption_handler.py:237-245 | only the interruption section's enabled, whitelist and blacklist keys change the handler; the list named becomes `set(value)` for every value, and stays as it was when `set()` raises; the rules are never touched |
| InterruptionHandler.LastAccepted | core/interruption_handler.py:242-245 | the set the last change of a list that `set()` accepted gives, if any |
| InterruptionHandler.ChangesFollowLastAccepted | core/interruption_handler.py:237-245 | after any sequence of settings changes, each list is the set of the last accepted value for it, or as it was, and the enabled flag is the truthiness of the last enabled value |
| InterruptionHandler.DomainSet | core/interruption_handler.py:243-245 | `set(value)`: a list of hashable values gives exactly its elements, a string exactly its one-character strings, a dictionary exactly its keys; an unhashable element or a non-iterable value raises |
| InterruptionHandler.IsUrlAllowed | core/interruption_handler.py:325-351 | a host a blacklist string names is refused; otherwise a non-string blacklist entry allows; otherwise an empty whitelist, a non-string whitelist entry or a whitelist match allows, and nothing else does |
| InterruptionHandler.UrlGateOnStrings | core/interruption_handler.py:325-351 | with string entries only, the gate is exactly blacklist-first, then empty-whitelist-allows, then whitelist-match |
| InterruptionHandler.ScanUrlGate | core/interruption_handler.py:325-351 | the loops in any set iteration order: a host named by an all-string blacklist is refused, and whenever the blacklist does not name the host the answer is `IsUrlAllowed` |
| InterruptionHandler.NonStringWhitelistEntryAllows | core/interruption_handler.py:337-351 | a whitelist holding "a.com" and the number 5 lets "b.com" through, because `.startswith` raises on 5 and the error path allows |
| InterruptionHandler.BlacklistWins | core/interruption_handler.py:331-334 | a matching blacklist entry refuses the host whatever the whitelist holds |
| InterruptionHandler.Detect | core/interruption_handler.py:381-478 | unknown pattern types and empty selectors never detect; a selector detects only with a visible element, or any element when `visible_only` is false; template and OCR need a plugin manager |
| InterruptionHandler.FirstFiring | core/interruption_handler.py:372-478 | the first rule in scan order that fires, and none iff no rule fires |
| InterruptionHandler.Scan | core/interruption_handler.py:372-478 | the scan returns the first firing rule, triggered, and stores the updated rule under its id |
| InterruptionHandler.ScanFrame | core/interruption_handler.py:372-478 | the scan changes only the rules it reaches: a rule before the hit whose detection raised is stored with one more failure, and every id neither raised nor hit keeps its rule |
| InterruptionHandler.CheckInterruption | core/interruption_handler.py:353-483 | disabled handler, missing page or refused host gives nothing and changes nothing; only the rules change, and the ids stay the same; a returned rule is enabled, has an enabled pattern matching the host, fired first in priority order, has the highest priority among firing rules, and is stored with its counters raised; every rule scanned before the hit whose detection raised is stored with one more failure; every other rule is unchanged |
| InterruptionHandler.HitIsStoredAndEligible | core/interruption_handler.py:373-379 | the hit is a stored rule, enabled, with an enabled pattern matching the host |
| InterruptionHandler.RulesInOrderAreStored | core/interruption_handler.py:316-319 | every rule in scan order is stored |
| InterruptionHandler.FiringRulesInOrder | core/interruption_handler.py:316-319 | every stored firing rule appears in scan order |
| InterruptionHandler.HighestPriorityFires | core/interruption_handler.py:372-405 | no firing rule has a higher priority than the one returned |
| InterruptionHandler.AttemptedActions | core/interruption_handler.py:497-590 | the actions attempted are exactly the rule's actions that have the data their type needs |
| InterruptionHandler.HandleInterruption | core/interruption_handler.py:485-600 | false with nothing attempted when the handler is disabled, or the page or the rule is missing; otherwise the attempted actions are exactly the rule's runnable ones, in order, and the result is true iff at least one completed |
| InterruptionHandler.AnyCompletes | core/interruption_handler.py:497-596 | running the attempted actions in order reports success iff some action completed |
| InterruptionHandler.CheckAndHandle | core/interruption_handler.py:602-613 | handled iff detection found a rule and some action of it was attempted and completed |
| InterruptionHandler.CompletedActionWasAttempted | core/interruption_handler.py:497-596 | the attempted actions report success iff some attempted action completed |
| InterruptionHandler.RegisterPattern | core/interruption_handler.py:615-631 | stores an enabled rule `rule_<pattern id>` with no actions and priority 0 around the pattern, leaving other ids alone |
| InterruptionHandler.SelectorCandidates | core/interruption_handler.py:646-653 | only truthy selectors of click and fill entries are candidates |
| InterruptionHandler.FirstLongest | core/interruption_handler.py:660 | the first candidate of maximal length, as `max(..., key=len)` |
| InterruptionHandler.LearnedAction | core/interruption_handler.py:674-712 | an action is learned exactly from click, fill, keypress and wait entries, and its id carries the entry's position |
| InterruptionHandler.LearnedActions | core/interruption_handler.py:673-712 | one learned action per learnable entry, all of learnable kinds, in recording order: the learnable entry at position i is learned into the slot counting the learnable entries before it |
| InterruptionHandler.LearnedActionsExtend | core/interruption_handler.py:673-712 | a recording extended by one entry learns the same actions followed by that entry's learned action, if its kind is learnable |
| InterruptionHandler.LearnInterruption | core/interruption_handler.py:633-733 | no page or no candidate selector leaves the handler unchanged; otherwise stores a priority-10 enabled selector rule for the page's host with the longest selector, whose actions are exactly the recording's learned actions in order |
| InterruptionHandler.ImportAsWritten | core/interruption_handler.py:735-764 | the renaming as written: ids stay unique and existing ids stay present |
| InterruptionHandler.ImportAsWrittenOverwrites | core/interruption_handler.py:746-751 | importing one clashing rule twice in the same second counts 2 but adds only 1 rule |
| InterruptionHandler.FreshId | core/interruption_handler.py:747-748 | the corrected renaming: a free id that extends the candidate, kept unchanged when already free |
| InterruptionHandler.ImportFresh | core/interruption_handler.py:735-764 | corrected import: every decodable entry adds a rule, existing rules are untouched, and the count equals the rules added |
| InterruptionHandler.ImportRules | core/interruption_handler.py:735-764 | `import_rules` with the corrected renaming of the Findings table: an unreadable file imports nothing; otherwise the count is the number of decodable entries and the store grows by exactly that |
| InterruptionHandler.ExportRules | core/interruption_handler.py:766-779 | one dictionary per stored rule, in store order |
| InterruptionHandler.LoadRuleDocs | core/interruption_handler.py:257-263 | storing the dictionaries of well-formed rules with fresh ids after a store appends exactly those rules, in order, and succeeds |
| InterruptionHandler.LoadRules | core/interruption_handler.py:247-267 | a missing file changes nothing and gives false; otherwise the store is emptied and each entry decoded and stored by id, so a later duplicate id replaces the earlier rule; a bad entry stops the loop with false and keeps the rules stored before it; only the rules change |
| InterruptionHandler.Decoded | core/interruption_handler.py:258-260 | the rules decoded before the first entry that fails to decode, each from its own entry |
| InterruptionHandler.LoadInto | core/interruption_handler.py:257-263 | ids stay unique; true iff every entry decodes; each decoded id holds the last rule given for it; every other id keeps its rule |
| InterruptionHandler.ExportLoadRoundTrip | core/interruption_handler.py:247-279 | loading the saved rules into the emptied store gives back the store and succeeds |
| InterruptionHandler.PermutedIdsUnique | core/interruption_handler.py:316-319 | reordering a store with unique ids keeps them unique |
| PopupHandlerPlugin.ExecuteGate | plugins/interruption/popup_handler_plugin.py:167-183 | an unknown action is refused; while disabled, exactly the actions outside the five read-only or list ones are answered "disabled" |
| PopupHandlerPlugin.DisabledSubsetOfCapabilities | plugins/interruption/popup_handler_plugin.py:150-176 | every action usable while disabled is a capability |
| PopupHandlerPlugin.ScanEntries | plugins/interruption/popup_handler_plugin.py:260-275 | a list scan matches, finds nothing, or raises on the first non-string entry before any match |
| PopupHandlerPlugin.IsDomainAllowed | plugins/interruption/popup_handler_plugin.py:254-281 | for list values: a blacklist match refuses; an empty whitelist allows; an internal error allows |
| PopupHandlerPlugin.GateAgreesWithSets | plugins/interruption/popup_handler_plugin.py:254-281 | for string lists, the gate is blacklist-first, then empty-whitelist-allows, then whitelist-match |
| PopupHandlerPlugin.ScanStrsNeverRaises | plugins/interruption/popup_handler_plugin.py:260-275 | a list of strings never raises |
| PopupHandlerPlugin.NonStringEntryDisablesBlacklist | plugins/interruption/popup_handler_plugin.py:260-281 | a non-string blacklist entry before a match lets a blacklisted host through |
| PopupHandlerPlugin.ScanValue | plugins/interruption/popup_handler_plugin.py:260-275 | `for entry in value`: a list is scanned entry by entry; a string matches only a one-character host it contains; a dictionary matches through its keys; any other value raises |
| PopupHandlerPlugin.CharEntriesMatch | plugins/interruption/popup_handler_plugin.py:260-275 | a string's characters, taken as entries, match exactly the one-character hosts they spell |
| PopupHandlerPlugin.DomainGate | plugins/interruption/popup_handler_plugin.py:254-281 | over the stored config values: agrees with the list gate on lists; a blacklist match refuses; a raising blacklist scan allows; otherwise a falsy whitelist or a whitelist scan that matches or raises allows, and nothing else |
| PopupHandlerPlugin.NonIterableListsAllow | plugins/interruption/popup_handler_plugin.py:254-281 | a number as whitelist, or `None` as blacklist, makes the gate raise and allow every page |
| PopupHandlerPlugin.UpdatePatternStats | plugins/interruption/popup_handler_plugin.py:283-297 | uses rise by one and exactly one of successes or failures rises by one; other entries and totals are unchanged |
| PopupHandlerPlugin.StatsToJson | plugins/interruption/popup_handler_plugin.py:285-291 | the statistics entry holds uses, successes, failures and last_used |
| PopupHandlerPlugin.UpdateKeepsBalance | plugins/interruption/popup_handler_plugin.py:283-297 | successes plus failures equal uses after every update when they did before |
| PopupHandlerPlugin.UpdatesFromFreshAreBalanced | plugins/interruption/popup_handler_plugin.py:283-297 | any sequence of updates from fresh statistics keeps successes plus failures equal to uses |
| PopupHandlerPlugin.ResetStats | plugins/interruption/popup_handler_plugin.py:814-855 | no id resets everything; a known id zeroes only that entry; an unknown id changes nothing |
| PopupHandlerPlugin.LoadPatterns | plugins/interruption/popup_handler_plugin.py:211-230 | every pattern file except the statistics file is loaded, and nothing else |
| PopupHandlerPlugin.FileStem | plugins/interruption/popup_handler_plugin.py:232-240 | a string id names its own file; integers, booleans and `None` are written as Python's `str` does |
| PopupHandlerPlugin.AddPattern | plugins/interruption/popup_handler_plugin.py:671-715 | refuses a pattern without type or selector; otherwise stores it with every given key, filling id, name and enabled only when absent, and leaves other files alone |
| PopupHandlerPlugin.RemovePattern | plugins/interruption/popup_handler_plugin.py:717-754 | refuses a missing id or unknown pattern; otherwise removes exactly that file and its statistics |
| PopupHandlerPlugin.WithStats | plugins/interruption/popup_handler_plugin.py:776-782 | a listed pattern keeps all its own keys |
| PopupHandlerPlugin.ListPatterns | plugins/interruption/popup_handler_plugin.py:756-788 | the listed patterns are the stored ones passing the type and enabled filters, in load order as `FilterListedOne` and `FilterListedAppend` fix it; count is their number and total is the store size |
| PopupHandlerPlugin.FilterListed | plugins/interruption/popup_handler_plugin.py:766-782 | the filter keeps exactly the patterns that pass |
| PopupHandlerPlugin.FilterListedOne | plugins/interruption/popup_handler_plugin.py:766-782 | one pattern is listed as its copy with statistics when it passes the filters, and not at all otherwise |
| PopupHandlerPlugin.FilterListedAppend | plugins/interruption/popup_handler_plugin.py:766-782 | the listing of two runs of patterns is the first's listing followed by the second's, so load order and repetitions are kept |
| PopupHandlerPlugin.NumericTypeListed | plugins/interruption/popup_handler_plugin.py:768 | the type filter uses Python's `!=`: type 1.0 passes the filter 1, type "1" does not |
| PopupHandlerPlugin.AddDomain | plugins/interruption/popup_handler_plugin.py:877-933 | an empty domain is refused; a domain Python-equal to an entry leaves the list unchanged; a new one is appended |
| PopupHandlerPlugin.AddDomainKeepsDistinct | plugins/interruption/popup_handler_plugin.py:877-933 | insertion is idempotent and the lists never hold two Python-equal entries |
| PopupHandlerPlugin.EqualNumberAlreadyPresent | plugins/interruption/popup_handler_plugin.py:877-933 | the domain 1 is already present in the list [1.0] |
| PopupHandlerPlugin.AddToConfigList | plugins/interruption/popup_handler_plugin.py:877-937 | a falsy domain is refused; a list gains the domain iff no entry is Python-equal to it; a string value answers by substring and a dictionary by key, reporting present or failing; any other value fails; only an append changes the config |
| PopupHandlerPlugin.AddWhitelistDomain | plugins/interruption/popup_handler_plugin.py:877-906 | anything but an append leaves the plugin unchanged; an append happens only on a list value and writes that list plus the domain; the blacklist is kept |
| PopupHandlerPlugin.AddBlacklistDomain | plugins/interruption/popup_handler_plugin.py:908-937 | anything but an append leaves the plugin unchanged; an append happens only on a list value and writes that list plus the domain; the whitelist is kept |
| PopupHandlerPlugin.BlacklistingRefuses | plugins/interruption/popup_handler_plugin.py:254-281 | after blacklisting a non-empty host on a list of strings, the gate refuses it |
| PopupHandlerPlugin.StringBlacklistReportsPresent | plugins/interruption/popup_handler_plugin.py:908-937 | a blacklist stored as the string "ads.example.com" reports "example.com" present and unchanged, while the gate still allows that host |
| PopupHandlerPlugin.FirstShown | plugins/interruption/popup_handler_plugin.py:328-344 | the first selector with a visible element, and none iff no selector has one |
| PopupHandlerPlugin.PatternDomainsAdmit | plugins/interruption/popup_handler_plugin.py:353-364 | falsy domains admit every host; a list admits iff some entry matches; a string admits only a one-character host it contains; the check raises iff the scan raises |
| PopupHandlerPlugin.ScanPatterns | plugins/interruption/popup_handler_plugin.py:348-391 | a custom hit is the first pattern that is enabled, admits the host and has a visible selector, reported with that selector and id and counted as detected; no hit means no pattern is shown |
| PopupHandlerPlugin.DetectPopup | plugins/interruption/popup_handler_plugin.py:305-398 | no page raises; a refused host detects nothing; built-in popup then cookie selectors are tried before any custom pattern; the type is "cookie_notice" iff the hit selector is a cookie selector |
| PopupHandlerPlugin.SharedSelectorIsCookieNotice | plugins/interruption/popup_handler_plugin.py:333 | a selector in both lists is reported as a cookie notice |
| WorkflowManager.StepStatusFromName | core/workflow_manager.py:33-40 | only the five status names decode, each to the status carrying that name |
| WorkflowManager.StepStatusName | core/workflow_manager.py:33-40 | each status is named by one of the five names |
| WorkflowManager.StepStatusNameRoundTrip | core/workflow_manager.py:33-40 | every status decodes back from its name |
| WorkflowManager.NewStep | core/workflow_manager.py:44-63 | a new step is pending with no result, error, times or attempts |
| WorkflowManager.StepToDict | core/workflow_manager.py:65-83 | the dictionary holds the fifteen step keys, with the status name and the dependencies as stored |
| WorkflowManager.DependenciesField | core/workflow_manager.py:100 | missing or falsy dependencies read as the empty list; a truthy value is read only when it is that list of strings |
| WorkflowManager.RollbackField | core/workflow_manager.py:86-97 | the stored rollback action is kept as it is, and a missing one reads as `None` |
| WorkflowManager.TimeField | core/workflow_manager.py:101-104 | a missing time reads as none, and a read time is never empty |
| WorkflowManager.DefinitionFromDict | core/workflow_manager.py:84-98 | a missing id, name or action is refused; retry count defaults to 3 and dependencies to empty |
| WorkflowManager.RunStateFromDict | core/workflow_manager.py:100-108 | a missing status reads as pending and missing attempts as 0 |
| WorkflowManager.StepFromDict | core/workflow_manager.py:84-108 | a missing id, name or action is refused; absent fields take the constructor's defaults |
| WorkflowManager.DefinitionRoundTrip | core/workflow_manager.py:65-98 | the step's definition survives saving and loading |
| WorkflowManager.IdentityFields | core/workflow_manager.py:65-70 | the saved id, name and action read back unchanged |
| WorkflowManager.PolicyFields | core/workflow_manager.py:70-73 | the saved retry count, retry delay and timeout read back unchanged |
| WorkflowManager.LinkFields | core/workflow_manager.py:73-76 | the saved dependencies, condition and rollback action read back unchanged |
| WorkflowManager.RunStateRoundTrip | core/workflow_manager.py:76-108 | status, result, error, times and attempts survive saving and loading |
| WorkflowManager.StepRoundTrip | core/workflow_manager.py:65-108 | loading a saved step gives back the same step |
| WorkflowManager.AddStep | core/workflow_manager.py:130-141 | stores or overwrites by id and appends the id to the order only when absent |
| WorkflowManager.AddStepIdempotent | core/workflow_manager.py:130-141 | adding the same step twice equals adding it once |
| WorkflowManager.RemoveFirst | core/workflow_manager.py:161 | `list.remove`: exactly one occurrence fewer when present, unchanged otherwise |
| WorkflowManager.RemoveStepAsWritten | core/workflow_manager.py:151-163 | as written: false for an unknown id; otherwise the step and the first occurrence of its id are removed |
| WorkflowManager.RemoveAll | core/workflow_manager.py:161 | every occurrence removed and nothing else |
| WorkflowManager.RemoveStep | core/workflow_manager.py:151-163 | corrected: false for an unknown id; otherwise the id leaves both the steps and the order, and the order still names only stored steps |
| WorkflowManager.RemovalsAgreeWithoutDuplicates | core/workflow_manager.py:151-179 | on an order without duplicates the written and corrected removals agree |
| WorkflowManager.RemoveAllAbsent | core/workflow_manager.py:161 | removing an absent id changes nothing |
| WorkflowManager.SetStepOrder | core/workflow_manager.py:165-179 | true iff every id is a stored step, then the order is replaced as given; false leaves the workflow unchanged |
| WorkflowManager.SkipsOnlyTransitive | core/workflow_manager.py:225-227 | scans that only mark steps skipped compose |
| WorkflowManager.PassedOverStable | core/workflow_manager.py:189-227 | a step passed over stays passed over when further steps are skipped |
| WorkflowManager.IndexOf | core/workflow_manager.py:216-221 | the first position of an id in the order |
| WorkflowManager.ConditionContext | core/workflow_manager.py:212-221 | the condition context holds every variable and the result of every completed step up to the current one |
| WorkflowManager.ScanFrom | core/workflow_manager.py:186-236 | the returned step is the first one not completed or skipped whose dependencies exist and are completed and whose condition holds; everything before it was passed over; a missing id is reported; a condition error marks that step |
| WorkflowManager.NextStep | core/workflow_manager.py:181-236 | nothing unless running; a returned step is not done, has all dependencies completed, has no condition or one that evaluates true, and every earlier step was passed over; a condition error fails the step |
| WorkflowManager.NoMissingStepWhenOrderValid | core/workflow_manager.py:186-187 | when the order names only stored steps, the scan never meets a missing id |
| WorkflowManager.RemoveStepAsWrittenLeavesDanglingId | core/workflow_manager.py:151-187 | after `set_step_order(["a","a"])` and `remove_step("a")` the order still holds "a" and the scan meets a missing id |
| WorkflowManager.RemoveStepKeepsScanTotal | core/workflow_manager.py:151-187 | after the corrected removal the scan never meets a missing id |
| WorkflowManager.FirstSuccess | core/workflow_manager.py:464-498 | the first attempt that returned a result, and none iff none did |
| WorkflowManager.Attempts | core/workflow_manager.py:466-548 | the retry loop keeps the step's identity, dependencies, condition and start time |
| WorkflowManager.AttemptsSucceedIff | core/workflow_manager.py:466-548 | the loop succeeds iff some attempt within the retry budget returned a result |
| WorkflowManager.AttemptsSuccess | core/workflow_manager.py:466-500 | on success the step is completed with the first result, which is stored as `step_<id>_result`, after exactly that many attempts |
| WorkflowManager.AttemptsFail | core/workflow_manager.py:466-548 | on failure the variables are untouched, every attempt was made, and the step is failed only if the last attempt raised |
| WorkflowManager.ExecuteStep | core/workflow_manager.py:442-548 | without a plugin manager nothing happens; otherwise only the executed step changes, becoming current with its start time set |
| WorkflowManager.ExecuteStepOutcome | core/workflow_manager.py:442-548 | at most retry_count+1 attempts; success iff some attempt returned a result, and then the step is completed with that result stored; otherwise the step is failed iff the last attempt raised, else still running |
| WorkflowManager.BeginRun | core/workflow_manager.py:557-559 | the run starts in the running state with steps and order untouched |
| WorkflowManager.RunAsWritten | core/workflow_manager.py:550-648 | as written: a run that ends is completed or failed |
| WorkflowManager.AutoRecoveryNeverEnds | core/workflow_manager.py:574-587 | with auto-recovery, a one-step workflow whose step always raises never ends, whatever the fuel |
| WorkflowManager.OneIteration | core/workflow_manager.py:574-587 | one loop turn on that workflow leaves it the same apart from the failed step |
| WorkflowManager.ExecuteRaisingStep | core/workflow_manager.py:442-548 | a step without retries whose attempt raises ends failed after one attempt |
| WorkflowManager.StuckForever | core/workflow_manager.py:574-587 | once the step has failed, the loop picks it again forever |
| WorkflowManager.Shadow | core/workflow_manager.py:189-191 | attempted steps look done to the scan, others are unchanged, and completion is kept |
| WorkflowManager.Restore | core/workflow_manager.py:189-191 | attempted steps get their real state back after the scan |
| WorkflowManager.NextUnattempted | core/workflow_manager.py:181-236 | the corrected scan never returns a step already attempted in this run |
| WorkflowManager.ChosenIsUnattempted | core/workflow_manager.py:181-236 | a step picked through the shadowed scan was not yet attempted |
| WorkflowManager.UnattemptedShrinks | core/workflow_manager.py:574-587 | each attempt leaves one fewer unattempted step |
| WorkflowManager.ConsFresh | core/workflow_manager.py:574-587 | prefixing a newly attempted step keeps a run's steps fresh and distinct |
| WorkflowManager.Run | core/workflow_manager.py:550-648 | corrected loop: always ends completed or failed, and attempts each step at most once |
| WorkflowManager.Finish | core/workflow_manager.py:576-611 | with no step left the run completes; a missing id fails it |
| WorkflowManager.RunStep | core/workflow_manager.py:579-604 | one corrected loop turn attempts the chosen step first and then ends completed or failed |
| WorkflowManager.RunEndsAfterOneFailure | core/workflow_manager.py:574-611 | with the correction, the always-raising workflow ends after one attempt with its step failed |
| WorkflowManager.SecondRunFinishes | core/workflow_manager.py:574-611 | once the only step was attempted, the corrected loop completes at once |
| WorkflowManager.FirstScanPicksStep | core/workflow_manager.py:181-236 | the first corrected scan picks the pending step |
| WorkflowManager.SecondScanFindsNothing | core/workflow_manager.py:181-236 | the second corrected scan finds nothing |
| WorkflowManager.ResetStep | core/workflow_manager.py:664-670 | a reset step is pending with no result, error, times or attempts and is otherwise a new step with the same definition |
| WorkflowManager.ResetWhere | core/workflow_manager.py:663-671 | exactly the selected steps are reset and the rest are unchanged |
| WorkflowManager.Start | core/workflow_manager.py:650-681 | refuses an unknown or running workflow; otherwise resets every step that is not completed, keeps completed ones, and touches no other workflow |
| WorkflowManager.Pause | core/workflow_manager.py:683-702 | only a running workflow pauses, and only its status changes |
| WorkflowManager.Resume | core/workflow_manager.py:704-729 | only a paused workflow resumes, and only its status changes |
| WorkflowManager.Cancel | core/workflow_manager.py:731-760 | a completed, failed or canceled workflow is refused; otherwise it becomes canceled with an end time |
| WorkflowManager.Retry | core/workflow_manager.py:762-802 | only a failed or canceled workflow is retried; it becomes pending with no error or current step |
| WorkflowManager.Delete | core/workflow_manager.py:384-403 | a running workflow cannot be deleted; otherwise exactly that workflow is removed |
| WorkflowManager.IsRunning | core/workflow_manager.py:398-403 | an unknown workflow is not running; a running one has the running status |
| WorkflowManager.TransitionsAreManagerMoves | core/workflow_manager.py:683-802 | every successful pause, resume, cancel and retry is one of the manager's allowed moves |
| WorkflowManager.PauseResume | core/workflow_manager.py:683-729 | pausing then resuming restores the manager exactly |
| WorkflowManager.CanceledIsFinal | core/workflow_manager.py:731-760 | a canceled workflow cannot be canceled, paused or resumed again |
| WorkflowManager.RetryResetsUnfinished | core/workflow_manager.py:786-794 | a plain retry resets the failed and pending steps, and the start that follows resets every other unfinished one; completed steps are kept |
| WorkflowManager.RetryFromBeginningResetsAll | core/workflow_manager.py:776-783 | a retry from the beginning resets every step |
| WorkflowManager.StartAndRun | core/workflow_manager.py:650-681 | `start_workflow` followed by the corrected run loop of the Findings table: a started workflow runs to completed or failed with the same steps |
| SettingsManager.Defaults | core/settings_manager.py:23-54 | the six default sections, with an empty plugin section |
| SettingsManager.PyEqReflexive | core/settings_manager.py:131 | Python equality holds of every value with itself |
| SettingsManager.PyEqAcrossNumbers | core/settings_manager.py:131 | Python equality identifies True, 1 and 1.0 but not "1" and 1 |
| SettingsManager.DeepMerge | core/settings_manager.py:92-98 | every source key ends up in the target; two dictionaries merge, any other source value replaces; target-only keys are kept |
| SettingsManager.MergedLeafFromSource | core/settings_manager.py:92-98 | any non-dictionary value the source holds at a path is what the merge holds there |
| SettingsManager.MergedKeepsTarget | core/settings_manager.py:92-98 | a path the source does not reach keeps the target's value |
| SettingsManager.DeepMergeUnits | core/settings_manager.py:92-98 | merging with an empty dictionary on either side gives the other |
| SettingsManager.DeepMergeSelf | core/settings_manager.py:92-98 | merging a dictionary into itself changes nothing |
| SettingsManager.DeepMergeIdempotent | core/settings_manager.py:92-98 | merging the same source twice equals merging it once |
| SettingsManager.LoadSettings | core/settings_manager.py:72-90 | a missing file keeps the defaults and succeeds; a readable dictionary is merged over the defaults; anything else fails with the defaults |
| SettingsManager.Get | core/settings_manager.py:113-121 | a missing section or key gives the default; no key gives the whole section |
| SettingsManager.Set | core/settings_manager.py:123-139 | true iff the key was absent or held a value Python calls different, with one notification in exactly that case; the section gets the new value and other sections are untouched |
| SettingsManager.GetAfterSet | core/settings_manager.py:113-139 | a value set is read back |
| SettingsManager.SetTwice | core/settings_manager.py:123-139 | setting the same value again reports no change and notifies nobody |
| SettingsManager.Delete | core/settings_manager.py:173-190 | false for a missing section or key; otherwise removes exactly that section or key and notifies once |
| SettingsManager.GetAfterDelete | core/settings_manager.py:113-190 | after deleting a key its read gives the default |
| SettingsManager.ResetToDefaults | core/settings_manager.py:192-206 | no section restores all defaults; an unknown section is refused unchanged; a known one restores only that section |
| SettingsManager.ResetSectionAgreesWithResetAll | core/settings_manager.py:192-206 | resetting one section gives it the same value as resetting everything |
| SettingsManager.PySet | core/settings_manager.py:243-247 | `set(value)` holds exactly the list's elements, and raises on unhashable ones |
| SettingsManager.ListOf | core/settings_manager.py:250-259 | `list(set)` lists each element exactly once |
| SettingsManager.GetDomains | core/settings_manager.py:240-243 | a missing interruption section gives the empty set |
| SettingsManager.AddDomain | core/settings_manager.py:245-252 | false iff already present; a true add makes the domain a member of the read-back set and changes nothing else in it; the stored settings change only in the interruption list written, and one change notification is sent |
| SettingsManager.RemoveDomain | core/settings_manager.py:254-261 | false iff absent; a true removal takes exactly that domain out of the read-back set; the stored settings change only in the interruption list written, and one change notification is sent |
| SettingsManager.PyEqStr | core/settings_manager.py:131 | a value is Python-equal to a string only if it is that string |
| SettingsManager.UnequalLists | core/settings_manager.py:245-252 | a list gaining a domain differs from the stored one |
| SettingsManager.UnequalListsOnRemove | core/settings_manager.py:254-261 | a list losing a domain differs from the stored one |
| SettingsManager.StoredDomains | core/settings_manager.py:240-243 | the domain set is read from the stored list |
| SettingsManager.StoredListChanges | core/settings_manager.py:245-252 | writing the grown list is a change and reads back as the grown set |
| SettingsManager.StoredListChangesOnRemove | core/settings_manager.py:254-261 | writing the shrunk list is a change and reads back as the shrunk set |
| SettingsManager.AddDomainTwice | core/settings_manager.py:245-252 | the second add of the same domain reports false and changes nothing |
| SettingsManager.AddThenRemove | core/settings_manager.py:245-261 | removing a just-added domain gives back the original set |
| PluginSystem.MakeInfo | core/plugin_system.py:26-39 | priority defaults to 0 and dependencies to the empty list |
| PluginSystem.MatchCriteria | core/plugin_system.py:68-87 | true iff every id, name and type criterion is equal and min_priority is a number (int, float or bool) at most the priority; any other min_priority raises |
| PluginSystem.UnknownKeysIgnored | core/plugin_system.py:68-87 | an unrecognised criterion key changes nothing |
| PluginSystem.MinPriorityComparesNumbers | core/plugin_system.py:85 | an int priority compares with a float or bool min_priority by value, and a string one raises |
| PluginSystem.EmptyRegistry | core/plugin_system.py:93-106 | a new registry lists, holds and has initialised nothing |
| PluginSystem.EmptyRegistryConsistent | core/plugin_system.py:93-106 | the new registry's maps agree |
| PluginSystem.Register | core/plugin_system.py:159-179 | a known id is ignored; otherwise the instance is added to both maps and its type list stays a priority-sorted permutation plus the new instance |
| PluginSystem.RegisterAfterEqualPriorities | core/plugin_system.py:173-177 | a new instance goes after every instance of equal priority |
| PluginSystem.RegisterKeepsConsistent | core/plugin_system.py:159-179 | registration keeps the id map and the type lists in agreement |
| PluginSystem.RegisteredListsHoldInstances | core/plugin_system.py:159-179 | every listed plugin is registered under its own id and type |
| PluginSystem.RegisteredInstancesListed | core/plugin_system.py:159-179 | every registered plugin appears in its type's list |
| PluginSystem.Matching | core/plugin_system.py:213-217 | the matching plugins, as an order-preserving sublist |
| PluginSystem.SublistKeepsOrder | core/plugin_system.py:203-217 | a sublist of a priority-sorted list is priority-sorted |
| PluginSystem.FindPlugins | core/plugin_system.py:203-217 | the order-preserving sublist of the type's list matching the criteria; raises iff a criterion check raises |
| PluginSystem.FoundInPriorityOrder | core/plugin_system.py:203-217 | the found plugins come in non-increasing priority |
| PluginSystem.Initialize | core/plugin_system.py:219-254 | with ranks decreasing along the dependencies of the uninitialised plugins the walk can reach: an initialised id is accepted at once; an unknown id is refused; success puts the id and all its dependencies in the initialised set; only the id and lower-ranked registered plugins are added |
| PluginSystem.InitializeDeps | core/plugin_system.py:237-242 | the dependency loop, under the same reachable ranking, adds only lower-ranked plugins and, on success, every dependency |
| PluginSystem.InitializeAfterDependencies | core/plugin_system.py:244-254 | with all dependencies ready, success is exactly the plugin's own outcome, whatever cycles unreachable plugins hold |
| PluginSystem.DependenciesDone | core/plugin_system.py:237-242 | initialised dependencies pass the loop without change |
| PluginSystem.MissingDependencyFails | core/plugin_system.py:237-242 | an unknown dependency makes initialisation fail |
| PluginSystem.UnreachedCycleIgnored | core/plugin_system.py:219-254 | a dependency-free plugin initialises, by its own outcome alone, in a registry where two other plugins depend on each other |
| PluginSystem.Cleanup | core/plugin_system.py:256-274 | a no-op for an uninitialised id; otherwise the id leaves the set unless cleanup raises |
| PluginSystem.CleanupAll | core/plugin_system.py:276-279 | exactly the ids whose cleanup raised stay initialised |
| PluginSystem.CleanupAllEmpties | core/plugin_system.py:276-279 | with no cleanup raising, nothing stays initialised |
| PluginManager.Enable | core/plugin_manager.py:57-60 | the plugin becomes enabled and nothing else changes |
| PluginManager.Disable | core/plugin_manager.py:62-65 | the plugin becomes disabled and nothing else changes |
| PluginManager.Configure | core/plugin_manager.py:40-43 | the given keys are merged into the configuration, overriding; other keys are kept |
| PluginManager.ConfigureIdempotent | core/plugin_manager.py:40-43 | configuring twice with the same keys equals configuring once |
| PluginManager.GetPlugin | core/plugin_manager.py:191-196 | a plugin is returned iff both its type and its name are registered |
| PluginManager.InitializePlugin | core/plugin_manager.py:153-180 | false for an unknown class or a falsy or raising `initialize`, leaving the manager unchanged; on success the new instance, enabled and holding its constructor's configuration, is retrievable by type and name and nothing else changes |
| PluginManager.ExecutePlugin | core/plugin_manager.py:209-226 | nothing for a missing or disabled plugin or a raising call; a result comes only from an enabled registered plugin |
| PluginManager.Replace | core/plugin_manager.py:191-196 | replacing one plugin leaves every other lookup unchanged |
| PluginManager.DisabledNeverRuns | core/plugin_manager.py:209-226 | a disabled plugin never runs, and re-enabling it restores its behaviour |
| PluginManager.ShutdownPlugin | core/plugin_manager.py:228-244 | false for a missing plugin; removed exactly when `shutdown` returned a truthy value; other plugins are unchanged |
| PluginManager.ShutdownAll | core/plugin_manager.py:246-254 | one result per registered plugin, equal to its own shutdown; exactly the plugins that failed to shut down remain |
| PluginManager.ShutdownStep | core/plugin_manager.py:249-252 | shutting one plugin down keeps the other answers and the remaining set right |
| PluginManager.RemainingNone | core/plugin_manager.py:246-254 | when all are done, exactly the plugins that failed to shut down remain |
| PluginManager.ResultKeysDistinct | core/plugin_manager.py:250 | `type.name` keys are distinct when types have no dot |
| PluginManager.ResultKeysCollide | core/plugin_manager.py:250 | two plugins can share a `type.name` key when a type contains a dot |
| RecognitionBase.AttributeObject | plugins/recognition/base.py:31 | the attribute dictionary has exactly the given keys |
| RecognitionBase.TargetToDict | plugins/recognition/base.py:24-39 | a target's dictionary has its type, description, context and attributes |
| RecognitionBase.TargetFromDict | plugins/recognition/base.py:150-156 | missing fields default to type "unknown" and empty description, context and attributes |
| RecognitionBase.ResultToDict | plugins/recognition/base.py:53-80 | always success and confidence; method, target, element, location and error only when set; location expands to x, y, width, height in order |
| RecognitionBase.Initialize | plugins/recognition/base.py:92-103 | initialisation sets the flag and the given configuration |
| RecognitionBase.Cleanup | plugins/recognition/base.py:105-108 | cleanup clears the initialised flag |
| RecognitionBase.CheckInitialized | plugins/recognition/base.py:166-169 | raises iff not initialised |
| RecognitionBase.CleanupThenCheckRaises | plugins/recognition/base.py:105-169 | after cleanup the check raises; after initialisation it passes |
| RecognitionBase.ExecuteAction | plugins/recognition/base.py:125-164 | failure dictionaries when uninitialised, for an unsupported action or for a missing target; a dictionary target is decoded first and any other truthy target is passed to `recognize` unchanged; the recognition's dictionary is the result; success only for an initialised recognise call with a target |
| AutomationBase.ToDict | plugins/automation/base.py:26-37 | always success; error only when truthy; data merged last so its keys win |
| AutomationBase.FailedMatchesDict | plugins/automation/base.py:21-24 | `failed` is exactly the negation of success as reported |
| AutomationBase.CreateResult | plugins/automation/base.py:102-113 | the dictionary of the action result built from the arguments |
| AutomationBase.ExecuteAction | plugins/automation/base.py:68-82 | a failure dictionary when uninitialised; otherwise not implemented |
| AutomationBase.CleanupRestoresGuard | plugins/automation/base.py:63-87 | after cleanup the guard answers with a failure dictionary again |
| AutomationBase.GetParam | plugins/automation/base.py:89-100 | empty or missing parameters give the default; otherwise the key's value or the default |
| AutomationBase.GetParamIsGet | plugins/automation/base.py:89-100 | the lookup is `dict.get` on the parameters or an empty dictionary |
| SelectorPlugin.DefaultSelector | plugins/recognition/selector_plugin.py:221-266 | a fixed non-empty selector exactly for the known lower-cased types, none otherwise |
| SelectorPlugin.SecondSearchBranchUnreachable | plugins/recognition/selector_plugin.py:238-264 | the second "search" branch is never taken: "search" always gets the first search selector |
| SelectorPlugin.DefaultSelectorIgnoresCase | plugins/recognition/selector_plugin.py:230 | the type's case does not matter |
| SelectorPlugin.SemanticSelector | plugins/recognition/selector_plugin.py:268-297 | a selector iff the description is non-empty and the type is one of the semantic kinds; it contains the lower-cased description |
| SelectorPlugin.Lookup | plugins/recognition/selector_plugin.py:308-332 | an attribute's value is found iff the attribute is given |
| SelectorPlugin.OtherParts | plugins/recognition/selector_plugin.py:325-327 | one `[k='v']` part for every other set attribute, and none iff there is none |
| SelectorPlugin.ConcatContains | plugins/recognition/selector_plugin.py:329-330 | the joined parts contain each part |
| SelectorPlugin.AttributeSelector | plugins/recognition/selector_plugin.py:299-332 | a set id gives exactly `#id`; otherwise exactly the class part, when the class is set, joined with one `[name='value']` part per other set attribute in attribute order; nothing set gives none |
| SelectorPlugin.AttributePartsContained | plugins/recognition/selector_plugin.py:325-330 | every other set attribute's part occurs in the selector |
| SelectorPlugin.TextSelector | plugins/recognition/selector_plugin.py:334-349 | a `:has-text` selector containing the description iff it is non-empty |
| SelectorPlugin.ContextSelector | plugins/recognition/selector_plugin.py:351-368 | none for an empty context; otherwise the default selector or `*`, followed by the `:near(:has-text(...))` suffix for the context |
| SelectorPlugin.SuffixContains | plugins/recognition/selector_plugin.py:364-368 | the context selector ends with the suffix, starts with the base and contains the context |
| SelectorPlugin.NameInjective | plugins/recognition/selector_plugin.py:37-43 | the five strategies have distinct names |
| SelectorPlugin.Named | plugins/recognition/selector_plugin.py:61-65 | the current strategy with a given name, if any |
| SelectorPlugin.Picked | plugins/recognition/selector_plugin.py:59-65 | the named strategies are taken from the current list |
| SelectorPlugin.Names | plugins/recognition/selector_plugin.py:61-65 | the names of a strategy list, position by position |
| SelectorPlugin.Rest | plugins/recognition/selector_plugin.py:67-70 | the remaining strategies are exactly the unpicked ones, in their original order |
| SelectorPlugin.Reorder | plugins/recognition/selector_plugin.py:56-72 | an empty order keeps the strategies; otherwise the named strategies come first, followed by the rest |
| SelectorPlugin.PickedFollowsOrder | plugins/recognition/selector_plugin.py:59-65 | the named strategies follow the given order, skipping unknown names |
| SelectorPlugin.PickedDistinct | plugins/recognition/selector_plugin.py:59-65 | without repeated names no strategy is picked twice |
| SelectorPlugin.ReorderPermutes | plugins/recognition/selector_plugin.py:56-72 | without repeated names the reordered strategies are a permutation of the original ones |
| SelectorPlugin.DistinctSameElements | plugins/recognition/selector_plugin.py:56-72 | two distinct lists with the same elements are permutations |
| SelectorPlugin.InitializePlugin | plugins/recognition/selector_plugin.py:45-75 | initialisation sets the flag and reorders the strategies |
| SelectorPlugin.Candidates | plugins/recognition/selector_plugin.py:121-128 | every non-empty selector a strategy builds is a candidate, and no candidate is empty |
| SelectorPlugin.FirstFound | plugins/recognition/selector_plugin.py:135-160 | the first candidate that finds an element, and none iff none does |
| SelectorPlugin.ElementInfo | plugins/recognition/selector_plugin.py:192-217 | the element description records the selector |
| SelectorPlugin.Recognize | plugins/recognition/selector_plugin.py:81-164 | raises iff uninitialised; succeeds iff there is a context, the target is accepted and some candidate finds an element; then the first such candidate wins with confidence 1.0 and the selector method; no candidate gives the "cannot build a selector" failure |
| SelectorPlugin.KnownTypeYieldsSelector | plugins/recognition/selector_plugin.py:121-266 | with the default strategy, a known type always yields its default selector as a candidate |
| BaseTask.ParamPattern | blueai_client/automation/tasks/base_task.py:66-69 | the pattern is the parameter name followed by `[\s:]+([^,]+)` |
| BaseTask.ParamPatternInjective | blueai_client/automation/tasks/base_task.py:66-69 | different parameters get different patterns |
| BaseTask.KeywordHits | blueai_client/automation/tasks/base_task.py:29-33 | the number of keywords that occur in the command, lower-cased; at most one per keyword, and none iff no keyword occurs |
| BaseTask.ParamHits | blueai_client/automation/tasks/base_task.py:34-37 | the number of required parameters whose pattern matches the command; none iff no pattern matches |
| BaseTask.Score | blueai_client/automation/tasks/base_task.py:23-39 | the score in tenths is min(10, 2·occurring keywords + matching required patterns), so it lies in 0..10 and is 0 iff nothing occurs or matches |
| BaseTask.ScoreIgnoresCase | blueai_client/automation/tasks/base_task.py:26-30 | the command's case does not matter |
| BaseTask.KeywordHitsGrow | blueai_client/automation/tasks/base_task.py:29-33 | extending the command never loses a keyword hit |
| BaseTask.ParamHitsGrow | blueai_client/automation/tasks/base_task.py:34-37 | parameter hits never drop when the matches persist |
| BaseTask.ScoreGrowsWithCommand | blueai_client/automation/tasks/base_task.py:29-39 | adding text to a command never lowers the score |
| BaseTask.KeywordScores | blueai_client/automation/tasks/base_task.py:29-33 | one occurring keyword already scores at least 0.2 |
| BaseTask.ExtractParams | blueai_client/automation/tasks/base_task.py:41-64 | every optional key is present, matched or defaulted; a required key is present only if its pattern matched |
| BaseTask.Missing | blueai_client/automation/tasks/base_task.py:73-77 | the missing parameters are exactly the required ones that are absent or empty |
| BaseTask.ValidateParams | blueai_client/automation/tasks/base_task.py:71-82 | raises iff some required parameter is absent or empty, naming them all; otherwise true |
| BaseTask.ExtractThenValidate | blueai_client/automation/tasks/base_task.py:41-82 | the extracted parameters validate iff every required parameter was captured non-empty or defaulted truthy |
| TaskParser.Best | blueai_client/automation/task_parser.py:65-66 | an index of maximal score, the first one on ties |
| TaskParser.TaskForCommand | blueai_client/automation/task_parser.py:50-74 | none when no task is loaded or every score is below 0.3; otherwise the first task of maximal score |
| TaskParser.SelectionDependsOnScores | blueai_client/automation/task_parser.py:50-74 | the selection depends only on the scores |
| TaskParser.ParseAndExecute | blueai_client/automation/task_parser.py:76-93 | raises ValueError when nothing is selected; otherwise runs the selected task on its extracted parameters |
| CommandInput.UpdateHistory | blueai_client/ui/widgets/command_input.py:32-44 | empty and repeated commands are ignored; a new one is appended and the oldest entries go first once over 20 |
| CommandInput.HistoryBounded | blueai_client/ui/widgets/command_input.py:32-44 | the history never holds more than 20 entries or a duplicate, and holds only commands given |
| CommandInput.ReturnPressed | blueai_client/ui/widgets/command_input.py:46-51 | the stripped text is submitted and recorded only when non-empty |
| CommandInput.EmptyBoard | blueai_client/ui/widgets/command_input.py:202 | the board starts with no tasks |
| CommandInput.AddTask | blueai_client/ui/widgets/command_input.py:239-246 | an existing id is ignored; a new one is added on top |
| CommandInput.Change | blueai_client/ui/widgets/command_input.py:249-264 | an unknown id leaves the board unchanged; a known one changes only that item |
| CommandInput.UpdateTask | blueai_client/ui/widgets/command_input.py:173-252 | sets the status of a known task only, and the progress when it is given within the bar's range 0..100; the board stays consistent and every bar stays within 0..100 |
| CommandInput.CompleteTask | blueai_client/ui/widgets/command_input.py:186-258 | a known task shows its status, full progress and completed style; the board stays consistent |
| CommandInput.FailTask | blueai_client/ui/widgets/command_input.py:192-264 | a known task shows its status and failed style, progress kept; the board stays consistent |
| CommandInput.ClearTasks | blueai_client/ui/widgets/command_input.py:267-272 | the board is emptied |
| CommandInput.Apply | blueai_client/ui/widgets/command_input.py:239-272 | every board call keeps each task listed exactly once |
| CommandInput.ReplayShowsAddedTasks | blueai_client/ui/widgets/command_input.py:173-272 | after any sequence of board calls, the board lists exactly the tasks added since the last clear, each once, with every bar within 0..100 |
| CommandInput.AppendLog | blueai_client/ui/widgets/command_input.py:89-128 | the new line is last; below 1000 lines it is appended, and at 1000 the oldest goes so the count stays at 1000 |
| CommandInput.LevelName | blueai_client/ui/widgets/command_input.py:95 | DEBUG for 10, INFO for 20, and "Level n" for an unnamed level; never empty |
| CommandInput.Format | blueai_client/ui/widgets/command_input.py:92-98 | the line starts with the bracketed time and ends with the message |
| MainGui.DeriveStepType | main_gui.py:1157-1167 | the six listed ids map to their types and anything else to "unknown" |
| MainGui.ScalarEntries | main_gui.py:1147-1151 | the configuration keeps exactly the output's string, number, boolean and null values |
| MainGui.ConvertStep | main_gui.py:1140-1153 | a step has the id, the derived type and the scalar part of the output |
| MainGui.ConvertSteps | main_gui.py:1139-1153 | one converted step per result entry, in order |
| MainGui.ConvertResultToWorkflow | main_gui.py:1125-1155 | none for empty input; a `results` value that is not a dictionary raises; the id defaults to "unknown_workflow", with one step per results entry keyed by that entry's id |
| MainGui.In | main_gui.py:1063-1080 | Python's `in`: key membership for a dictionary; raises for scalars |
| MainGui.StepMessages | main_gui.py:1076-1080 | no message iff the step has both id and type |
| MainGui.AllStepMessages | main_gui.py:1075-1080 | no messages iff every step has both id and type |
| MainGui.ValidateWorkflow | main_gui.py:1051-1095 | empty text and bad JSON are reported; valid iff it is an object with id and steps, a non-empty step list, and each step with id and type; missing fields are listed in the order id, steps |
| MainGui.ConvertedWorkflowValidates | main_gui.py:1051-1155 | a converted workflow with at least one step passes validation when its text parses back to it |
| MainGui.Mode | main_gui.py:1378-1383 | index 0, 1, 2 give fast, balanced, accurate, and anything else gives balanced |
| MainGui.BrowserType | main_gui.py:1386-1391 | index 0, 1, 2 give edge, chromium, firefox, and anything else gives chromium |
| MainGui.Checked | main_gui.py:1414-1431 | exactly the checked names, in their fixed order |
| MainGui.Truncate | main_gui.py:1394-1402 | `int()` of a number rounds toward zero |
| MainGui.BrowserConfig | main_gui.py:1394-1411 | browser type and use_edge follow the browser index; headless and auto_close are the check boxes; the timeout is the navigation timeout, 30 by default, in whole milliseconds |
| MainGui.Timeouts | main_gui.py:1394-1442 | navigation and element timeouts, 30 and 5 by default, and an action timeout of half the element timeout |
| MainGui.CurrentSettings | main_gui.py:1371-1445 | the mode and browser follow their indices; ignore_recognition_errors iff the mode is fast; the browser configuration and the timeouts are those of the form; interruption types and strategies are the checked ones in order |
| MainGui.DecodeIndex | main_gui.py:1378-1391 | the position of a name in a combo box's list, or -1 |
| MainGui.SettingsGiveFormBack | main_gui.py:1371-1445 | the settings give the form back: the mode and browser indices (outside the box, the default 1), every check box and every parsed timeout |
| TaskModel.GetProcessList | blueai/core/models.py:41-43 | the process text read as at least one step |
| TaskModel.SetProcessList | blueai/core/models.py:45-47 | the steps are stored joined by ", " and nothing else changes |
| TaskModel.ProcessListRoundTrip | blueai/core/models.py:41-47 | a non-empty list of steps without ", " reads back unchanged |
| TaskModel.EmptyProcessListReadsBackAsOneStep | blueai/core/models.py:41-47 | the empty list reads back as one empty step |
| TaskModel.GetConversation | blueai/core/models.py:49-54 | empty or undecodable text reads as the empty list |
| TaskModel.AddMessage | blueai/core/models.py:60-73 | appends exactly one type/content/timestamp entry and keeps the earlier ones; a stored non-list raises |
| TaskModel.AddMessageReadsBack | blueai/core/models.py:49-73 | the conversation reads back with the new message last after all earlier ones |
| TaskModel.CanView | blueai/core/models.py:75-87 | a public task is viewable by all; an anonymous user views only public tasks; the owner and shared users always view |
| TaskModel.CanEdit | blueai/core/models.py:89-100 | an anonymous user never edits; the owner always edits; an editor is the owner or belongs to some project of the task |
| TaskModel.AnonymousAccess | blueai/core/models.py:75-100 | an anonymous user sees public tasks only and never edits |
| TaskModel.OwnerAccess | blueai/core/models.py:81-96 | the owner always views and edits |
| TaskModel.EditImpliesView | blueai/core/models.py:75-100 | whoever may edit may view |
| TaskModel.EditorRolesHoldEdit | blueai/core/models.py:95-98 | the editing roles are exactly the roles with the project's edit permission |
| ProjectModels.RolesFor | blueai/core/project_models.py:76-84 | the roles holding a permission; none for an unknown permission |
| ProjectModels.HasPermission | blueai/core/project_models.py:76-84 | a role holds a permission only when both are known |
| ProjectModels.UnknownGivesNothing | blueai/core/project_models.py:76-84 | an unknown permission or role gives false |
| ProjectModels.PermissionsNest | blueai/core/project_models.py:78-83 | owner implies manage, which implies edit, which implies view |
| ProjectModels.RoleFacts | blueai/core/project_models.py:78-83 | every role views; viewer and guest do not edit; only the host owns |
| ProjectModels.MembersCount | blueai/core/project_models.py:32-34 | the members plus the owner, never zero |
| ProjectModels.MembersCountCountsEveryoneOnce | blueai/core/project_models.py:32-34 | with the owner holding no member row (the rows are unique per project and user, line 70), the count is the number of people with access, each once; an owner with a row would be counted twice |
| Accounts.DisplayName | blueai/accounts/models.py:43-49 | the display name, else the full name, else the username |
| Accounts.FullName | blueai/accounts/models.py:41-48 | the joined name has no surrounding spaces, and is empty iff both names are blank |
| Accounts.FirstLetters | blueai/accounts/models.py:53-54 | the first letter of each word, in order |
| Accounts.Initial | blueai/accounts/models.py:51-56 | the first letters of the full name's words, or else the first two username characters in upper case |
| Accounts.FullNameGivesInitial | blueai/accounts/models.py:51-56 | a user with a full name has at least one initial |
| Accounts.PlanDisplayName | blueai/accounts/models.py:58-60 | the plan's label, and the free plan's label for an unknown plan |
| Accounts.IsPlanActive | blueai/accounts/models.py:62-68 | the free plan is always active; another plan is active iff it has an end date still ahead |
| Accounts.IsPro | blueai/accounts/models.py:70-73 | pro only for a paid, active plan; a plan outside pro, team and enterprise is never pro |
| Accounts.IsProMeansPaidAndCurrent | blueai/accounts/models.py:62-73 | pro iff a paid plan whose end date is still ahead; the free plan is active but not pro |
| Accounts.ActiveEarlier | blueai/accounts/models.py:62-68 | a plan active now was active at every earlier time |
| Forms.CleanProcess | blueai/core/forms.py:14-29 | empty gives ''; without a comma the input is kept; with one it is refused iff some piece is blank, otherwise kept |
| Forms.NoCommaKept | blueai/core/forms.py:21-22 | a value without a comma is kept, even when blank |
| Forms.CleanProcessIdempotent | blueai/core/forms.py:14-29 | an accepted value is accepted again unchanged |
| Forms.CleanTitle | blueai/core/forms.py:35-40 | refused iff whitespace-only; otherwise kept unchanged |
| Sorting.SortDescStable | core/interruption_handler.py:316-319 | the sort by descending key keeps the order of equal keys |
| Sorting.SortDesc | core/interruption_handler.py:316-319 | the result is a permutation of the input in non-increasing key order |

## Left out

- Browser, Qt and Django plumbing are not modelled:
  - the Playwright and PyAutoGUI drivers, the browser manager, and the concrete tasks;
  - OCR and template matching;
  - widget layout and message boxes;
  - views, URLs and middleware.
- File persistence is reduced to values:
  - rule, pattern and statistics files, settings files and workflow checkpoints;
  - JSON text decoding and encoding are parameters;
  - the `to_dict`/`from_dict` round trips stand in for the files;
  - statistics saving every tenth detection is not modelled.
- Threads are not modelled. The workflow loop runs sequentially, and events, callbacks and observers are reduced to the notifications `Set` reports.
- Plugin discovery and module loading are not modelled: class lookup is a map, and `initialize`, `shutdown`, `execute` and `cleanup` outcomes are parameters. A `core/plugin_system.py` instance is represented by its `PluginInfo`.
- `urlparse(url).netloc` is given as the host string. `datetime.now()` and `time.time()` are given as values, and timestamps are the strings `isoformat` would produce.
- Condition `eval` in the workflow is an opaque function returning true, false or an error. Regular-expression search in task matching is an opaque function `(pattern, text) -> capture`.
- The OCR and template detection branches of `check_interruption` are reduced to an outcome per rule.
- `close_popup`, `handle_cookie_notice`, `handle_all_interruptions` and `get_stats` are browser actions or plain reads and are not modelled.
- Task-parser module discovery is not modelled: the tasks are given as a sequence in load order.
- Rollback actions, retry delays and timeouts are carried as data only.
- Favorites in the settings manager are not modelled. They call `set` with a `None` key on a list-valued section, which raises.
- `list(set(...))` has an unspecified order, so `SettingsManager.AddDomain` and `SettingsManager.RemoveDomain` are ghost functions that list the set in an unspecified order. Python-equal set elements such as `1` and `True` are treated as distinct.
- PluginSystem.Initialize requires a rank that decreases along the dependencies of the uninitialised plugins the walk can reach. A reachable cycle makes Python recurse until `RecursionError`, which is not modelled; the requirement also covers plugins after a failing dependency, which Python never visits.
- Forms.CleanProcess and Forms.CleanTitle model the `clean_*` methods alone. Django's field cleaning runs first: both fields strip surrounding whitespace and reject blank text as required, so the blank values and the surrounding whitespace these methods are stated for never reach them through the forms.
- PluginSystem.MatchCriteria: a float `min_priority` is an exact real, so a NaN, which makes Python's `<` false and lets every priority pass, is not modelled.
- PluginManager.ShutdownAll: results are keyed by `(type, name)` pairs rather than the joined `type.name` string, because a type containing a dot can make two keys collide (see `ResultKeysCollide`); without a dotted type the keys are distinct whatever the names hold (`ResultKeysDistinct`).
- BaseTask.Score: scores are integer tenths, not floats. Python's float sum can differ in the last bit (0.2·3 against 0.2+0.2+0.1+0.1), which could break a tie between two tasks differently.
- PyStr.Lower and PyStr.Upper change ASCII letters only.
- SelectorPlugin.ElementInfo: `_find_element` and `_extract_element_info` query the page; the lookup outcome is a parameter, and the element description records only the selector and the tag placeholder.
- SelectorPlugin.InitializePlugin: the `strategy_order` configuration value is given as the list of names it holds.
- CommandInput.AppendLog: trimming counts entries, not the visual lines Qt keeps when a message spans several lines.
- MainGui.Truncate: `int()` of an infinite or NaN value, which raises, is not modelled.
- MainGui.ValidateWorkflow: the result of `json.loads` is a parameter, and the dialogs become a verdict value.
- Accounts.DisplayName: `get_full_name` is taken to be Django's first name, space, last name, stripped.
- Accounts.IsProMeansPaidAndCurrent: the current time `timezone.now()` is a parameter.
- TaskModel.CanView and TaskModel.CanEdit: the database relations (shared users, projects, members) are plain sets and maps.
- InterruptionHandler.Detect: template and OCR detection are given as outcomes per rule rather than computed from screenshots.
- InterruptionHandler.PatternFromDict, InterruptionHandler.ActionFromDict and InterruptionHandler.RuleFromDict accept only the field types `to_dict` writes (strings, numbers, booleans, lists of strings). Python's `from_dict` stores whatever value a key holds; a dictionary with, say, a number as `name` is refused here.
- InterruptionHandler.StampField and WorkflowManager.TimeField accept any non-empty string as a timestamp. `datetime.fromisoformat` raises on text that is not ISO 8601, and that failure is not modelled.
- WorkflowManager.DefinitionFromDict and WorkflowManager.RunStateFromDict refuse field values of types `to_dict` never writes, where Python stores them as they are. A missing or falsy dependency list and the rollback action are read as Python reads them.
- WorkflowManager.DependenciesField refuses a truthy value that is not a list of strings, such as `"a"` or `[1]`, which Python stores as it is.
- InterruptionHandler.IsUrlAllowed: when the blacklist both names the host and holds a non-string, the answer depends on Python's set iteration order. This definition refuses the host; `ScanUrlGate` leaves that case open.
- InterruptionHandler.ImportRules uses the corrected renaming of the Findings table. The renaming as written is `ImportAsWritten`.
- WorkflowManager.StartAndRun runs the corrected loop of the Findings table. The loop as written is `RunAsWritten`, which can run forever.
- PopupHandlerPlugin.ScanPatterns treats a present `id` that is not a string as an error. Python uses any hashable value as the statistics key.
- Json.Show renders strings, integers, booleans and `None` as Python's `str` does, and floats, lists and dictionaries as the placeholder "<value>".
- PopupHandlerPlugin.AddPattern and PopupHandlerPlugin.RemovePattern name a pattern's file by `Show` of its id, so ids 1.5 and 2.5 share one file where Python writes "1.5.json" and "2.5.json". The default pattern name, the learned action names and the learned pattern description carry the same placeholder for such values.
- MainGui.BrowserConfig computes `int(timeout*1000)` on exact reals, so its millisecond timeout can exceed Python's by one, as the next line shows.
- MainGui.CurrentSettings computes the millisecond timeout on exact reals: for the text "1.001" Python's `int(1.001*1000)` is 1000, while the model gives 1001.
- PluginManager.InitializePlugin takes each class's constructed configuration as a parameter, and the new instance starts enabled, as the base constructor sets it.

## Findings

| source | as written | input that shows it | evidently intended | confidence | as-written member | corrected member |
|---|---|---|---|---|---|---|
| core/interruption_handler.py:746-751 | a clashing id is renamed once to `<id>_<seconds>` and stored without checking that the new id is free | importing a file that holds the same existing rule twice within one second: both get the same new id, the second overwrites the first, yet `count` is 2 | each imported rule gets a free id, so the count equals the rules added | not executed | InterruptionHandler.ImportAsWrittenOverwrites | InterruptionHandler.ImportFresh |
| core/workflow_manager.py:151-163 | `remove_step` removes only the first occurrence of the id from `step_order` | `set_step_order(["a","a"])` is accepted, then `remove_step("a")` leaves `["a"]`, and the next `get_next_step` raises `KeyError` | every occurrence of the id leaves the order | not executed | WorkflowManager.RemoveStepAsWrittenLeavesDanglingId | WorkflowManager.RemoveStepKeepsScanTotal |
| core/workflow_manager.py:574-604 | with `auto_recovery` set, a failed step stays FAILED, and `get_next_step` skips only COMPLETED and SKIPPED steps | a one-step workflow whose step always raises: the loop picks the same step forever and never ends | the run moves past a failed step and ends | not executed | WorkflowManager.AutoRecoveryNeverEnds | WorkflowManager.RunEndsAfterOneFailure |

=== FILE: accounts.dfy ===
/** The account rules of the web application's user: which name to show,
    the initials, the plan's label, and whether a paid plan is active.
    The current time is a parameter. */
module Accounts {
  import opened Wrappers
  import opened PyStr

  datatype User = User(
    username: string,
    firstName: string,
    lastName: string,
    displayName: string,
    plan: string,
    planEnd: Option<int>)

  /** Django's `get_full_name`: first and last name joined by a space,
      stripped. */
  function FullName(u: User): (r: string)
    ensures |r| > 0 ==> !IsSpace(r[0]) && !IsSpace(r[|r| - 1])
    ensures r == "" <==> AllSpace(u.firstName) && AllSpace(u.lastName)
    ensures |r| <= |u.firstName| + |u.lastName| + 1
  {
    assert AllSpace(u.firstName + " " + u.lastName) <==> AllSpace(u.firstName) && AllSpace(u.lastName) by {
      var s := u.firstName + " " + u.lastName;
      assert forall i :: 0 <= i < |u.firstName| ==> s[i] == u.firstName[i];
      assert forall i :: 0 <= i < |u.lastName| ==> s[|u.firstName| + 1 + i] == u.lastName[i];
      assert IsSpace(s[|u.firstName|]);
    }
    Strip(u.firstName + " " + u.lastName)
  }

  /** `get_display_name`: the display name, else the full name, else the
      username. */
  function DisplayName(u: User): (r: string)
    ensures u.displayName != "" ==> r == u.displayName
    ensures u.displayName == "" && FullName(u) != "" ==> r == FullName(u)
    ensures u.displayName == "" && FullName(u) == "" ==> r == u.username
    ensures r == "" <==> u.displayName == "" && FullName(u) == "" && u.username == ""
  {
    if u.displayName != "" then u.displayName
    else if FullName(u) != "" then FullName(u)
    else u.username
  }

  /** The first character of each word. */
  function FirstLetters(words: seq<string>): (r: string)
    requires forall i :: 0 <= i < |words| ==> |words[i]| > 0
    ensures |r| == |words|
    ensures forall i :: 0 <= i < |words| ==> r[i] == words[i][0]
  {
    if |words| == 0 then "" else [words[0][0]] + FirstLetters(words[1..])
  }

  /** `get_initial`: with a full name, the first letter of each of its
      words; otherwise the first two characters of the username, upper
      case. */
  function Initial(u: User): (r: string)
    ensures FullName(u) != "" ==>
      && |r| == |SplitWhitespace(FullName(u))|
      && forall i :: 0 <= i < |r| ==> r[i] == SplitWhitespace(FullName(u))[i][0]
    ensures FullName(u) == "" ==>
      && |r| == (if |u.username| < 2 then |u.username| else 2)
      && forall i :: 0 <= i < |r| ==> r[i] == UpperChar(u.username[i])
  {
    if FullName(u) != "" then
      var words := SplitWhitespace(FullName(u));
      assert forall i :: 0 <= i < |words| ==> words[i] in words;
      FirstLetters(words)
    else Upper(u.username[..if |u.username| < 2 then |u.username| else 2])
  }

  /** A user with a full name gets at least one initial. */
  lemma FullNameGivesInitial(u: User)
    requires FullName(u) != ""
    ensures |Initial(u)| >= 1
  {
    var s := FullName(u);
    assert !IsSpace(s[0]) by { StrippedStartsWithNonSpace(u.firstName + " " + u.lastName); }
    assert LeadingSpace(s) == 0;
  }

  lemma StrippedStartsWithNonSpace(s: string)
    requires Strip(s) != ""
    ensures !IsSpace(Strip(s)[0])
  {
  }

  /** The plan labels. */
  const PlanLabels: map<string, string> := map[
    "free" := "무료 요금제", "pro" := "프로 요금제", "team" := "팀 요금제", "enterprise" := "기업 요금제"]

  /** `get_plan_display_name`: an unknown plan shows the free plan's
      label. */
  function PlanDisplayName(u: User): (r: string)
    ensures u.plan in PlanLabels ==> r == PlanLabels[u.plan]
    ensures u.plan !in PlanLabels ==> r == PlanLabels["free"]
    ensures r in PlanLabels.Values
  {
    if u.plan in PlanLabels then PlanLabels[u.plan] else "무료 요금제"
  }

  /** `is_plan_active` at time `now`: the free plan always is; any other
      plan needs an end date still in the future. */
  predicate IsPlanActive(u: User, now: int)
    ensures u.plan == "free" ==> IsPlanActive(u, now)
    ensures u.plan != "free" ==> (IsPlanActive(u, now) <==> u.planEnd.Some? && now < u.planEnd.value)
  {
    u.plan == "free" || (u.planEnd.Some? && now < u.planEnd.value)
  }

  const PaidPlans: seq<string> := ["pro", "team", "enterprise"]

  /** `is_pro` */
  predicate IsPro(u: User, now: int)
    ensures IsPro(u, now) ==> u.plan != "free" && IsPlanActive(u, now)
    ensures u.plan !in PaidPlans ==> !IsPro(u, now)
  {
    u.plan in PaidPlans && IsPlanActive(u, now)
  }

  /** Pro status means a paid plan with an end date after now; the free
      plan, an unknown plan, or a plan without end date never counts. */
  lemma IsProMeansPaidAndCurrent(u: User, now: int)
    ensures IsPro(u, now) <==> u.plan in PaidPlans && u.planEnd.Some? && now < u.planEnd.value
    ensures u.plan == "free" ==> IsPlanActive(u, now) && !IsPro(u, now)
  {
  }

  /** An active paid plan stays active at every earlier time. */
  lemma ActiveEarlier(u: User, now: int, earlier: int)
    requires earlier <= now && IsPlanActive(u, now)
    ensures IsPlanActive(u, earlier)
  {
  }
}

=== FILE: automation_base.dfy ===
/** The shared part of the automation plugins: the action result record,
    its dictionary form, the initialized guard and the parameter lookup.
    The initialized flag and configuration behave as in the recognition
    plugins' base, whose `State` is reused. */
module AutomationBase {
  import opened Wrappers
  import opened Json
  import RecognitionBase

  /** An action result; `error` is `None` or a message. */
  datatype ActionResult = ActionResult(success: bool, error: Option<string>, data: Object)

  /** The `failed` property. */
  predicate Failed(a: ActionResult)
  {
    !a.success
  }

  /** Whether the error would count as truthy in Python. */
  predicate ErrorSet(a: ActionResult)
  {
    a.error.Some? && a.error.value != ""
  }

  /** `ActionResult.to_dict`: `success`, then `error` when it is truthy,
      then every data entry, which overrides either of the first two. */
  function ToDict(a: ActionResult): (d: Object)
    ensures d.Keys == {"success"} + a.data.Keys + (if ErrorSet(a) then {"error"} else {})
    ensures forall k :: k in a.data ==> d[k] == a.data[k]
    ensures "success" !in a.data ==> d["success"] == JBool(a.success)
    ensures "error" !in a.data && ErrorSet(a) ==> d["error"] == JStr(a.error.value)
  {
    var base := map["success" := JBool(a.success)];
    var withError := if ErrorSet(a) then base["error" := JStr(a.error.value)] else base;
    withError + a.data
  }

  /** Without an overriding `success` entry, the dictionary says the
      result failed exactly when `failed` holds. */
  lemma FailedMatchesDict(a: ActionResult)
    requires "success" !in a.data
    ensures ToDict(a)["success"] == JBool(false) <==> Failed(a)
    ensures ToDict(a)["success"] == JBool(true) <==> !Failed(a)
  {
  }

  /** `_create_result`: the dictionary of the result built from the
      arguments, the keyword arguments becoming its data. */
  function CreateResult(success: bool, error: Option<string>, kwargs: Object): (d: Object)
    ensures d == ToDict(ActionResult(success, error, kwargs))
    ensures "success" !in kwargs ==> d["success"] == JBool(success)
    ensures forall k :: k in kwargs ==> d[k] == kwargs[k]
    ensures "error" in d <==> "error" in kwargs || (error.Some? && error.value != "")
  {
    ToDict(ActionResult(success, error, kwargs))
  }

  /** The base `execute_action`: an uninitialized plugin answers with a
      failed result; an initialized one reaches the part every concrete
      plugin must override, which raises. */
  function ExecuteAction(s: RecognitionBase.State, action: string, params: Option<Object>): (r: Result<Object>)
    ensures r.Success? <==> !s.initialized
    ensures r.Success? ==> r.value.Keys == {"success", "error"}
    ensures r.Success? ==> r.value["success"] == JBool(false) && r.value["error"] == JStr("Plugin not initialized")
  {
    if !s.initialized then Success(CreateResult(false, Some("Plugin not initialized"), map[]))
    else Failure("NotImplementedError")
  }

  /** After `cleanup` the guard answers with a failure again; after
      `initialize` it lets the action through. */
  lemma CleanupRestoresGuard(s: RecognitionBase.State, action: string, params: Option<Object>, config: Option<Object>)
    ensures ExecuteAction(RecognitionBase.Cleanup(s), action, params).Success?
    ensures RecognitionBase.CheckInitialized(RecognitionBase.Cleanup(s)).Failure?
    ensures ExecuteAction(RecognitionBase.Initialize(s, config), action, params).Failure?
  {
  }

  /** `_get_param` (the same in both plugin bases): the default for a
      missing or empty parameter dictionary, otherwise `params.get(key,
      default)`. */
  function GetParam(params: Option<Object>, key: string, default: Json): (r: Json)
    ensures params.None? || params.value == map[] ==> r == default
    ensures params.Some? && key in params.value ==> r == params.value[key]
    ensures params.Some? && key !in params.value ==> r == default
  {
    if params.None? || params.value == map[] then default
    else GetOrDefault(params.value, key, default)
  }

  /** The emptiness test changes nothing: the lookup always agrees with
      `get` on the dictionary, `None` standing for the empty one. */
  lemma GetParamIsGet(params: Option<Object>, key: string, default: Json)
    ensures GetParam(params, key, default) == GetOrDefault(params.GetOr(map[]), key, default)
  {
  }
}

=== FILE: base_task.dfy ===
/** The base of the client's automation tasks: how well a command matches
    a task (keywords and required-parameter patterns), which parameters a
    command carries, and whether the required ones are all there.
    Regular-expression search is a parameter: `search(pattern, text)`
    gives the first capture group of the first match, if any. Scores are
    counted in tenths, so they are exact. */
module BaseTask {
  import opened Wrappers
  import opened PyStr
  import opened Json

  /** A task's matching data: its keywords, its required parameters in
      order, and its optional parameters with their defaults. */
  datatype Task = Task(keywords: seq<string>, required: seq<string>, optional: map<string, Json>)

  /** A regular-expression search returning the first capture group. */
  type Search = (string, string) -> Option<string>

  const PatternTail := "[\\s:]+([^,]+)"

  /** `get_param_pattern`: the parameter name followed by separators and a
      captured value running up to the next comma. */
  function ParamPattern(param: string): (p: string)
    ensures StartsWith(p, param) && EndsWith(p, PatternTail)
    ensures |p| == |param| + |PatternTail|
  {
    param + PatternTail
  }

  /** Different parameters get different patterns. */
  lemma ParamPatternInjective(a: string, b: string)
    ensures ParamPattern(a) == ParamPattern(b) <==> a == b
  {
    if ParamPattern(a) == ParamPattern(b) {
      assert a == ParamPattern(a)[..|a|];
    }
  }

  /** The positions of the keywords occurring in the (lower-cased)
      command, compared case-insensitively. */
  function Occurring(keywords: seq<string>, command: string): set<nat>
  {
    set i: nat | i < |keywords| && Contains(command, Lower(keywords[i]))
  }

  /** The positions of the required parameters whose pattern matches. */
  function Matched(required: seq<string>, command: string, search: Search): set<nat>
  {
    set i: nat | i < |required| && search(ParamPattern(required[i]), command).Some?
  }

  /** The keyword loop's count: one per keyword occurring in the command. */
  function KeywordHits(keywords: seq<string>, command: string): (n: nat)
    ensures n == |Occurring(keywords, command)|
    ensures n <= |keywords|
    ensures n == 0 <==> forall i :: 0 <= i < |keywords| ==> !Contains(command, Lower(keywords[i]))
  {
    if |keywords| == 0 then 0
    else
      var init := keywords[..|keywords| - 1];
      var last := keywords[|keywords| - 1];
      var rest := KeywordHits(init, command);
      assert Occurring(keywords, command)
          == Occurring(init, command) + (if Contains(command, Lower(last)) then {|init|} else {});
      assert Contains(command, Lower(last)) ==> |init| in Occurring(keywords, command);
      rest + (if Contains(command, Lower(last)) then 1 else 0)
  }

  /** The parameter loop's count: one per required parameter whose pattern
      matches. */
  function ParamHits(required: seq<string>, command: string, search: Search): (n: nat)
    ensures n == |Matched(required, command, search)|
    ensures n <= |required|
    ensures n == 0 <==> forall i :: 0 <= i < |required| ==> search(ParamPattern(required[i]), command).None?
  {
    if |required| == 0 then 0
    else
      var init := required[..|required| - 1];
      var last := required[|required| - 1];
      var rest := ParamHits(init, command, search);
      assert Matched(required, command, search)
          == Matched(init, command, search) + (if search(ParamPattern(last), command).Some? then {|init|} else {});
      assert search(ParamPattern(last), command).Some? ==> |init| in Matched(required, command, search);
      rest + (if search(ParamPattern(last), command).Some? then 1 else 0)
  }

  /** `get_match_score`, in tenths: two per keyword occurring and one per
      required-parameter pattern matching, capped at ten. */
  function Score(t: Task, command: string, search: Search): (r: nat)
    ensures r <= 10
    ensures r <= 2 * |t.keywords| + |t.required|
    ensures r == 0 <==>
      && (forall i :: 0 <= i < |t.keywords| ==> !Contains(Lower(command), Lower(t.keywords[i])))
      && (forall i :: 0 <= i < |t.required| ==> search(ParamPattern(t.required[i]), Lower(command)).None?)
    ensures var raw := 2 * |Occurring(t.keywords, Lower(command))| + |Matched(t.required, Lower(command), search)|;
      r == if raw > 10 then 10 else raw
  {
    var c := Lower(command);
    var raw := 2 * KeywordHits(t.keywords, c) + ParamHits(t.required, c, search);
    if raw > 10 then 10 else raw
  }

  /** The command is lower-cased first, so its case never matters. */
  lemma ScoreIgnoresCase(t: Task, command: string, search: Search)
    ensures Score(t, Lower(command), search) == Score(t, command, search)
  {
    LowerIdempotent(command);
  }

  lemma {:induction false} KeywordHitsGrow(keywords: seq<string>, c: string, extra: string)
    ensures KeywordHits(keywords, c) <= KeywordHits(keywords, c + extra)
  {
    if |keywords| > 0 {
      var last := keywords[|keywords| - 1];
      KeywordHitsGrow(keywords[..|keywords| - 1], c, extra);
      if Contains(c, Lower(last)) {
        ContainsSuffixExtension(c, extra, Lower(last));
      }
    }
  }

  lemma {:induction false} ParamHitsGrow(required: seq<string>, c: string, c': string, search: Search)
    requires forall p :: search(p, c).Some? ==> search(p, c').Some?
    ensures ParamHits(required, c, search) <= ParamHits(required, c', search)
  {
    if |required| > 0 {
      ParamHitsGrow(required[..|required| - 1], c, c', search);
    }
  }

  /** Appending text to a command never lowers its score, as long as the
      patterns that matched before still match (as they do for the default
      pattern). */
  lemma ScoreGrowsWithCommand(t: Task, command: string, extra: string, search: Search)
    requires forall p :: search(p, Lower(command)).Some? ==> search(p, Lower(command) + Lower(extra)).Some?
    ensures Score(t, command, search) <= Score(t, command + extra, search)
  {
    assert Lower(command + extra) == Lower(command) + Lower(extra);
    KeywordHitsGrow(t.keywords, Lower(command), Lower(extra));
    ParamHitsGrow(t.required, Lower(command), Lower(command) + Lower(extra), search);
  }

  /** A single keyword occurrence already gives two tenths. */
  lemma KeywordScores(t: Task, command: string, search: Search, i: nat)
    requires i < |t.keywords| && Contains(Lower(command), Lower(t.keywords[i]))
    ensures Score(t, command, search) >= 2
  {
  }

  /** The value a pattern captures, stripped. */
  function Captured(param: string, command: string, search: Search): Option<Json>
  {
    match search(ParamPattern(param), command)
    case Some(v) => Some(JStr(Strip(v)))
    case None => None
  }

  /** `extract_params`: a required parameter is present only when its
      pattern matches; every optional parameter is present, matched or
      defaulted; a matched optional value wins over a required one of the
      same name. */
  function ExtractParams(t: Task, command: string, search: Search): (r: Object)
    ensures forall p :: p in t.optional ==> p in r
    ensures forall p :: p in r <==> p in t.optional || (p in t.required && Captured(p, Lower(command), search).Some?)
    ensures forall p :: p in t.optional ==>
      r[p] == Captured(p, Lower(command), search).GetOr(t.optional[p])
    ensures forall p :: p in t.required && p !in t.optional && Captured(p, Lower(command), search).Some? ==>
      r[p] == Captured(p, Lower(command), search).value
  {
    var c := Lower(command);
    var req := map p | p in t.required && Captured(p, c, search).Some? :: Captured(p, c, search).value;
    var opt := map p | p in t.optional :: Captured(p, c, search).GetOr(t.optional[p]);
    req + opt
  }

  /** The required parameters that are absent or empty, in order. */
  function Missing(required: seq<string>, params: Object): (m: seq<string>)
    ensures forall p :: p in m <==> p in required && (p !in params || !Truthy(params[p]))
  {
    if |required| == 0 then []
    else
      var p := required[0];
      var rest := Missing(required[1..], params);
      assert forall q :: q in required <==> q == p || q in required[1..];
      if p !in params || !Truthy(params[p]) then [p] + rest else rest
  }

  /** `validate_params`: raises naming every missing required parameter,
      otherwise answers true. */
  function ValidateParams(t: Task, params: Object): (r: Result<bool>)
    ensures r.Failure? <==> exists p :: p in t.required && (p !in params || !Truthy(params[p]))
    ensures r.Success? ==> r.value
    ensures r.Failure? ==> r.error == "ValueError: 필수 매개변수가 누락되었습니다: " + Join(Missing(t.required, params), ", ")
  {
    var missing := Missing(t.required, params);
    if missing != [] then
      assert missing[0] in missing;
      Failure("ValueError: 필수 매개변수가 누락되었습니다: " + Join(missing, ", "))
    else
      assert forall p :: p in t.required ==> p !in missing;
      Success(true)
  }

  /** Extraction followed by validation: it passes exactly when every
      required parameter either captured a non-empty stripped value or is
      optional with a truthy value. */
  lemma ExtractThenValidate(t: Task, command: string, search: Search)
    ensures ValidateParams(t, ExtractParams(t, command, search)).Success? <==>
      forall p :: p in t.required ==> Truthy(ExtractedValue(t, p, Lower(command), search))
  {
    var r := ExtractParams(t, command, search);
    forall p | p in t.required
      ensures (p in r && Truthy(r[p])) <==> Truthy(ExtractedValue(t, p, Lower(command), search))
    {
    }
  }

  /** The value extraction leaves under a required name (`None` when it
      leaves none). */
  function ExtractedValue(t: Task, p: string, c: string, search: Search): Json
  {
    if p in t.optional then Captured(p, c, search).GetOr(t.optional[p])
    else Captured(p, c, search).GetOr(JNull)
  }
}

=== FILE: browser.dfy ===
/** What the core learns from the browser when it looks for an element:
    `page.query_selector(sel)` followed by `element.is_visible()`. The
    browser itself is not modelled; callers receive the outcome of each
    probe as a function of the selector. */
module Browser {

  /** `query_selector` found nothing, found an element that `is_visible()`
      denies or confirms, or one of the two calls raised. */
  datatype Probe = Missing | Hidden | Shown | ProbeError
}

=== FILE: command_input.dfy ===
/** The client's input widgets, without Qt: the command line's bounded
    history and its submit handler, the board of task statuses, and the
    log viewer's line budget. */
module CommandInput {
  import opened Wrappers
  import opened PyStr
  import opened Seqs

  /* ---------- command history ---------- */

  /** The number of commands the history keeps. */
  const MaxHistory: nat := 20


  /** `update_history`: an empty command or one already in the history
      changes nothing; otherwise the command is appended and, past twenty
      entries, the oldest one is dropped. */
  function UpdateHistory(history: seq<string>, command: string): (r: seq<string>)
    ensures command == "" || command in history ==> r == history
    ensures command != "" && command !in history ==>
      && 1 <= |r| <= |history| + 1 && r[|r| - 1] == command
      && r == (history + [command])[|history| + 1 - |r|..]
      && (|history| < MaxHistory ==> r == history + [command])
    ensures |history| <= MaxHistory ==> |r| <= MaxHistory
    ensures Distinct(history) ==> Distinct(r)
    ensures forall x :: x in r ==> x in history || x == command
  {
    if command == "" || command in history then history
    else
      var appended := history + [command];
      if |appended| > MaxHistory then appended[1..] else appended
  }

  /** The history built from a run of commands. */
  function HistoryOf(commands: seq<string>): seq<string>
  {
    if |commands| == 0 then [] else UpdateHistory(HistoryOf(commands[..|commands| - 1]), commands[|commands| - 1])
  }

  /** Whatever was typed, the history holds at most twenty distinct,
      non-empty commands, the most recent accepted one last. */
  lemma {:induction false} HistoryBounded(commands: seq<string>)
    ensures |HistoryOf(commands)| <= MaxHistory
    ensures Distinct(HistoryOf(commands))
    ensures forall x :: x in HistoryOf(commands) ==> x != "" && x in commands
  {
    if |commands| > 0 {
      var front := commands[..|commands| - 1];
      HistoryBounded(front);
      forall x | x in HistoryOf(commands)
        ensures x != "" && x in commands
      {
        if x in HistoryOf(front) {
          assert x in front;
        }
      }
    }
  }

  /** `on_return_pressed`: the stripped text is submitted (and recorded)
      when it is not empty; nothing happens otherwise. */
  function ReturnPressed(history: seq<string>, text: string): (r: (Option<string>, seq<string>))
    ensures r.0.Some? <==> Strip(text) != ""
    ensures r.0.Some? ==> r.0.value == Strip(text) && r.1 == UpdateHistory(history, r.0.value)
    ensures r.0.None? ==> r.1 == history
  {
    var command := Strip(text);
    if command != "" then (Some(command), UpdateHistory(history, command)) else (None, history)
  }

  /* ---------- task status board ---------- */

  /** How an item's status label is styled. */
  datatype Style = Plain | Completed | Failed

  /** One task's row: its status text, progress bar value and style. */
  datatype Item = Item(status: string, progress: int, style: Style)

  /** The board: items by task id, and the ids in display order, newest
      first. */
  datatype Board = Board(items: map<string, Item>, order: seq<string>)

  /** The display order lists each item exactly once. */
  predicate Consistent(b: Board)
  {
    && Distinct(b.order)
    && (forall id :: id in b.order ==> id in b.items)
    && (forall id :: id in b.items ==> id in b.order)
  }

  function EmptyBoard(): (b: Board)
    ensures Consistent(b) && b.items == map[]
  {
    Board(map[], [])
  }

  /** `add_task`: a known id is ignored; a new one starts at progress 0 and
      goes to the top. */
  function AddTask(b: Board, id: string, status: string): (r: Board)
    ensures id in b.items ==> r == b
    ensures id !in b.items ==>
      && r.items == b.items[id := Item(status, 0, Plain)]
      && r.order == [id] + b.order
    ensures Consistent(b) ==> Consistent(r)
  {
    if id in b.items then b else Board(b.items[id := Item(status, 0, Plain)], [id] + b.order)
  }

  /** Applies a change to a known item; unknown ids change nothing. */
  function Change(b: Board, id: string, f: Item -> Item): (r: Board)
    ensures id !in b.items ==> r == b
    ensures id in b.items ==> r.items == b.items[id := f(b.items[id])] && r.order == b.order
    ensures r.items.Keys == b.items.Keys
    ensures Consistent(b) ==> Consistent(r)
  {
    if id in b.items then Board(b.items[id := f(b.items[id])], b.order) else b
  }

  /** Every bar shows a value in its range 0..100. */
  predicate BarsInRange(b: Board)
  {
    forall id :: id in b.items ==> 0 <= b.items[id].progress <= 100
  }

  /** `update_task`: the status, and the progress when one is given. The
      bar's range is 0..100, and Qt ignores a value outside it. */
  function UpdateTask(b: Board, id: string, status: string, progress: Option<int>): (r: Board)
    ensures r.items.Keys == b.items.Keys && r.order == b.order
    ensures id !in b.items ==> r == b
    ensures id in b.items ==>
      && r.items[id].status == status && r.items[id].style == b.items[id].style
      && r.items[id].progress
         == if progress.Some? && 0 <= progress.value <= 100 then progress.value else b.items[id].progress
    ensures forall other :: other in b.items && other != id ==> r.items[other] == b.items[other]
    ensures Consistent(b) ==> Consistent(r)
    ensures BarsInRange(b) ==> BarsInRange(r)
  {
    Change(b, id, (it: Item) => it.(status := status,
                                    progress := if progress.Some? && 0 <= progress.value <= 100
                                                then progress.value else it.progress))
  }

  /** `complete_task`: the status, a full bar and the completed style. */
  function CompleteTask(b: Board, id: string, status: string): (r: Board)
    ensures r.items.Keys == b.items.Keys && r.order == b.order
    ensures id !in b.items ==> r == b
    ensures id in b.items ==> r.items[id] == Item(status, 100, Completed)
    ensures forall other :: other in b.items && other != id ==> r.items[other] == b.items[other]
    ensures Consistent(b) ==> Consistent(r)
  {
    Change(b, id, (it: Item) => it.(status := status, progress := 100, style := Completed))
  }

  /** `fail_task`: the status and the failed style; the bar stays put. */
  function FailTask(b: Board, id: string, status: string): (r: Board)
    ensures r.items.Keys == b.items.Keys && r.order == b.order
    ensures id !in b.items ==> r == b
    ensures id in b.items ==> r.items[id] == Item(status, b.items[id].progress, Failed)
    ensures forall other :: other in b.items && other != id ==> r.items[other] == b.items[other]
    ensures Consistent(b) ==> Consistent(r)
  {
    Change(b, id, (it: Item) => it.(status := status, style := Failed))
  }

  /** `clear_tasks` */
  function ClearTasks(b: Board): (r: Board)
    ensures r.items == map[] && Consistent(r)
  {
    EmptyBoard()
  }

  /** One call the executor makes on the board. */
  datatype BoardOp =
    | AddOp(id: string, status: string)
    | UpdateOp(id: string, status: string, progress: Option<int>)
    | CompleteOp(id: string, status: string)
    | FailOp(id: string, status: string)
    | ClearOp

  function Apply(b: Board, op: BoardOp): (r: Board)
    ensures Consistent(b) ==> Consistent(r)
    ensures BarsInRange(b) ==> BarsInRange(r)
  {
    match op
    case AddOp(id, status) => AddTask(b, id, status)
    case UpdateOp(id, status, progress) => UpdateTask(b, id, status, progress)
    case CompleteOp(id, status) => CompleteTask(b, id, status)
    case FailOp(id, status) => FailTask(b, id, status)
    case ClearOp => ClearTasks(b)
  }

  /** The board after the calls, in order. */
  function Replay(b: Board, ops: seq<BoardOp>): Board
  {
    if ops == [] then b else Apply(Replay(b, ops[..|ops| - 1]), ops[|ops| - 1])
  }

  /** The ids added since the last clear. */
  function AddedSinceClear(ops: seq<BoardOp>): set<string>
  {
    if ops == [] then {}
    else
      match ops[|ops| - 1]
      case ClearOp => {}
      case AddOp(id, _) => AddedSinceClear(ops[..|ops| - 1]) + {id}
      case _ => AddedSinceClear(ops[..|ops| - 1])
  }

  /** Whatever the executor does, the board shows exactly the tasks added
      since the last clear, each listed once in the display order, and
      every bar within its range. */
  lemma {:induction false} ReplayShowsAddedTasks(ops: seq<BoardOp>)
    ensures var b := Replay(EmptyBoard(), ops);
      Consistent(b) && b.items.Keys == AddedSinceClear(ops) && BarsInRange(b)
  {
    if ops != [] {
      ReplayShowsAddedTasks(ops[..|ops| - 1]);
    }
  }

  /* ---------- log viewer ---------- */

  /** The number of lines the viewer keeps. */
  const MaxLogs: nat := 1000

  /** The viewer: its lines, oldest first, and its line counter. */
  datatype Log = Log(lines: seq<string>, count: nat)

  /** The counter counts the lines, and never exceeds the budget. */
  predicate Bounded(v: Log)
  {
    v.count == |v.lines| && v.count <= MaxLogs
  }

  /** `logging.getLevelName` for the standard levels. */
  function LevelName(level: int): (r: string)
    ensures |r| > 0
    ensures level == 10 ==> r == "DEBUG"
    ensures level == 20 ==> r == "INFO"
    ensures level !in {0, 10, 20, 30, 40, 50} ==> r == "Level " + IntToString(level)
  {
    if level == 10 then "DEBUG"
    else if level == 20 then "INFO"
    else if level == 30 then "WARNING"
    else if level == 40 then "ERROR"
    else if level == 50 then "CRITICAL"
    else if level == 0 then "NOTSET"
    else "Level " + IntToString(level)
  }

  /** The line `append_log` writes; the time of day is a parameter. */
  function Format(timestamp: string, level: int, message: string): (r: string)
    ensures StartsWith(r, "[" + timestamp + "] " + LevelName(level))
    ensures EndsWith(r, ": " + message)
    ensures |r| == |timestamp| + |LevelName(level)| + |message| + 5
  {
    "[" + timestamp + "] " + LevelName(level) + ": " + message
  }

  /** `append_log` followed, past the budget, by `trim_logs`: the new line
      goes last and the oldest lines beyond the budget are removed. */
  function AppendLog(v: Log, timestamp: string, level: int, message: string): (r: Log)
    requires Bounded(v)
    ensures Bounded(r)
    ensures |r.lines| > 0 && r.lines[|r.lines| - 1] == Format(timestamp, level, message)
    ensures v.count < MaxLogs ==> r.lines == v.lines + [Format(timestamp, level, message)]
    ensures v.count == MaxLogs ==> r.count == MaxLogs && r.lines == v.lines[1..] + [Format(timestamp, level, message)]
  {
    Appended(v, Format(timestamp, level, message))
  }

  /** The log after `line` is appended and the oldest lines beyond the
      budget are removed. */
  function Appended(v: Log, line: string): (r: Log)
    requires Bounded(v)
    ensures Bounded(r)
    ensures |r.lines| > 0 && r.lines[|r.lines| - 1] == line
    ensures v.count < MaxLogs ==> r.lines == v.lines + [line]
    ensures v.count == MaxLogs ==> r.count == MaxLogs && r.lines == v.lines[1..] + [line]
  {
    var lines := v.lines + [line];
    var count := v.count + 1;
    if count > MaxLogs then
      Log(lines[count - MaxLogs..], MaxLogs)
    else Log(lines, count)
  }
}

=== FILE: domains.dfy ===
/** Matching a host against a domain list entry, as both the interruption
    handler and the popup plugin do: an entry matches its own host exactly,
    and an entry `*.suffix` matches every host ending in `.suffix`. */
module Domains {
  import opened PyStr

  /** `domain == d or (d.startswith('*.') and domain.endswith(d[1:]))` */
  predicate EntryMatches(entry: string, host: string)
  {
    host == entry || (StartsWith(entry, "*.") && EndsWith(host, entry[1..]))
  }

  /** Scans `entries` in order for one that matches `host`. */
  function AnyEntryMatches(entries: seq<string>, host: string): (r: bool)
    ensures r <==> exists i :: 0 <= i < |entries| && EntryMatches(entries[i], host)
  {
    if |entries| == 0 then false
    else if EntryMatches(entries[0], host) then true
    else
      var rest := AnyEntryMatches(entries[1..], host);
      assert forall i :: 1 <= i < |entries| ==> entries[i] == entries[1..][i - 1];
      rest
  }

  /** A wildcard entry `*.suffix` matches exactly the hosts ending in
      `.suffix`, plus the literal host `*.suffix` itself. */
  lemma WildcardMatches(suffix: string, host: string)
    ensures EntryMatches("*." + suffix, host) <==> host == "*." + suffix || EndsWith(host, "." + suffix)
  {
    var e := "*." + suffix;
    assert e[..2] == "*.";
    assert e[1..] == "." + suffix;
  }

  /** A wildcard entry never matches its bare suffix domain:
      `*.example.com` does not match `example.com`. */
  lemma WildcardExcludesBareDomain(suffix: string)
    ensures !EntryMatches("*." + suffix, suffix)
  {
    WildcardMatches(suffix, suffix);
  }

  /** A wildcard entry matches every subdomain of its suffix. */
  lemma WildcardMatchesSubdomain(suffix: string, sub: string)
    ensures EntryMatches("*." + suffix, sub + "." + suffix)
  {
    WildcardMatches(suffix, sub + "." + suffix);
    var h := sub + "." + suffix;
    assert h[|h| - |"." + suffix|..] == "." + suffix;
  }

  /** An entry without the `*.` prefix matches only the identical host. */
  lemma PlainEntryMatchesExactly(entry: string, host: string)
    requires !StartsWith(entry, "*.")
    ensures EntryMatches(entry, host) <==> host == entry
  {
  }
}

=== FILE: forms.dfy ===
/** The web application's form validators for a task's process steps and
    title. */
module Forms {
  import opened Wrappers
  import opened PyStr

  /** Whether some comma-separated piece is blank once stripped. */
  predicate HasBlankPiece(process: string)
  {
    exists i :: 0 <= i < |Split(process, ",")| && Strip(Split(process, ",")[i]) == ""
  }

  /** `TaskForm.clean_process`: a missing or empty value becomes ''; a
      value without a comma is kept; a comma-separated value is kept unless
      some piece is blank, which is refused. */
  function CleanProcess(process: Option<string>): (r: Result<string>)
    ensures process.None? || process == Some("") ==> r == Success("")
    ensures process.Some? && process.value != "" ==>
      (r.Failure? <==> Contains(process.value, ",") && HasBlankPiece(process.value))
    ensures process.Some? && r.Success? ==> r.value == process.value
  {
    if process.None? || process.value == "" then Success("")
    else
      var p := process.value;
      if !ContainsChar(p, ',') then
        assert !Contains(p, ",") by { NoCommaNoOccurrence(p); }
        Success(p)
      else
        assert Contains(p, ",") by { CommaOccurs(p); }
        if HasBlankPiece(p) then Failure("ValidationError: 유효하지 않은 처리 단계가 있습니다.")
        else Success(p)
  }

  /** `c in s` for a single character. */
  predicate ContainsChar(s: string, c: char)
  {
    exists i :: 0 <= i < |s| && s[i] == c
  }

  lemma NoCommaNoOccurrence(s: string)
    requires !ContainsChar(s, ',')
    ensures !Contains(s, ",")
  {
    forall i | 0 <= i < |s|
      ensures !OccursAt(s, ",", i)
    {
      assert s[i..i + 1][0] == s[i] != ',';
    }
  }

  lemma CommaOccurs(s: string)
    requires ContainsChar(s, ',')
    ensures Contains(s, ",")
  {
    var i :| 0 <= i < |s| && s[i] == ',';
    assert s[i..i + 1] == ",";
    assert OccursAt(s, ",", i);
  }

  /** A value without a comma is always kept, even if it is blank. */
  lemma NoCommaKept(process: string)
    requires process != "" && !Contains(process, ",")
    ensures CleanProcess(Some(process)) == Success(process)
  {
  }

  /** An accepted value is accepted again. */
  lemma CleanProcessIdempotent(process: Option<string>)
    requires CleanProcess(process).Success?
    ensures CleanProcess(Some(CleanProcess(process).value)) == CleanProcess(process)
  {
  }

  /** `TaskTitleForm.clean_title`: refuses a blank title, otherwise keeps
      it as given (surrounding whitespace included). */
  function CleanTitle(title: string): (r: Result<string>)
    ensures r.Failure? <==> AllSpace(title)
    ensures r.Success? ==> r.value == title
  {
    if Strip(title) == "" then
      StripEmptyIffAllSpace(title);
      Failure("ValidationError: 제목은 공백일 수 없습니다.")
    else
      StripEmptyIffAllSpace(title);
      Success(title)
  }

  lemma StripEmptyIffAllSpace(s: string)
    ensures Strip(s) == "" <==> AllSpace(s)
  {
  }
}

=== FILE: interruption_handler.dfy ===
/** The interruption handler: patterns that recognise an interruption
    (popup, banner, dialog) on a page, the actions that dismiss it, and the
    prioritised rules pairing the two, kept in an insertion-ordered store. */
module InterruptionHandler {
  import opened Wrappers
  import opened PyStr
  import opened Json
  import opened Domains
  import opened Sorting
  import opened Browser

  // ---------------------------------------------------------------------
  // Entities
  // ---------------------------------------------------------------------

  /** `InterruptionPattern`. Timestamps are ISO strings; `None` when unset. */
  datatype InterruptionPattern = InterruptionPattern(
    patternId: string,
    name: string,
    patternType: string,
    patternData: Object,
    domains: seq<string>,
    description: string,
    enabled: bool,
    lastApplied: Option<string>,
    successCount: int,
    failureCount: int)

  datatype InterruptionAction = InterruptionAction(
    actionId: string,
    name: string,
    actionType: string,
    actionData: Object,
    description: string)

  datatype InterruptionRule = InterruptionRule(
    ruleId: string,
    name: string,
    pattern: InterruptionPattern,
    actions: seq<InterruptionAction>,
    priority: int,
    enabled: bool,
    description: string,
    lastTriggered: Option<string>,
    triggerCount: int)

  /** The constructor's defaults: a fresh pattern has never been applied. */
  function NewPattern(patternId: string, name: string, patternType: string, patternData: Object,
                      domains: seq<string>, description: string, enabled: bool): (p: InterruptionPattern)
    ensures p.lastApplied == None && p.successCount == 0 && p.failureCount == 0
    ensures p.patternId == patternId && p.patternData == patternData && p.domains == domains
  {
    InterruptionPattern(patternId, name, patternType, patternData, domains, description, enabled, None, 0, 0)
  }

  function NewRule(ruleId: string, name: string, pattern: InterruptionPattern,
                   actions: seq<InterruptionAction>, priority: int, enabled: bool,
                   description: string): (r: InterruptionRule)
    ensures r.lastTriggered == None && r.triggerCount == 0
    ensures r.ruleId == ruleId && r.pattern == pattern && r.actions == actions && r.priority == priority
  {
    InterruptionRule(ruleId, name, pattern, actions, priority, enabled, description, None, 0)
  }

  /** A timestamp that `isoformat` produced is never empty; only such
      values survive the `if data.get(...)` test when reloaded. */
  predicate StampOk(t: Option<string>)
  {
    t.Some? ==> t.value != []
  }

  predicate PatternOk(p: InterruptionPattern)
  {
    StampOk(p.lastApplied)
  }

  predicate RuleOk(r: InterruptionRule)
  {
    PatternOk(r.pattern) && StampOk(r.lastTriggered)
  }

  /** `matches_domain`: an empty domain list applies everywhere; otherwise
      some entry must match the page's host. */
  function MatchesDomain(p: InterruptionPattern, host: string): (r: bool)
    ensures p.domains == [] ==> r
    ensures p.domains != [] ==> (r <==> exists i :: 0 <= i < |p.domains| && EntryMatches(p.domains[i], host))
  {
    p.domains == [] || AnyEntryMatches(p.domains, host)
  }

  /** `increment_success` / `increment_failure` / `increment_trigger`. */
  function PatternSucceeded(p: InterruptionPattern, now: string): (q: InterruptionPattern)
    ensures q.successCount + q.failureCount == p.successCount + p.failureCount + 1
    ensures q.successCount > p.successCount && q.failureCount == p.failureCount
    ensures q.lastApplied == Some(now) && q.domains == p.domains && q.enabled == p.enabled
    ensures q == p.(successCount := q.successCount, lastApplied := q.lastApplied)
  {
    p.(successCount := p.successCount + 1, lastApplied := Some(now))
  }

  function PatternFailed(p: InterruptionPattern, now: string): (q: InterruptionPattern)
    ensures q.successCount + q.failureCount == p.successCount + p.failureCount + 1
    ensures q.failureCount > p.failureCount && q.successCount == p.successCount
    ensures q.lastApplied == Some(now) && q.domains == p.domains && q.enabled == p.enabled
    ensures q == p.(failureCount := q.failureCount, lastApplied := q.lastApplied)
  {
    p.(failureCount := p.failureCount + 1, lastApplied := Some(now))
  }

  /** A rule whose pattern was detected: trigger and success counted. */
  function Triggered(r: InterruptionRule, now: string): (t: InterruptionRule)
    ensures t.ruleId == r.ruleId && t.priority == r.priority && t.actions == r.actions
    ensures t.triggerCount == r.triggerCount + 1 && t.lastTriggered == Some(now)
    ensures t.pattern.successCount == r.pattern.successCount + 1
    ensures t.pattern.failureCount == r.pattern.failureCount
    ensures t.enabled == r.enabled && t.pattern.enabled == r.pattern.enabled
    ensures t.pattern.domains == r.pattern.domains
    ensures t.pattern.lastApplied == Some(now)
    ensures t == r.(triggerCount := t.triggerCount, lastTriggered := t.lastTriggered, pattern := t.pattern)
    ensures t.pattern == r.pattern.(successCount := t.pattern.successCount, lastApplied := t.pattern.lastApplied)
  {
    r.(triggerCount := r.triggerCount + 1, lastTriggered := Some(now),
       pattern := PatternSucceeded(r.pattern, now))
  }

  /** A rule whose detection raised: failure counted on its pattern. */
  function DetectionFailed(r: InterruptionRule, now: string): (t: InterruptionRule)
    ensures t.ruleId == r.ruleId && t.priority == r.priority && t.triggerCount == r.triggerCount
    ensures t.pattern.failureCount == r.pattern.failureCount + 1
    ensures t.pattern.successCount == r.pattern.successCount
    ensures t.pattern.lastApplied == Some(now)
    ensures t == r.(pattern := t.pattern)
    ensures t.pattern == r.pattern.(failureCount := t.pattern.failureCount, lastApplied := t.pattern.lastApplied)
  {
    r.(pattern := PatternFailed(r.pattern, now))
  }

  // ---------------------------------------------------------------------
  // to_dict / from_dict
  // ---------------------------------------------------------------------

  function PatternToDict(p: InterruptionPattern): (d: Object)
    ensures d.Keys == {"pattern_id", "name", "pattern_type", "pattern_data", "domains", "description",
                       "enabled", "last_applied", "success_count", "failure_count"}
    ensures d["last_applied"] == (match p.lastApplied case Some(s) => JStr(s) case None => JNull)
    ensures d["domains"] == JList(StrList(p.domains))
  {
    map[
      "pattern_id" := JStr(p.patternId),
      "name" := JStr(p.name),
      "pattern_type" := JStr(p.patternType),
      "pattern_data" := JObj(p.patternData),
      "domains" := JList(StrList(p.domains)),
      "description" := JStr(p.description),
      "enabled" := JBool(p.enabled),
      "last_applied" := OptStr(p.lastApplied),
      "success_count" := JInt(p.successCount),
      "failure_count" := JInt(p.failureCount)
    ]
  }

  /** `data.get(key)` for a timestamp: a truthy string is parsed, anything
      falsy means "never". */
  function StampField(d: Object, key: string): (r: Result<Option<string>>)
    ensures key !in d || !Truthy(d[key]) ==> r == Success(None)
    ensures r.Failure? <==> key in d && Truthy(d[key]) && !d[key].JStr?
    ensures r.Success? && r.value.Some? ==> key in d && d[key] == JStr(r.value.value) && r.value.value != ""
  {
    if key !in d || !Truthy(d[key]) then Success(None)
    else if d[key].JStr? then Success(Some(d[key].s))
    else Failure("not a timestamp: " + key)
  }

  /** `domains or []` after `data.get("domains", [])`. */
  function DomainsField(d: Object): Result<seq<string>>
  {
    if "domains" in d && d["domains"] == JNull then Success([])
    else GetStrListOr(d, "domains")
  }

  function RequiredObject(d: Object, key: string): Result<Object>
  {
    if key !in d then Failure("KeyError: " + key)
    else if d[key].JObj? then Success(d[key].fields)
    else Failure("not an object: " + key)
  }

  function PatternFromDict(d: Object): (r: Result<InterruptionPattern>)
    ensures "pattern_id" !in d || "name" !in d || "pattern_type" !in d || "pattern_data" !in d ==> r.Failure?
    ensures r.Success? ==> PatternOk(r.value)
  {
    var patternId :- GetStr(d, "pattern_id");
    var name :- GetStr(d, "name");
    var patternType :- GetStr(d, "pattern_type");
    var patternData :- RequiredObject(d, "pattern_data");
    var domains :- DomainsField(d);
    var description :- GetStrOr(d, "description", "");
    var enabled :- GetBoolOr(d, "enabled", true);
    var lastApplied :- StampField(d, "last_applied");
    var successCount :- GetIntOr(d, "success_count", 0);
    var failureCount :- GetIntOr(d, "failure_count", 0);
    Success(InterruptionPattern(patternId, name, patternType, patternData, domains, description,
                                enabled, lastApplied, successCount, failureCount))
  }

  /** Saving a pattern and loading it back gives the same pattern. */
  lemma PatternRoundTrip(p: InterruptionPattern)
    requires PatternOk(p)
    ensures PatternFromDict(PatternToDict(p)) == Success(p)
  {
    StrsOfStrList(p.domains);
  }

  /** A dictionary holding only the four required keys loads with the
      constructor's defaults for everything else. */
  lemma PatternDefaults(patternId: string, name: string, patternType: string, data: Object)
    ensures PatternFromDict(map["pattern_id" := JStr(patternId), "name" := JStr(name),
                                "pattern_type" := JStr(patternType), "pattern_data" := JObj(data)])
         == Success(NewPattern(patternId, name, patternType, data, [], "", true))
  {
  }

  function ActionToDict(a: InterruptionAction): (d: Object)
    ensures d.Keys == {"action_id", "name", "action_type", "action_data", "description"}
    ensures d["action_data"] == JObj(a.actionData)
  {
    map[
      "action_id" := JStr(a.actionId),
      "name" := JStr(a.name),
      "action_type" := JStr(a.actionType),
      "action_data" := JObj(a.actionData),
      "description" := JStr(a.description)
    ]
  }

  function ActionFromDict(d: Object): (r: Result<InterruptionAction>)
    ensures "action_id" !in d || "name" !in d || "action_type" !in d || "action_data" !in d ==> r.Failure?
  {
    var actionId :- GetStr(d, "action_id");
    var name :- GetStr(d, "name");
    var actionType :- GetStr(d, "action_type");
    var actionData :- RequiredObject(d, "action_data");
    var description :- GetStrOr(d, "description", "");
    Success(InterruptionAction(actionId, name, actionType, actionData, description))
  }

  lemma ActionRoundTrip(a: InterruptionAction)
    ensures ActionFromDict(ActionToDict(a)) == Success(a)
  {
  }

  function ActionsToJson(acts: seq<InterruptionAction>): (r: seq<Json>)
    ensures |r| == |acts|
    ensures forall i :: 0 <= i < |acts| ==> r[i] == JObj(ActionToDict(acts[i]))
  {
    seq(|acts|, i requires 0 <= i < |acts| => JObj(ActionToDict(acts[i])))
  }

  /** `[InterruptionAction.from_dict(a) for a in data["actions"]]`: the first
      undecodable entry makes the whole list fail. */
  function ActionsFromJson(items: seq<Json>): (r: Result<seq<InterruptionAction>>)
    ensures r.Success? ==> |r.value| == |items|
    ensures r.Success? ==> forall i :: 0 <= i < |items| ==>
      items[i].JObj? && ActionFromDict(items[i].fields) == Success(r.value[i])
  {
    if |items| == 0 then Success([])
    else if !items[0].JObj? then Failure("action is not an object")
    else
      var first :- ActionFromDict(items[0].fields);
      var rest :- ActionsFromJson(items[1..]);
      assert forall i :: 1 <= i < |items| ==> items[i] == items[1..][i - 1];
      Success([first] + rest)
  }

  lemma {:induction false} ActionsRoundTrip(acts: seq<InterruptionAction>)
    ensures ActionsFromJson(ActionsToJson(acts)) == Success(acts)
    decreases |acts|
  {
    if |acts| > 0 {
      ActionRoundTrip(acts[0]);
      assert ActionsToJson(acts)[1..] == ActionsToJson(acts[1..]);
      ActionsRoundTrip(acts[1..]);
      assert acts == [acts[0]] + acts[1..];
    }
  }

  function RuleToDict(r: InterruptionRule): (d: Object)
    ensures d.Keys == {"rule_id", "name", "pattern", "actions", "priority", "enabled", "description",
                       "last_triggered", "trigger_count"}
    ensures d["pattern"] == JObj(PatternToDict(r.pattern))
    ensures d["actions"].JList? && |d["actions"].items| == |r.actions|
  {
    map[
      "rule_id" := JStr(r.ruleId),
      "name" := JStr(r.name),
      "pattern" := JObj(PatternToDict(r.pattern)),
      "actions" := JList(ActionsToJson(r.actions)),
      "priority" := JInt(r.priority),
      "enabled" := JBool(r.enabled),
      "description" := JStr(r.description),
      "last_triggered" := OptStr(r.lastTriggered),
      "trigger_count" := JInt(r.triggerCount)
    ]
  }

  function RuleFromDict(d: Object): (r: Result<InterruptionRule>)
    ensures "pattern" !in d || "actions" !in d || "rule_id" !in d || "name" !in d ==> r.Failure?
    ensures r.Success? ==> RuleOk(r.value)
  {
    var patternDict :- RequiredObject(d, "pattern");
    var pattern :- PatternFromDict(patternDict);
    var actionItems :- if "actions" in d && d["actions"].JList? then Success(d["actions"].items)
                       else Failure("KeyError: actions");
    var actions :- ActionsFromJson(actionItems);
    var ruleId :- GetStr(d, "rule_id");
    var name :- GetStr(d, "name");
    var priority :- GetIntOr(d, "priority", 0);
    var enabled :- GetBoolOr(d, "enabled", true);
    var description :- GetStrOr(d, "description", "");
    var lastTriggered :- StampField(d, "last_triggered");
    var triggerCount :- GetIntOr(d, "trigger_count", 0);
    Success(InterruptionRule(ruleId, name, pattern, actions, priority, enabled, description,
                             lastTriggered, triggerCount))
  }

  /** `InterruptionRule.from_dict(rule.to_dict())` reproduces the rule:
      identity, pattern, actions in order, priority, flags and counters. */
  lemma RuleRoundTrip(r: InterruptionRule)
    requires RuleOk(r)
    ensures RuleFromDict(RuleToDict(r)) == Success(r)
  {
    var d := RuleToDict(r);
    PatternRoundTrip(r.pattern);
    ActionsRoundTrip(r.actions);
    assert RequiredObject(d, "pattern") == Success(PatternToDict(r.pattern));
    assert d["actions"] == JList(ActionsToJson(r.actions));
    RuleFieldsRead(r);
    RuleReadsFields(d, r);
  }

  /** A dictionary whose every field reads as `r`'s decodes to `r`. */
  lemma RuleReadsFields(d: Object, r: InterruptionRule)
    requires RequiredObject(d, "pattern").Success?
    requires PatternFromDict(RequiredObject(d, "pattern").value) == Success(r.pattern)
    requires "actions" in d && d["actions"].JList? && ActionsFromJson(d["actions"].items) == Success(r.actions)
    requires GetStr(d, "rule_id") == Success(r.ruleId)
    requires GetStr(d, "name") == Success(r.name)
    requires GetIntOr(d, "priority", 0) == Success(r.priority)
    requires GetBoolOr(d, "enabled", true) == Success(r.enabled)
    requires GetStrOr(d, "description", "") == Success(r.description)
    requires StampField(d, "last_triggered") == Success(r.lastTriggered)
    requires GetIntOr(d, "trigger_count", 0) == Success(r.triggerCount)
    ensures RuleFromDict(d) == Success(r)
  {
  }

  /** The scalar fields of `to_dict` read back as written. */
  lemma RuleFieldsRead(r: InterruptionRule)
    requires RuleOk(r)
    ensures var d := RuleToDict(r);
      && GetStr(d, "rule_id") == Success(r.ruleId)
      && GetStr(d, "name") == Success(r.name)
      && GetIntOr(d, "priority", 0) == Success(r.priority)
      && GetBoolOr(d, "enabled", true) == Success(r.enabled)
      && GetStrOr(d, "description", "") == Success(r.description)
      && StampField(d, "last_triggered") == Success(r.lastTriggered)
      && GetIntOr(d, "trigger_count", 0) == Success(r.triggerCount)
  {
    var d := RuleToDict(r);
    assert StampField(d, "last_triggered") == Success(r.lastTriggered);
  }

  /** Decoded lazily: a JSON value that is not a dictionary is rejected. */
  function RuleFromJson(j: Json): Result<InterruptionRule>
  {
    if j.JObj? then RuleFromDict(j.fields) else Failure("rule is not an object")
  }

  // ---------------------------------------------------------------------
  // The rule store: `self.rules`, a dict keyed by rule id, in insertion order
  // ---------------------------------------------------------------------

  predicate UniqueIds(rules: seq<InterruptionRule>)
  {
    forall i, j :: 0 <= i < j < |rules| ==> rules[i].ruleId != rules[j].ruleId
  }

  function Ids(rules: seq<InterruptionRule>): set<string>
  {
    set r | r in rules :: r.ruleId
  }

  /** A reordering of rules with distinct ids has distinct ids. */
  lemma PermutedIdsUnique(a: seq<InterruptionRule>, b: seq<InterruptionRule>)
    requires multiset(a) == multiset(b) && UniqueIds(b)
    ensures UniqueIds(a)
  {
    forall i, j | 0 <= i < j < |a|
      ensures a[i].ruleId != a[j].ruleId
    {
      AtMostOneCopy(b, a[i]);
      EqualPairCounts(a, i, j);
      assert a[i] in multiset(b) && a[j] in multiset(b);
      var p :| 0 <= p < |b| && b[p] == a[i];
      var q :| 0 <= q < |b| && b[q] == a[j];
    }
  }

  lemma {:induction false} AtMostOneCopy(s: seq<InterruptionRule>, x: InterruptionRule)
    requires UniqueIds(s)
    ensures multiset(s)[x] <= 1
    decreases |s|
  {
    if |s| > 0 {
      assert s == [s[0]] + s[1..];
      forall k | 0 <= k < |s[1..]|
        ensures s[1..][k] != s[0]
      {
        assert s[1..][k] == s[k + 1];
      }
      assert s[0] !in s[1..];
      AtMostOneCopy(s[1..], x);
    }
  }

  lemma EqualPairCounts(s: seq<InterruptionRule>, i: nat, j: nat)
    requires i < j < |s|
    ensures s[i] == s[j] ==> multiset(s)[s[j]] >= 2
  {
    assert s == s[..j] + [s[j]] + s[j + 1..];
    assert s[..j][i] == s[i];
    assert s[i] in multiset(s[..j]);
  }

  /** Position of the rule with id `id`. */
  function IndexOf(rules: seq<InterruptionRule>, id: string): (r: Option<nat>)
    ensures r.Some? ==> r.value < |rules| && rules[r.value].ruleId == id
    ensures r.Some? ==> forall j :: 0 <= j < r.value ==> rules[j].ruleId != id
    ensures r.None? <==> id !in Ids(rules)
  {
    if |rules| == 0 then None
    else if rules[0].ruleId == id then Some(0)
    else
      match IndexOf(rules[1..], id)
      case None =>
        assert rules == [rules[0]] + rules[1..];
        None
      case Some(k) =>
        assert rules[1..][k] in rules;
        Some(k + 1)
  }

  /** `get_rule`: `self.rules.get(rule_id)`. */
  function GetRule(rules: seq<InterruptionRule>, id: string): (r: Option<InterruptionRule>)
    ensures r.Some? <==> id in Ids(rules)
    ensures r.Some? ==> r.value in rules && r.value.ruleId == id
  {
    match IndexOf(rules, id)
    case None => None
    case Some(i) => Some(rules[i])
  }

  /** `self.rules[rule.rule_id] = rule`: an existing id keeps its position
      and gets the new value; a new id is appended. */
  function Put(rules: seq<InterruptionRule>, rule: InterruptionRule): (r: seq<InterruptionRule>)
    requires UniqueIds(rules)
    ensures UniqueIds(r)
    ensures Ids(r) == Ids(rules) + {rule.ruleId}
    ensures GetRule(r, rule.ruleId) == Some(rule)
    ensures forall id :: id != rule.ruleId ==> GetRule(r, id) == GetRule(rules, id)
    ensures rule.ruleId in Ids(rules) ==> |r| == |rules|
    ensures rule.ruleId !in Ids(rules) ==> r == rules + [rule]
  {
    match IndexOf(rules, rule.ruleId)
    case Some(i) =>
      var r := rules[i := rule];
      PutLookups(rules, i, rule);
      r
    case None =>
      var r := rules + [rule];
      AppendLookups(rules, rule);
      r
  }

  lemma PutLookups(rules: seq<InterruptionRule>, i: nat, rule: InterruptionRule)
    requires UniqueIds(rules) && i < |rules| && rules[i].ruleId == rule.ruleId
    ensures UniqueIds(rules[i := rule])
    ensures Ids(rules[i := rule]) == Ids(rules)
    ensures GetRule(rules[i := rule], rule.ruleId) == Some(rule)
    ensures forall id :: id != rule.ruleId ==> GetRule(rules[i := rule], id) == GetRule(rules, id)
  {
    var r := rules[i := rule];
    forall x | x in rules
      ensures x.ruleId in Ids(r)
    {
      var k :| 0 <= k < |rules| && rules[k] == x;
      if k != i {
        assert r[k] == x;
      } else {
        assert r[i] == rule;
      }
    }
    forall x | x in r
      ensures x.ruleId in Ids(rules)
    {
      var k :| 0 <= k < |r| && r[k] == x;
      assert rules[k].ruleId == x.ruleId;
    }
    var a := IndexOf(r, rule.ruleId);
    assert r[i] == rule;
    assert a.Some? && a.value <= i;
    forall id | id != rule.ruleId
      ensures GetRule(r, id) == GetRule(rules, id)
    {
      var a := IndexOf(r, id);
      var b := IndexOf(rules, id);
      if a.Some? {
        assert a.value != i;
        assert r[a.value] == rules[a.value];
        assert b.Some?;
      }
    }
  }

  lemma AppendLookups(rules: seq<InterruptionRule>, rule: InterruptionRule)
    requires UniqueIds(rules) && rule.ruleId !in Ids(rules)
    ensures UniqueIds(rules + [rule])
    ensures GetRule(rules + [rule], rule.ruleId) == Some(rule)
    ensures forall id :: id != rule.ruleId ==> GetRule(rules + [rule], id) == GetRule(rules, id)
  {
    var r := rules + [rule];
    forall i | 0 <= i < |rules|
      ensures rules[i].ruleId != rule.ruleId
    {
      assert rules[i] in rules;
    }
    forall id | id != rule.ruleId
      ensures GetRule(r, id) == GetRule(rules, id)
    {
      var a := IndexOf(r, id);
      var b := IndexOf(rules, id);
      if b.Some? {
        assert r[b.value] == rules[b.value];
        assert a.Some?;
      }
      if a.Some? {
        assert a.value < |rules|;
        assert r[a.value] in rules;
      }
    }
  }

  /** `del self.rules[rule_id]`. */
  function Delete(rules: seq<InterruptionRule>, id: string): (r: seq<InterruptionRule>)
    requires UniqueIds(rules)
    ensures UniqueIds(r)
    ensures Ids(r) == Ids(rules) - {id}
    ensures forall x :: x in r <==> x in rules && x.ruleId != id
    decreases |rules|
  {
    if |rules| == 0 then []
    else
      IdsCons(rules);
      var rest := Delete(rules[1..], id);
      assert forall x :: x in rules <==> x == rules[0] || x in rules[1..];
      if rules[0].ruleId == id then rest
      else
        ConsIds(rules[0], rest);
        [rules[0]] + rest
  }

  /** The ids of a non-empty store are its head's and its tail's; distinct
      ids make the tail distinct and leave the head's id out of it. */
  lemma IdsCons(rules: seq<InterruptionRule>)
    requires |rules| > 0
    ensures Ids(rules) == {rules[0].ruleId} + Ids(rules[1..])
    ensures UniqueIds(rules) ==> UniqueIds(rules[1..]) && rules[0].ruleId !in Ids(rules[1..])
  {
    assert forall x :: x in rules <==> x == rules[0] || x in rules[1..];
    if UniqueIds(rules) {
      forall x | x in rules[1..]
        ensures x.ruleId != rules[0].ruleId
      {
        var k :| 0 <= k < |rules[1..]| && rules[1..][k] == x;
        assert rules[k + 1] == x;
      }
    }
  }

  /** Putting a rule with a fresh id in front keeps ids distinct. */
  lemma ConsIds(x: InterruptionRule, rest: seq<InterruptionRule>)
    requires UniqueIds(rest) && x.ruleId !in Ids(rest)
    ensures UniqueIds([x] + rest)
    ensures Ids([x] + rest) == {x.ruleId} + Ids(rest)
  {
    var r := [x] + rest;
    assert forall y :: y in r <==> y == x || y in rest;
    forall i, j | 0 <= i < j < |r|
      ensures r[i].ruleId != r[j].ruleId
    {
      if i == 0 {
        assert r[j] == rest[j - 1];
        assert r[j] in rest;
      } else {
        assert r[i] == rest[i - 1] && r[j] == rest[j - 1];
      }
    }
  }

  lemma DeleteLookups(rules: seq<InterruptionRule>, id: string)
    requires UniqueIds(rules)
    ensures GetRule(Delete(rules, id), id) == None
    ensures forall other :: other != id ==> GetRule(Delete(rules, id), other) == GetRule(rules, other)
  {
    var r := Delete(rules, id);
    forall other | other != id
      ensures GetRule(r, other) == GetRule(rules, other)
    {
      var a := GetRule(r, other);
      var b := GetRule(rules, other);
      if a.Some? {
        assert b.Some?;
        UniqueLookup(rules, a.value, b.value);
      }
      if b.Some? {
        assert b.value in r;
        assert a.Some?;
      }
    }
  }

  /** Within a store with unique ids, two members with the same id are the same rule. */
  lemma UniqueLookup(rules: seq<InterruptionRule>, x: InterruptionRule, y: InterruptionRule)
    requires UniqueIds(rules) && x in rules && y in rules && x.ruleId == y.ruleId
    ensures x == y
  {
    var i :| 0 <= i < |rules| && rules[i] == x;
    var j :| 0 <= j < |rules| && rules[j] == y;
    assert i == j;
  }

  /** The handler's state. `enabled` is only ever read for its truth value, so a
      boolean stands for whatever value the settings delivered. The domain
      lists are Python sets of whatever hashable values the settings held. */
  datatype Handler = Handler(
    enabled: bool,
    whitelist: set<Json>,
    blacklist: set<Json>,
    rules: seq<InterruptionRule>,
    hasPluginManager: bool)

  predicate Valid(h: Handler)
  {
    UniqueIds(h.rules)
  }

  /** `add_rule`: inserts or overwrites (the overwrite is only logged). */
  function AddRule(h: Handler, rule: InterruptionRule): (h': Handler)
    requires Valid(h)
    ensures Valid(h')
    ensures GetRule(h'.rules, rule.ruleId) == Some(rule)
    ensures forall id :: id != rule.ruleId ==> GetRule(h'.rules, id) == GetRule(h.rules, id)
    ensures Ids(h'.rules) == Ids(h.rules) + {rule.ruleId}
    ensures h'.enabled == h.enabled && h'.whitelist == h.whitelist && h'.blacklist == h.blacklist
  {
    h.(rules := Put(h.rules, rule))
  }

  /** `remove_rule`: `false` and no change when the id is unknown. */
  function RemoveRule(h: Handler, id: string): (res: (bool, Handler))
    requires Valid(h)
    ensures Valid(res.1)
    ensures res.0 <==> id in Ids(h.rules)
    ensures !res.0 ==> res.1 == h
    ensures GetRule(res.1.rules, id) == None
    ensures forall other :: other != id ==> GetRule(res.1.rules, other) == GetRule(h.rules, other)
  {
    if id !in Ids(h.rules) then (false, h)
    else
      DeleteLookups(h.rules, id);
      (true, h.(rules := Delete(h.rules, id)))
  }

  /** `update_rule`: replaces an existing rule; `false` and no change when
      the id is unknown. */
  function UpdateRule(h: Handler, rule: InterruptionRule): (res: (bool, Handler))
    requires Valid(h)
    ensures Valid(res.1)
    ensures res.0 <==> rule.ruleId in Ids(h.rules)
    ensures !res.0 ==> res.1 == h
    ensures res.0 ==> GetRule(res.1.rules, rule.ruleId) == Some(rule) && Ids(res.1.rules) == Ids(h.rules)
    ensures res.0 ==> |res.1.rules| == |h.rules|
  {
    if rule.ruleId !in Ids(h.rules) then (false, h)
    else (true, h.(rules := Put(h.rules, rule)))
  }

  function Priority(r: InterruptionRule): int { r.priority }

  /** `get_rules`: every rule, highest priority first; rules of equal
      priority keep their insertion order (Python's sort is stable). */
  function GetRules(h: Handler): (r: seq<InterruptionRule>)
    ensures multiset(r) == multiset(h.rules)
    ensures SortedDesc(r, Priority)
  {
    SortDesc(h.rules, Priority)
  }

  lemma GetRulesStable(h: Handler, p: int)
    ensures WithKey(GetRules(h), Priority, p) == WithKey(h.rules, Priority, p)
  {
    SortDescStable(h.rules, Priority, p);
  }

  // ---------------------------------------------------------------------
  // Settings, the URL gate and detection
  // ---------------------------------------------------------------------

  /** A value Python can put in a set: anything but a list or a dict. */
  predicate Hashable(j: Json)
  {
    !j.JList? && !j.JObj?
  }

  /** Python `set(value)` for a value delivered by the settings: a list
      gives its elements (a list or dict among them is unhashable and
      raises), a string its one-character strings, a dictionary its keys;
      any other value raises, which the notifier swallows. Python merges
      `1` and `True` into one element; here they stay two, which no answer
      of the URL gate can tell apart. */
  function DomainSet(value: Json): (r: Option<set<Json>>)
    ensures value.JList? ==> (r.Some? <==> forall i :: 0 <= i < |value.items| ==> Hashable(value.items[i]))
    ensures value.JList? && r.Some? ==> forall e :: e in r.value <==> e in value.items
    ensures value.JObj? ==> r.Some? && forall e :: e in r.value <==> (e.JStr? && e.s in value.fields)
    ensures value.JStr? ==> r.Some? && forall e :: e in r.value ==> e.JStr? && |e.s| == 1 && e.s[0] in value.s
    ensures value.JStr? && r.Some? ==> forall i :: 0 <= i < |value.s| ==> JStr([value.s[i]]) in r.value
    ensures value.JNull? || value.JBool? || value.JInt? || value.JReal? ==> r.None?
  {
    match value
    case JList(xs) =>
      if forall i :: 0 <= i < |xs| ==> Hashable(xs[i]) then Some(set x | x in xs) else None
    case JStr(s) => Some(set c | c in s :: JStr([c]))
    case JObj(m) => Some(set k | k in m :: JStr(k))
    case _ => None
  }

  /** `on_settings_changed`: only the "interruption" section's `enabled`,
      `whitelist` and `blacklist` keys affect the handler; a value `set()`
      refuses leaves the list as it was. */
  function OnSettingsChanged(h: Handler, section: string, key: string, value: Json): (h': Handler)
    ensures h'.rules == h.rules && h'.hasPluginManager == h.hasPluginManager
    ensures section != "interruption" ==> h' == h
    ensures section == "interruption" && key == "enabled" ==> h' == h.(enabled := Truthy(value))
    ensures section == "interruption" && key == "whitelist" && value.JList? ==>
      if forall i :: 0 <= i < |value.items| ==> Hashable(value.items[i])
      then forall e :: e in h'.whitelist <==> e in value.items
      else h'.whitelist == h.whitelist
    ensures section == "interruption" && key == "blacklist" && value.JList? ==>
      if forall i :: 0 <= i < |value.items| ==> Hashable(value.items[i])
      then forall e :: e in h'.blacklist <==> e in value.items
      else h'.blacklist == h.blacklist
    ensures section == "interruption" && key == "whitelist" && value.JObj? ==>
      forall e :: e in h'.whitelist <==> (e.JStr? && e.s in value.fields)
    ensures !(value.JList? || value.JStr? || value.JObj?) ==> h'.whitelist == h.whitelist && h'.blacklist == h.blacklist
    ensures section == "interruption" && key == "whitelist" ==>
      h'.whitelist == (match DomainSet(value) case Some(w) => w case None => h.whitelist)
    ensures section == "interruption" && key == "blacklist" ==>
      h'.blacklist == (match DomainSet(value) case Some(b) => b case None => h.blacklist)
    ensures key != "whitelist" ==> h'.whitelist == h.whitelist
    ensures key != "blacklist" ==> h'.blacklist == h.blacklist
    ensures key != "enabled" ==> h'.enabled == h.enabled
  {
    if section != "interruption" then h
    else if key == "enabled" then h.(enabled := Truthy(value))
    else if key == "whitelist" then
      (match DomainSet(value) case Some(w) => h.(whitelist := w) case None => h)
    else if key == "blacklist" then
      (match DomainSet(value) case Some(b) => h.(blacklist := b) case None => h)
    else h
  }

  /** One notification from the settings manager. */
  datatype SettingChange = SettingChange(section: string, key: string, value: Json)

  /** The handler after a sequence of notifications, in order. */
  function ApplyChanges(h: Handler, changes: seq<SettingChange>): (h': Handler)
    ensures h'.rules == h.rules && h'.hasPluginManager == h.hasPluginManager
  {
    if |changes| == 0 then h
    else
      var c := changes[|changes| - 1];
      OnSettingsChanged(ApplyChanges(h, changes[..|changes| - 1]), c.section, c.key, c.value)
  }

  /** The set built from the last value of the "interruption" section's
      `key` that `set()` accepted, if any. */
  function LastAccepted(changes: seq<SettingChange>, key: string): (r: Option<set<Json>>)
    ensures r.Some? ==> exists i :: 0 <= i < |changes| && changes[i].section == "interruption"
                                    && changes[i].key == key && DomainSet(changes[i].value) == r
  {
    if |changes| == 0 then None
    else
      var c := changes[|changes| - 1];
      if c.section == "interruption" && c.key == key && DomainSet(c.value).Some? then DomainSet(c.value)
      else
        var init := changes[..|changes| - 1];
        assert forall i :: 0 <= i < |init| ==> init[i] == changes[i];
        LastAccepted(init, key)
  }

  /** The last `enabled` value of the "interruption" section, if any. */
  function LastEnabled(changes: seq<SettingChange>): (r: Option<Json>)
  {
    if |changes| == 0 then None
    else
      var c := changes[|changes| - 1];
      if c.section == "interruption" && c.key == "enabled" then Some(c.value)
      else LastEnabled(changes[..|changes| - 1])
  }

  /** After any sequence of notifications, each domain list is the set of
      the last value `set()` accepted for it (the list it started with when
      there is none), and `enabled` is the truth of the last `enabled`
      value. */
  lemma {:induction false} ChangesFollowLastAccepted(h: Handler, changes: seq<SettingChange>)
    ensures ApplyChanges(h, changes).whitelist ==
      (match LastAccepted(changes, "whitelist") case Some(w) => w case None => h.whitelist)
    ensures ApplyChanges(h, changes).blacklist ==
      (match LastAccepted(changes, "blacklist") case Some(b) => b case None => h.blacklist)
    ensures ApplyChanges(h, changes).enabled ==
      (match LastEnabled(changes) case Some(v) => Truthy(v) case None => h.enabled)
  {
    if |changes| > 0 {
      ChangesFollowLastAccepted(h, changes[..|changes| - 1]);
    }
  }

  /** The meaning of `is_url_allowed` for domain lists of strings: a
      blacklisted host is refused; with an empty whitelist every other host
      is allowed; otherwise the host must be whitelisted. */
  predicate UrlAllowed(whitelist: set<string>, blacklist: set<string>, host: string)
  {
    && (forall b :: b in blacklist ==> !EntryMatches(b, host))
    && (whitelist == {} || exists w :: w in whitelist && EntryMatches(w, host))
  }

  /** Some string entry of `entries` matches `host`. */
  predicate Names(entries: set<Json>, host: string)
  {
    exists e :: e in entries && e.JStr? && EntryMatches(e.s, host)
  }

  predicate AllStrings(entries: set<Json>)
  {
    forall e :: e in entries ==> e.JStr?
  }

  /** The string entries of a domain list. */
  function Strings(entries: set<Json>): (r: set<string>)
    ensures forall s :: s in r <==> JStr(s) in entries
  {
    set e | e in entries && e.JStr? :: e.s
  }

  /** `is_url_allowed`. The scan compares each entry with the host and
      then calls `.startswith` on it, which raises for an entry that is not
      a string; the error path allows the page. So a non-string on the
      blacklist lets through every host the blacklist does not name, and a
      non-string on the whitelist lets through every host the blacklist
      does not refuse. When the blacklist both names the host and holds a
      non-string, which one the scan meets first is up to the set's
      iteration order; this definition takes the name to come first. */
  function IsUrlAllowed(h: Handler, host: string): (allowed: bool)
    ensures Names(h.blacklist, host) ==> !allowed
    ensures !Names(h.blacklist, host) && !AllStrings(h.blacklist) ==> allowed
    ensures !Names(h.blacklist, host) && AllStrings(h.blacklist) ==>
      (allowed <==> h.whitelist == {} || !AllStrings(h.whitelist) || Names(h.whitelist, host))
  {
    if Names(h.blacklist, host) then false
    else if !AllStrings(h.blacklist) then true
    else h.whitelist == {} || !AllStrings(h.whitelist) || Names(h.whitelist, host)
  }

  /** With lists of strings only, the gate is the blacklist-then-whitelist
      rule above. */
  lemma UrlGateOnStrings(h: Handler, host: string)
    requires AllStrings(h.whitelist) && AllStrings(h.blacklist)
    ensures IsUrlAllowed(h, host) == UrlAllowed(Strings(h.whitelist), Strings(h.blacklist), host)
  {
    var wl, bl := Strings(h.whitelist), Strings(h.blacklist);
    if Names(h.blacklist, host) {
      var e :| e in h.blacklist && e.JStr? && EntryMatches(e.s, host);
      assert e.s in bl;
    } else {
      forall b | b in bl ensures !EntryMatches(b, host) {
        assert JStr(b) in h.blacklist;
      }
      if h.whitelist != {} {
        var e :| e in h.whitelist;
        assert e.s in wl;
      }
      if Names(h.whitelist, host) {
        var e :| e in h.whitelist && e.JStr? && EntryMatches(e.s, host);
        assert e.s in wl;
      }
      if exists w :: w in wl && EntryMatches(w, host) {
        var w :| w in wl && EntryMatches(w, host);
        assert JStr(w) in h.whitelist;
      }
    }
  }

  /** `is_url_allowed` as its loops run, over the sets in whatever order
      Python iterates them: it agrees with `IsUrlAllowed` except where the
      blacklist both names the host and holds a non-string. */
  method ScanUrlGate(h: Handler, host: string) returns (allowed: bool)
    ensures Names(h.blacklist, host) && AllStrings(h.blacklist) ==> !allowed
    ensures !Names(h.blacklist, host) ==> allowed == IsUrlAllowed(h, host)
  {
    var rest := h.blacklist;
    while rest != {}
      invariant rest <= h.blacklist
      invariant forall b :: b in h.blacklist - rest ==> b.JStr? && !EntryMatches(b.s, host)
      decreases |rest|
    {
      var b :| b in rest;
      if !b.JStr? {
        return true;
      }
      if EntryMatches(b.s, host) {
        return false;
      }
      rest := rest - {b};
    }
    assert h.blacklist - rest == h.blacklist;
    if h.whitelist == {} {
      return true;
    }
    rest := h.whitelist;
    while rest != {}
      invariant rest <= h.whitelist
      invariant forall w :: w in h.whitelist - rest ==> w.JStr? && !EntryMatches(w.s, host)
      decreases |rest|
    {
      var w :| w in rest;
      if !w.JStr? || EntryMatches(w.s, host) {
        return true;
      }
      rest := rest - {w};
    }
    assert h.whitelist - rest == h.whitelist;
    return false;
  }

  /** The blacklist overrides the whitelist. */
  lemma BlacklistWins(whitelist: set<string>, blacklist: set<string>, host: string, b: string)
    requires b in blacklist && EntryMatches(b, host)
    ensures !UrlAllowed(whitelist, blacklist, host)
  {
  }

  /** A number on the whitelist lets every host through that the
      blacklist does not name. */
  lemma NonStringWhitelistEntryAllows()
    ensures IsUrlAllowed(Handler(true, {JStr("a.com"), JInt(5)}, {}, [], false), "b.com")
  {
    assert JInt(5) in {JStr("a.com"), JInt(5)};
  }

  datatype Detection = Detected | NotDetected | DetectionError

  /** The page as the handler sees it: its host (`urlparse(page.url).netloc`),
      element probes by selector, and the outcome of the screenshot-based
      template or OCR recognition a rule asks for. */
  datatype Page = Page(host: string, probe: string -> Probe, recognise: InterruptionRule -> Detection)

  /** The detection step of `check_interruption` for one rule. */
  function Detect(h: Handler, page: Page, r: InterruptionRule): (d: Detection)
    ensures (r.pattern.patternType != "selector" && r.pattern.patternType != "template"
             && r.pattern.patternType != "ocr") ==> d == NotDetected
    ensures r.pattern.patternType == "selector" && !Truthy(GetOrNull(r.pattern.patternData, "selector"))
            ==> d == NotDetected
    ensures r.pattern.patternType == "selector" && d == Detected ==>
      GetOrNull(r.pattern.patternData, "selector").JStr? &&
      var sel := GetOrNull(r.pattern.patternData, "selector").s;
      page.probe(sel) == Shown
      || (page.probe(sel) == Hidden && !Truthy(GetOrDefault(r.pattern.patternData, "visible_only", JBool(true))))
    ensures (r.pattern.patternType == "template" || r.pattern.patternType == "ocr") && !h.hasPluginManager
            ==> d == NotDetected
  {
    var data := r.pattern.patternData;
    if r.pattern.patternType == "selector" then
      var sel := GetOrNull(data, "selector");
      if !Truthy(sel) then NotDetected
      else if !sel.JStr? then DetectionError
      else
        var visibleOnly := Truthy(GetOrDefault(data, "visible_only", JBool(true)));
        match page.probe(sel.s)
        case Shown => Detected
        case Hidden => if visibleOnly then NotDetected else Detected
        case Missing => NotDetected
        case ProbeError => DetectionError
    else if r.pattern.patternType == "template" then
      if !h.hasPluginManager || !Truthy(GetOrNull(data, "template_path")) then NotDetected
      else page.recognise(r)
    else if r.pattern.patternType == "ocr" then
      if !h.hasPluginManager || !Truthy(GetOrDefault(data, "text_patterns", JList([]))) then NotDetected
      else page.recognise(r)
    else NotDetected
  }

  /** A rule takes part in the scan only when it and its pattern are
      enabled and its pattern applies to the page's host. */
  predicate Eligible(r: InterruptionRule, host: string)
  {
    r.enabled && r.pattern.enabled && MatchesDomain(r.pattern, host)
  }

  predicate Fires(h: Handler, page: Page, r: InterruptionRule)
  {
    Eligible(r, page.host) && Detect(h, page, r) == Detected
  }

  /** The position of the first rule in `order` that fires. */
  function FirstFiring(h: Handler, page: Page, order: seq<InterruptionRule>): (r: Option<nat>)
    ensures r.None? <==> forall i :: 0 <= i < |order| ==> !Fires(h, page, order[i])
    ensures r.Some? ==> r.value < |order| && Fires(h, page, order[r.value])
    ensures r.Some? ==> forall j :: 0 <= j < r.value ==> !Fires(h, page, order[j])
  {
    if |order| == 0 then None
    else if Fires(h, page, order[0]) then Some(0)
    else
      assert forall k :: 1 <= k < |order| ==> order[k] == order[1..][k - 1];
      match FirstFiring(h, page, order[1..])
      case None => None
      case Some(k) => Some(k + 1)
  }

  /** A rule the loop reaches whose detection raised. */
  predicate Raised(h: Handler, page: Page, r: InterruptionRule)
  {
    Eligible(r, page.host) && Detect(h, page, r) == DetectionError
  }

  /** The rule loop of `check_interruption` over `order`, updating `rules`:
      it stops at the first rule that fires and returns it triggered. */
  function Scan(h: Handler, page: Page, now: string, order: seq<InterruptionRule>,
                rules: seq<InterruptionRule>): (res: (Option<InterruptionRule>, seq<InterruptionRule>))
    requires UniqueIds(rules)
    requires forall r :: r in order ==> r.ruleId in Ids(rules)
    ensures UniqueIds(res.1) && Ids(res.1) == Ids(rules)
    ensures res.0 == (match FirstFiring(h, page, order)
                      case None => None
                      case Some(i) => Some(Triggered(order[i], now)))
    ensures res.0.Some? ==> GetRule(res.1, res.0.value.ruleId) == res.0
    decreases |order|
  {
    if |order| == 0 then (None, rules)
    else
      var r := order[0];
      assert forall x :: x in order[1..] ==> x in order;
      if Fires(h, page, r) then
        var t := Triggered(r, now);
        (Some(t), Put(rules, t))
      else
        FirstFiringStep(h, page, order);
        Scan(h, page, now, order[1..], AfterMiss(h, page, now, r, rules))
  }

  /** The store after the loop passes `r` without firing: a rule whose
      detection raised is marked failed. */
  function AfterMiss(h: Handler, page: Page, now: string, r: InterruptionRule,
                     rules: seq<InterruptionRule>): (rules': seq<InterruptionRule>)
    requires UniqueIds(rules) && r.ruleId in Ids(rules)
    ensures UniqueIds(rules') && Ids(rules') == Ids(rules)
  {
    if Raised(h, page, r) then Put(rules, DetectionFailed(r, now)) else rules
  }

  /** Past a first rule that does not fire, the first firing rule is the
      tail's. */
  lemma FirstFiringStep(h: Handler, page: Page, order: seq<InterruptionRule>)
    requires |order| > 0 && !Fires(h, page, order[0])
    ensures FirstFiring(h, page, order).Some? <==> FirstFiring(h, page, order[1..]).Some?
    ensures FirstFiring(h, page, order).Some? ==>
      order[FirstFiring(h, page, order).value] == order[1..][FirstFiring(h, page, order[1..]).value]
  {
    assert forall k :: 1 <= k < |order| ==> order[k] == order[1..][k - 1];
  }

  /** How far the rule loop gets: the position of the hit, or the whole
      order when nothing fires. */
  function Reach(h: Handler, page: Page, order: seq<InterruptionRule>): (n: nat)
    ensures n <= |order|
    ensures forall j :: 0 <= j < n ==> !Fires(h, page, order[j])
    ensures n < |order| <==> FirstFiring(h, page, order) == Some(n)
  {
    match FirstFiring(h, page, order)
    case None => |order|
    case Some(i) => i
  }

  /** The ids the rule loop writes: the hit's, and those of the rules
      before it whose detection raised. */
  ghost predicate Touched(h: Handler, page: Page, order: seq<InterruptionRule>, id: string)
  {
    var n := Reach(h, page, order);
    (exists j :: 0 <= j < n && order[j].ruleId == id && Raised(h, page, order[j]))
    || (n < |order| && order[n].ruleId == id)
  }

  lemma ReachTail(h: Handler, page: Page, order: seq<InterruptionRule>)
    requires |order| > 0 && !Fires(h, page, order[0])
    ensures Reach(h, page, order) == Reach(h, page, order[1..]) + 1
  {
  }

  /** The rule loop writes nothing but the hit and the failures it counts:
      every other id keeps its rule, and (ids in `order` being distinct)
      each rule before the hit whose detection raised is stored with its
      failure counted. */
  lemma {:induction false} ScanFrame(h: Handler, page: Page, now: string, order: seq<InterruptionRule>,
                                     rules: seq<InterruptionRule>)
    requires UniqueIds(rules)
    requires forall r :: r in order ==> r.ruleId in Ids(rules)
    ensures forall id :: !Touched(h, page, order, id) ==>
      GetRule(Scan(h, page, now, order, rules).1, id) == GetRule(rules, id)
    ensures UniqueIds(order) ==>
      forall j :: 0 <= j < Reach(h, page, order) && Raised(h, page, order[j]) ==>
        GetRule(Scan(h, page, now, order, rules).1, order[j].ruleId) == Some(DetectionFailed(order[j], now))
    decreases |order|
  {
    if |order| == 0 {
    } else {
      var r := order[0];
      var tail := order[1..];
      assert forall x :: x in tail ==> x in order;
      assert forall k :: 0 <= k < |tail| ==> tail[k] == order[k + 1];
      if Fires(h, page, r) {
        assert Reach(h, page, order) == 0;
      } else {
        ReachTail(h, page, order);
        var rules' := if Raised(h, page, r) then Put(rules, DetectionFailed(r, now)) else rules;
        assert Scan(h, page, now, order, rules) == Scan(h, page, now, tail, rules');
        ScanFrame(h, page, now, tail, rules');
        ScanFrameStep(h, page, now, order, rules, rules');
      }
    }
  }

  lemma ScanFrameStep(h: Handler, page: Page, now: string, order: seq<InterruptionRule>,
                      rules: seq<InterruptionRule>, rules': seq<InterruptionRule>)
    requires UniqueIds(rules) && UniqueIds(rules') && |order| > 0 && !Fires(h, page, order[0])
    requires Reach(h, page, order) == Reach(h, page, order[1..]) + 1
    requires forall k :: 0 <= k < |order[1..]| ==> order[1..][k] == order[k + 1]
    requires rules' == if Raised(h, page, order[0]) then Put(rules, DetectionFailed(order[0], now)) else rules
    requires forall r :: r in order[1..] ==> r.ruleId in Ids(rules')
    requires forall id :: !Touched(h, page, order[1..], id) ==>
      GetRule(Scan(h, page, now, order[1..], rules').1, id) == GetRule(rules', id)
    requires UniqueIds(order[1..]) ==>
      forall j :: 0 <= j < Reach(h, page, order[1..]) && Raised(h, page, order[1..][j]) ==>
        GetRule(Scan(h, page, now, order[1..], rules').1, order[1..][j].ruleId) == Some(DetectionFailed(order[1..][j], now))
    ensures forall id :: !Touched(h, page, order, id) ==>
      GetRule(Scan(h, page, now, order[1..], rules').1, id) == GetRule(rules, id)
    ensures UniqueIds(order) ==>
      forall j :: 0 <= j < Reach(h, page, order) && Raised(h, page, order[j]) ==>
        GetRule(Scan(h, page, now, order[1..], rules').1, order[j].ruleId) == Some(DetectionFailed(order[j], now))
  {
    var tail := order[1..];
    var out := Scan(h, page, now, tail, rules').1;
    forall id | !Touched(h, page, order, id)
      ensures GetRule(out, id) == GetRule(rules, id)
    {
      forall j | 0 <= j < Reach(h, page, tail) && tail[j].ruleId == id
        ensures !Raised(h, page, tail[j])
      {
        assert order[j + 1] == tail[j];
      }
      assert !Touched(h, page, tail, id);
      assert Raised(h, page, order[0]) ==> order[0].ruleId != id;
    }
    if UniqueIds(order) {
      assert UniqueIds(tail);
      forall j | 0 <= j < Reach(h, page, order) && Raised(h, page, order[j])
        ensures GetRule(out, order[j].ruleId) == Some(DetectionFailed(order[j], now))
      {
        if j > 0 {
          assert order[j] == tail[j - 1];
        } else {
          FirstIdUntouched(h, page, order);
        }
      }
    }
  }

  /** With distinct ids, the first rule's id is not written again further on. */
  lemma FirstIdUntouched(h: Handler, page: Page, order: seq<InterruptionRule>)
    requires UniqueIds(order) && |order| > 0 && !Fires(h, page, order[0])
    requires Reach(h, page, order) == Reach(h, page, order[1..]) + 1
    ensures !Touched(h, page, order[1..], order[0].ruleId)
  {
    var tail := order[1..];
    forall j | 0 <= j < |tail|
      ensures tail[j].ruleId != order[0].ruleId
    {
      assert tail[j] == order[j + 1];
    }
  }

  /** `check_interruption`: with the handler enabled, a page present and its
      URL allowed, the rules are scanned in `get_rules` order and the first
      one that fires is returned with its trigger and success counted;
      rules whose detection raised have a failure counted on the way. */
  function CheckInterruption(h: Handler, page: Option<Page>, now: string): (res: (Option<InterruptionRule>, Handler))
    requires Valid(h)
    ensures Valid(res.1) && Ids(res.1.rules) == Ids(h.rules)
    ensures res.1 == h.(rules := res.1.rules)
    ensures !h.enabled || page.None? || !IsUrlAllowed(h, page.value.host)
            ==> res == (None, h)
    ensures h.enabled && page.Some? && IsUrlAllowed(h, page.value.host) ==>
      forall id :: !Touched(h, page.value, GetRules(h), id) ==> GetRule(res.1.rules, id) == GetRule(h.rules, id)
    ensures h.enabled && page.Some? && IsUrlAllowed(h, page.value.host) ==>
      forall j :: 0 <= j < Reach(h, page.value, GetRules(h)) && Raised(h, page.value, GetRules(h)[j]) ==>
        GetRule(res.1.rules, GetRules(h)[j].ruleId) == Some(DetectionFailed(GetRules(h)[j], now))
    ensures res.0.Some? ==> (exists i :: (0 <= i < |GetRules(h)| && Fires(h, page.value, GetRules(h)[i])
      && (forall j :: 0 <= j < i ==> !Fires(h, page.value, GetRules(h)[j]))
      && res.0.value == Triggered(GetRules(h)[i], now)))
    ensures res.0.Some? ==> GetRule(res.1.rules, res.0.value.ruleId) == res.0
    ensures res.0.Some? ==> res.0.value.enabled && res.0.value.pattern.enabled
                            && MatchesDomain(res.0.value.pattern, page.value.host)
    ensures res.0.Some? ==> exists r :: r in h.rules && res.0.value == Triggered(r, now)
    ensures res.0.None? && h.enabled && page.Some? && IsUrlAllowed(h, page.value.host)
            ==> forall r :: r in h.rules ==> !Fires(h, page.value, r)
    ensures res.0.Some? ==> forall r :: r in h.rules && Fires(h, page.value, r) ==> r.priority <= res.0.value.priority
  {
    if !h.enabled || page.None? || !IsUrlAllowed(h, page.value.host) then (None, h)
    else
      var order := GetRules(h);
      RulesInOrderAreStored(h, order);
      var res := Scan(h, page.value, now, order, h.rules);
      PermutedIdsUnique(order, h.rules);
      ScanFrame(h, page.value, now, order, h.rules);
      FiringRulesInOrder(h, page.value, order);
      match FirstFiring(h, page.value, order)
      case None =>
        (None, h.(rules := res.1))
      case Some(i) =>
        HighestPriorityFires(h, page.value, now, order, i);
        HitIsStoredAndEligible(h, page.value, order, i);
        (res.0, h.(rules := res.1))
  }

  lemma HitIsStoredAndEligible(h: Handler, page: Page, order: seq<InterruptionRule>, i: nat)
    requires order == GetRules(h)
    requires FirstFiring(h, page, order) == Some(i)
    ensures order[i] in h.rules
    ensures order[i].enabled && order[i].pattern.enabled && MatchesDomain(order[i].pattern, page.host)
  {
    assert order[i] in multiset(order);
  }

  lemma RulesInOrderAreStored(h: Handler, order: seq<InterruptionRule>)
    requires order == GetRules(h)
    ensures forall r :: r in order ==> r.ruleId in Ids(h.rules)
  {
    forall r | r in order ensures r.ruleId in Ids(h.rules) {
      assert r in multiset(order);
    }
  }

  lemma FiringRulesInOrder(h: Handler, page: Page, order: seq<InterruptionRule>)
    requires order == GetRules(h)
    ensures forall r :: r in h.rules && Fires(h, page, r) ==> exists k :: 0 <= k < |order| && order[k] == r
  {
    forall r | r in h.rules && Fires(h, page, r)
      ensures exists k :: 0 <= k < |order| && order[k] == r
    {
      assert r in multiset(h.rules);
      assert r in order;
    }
  }

  lemma HighestPriorityFires(h: Handler, page: Page, now: string, order: seq<InterruptionRule>, i: nat)
    requires order == GetRules(h)
    requires FirstFiring(h, page, order) == Some(i)
    ensures forall r :: r in h.rules && Fires(h, page, r) ==> r.priority <= order[i].priority
  {
    FiringRulesInOrder(h, page, order);
    forall r | r in h.rules && Fires(h, page, r)
      ensures r.priority <= order[i].priority
    {
      var k :| 0 <= k < |order| && order[k] == r;
      assert i <= k;
      if i < k {
        assert Priority(order[i]) >= Priority(order[k]);
      }
    }
  }

  // ---------------------------------------------------------------------
  // Handling
  // ---------------------------------------------------------------------

  /** Whether `handle_interruption` attempts an action at all: a click
      needs a selector, a keypress a key, a script a script, a fill a
      selector and a non-`None` value, a plugin call a plugin manager and
      its type, name and action; a wait always runs; other types are
      ignored. */
  predicate Attempted(a: InterruptionAction, hasPluginManager: bool)
  {
    var d := a.actionData;
    if a.actionType == "click" then Truthy(GetOrNull(d, "selector"))
    else if a.actionType == "wait" then true
    else if a.actionType == "keypress" then Truthy(GetOrNull(d, "key"))
    else if a.actionType == "js" then Truthy(GetOrNull(d, "script"))
    else if a.actionType == "fill" then Truthy(GetOrNull(d, "selector")) && GetOrNull(d, "value") != JNull
    else if a.actionType == "plugin" then
      hasPluginManager && Truthy(GetOrNull(d, "plugin_type")) && Truthy(GetOrNull(d, "plugin_name"))
      && Truthy(GetOrNull(d, "action"))
    else false
  }

  /** The actions `handle_interruption` attempts, in order. */
  function AttemptedActions(acts: seq<InterruptionAction>, hasPluginManager: bool): (r: seq<InterruptionAction>)
    ensures forall a :: a in r <==> a in acts && Attempted(a, hasPluginManager)
    ensures |r| <= |acts|
  {
    if |acts| == 0 then []
    else
      var init := AttemptedActions(acts[..|acts| - 1], hasPluginManager);
      assert forall a :: a in acts <==> a in acts[..|acts| - 1] || a == acts[|acts| - 1];
      init + (if Attempted(acts[|acts| - 1], hasPluginManager) then [acts[|acts| - 1]] else [])
  }

  /** `handle_interruption`: runs the rule's actions in order and reports
      whether at least one of them completed. `completes(a)` says whether
      the browser call for `a` returned normally (for a plugin action:
      returned a value other than `None`). */
  method HandleInterruption(h: Handler, pagePresent: bool, rule: Option<InterruptionRule>,
                            completes: InterruptionAction -> bool)
    returns (success: bool, attempted: seq<InterruptionAction>)
    ensures !h.enabled || !pagePresent || rule.None? ==> !success && attempted == []
    ensures h.enabled && pagePresent && rule.Some? ==>
      attempted == AttemptedActions(rule.value.actions, h.hasPluginManager)
    ensures success <==> exists i :: 0 <= i < |attempted| && completes(attempted[i])
  {
    if !h.enabled || !pagePresent || rule.None? {
      return false, [];
    }
    attempted := AttemptedActions(rule.value.actions, h.hasPluginManager);
    success := AnyCompletes(attempted, completes);
  }

  /** Runs the attempted actions in order, noting whether any completed. */
  method AnyCompletes(attempted: seq<InterruptionAction>, completes: InterruptionAction -> bool)
    returns (success: bool)
    ensures success <==> exists i :: 0 <= i < |attempted| && completes(attempted[i])
  {
    success := false;
    var i := 0;
    while i < |attempted|
      invariant 0 <= i <= |attempted|
      invariant success <==> exists k :: 0 <= k < i && completes(attempted[k])
    {
      success := success || completes(attempted[i]);
      i := i + 1;
    }
  }

  /** `check_and_handle`: detection followed by handling of the rule found. */
  method CheckAndHandle(h: Handler, page: Option<Page>, now: string, completes: InterruptionAction -> bool)
    returns (handled: bool, h': Handler)
    requires Valid(h)
    ensures Valid(h')
    ensures !h.enabled || page.None? ==> !handled && h' == h
    ensures handled <==> (CheckInterruption(h, page, now).0.Some? &&
      exists a :: a in CheckInterruption(h, page, now).0.value.actions
               && Attempted(a, h.hasPluginManager) && completes(a))
    ensures h' == CheckInterruption(h, page, now).1
  {
    var res := CheckInterruption(h, page, now);
    h' := res.1;
    if !h.enabled || page.None? {
      return false, h';
    }
    if res.0.None? {
      return false, h';
    }
    var attempted;
    handled, attempted := HandleInterruption(h', true, res.0, completes);
    CompletedActionWasAttempted(res.0.value.actions, h.hasPluginManager, completes);
  }

  /** Some attempted action completes exactly when some action of the rule
      that `handle_interruption` attempts completes. */
  lemma CompletedActionWasAttempted(acts: seq<InterruptionAction>, hasPluginManager: bool,
                                    completes: InterruptionAction -> bool)
    ensures (exists k :: 0 <= k < |AttemptedActions(acts, hasPluginManager)|
                         && completes(AttemptedActions(acts, hasPluginManager)[k]))
        <==> (exists a :: a in acts && Attempted(a, hasPluginManager) && completes(a))
  {
    var attempted := AttemptedActions(acts, hasPluginManager);
    if k :| 0 <= k < |attempted| && completes(attempted[k]) {
      AttemptedCompletes(acts, hasPluginManager, completes, k);
    }
    if a :| a in acts && Attempted(a, hasPluginManager) && completes(a) {
      CompletedIsAttempted(acts, hasPluginManager, completes, a);
    }
  }

  lemma AttemptedCompletes(acts: seq<InterruptionAction>, hasPluginManager: bool,
                           completes: InterruptionAction -> bool, k: nat)
    requires k < |AttemptedActions(acts, hasPluginManager)|
    requires completes(AttemptedActions(acts, hasPluginManager)[k])
    ensures exists a :: a in acts && Attempted(a, hasPluginManager) && completes(a)
  {
    var a := AttemptedActions(acts, hasPluginManager)[k];
    assert a in AttemptedActions(acts, hasPluginManager);
  }

  lemma CompletedIsAttempted(acts: seq<InterruptionAction>, hasPluginManager: bool,
                             completes: InterruptionAction -> bool, a: InterruptionAction)
    requires a in acts && Attempted(a, hasPluginManager) && completes(a)
    ensures exists k :: 0 <= k < |AttemptedActions(acts, hasPluginManager)|
                        && completes(AttemptedActions(acts, hasPluginManager)[k])
  {
    var attempted := AttemptedActions(acts, hasPluginManager);
    assert a in attempted;
    var k :| 0 <= k < |attempted| && attempted[k] == a;
    assert completes(attempted[k]);
  }

  // ---------------------------------------------------------------------
  // Registering and learning
  // ---------------------------------------------------------------------

  /** `register_pattern`: wraps the pattern in a fresh, enabled rule with no
      actions and priority 0, stored under `rule_<pattern id>`. */
  function RegisterPattern(h: Handler, p: InterruptionPattern): (res: (string, Handler))
    requires Valid(h)
    ensures Valid(res.1)
    ensures res.0 == "rule_" + p.patternId
    ensures GetRule(res.1.rules, res.0).Some?
    ensures var r := GetRule(res.1.rules, res.0).value;
      r.pattern == p && r.actions == [] && r.priority == 0 && r.enabled && r.triggerCount == 0
      && r.name == "Rule for " + p.name
    ensures forall id :: id != res.0 ==> GetRule(res.1.rules, id) == GetRule(h.rules, id)
  {
    var id := "rule_" + p.patternId;
    var rule := NewRule(id, "Rule for " + p.name, p, [], 0, true,
                        "Auto-generated rule for pattern: " + p.name);
    (id, AddRule(h, rule))
  }

  /** The selectors `learn_interruption` considers: those of recorded click
      and fill actions whose selector is truthy. */
  function SelectorCandidates(acts: seq<Object>): (r: seq<Json>)
    ensures forall j :: 0 <= j < |r| ==> Truthy(r[j])
    ensures |r| <= |acts|
  {
    if |acts| == 0 then []
    else
      var init := SelectorCandidates(acts[..|acts| - 1]);
      var a := acts[|acts| - 1];
      var kind := GetOrNull(a, "type");
      var sel := GetOrNull(a, "selector");
      init + (if (kind == JStr("click") || kind == JStr("fill")) && Truthy(sel) then [sel] else [])
  }

  /** Python `max(cands, key=len)`: the index of the first longest
      candidate, or `None` when some candidate has no length (`len` raises). */
  function FirstLongest(cands: seq<Json>): (r: Option<nat>)
    requires |cands| > 0
    ensures r.Some? <==> forall j :: 0 <= j < |cands| ==> Len(cands[j]).Some?
    ensures r.Some? ==> (r.value < |cands|
      && (forall j :: 0 <= j < |cands| ==> Len(cands[j]).value <= Len(cands[r.value]).value)
      && (forall j :: 0 <= j < r.value ==> Len(cands[j]).value < Len(cands[r.value]).value))
  {
    if exists j :: 0 <= j < |cands| && Len(cands[j]).None? then None
    else Some(LongestFrom(cands, 1, 0))
  }

  function LongestFrom(cands: seq<Json>, i: nat, best: nat): (r: nat)
    requires best < i <= |cands|
    requires forall j :: 0 <= j < |cands| ==> Len(cands[j]).Some?
    requires forall j :: 0 <= j < i ==> Len(cands[j]).value <= Len(cands[best]).value
    requires forall j :: 0 <= j < best ==> Len(cands[j]).value < Len(cands[best]).value
    ensures r < |cands|
    ensures forall j :: 0 <= j < |cands| ==> Len(cands[j]).value <= Len(cands[r]).value
    ensures forall j :: 0 <= j < r ==> Len(cands[j]).value < Len(cands[r]).value
    decreases |cands| - i
  {
    if i == |cands| then best
    else if Len(cands[i]).value > Len(cands[best]).value then LongestFrom(cands, i + 1, i)
    else LongestFrom(cands, i + 1, best)
  }

  predicate LearnableKind(kind: Json)
  {
    kind == JStr("click") || kind == JStr("fill") || kind == JStr("keypress") || kind == JStr("wait")
  }

  /** The action `learn_interruption` derives from the `i`-th recording. */
  function LearnedAction(patternId: string, i: nat, a: Object): (r: Option<InterruptionAction>)
    ensures r.Some? <==> LearnableKind(GetOrNull(a, "type"))
    ensures r.Some? ==> (JStr(r.value.actionType) == GetOrNull(a, "type")
      && r.value.actionId == "action_" + patternId + "_" + NatToString(i))
  {
    var kind := GetOrNull(a, "type");
    var id := "action_" + patternId + "_" + NatToString(i);
    if kind == JStr("click") then
      var sel := GetOrNull(a, "selector");
      Some(InterruptionAction(id, "Click " + Show(sel), "click",
                              map["selector" := sel, "force" := JBool(false)], "클릭 액션"))
    else if kind == JStr("fill") then
      var sel := GetOrNull(a, "selector");
      Some(InterruptionAction(id, "Fill " + Show(sel), "fill",
                              map["selector" := sel, "value" := GetOrDefault(a, "value", JStr(""))],
                              "입력 필드 채우기 액션"))
    else if kind == JStr("keypress") then
      Some(InterruptionAction(id, "Press " + Show(GetOrNull(a, "key")), "keypress",
                              map["key" := GetOrDefault(a, "key", JStr(""))], "키 입력 액션"))
    else if kind == JStr("wait") then
      Some(InterruptionAction(id, "Wait " + Show(GetOrNull(a, "timeout")) + "s", "wait",
                              map["timeout" := GetOrDefault(a, "timeout", JInt(1))], "대기 액션"))
    else None
  }

  function CountLearnable(acts: seq<Object>): nat
  {
    if |acts| == 0 then 0
    else CountLearnable(acts[..|acts| - 1]) + (if LearnableKind(GetOrNull(acts[|acts| - 1], "type")) then 1 else 0)
  }

  /** The learned form of every recorded action, `None` where learning
      skips the entry. */
  function LearnedOptions(patternId: string, acts: seq<Object>): (o: seq<Option<InterruptionAction>>)
    ensures |o| == |acts|
    ensures forall i :: 0 <= i < |acts| ==> o[i] == LearnedAction(patternId, i, acts[i])
  {
    seq(|acts|, i requires 0 <= i < |acts| => LearnedAction(patternId, i, acts[i]))
  }

  function CountSome<T>(xs: seq<Option<T>>): nat
  {
    if |xs| == 0 then 0
    else CountSome(xs[..|xs| - 1]) + (if xs[|xs| - 1].Some? then 1 else 0)
  }

  /** The present values of `xs`, in order: the value at position `i`
      lands in the slot counting the present values before it. */
  function Somes<T>(xs: seq<Option<T>>): (r: seq<T>)
    ensures |r| == CountSome(xs)
    ensures forall k :: 0 <= k < |r| ==> Some(r[k]) in xs
    ensures forall i :: 0 <= i < |xs| && xs[i].Some? ==>
      CountSome(xs[..i]) < |r| && r[CountSome(xs[..i])] == xs[i].value
  {
    if |xs| == 0 then []
    else
      var last := |xs| - 1;
      var init := Somes(xs[..last]);
      assert xs[..last][..last] == xs[..last];
      assert forall i :: 0 <= i < last ==> xs[..last][..i] == xs[..i] && xs[..last][i] == xs[i];
      if xs[last].Some? then init + [xs[last].value] else init
  }

  /** The learned options of a prefix are counted as the learnable kinds. */
  lemma {:induction false} LearnedCount(patternId: string, acts: seq<Object>, n: nat)
    requires n <= |acts|
    ensures CountSome(LearnedOptions(patternId, acts)[..n]) == CountLearnable(acts[..n])
    decreases n
  {
    if n > 0 {
      LearnedCount(patternId, acts, n - 1);
      var o := LearnedOptions(patternId, acts);
      assert o[..n][..n - 1] == o[..n - 1];
      assert acts[..n][..n - 1] == acts[..n - 1];
    }
  }

  /** The actions learned from a recording, in recording order; the `i`-th
      recorded action's id ends in `_i`. */
  function LearnedActions(patternId: string, acts: seq<Object>): (r: seq<InterruptionAction>)
    ensures |r| == CountLearnable(acts)
    ensures forall k :: 0 <= k < |r| ==> LearnableKind(JStr(r[k].actionType))
    ensures forall i :: 0 <= i < |acts| && LearnableKind(GetOrNull(acts[i], "type")) ==>
      CountLearnable(acts[..i]) < |r| && r[CountLearnable(acts[..i])] == LearnedAction(patternId, i, acts[i]).value
  {
    var o := LearnedOptions(patternId, acts);
    LearnedCount(patternId, acts, |acts|);
    assert acts[..|acts|] == acts && o[..|acts|] == o;
    assert forall n :: 0 <= n <= |acts| ==> CountSome(o[..n]) == CountLearnable(acts[..n]) by {
      forall n | 0 <= n <= |acts| { LearnedCount(patternId, acts, n); }
    }
    Somes(o)
  }

  /** Learning from a recording extended by one action appends that
      action's learned form, if it has one, and keeps the rest. */
  lemma {:induction false} LearnedActionsExtend(patternId: string, acts: seq<Object>, a: Object)
    ensures LearnedActions(patternId, acts + [a])
         == LearnedActions(patternId, acts)
            + (if LearnableKind(GetOrNull(a, "type")) then [LearnedAction(patternId, |acts|, a).value] else [])
  {
    var o := LearnedOptions(patternId, acts);
    var o' := LearnedOptions(patternId, acts + [a]);
    assert o'[..|acts|] == o;
    assert o'[|acts|] == LearnedAction(patternId, |acts|, a);
  }

  /** The rule `learn_interruption` stores at time `now`: an enabled
      selector pattern for `best` on `host`, replayed by `actions` at
      priority 10. */
  function LearnedRule(now: nat, best: Json, host: string, actions: seq<InterruptionAction>)
    : (r: InterruptionRule)
    ensures r.ruleId == "rule_pattern_" + NatToString(now)
    ensures r.priority == 10 && r.enabled && r.actions == actions
    ensures r.pattern.patternType == "selector" && r.pattern.enabled && r.pattern.domains == [host]
    ensures r.pattern.patternData == map["selector" := best, "visible_only" := JBool(true)]
  {
    var patternId := "pattern_" + NatToString(now);
    var pattern := NewPattern(patternId, "Learned Pattern " + patternId, "selector",
                              map["selector" := best, "visible_only" := JBool(true)],
                              [host], "학습된 패턴: " + Show(best), true);
    var ruleId := "rule_" + patternId;
    assert ruleId == "rule_pattern_" + NatToString(now);
    NewRule(ruleId, "Learned Rule " + patternId, pattern, actions, 10, true, "학습된 규칙: " + host)
  }

  /** `learn_interruption`: from a recorded action sequence, a rule with
      priority 10 whose selector pattern uses the longest recorded click or
      fill selector on the page's host, and whose actions replay the
      recorded clicks, fills, key presses and waits. `now` is
      `int(time.time())`; `Json` values that are not dictionaries make
      `action.get` raise, which aborts learning. */
  function LearnInterruption(h: Handler, host: Option<string>, now: nat, recorded: seq<Json>)
    : (res: (Option<string>, Handler))
    requires Valid(h)
    ensures Valid(res.1)
    ensures host.None? ==> res == (None, h)
    ensures res.0.None? ==> res.1 == h
    ensures res.0.Some? ==> res.0.value == "rule_pattern_" + NatToString(now)
    ensures res.0.Some? ==> forall i :: 0 <= i < |recorded| ==> recorded[i].JObj?
    ensures res.0.Some? ==>
      var objs := seq(|recorded|, i requires 0 <= i < |recorded| && recorded[i].JObj? => recorded[i].fields);
      var cands := SelectorCandidates(objs);
      |cands| > 0 && FirstLongest(cands).Some? &&
      GetRule(res.1.rules, res.0.value).Some? &&
      var r := GetRule(res.1.rules, res.0.value).value;
      r.priority == 10 && r.enabled && r.pattern.patternType == "selector" && r.pattern.enabled
      && r.pattern.domains == [host.value]
      && r.pattern.patternData == map["selector" := cands[FirstLongest(cands).value], "visible_only" := JBool(true)]
      && |r.actions| == CountLearnable(objs)
      && r.actions == LearnedActions("pattern_" + NatToString(now), objs)
    ensures res.0.Some? ==> forall id :: id != res.0.value ==> GetRule(res.1.rules, id) == GetRule(h.rules, id)
  {
    if host.None? then (None, h)
    else if exists i :: 0 <= i < |recorded| && !recorded[i].JObj? then (None, h)
    else
      var objs := seq(|recorded|, i requires 0 <= i < |recorded| && recorded[i].JObj? => recorded[i].fields);
      var cands := SelectorCandidates(objs);
      if |cands| == 0 then (None, h)
      else
        match FirstLongest(cands)
        case None => (None, h)
        case Some(b) =>
          var rule := LearnedRule(now, cands[b], host.value, LearnedActions("pattern_" + NatToString(now), objs));
          (Some(rule.ruleId), AddRule(h, rule))
  }

  // ---------------------------------------------------------------------
  // Import
  // ---------------------------------------------------------------------

  /** The renaming step of `import_rules` as written: a clashing id gets
      the suffix `_<now>` once, whether or not that id is free. */
  function ImportAsWritten(rules: seq<InterruptionRule>, docs: seq<Json>, now: nat): (res: (nat, seq<InterruptionRule>))
    requires UniqueIds(rules)
    ensures UniqueIds(res.1)
    ensures Ids(rules) <= Ids(res.1)
    ensures res.0 <= |docs|
    decreases |docs|
  {
    if |docs| == 0 then (0, rules)
    else
      match RuleFromJson(docs[0])
      case Failure(_) => ImportAsWritten(rules, docs[1..], now)
      case Success(r) =>
        var r' := if r.ruleId in Ids(rules) then r.(ruleId := r.ruleId + "_" + NatToString(now)) else r;
        var rest := ImportAsWritten(Put(rules, r'), docs[1..], now);
        (rest.0 + 1, rest.1)
  }

  /** Importing the same stored rule twice in one second, when its id is
      already taken, reports two imported rules but adds only one: the
      second copy is renamed to the id the first copy received and
      overwrites it. */
  lemma ImportAsWrittenOverwrites(rules: seq<InterruptionRule>, r: InterruptionRule, now: nat)
    requires UniqueIds(rules) && RuleOk(r) && r.ruleId in Ids(rules)
    requires r.ruleId + "_" + NatToString(now) !in Ids(rules)
    ensures var res := ImportAsWritten(rules, [JObj(RuleToDict(r)), JObj(RuleToDict(r))], now);
      res.0 == 2 && |Ids(res.1)| == |Ids(rules)| + 1
  {
    RuleRoundTrip(r);
    var docs := [JObj(RuleToDict(r)), JObj(RuleToDict(r))];
    var renamed := r.(ruleId := r.ruleId + "_" + NatToString(now));
    var once := Put(rules, renamed);
    assert Ids(once) == Ids(rules) + {renamed.ruleId};
    assert docs[1..] == [JObj(RuleToDict(r))];
    assert r.ruleId in Ids(once);
    var twice := Put(once, renamed);
    assert ImportAsWritten(once, docs[1..], now) == (1, twice) by {
      assert docs[1..][1..] == [];
    }
    assert Ids(twice) == Ids(once);
  }

  /** An id not yet in `ids`: `cand`, or `cand` extended by `_<suffix>` as
      often as needed. */
  function FreshId(ids: set<string>, cand: string, suffix: string): (r: string)
    ensures r !in ids
    ensures cand !in ids ==> r == cand
    ensures StartsWith(r, cand)
    decreases |AtLeastAsLong(ids, |cand|)|
  {
    if cand !in ids then cand
    else
      var next := cand + "_" + suffix;
      var longer := AtLeastAsLong(ids, |next|);
      var atLeast := AtLeastAsLong(ids, |cand|);
      assert longer < atLeast by {
        assert longer <= atLeast;
        assert cand in atLeast - longer;
      }
      assert |longer| < |atLeast| by {
        assert longer <= atLeast && longer != atLeast;
        SubsetSmaller(longer, atLeast);
      }
      var r := FreshId(ids, next, suffix);
      assert r[..|cand|] == r[..|next|][..|cand|];
      r
  }

  lemma {:induction false} SubsetNotLarger(a: set<string>, b: set<string>)
    requires a <= b
    ensures |a| <= |b|
    decreases |b|
  {
    if b != {} {
      var x :| x in b;
      SubsetNotLarger(a - {x}, b - {x});
      assert a == (a - {x}) + (if x in a then {x} else {});
    }
  }

  function AtLeastAsLong(ids: set<string>, n: nat): set<string>
  {
    set x | x in ids && |x| >= n
  }

  lemma SubsetSmaller(a: set<string>, b: set<string>)
    requires a < b
    ensures |a| < |b|
  {
    assert !(b <= a);
    var x :| x in b && x !in a;
    var c := b - {x};
    assert a <= c;
    assert b == c + {x};
    assert |b| == |c| + 1;
    SubsetNotLarger(a, c);
  }

  /** `import_rules` with the clash renaming repeated until the id is free,
      so that no imported rule overwrites another. */
  function ImportFresh(rules: seq<InterruptionRule>, docs: seq<Json>, now: nat): (res: (nat, seq<InterruptionRule>))
    requires UniqueIds(rules)
    ensures UniqueIds(res.1)
    ensures forall id :: id in Ids(rules) ==> GetRule(res.1, id) == GetRule(rules, id)
    ensures |res.1| == |rules| + res.0
    ensures res.0 == CountDecodable(docs)
    decreases |docs|
  {
    if |docs| == 0 then (0, rules)
    else
      match RuleFromJson(docs[0])
      case Failure(_) => ImportFresh(rules, docs[1..], now)
      case Success(r) =>
        var r' := r.(ruleId := FreshId(Ids(rules), r.ruleId, NatToString(now)));
        var next := Put(rules, r');
        var rest := ImportFresh(next, docs[1..], now);
        (rest.0 + 1, rest.1)
  }

  function CountDecodable(docs: seq<Json>): nat
  {
    if |docs| == 0 then 0
    else (if RuleFromJson(docs[0]).Success? then 1 else 0) + CountDecodable(docs[1..])
  }

  /** `import_rules`: `docs` is the loaded file, `None` when it cannot be
      read or parsed (the count is then 0). Each decodable rule is added
      under a fresh id; the count is the number of rules added. */
  function ImportRules(h: Handler, docs: Option<seq<Json>>, now: nat): (res: (nat, Handler))
    requires Valid(h)
    ensures Valid(res.1)
    ensures docs.None? ==> res == (0, h)
    ensures docs.Some? ==> res.0 == CountDecodable(docs.value)
    ensures |res.1.rules| == |h.rules| + res.0
    ensures forall id :: id in Ids(h.rules) ==> GetRule(res.1.rules, id) == GetRule(h.rules, id)
  {
    match docs
    case None => (0, h)
    case Some(ds) =>
      var res := ImportFresh(h.rules, ds, now);
      (res.0, h.(rules := res.1))
  }

  /** `to_dict` of each rule, in order. */
  function RuleDocs(rules: seq<InterruptionRule>): (docs: seq<Json>)
    ensures |docs| == |rules|
    ensures forall i :: 0 <= i < |rules| ==> docs[i] == JObj(RuleToDict(rules[i]))
  {
    seq(|rules|, i requires 0 <= i < |rules| => JObj(RuleToDict(rules[i])))
  }

  /** `export_rules` / `save_rules` write `to_dict` of every rule in store
      order; loading such a list back reproduces the store. */
  function ExportRules(h: Handler): (docs: seq<Json>)
    ensures |docs| == |h.rules|
    ensures forall i :: 0 <= i < |h.rules| ==> docs[i] == JObj(RuleToDict(h.rules[i]))
  {
    RuleDocs(h.rules)
  }

  /** The rules decoded from the longest prefix of `docs` whose entries
      all decode; the entry after it, if any, does not. */
  function Decoded(docs: seq<Json>): (rs: seq<InterruptionRule>)
    ensures |rs| <= |docs|
    ensures forall i :: 0 <= i < |rs| ==> RuleFromJson(docs[i]) == Success(rs[i])
    ensures |rs| < |docs| ==> RuleFromJson(docs[|rs|]).Failure?
  {
    if |docs| == 0 then []
    else
      match RuleFromJson(docs[0])
      case Failure(_) => []
      case Success(r) => [r] + Decoded(docs[1..])
  }

  /** No later rule in `rs` carries the id of `rs[i]`. */
  predicate LastOfId(rs: seq<InterruptionRule>, i: nat)
    requires i < |rs|
  {
    forall j :: i < j < |rs| ==> rs[j].ruleId != rs[i].ruleId
  }

  /** Every id none of `rs` carries looks up the same in both stores. */
  ghost predicate Untouched(before: seq<InterruptionRule>, after: seq<InterruptionRule>, rs: seq<InterruptionRule>)
  {
    forall id :: (forall i :: 0 <= i < |rs| ==> rs[i].ruleId != id) ==> GetRule(after, id) == GetRule(before, id)
  }

  /** Each id of `rs` looks up the last rule of `rs` carrying it. */
  ghost predicate StoresLast(after: seq<InterruptionRule>, rs: seq<InterruptionRule>)
  {
    forall i :: 0 <= i < |rs| && LastOfId(rs, i) ==> GetRule(after, rs[i].ruleId) == Some(rs[i])
  }

  /** The loop of `load_rules`: each entry is decoded and stored by id,
      until one fails to decode. The flag says whether every entry was
      stored. A later rule with an id already stored replaces the earlier
      one; an id none of the stored entries carries keeps its rule. */
  function LoadInto(rules: seq<InterruptionRule>, docs: seq<Json>): (res: (bool, seq<InterruptionRule>))
    requires UniqueIds(rules)
    ensures UniqueIds(res.1)
    ensures res.0 <==> |Decoded(docs)| == |docs|
    ensures Untouched(rules, res.1, Decoded(docs))
    ensures StoresLast(res.1, Decoded(docs))
    decreases |docs|
  {
    if |docs| == 0 then (true, rules)
    else
      match RuleFromJson(docs[0])
      case Failure(_) => (false, rules)
      case Success(r) =>
        var res := LoadInto(Put(rules, r), docs[1..]);
        assert Decoded(docs) == [r] + Decoded(docs[1..]);
        LoadIntoStep(rules, Put(rules, r), res.1, r, Decoded(docs[1..]));
        res
  }

  /** Storing `r` and then the rules `tail` is storing `[r] + tail`. */
  lemma LoadIntoStep(rules: seq<InterruptionRule>, mid: seq<InterruptionRule>, after: seq<InterruptionRule>,
                     r: InterruptionRule, tail: seq<InterruptionRule>)
    requires UniqueIds(rules) && mid == Put(rules, r)
    requires Untouched(mid, after, tail) && StoresLast(after, tail)
    ensures Untouched(rules, after, [r] + tail) && StoresLast(after, [r] + tail)
  {
    if LastOfId([r] + tail, 0) {
      StoresFirst(mid, after, r, tail);
    }
    StoresLastStep(after, r, tail);
    UntouchedStep(rules, mid, after, r, tail);
  }

  lemma StoresLastStep(after: seq<InterruptionRule>, r: InterruptionRule, tail: seq<InterruptionRule>)
    requires StoresLast(after, tail)
    requires LastOfId([r] + tail, 0) ==> GetRule(after, r.ruleId) == Some(r)
    ensures StoresLast(after, [r] + tail)
  {
    var rs := [r] + tail;
    forall i | 0 <= i < |rs| && LastOfId(rs, i)
      ensures GetRule(after, rs[i].ruleId) == Some(rs[i])
    {
      if i > 0 {
        StoresLater(after, r, tail, i);
      }
    }
  }

  lemma StoresFirst(mid: seq<InterruptionRule>, after: seq<InterruptionRule>,
                    r: InterruptionRule, tail: seq<InterruptionRule>)
    requires GetRule(mid, r.ruleId) == Some(r)
    requires Untouched(mid, after, tail)
    requires LastOfId([r] + tail, 0)
    ensures GetRule(after, r.ruleId) == Some(r)
  {
    var rs := [r] + tail;
    forall k | 0 <= k < |tail| ensures tail[k].ruleId != r.ruleId {
      assert tail[k] == rs[k + 1];
    }
    assert GetRule(after, r.ruleId) == GetRule(mid, r.ruleId);
  }

  lemma StoresLater(after: seq<InterruptionRule>, r: InterruptionRule, tail: seq<InterruptionRule>, i: nat)
    requires StoresLast(after, tail)
    requires 0 < i <= |tail| && LastOfId([r] + tail, i)
    ensures GetRule(after, tail[i - 1].ruleId) == Some(tail[i - 1])
  {
    var rs := [r] + tail;
    forall j | i - 1 < j < |tail| ensures tail[j].ruleId != tail[i - 1].ruleId {
      assert tail[j] == rs[j + 1];
      assert tail[i - 1] == rs[i];
    }
    assert LastOfId(tail, i - 1);
  }

  lemma UntouchedStep(rules: seq<InterruptionRule>, mid: seq<InterruptionRule>, after: seq<InterruptionRule>,
                      r: InterruptionRule, tail: seq<InterruptionRule>)
    requires UniqueIds(rules) && mid == Put(rules, r)
    requires Untouched(mid, after, tail)
    ensures Untouched(rules, after, [r] + tail)
  {
    var rs := [r] + tail;
    forall id | (forall i :: 0 <= i < |rs| ==> rs[i].ruleId != id)
      ensures GetRule(after, id) == GetRule(rules, id)
    {
      assert rs[0] == r;
      forall k | 0 <= k < |tail| ensures tail[k].ruleId != id {
        assert tail[k] == rs[k + 1];
      }
      assert GetRule(after, id) == GetRule(mid, id);
    }
  }

  /** `load_rules`. `file` is the decoded content of the rules file, `None`
      when the file is missing or unreadable; then nothing changes. Otherwise
      the store is emptied and the content iterated: a list gives its
      entries, a dictionary its keys and a string its characters, none of
      which decodes, and any other value is not iterable. The result is
      true exactly when every entry was stored; on a failure the store keeps
      the rules stored before the bad entry. */
  function LoadRules(h: Handler, file: Option<Json>): (res: (bool, Handler))
    requires Valid(h)
    ensures Valid(res.1)
    ensures res.1 == h.(rules := res.1.rules)
    ensures file.None? ==> res == (false, h)
    ensures file.Some? && file.value.JList? ==>
      res.1.rules == LoadInto([], file.value.items).1 && (res.0 <==> |Decoded(file.value.items)| == |file.value.items|)
    ensures file.Some? && file.value.JObj? ==> res == (file.value.fields == map[], h.(rules := []))
    ensures file.Some? && file.value.JStr? ==> res == (file.value.s == "", h.(rules := []))
    ensures file.Some? && !(file.value.JList? || file.value.JObj? || file.value.JStr?) ==> res == (false, h.(rules := []))
  {
    match file
    case None => (false, h)
    case Some(JList(items)) =>
      var res := LoadInto([], items);
      (res.0, h.(rules := res.1))
    case Some(JObj(m)) => (m == map[], h.(rules := []))
    case Some(JStr(s)) => (s == "", h.(rules := []))
    case Some(_) => (false, h.(rules := []))
  }

  /** Loading a well-formed store's dictionaries after the rules `stored`
      appends them in order. */
  lemma {:induction false} LoadRuleDocs(stored: seq<InterruptionRule>, rules: seq<InterruptionRule>)
    requires UniqueIds(stored) && UniqueIds(stored + rules)
    requires forall i :: 0 <= i < |rules| ==> RuleOk(rules[i])
    ensures LoadInto(stored, RuleDocs(rules)) == (true, stored + rules)
    decreases |rules|
  {
    if |rules| == 0 {
      assert stored + rules == stored;
    } else {
      LoadDocsStep(stored, rules);
      LoadRuleDocs(stored + [rules[0]], rules[1..]);
    }
  }

  /** One turn of the load loop over saved rules: the first rule is
      appended, and what remains is the same situation one rule further. */
  lemma LoadDocsStep(stored: seq<InterruptionRule>, rules: seq<InterruptionRule>)
    requires |rules| > 0 && UniqueIds(stored) && UniqueIds(stored + rules)
    requires forall i :: 0 <= i < |rules| ==> RuleOk(rules[i])
    ensures UniqueIds(stored + [rules[0]]) && UniqueIds(stored + [rules[0]] + rules[1..])
    ensures stored + [rules[0]] + rules[1..] == stored + rules
    ensures forall i :: 0 <= i < |rules[1..]| ==> RuleOk(rules[1..][i])
    ensures LoadInto(stored, RuleDocs(rules)) == LoadInto(stored + [rules[0]], RuleDocs(rules[1..]))
  {
    NextIdFresh(stored, rules);
    LoadFirstDoc(stored, rules);
    ConsConcat(stored, rules);
  }

  lemma LoadFirstDoc(stored: seq<InterruptionRule>, rules: seq<InterruptionRule>)
    requires |rules| > 0 && UniqueIds(stored) && RuleOk(rules[0])
    requires Put(stored, rules[0]) == stored + [rules[0]]
    ensures LoadInto(stored, RuleDocs(rules)) == LoadInto(stored + [rules[0]], RuleDocs(rules[1..]))
  {
    FirstDocDecodes(rules);
    RuleDocsTail(rules);
    LoadIntoUnfold(stored, RuleDocs(rules), rules[0]);
  }

  lemma ConsConcat(stored: seq<InterruptionRule>, rules: seq<InterruptionRule>)
    requires |rules| > 0
    ensures stored + [rules[0]] + rules[1..] == stored + rules
  {
  }

  lemma RuleDocsTail(rules: seq<InterruptionRule>)
    requires |rules| > 0
    ensures RuleDocs(rules)[1..] == RuleDocs(rules[1..])
  {
  }

  lemma LoadIntoUnfold(stored: seq<InterruptionRule>, docs: seq<Json>, r: InterruptionRule)
    requires UniqueIds(stored) && |docs| > 0 && RuleFromJson(docs[0]) == Success(r)
    ensures LoadInto(stored, docs) == LoadInto(Put(stored, r), docs[1..])
  {
  }

  lemma FirstDocDecodes(rules: seq<InterruptionRule>)
    requires |rules| > 0 && RuleOk(rules[0])
    ensures RuleFromJson(RuleDocs(rules)[0]) == Success(rules[0])
  {
    RuleRoundTrip(rules[0]);
  }

  /** The first of the rules after a prefix has an id the prefix lacks. */
  lemma NextIdFresh(stored: seq<InterruptionRule>, rules: seq<InterruptionRule>)
    requires |rules| > 0 && UniqueIds(stored) && UniqueIds(stored + rules)
    ensures rules[0].ruleId !in Ids(stored)
    ensures UniqueIds(stored + [rules[0]])
    ensures Put(stored, rules[0]) == stored + [rules[0]]
  {
    var all := stored + rules;
    assert all[|stored|] == rules[0];
    forall x | x in stored ensures x.ruleId != rules[0].ruleId {
      var i :| 0 <= i < |stored| && stored[i] == x;
      assert all[i] == x;
    }
    assert forall i :: 0 <= i <= |stored| ==> (stored + [rules[0]])[i] == all[i];
  }

  /** Saving the store and loading the saved list gives back the store. */
  lemma {:induction false} ExportLoadRoundTrip(h: Handler, h0: Handler)
    requires Valid(h) && Valid(h0)
    requires forall r :: r in h.rules ==> RuleOk(r)
    ensures LoadRules(h0, Some(JList(ExportRules(h)))) == (true, h0.(rules := h.rules))
  {
    assert [] + h.rules == h.rules;
    LoadRuleDocs([], h.rules);
  }
}

=== FILE: json.dfy ===
/** JSON-like values, the shape of the dictionaries the core stores, loads
    and passes around. Objects are Dafny maps: key order is not part of a
    value (where Python's insertion order matters, the modules that need it
    keep an explicit sequence instead). */
module Json {
  import opened Wrappers
  import opened PyStr

  datatype Json =
    | JNull
    | JBool(b: bool)
    | JInt(i: int)
    | JReal(r: real)
    | JStr(s: string)
    | JList(items: seq<Json>)
    | JObj(fields: map<string, Json>)

  type Object = map<string, Json>

  /** Python truthiness: `None`, `False`, zero, and empty strings, lists
      and dicts are false; everything else is true. */
  predicate Truthy(j: Json)
  {
    match j
    case JNull => false
    case JBool(b) => b
    case JInt(i) => i != 0
    case JReal(r) => r != 0.0
    case JStr(s) => s != []
    case JList(xs) => xs != []
    case JObj(m) => m != map[]
  }

  /** Python `str(v)` for the scalar values; containers and floats are
      rendered by a placeholder. */
  function Show(j: Json): string
  {
    match j
    case JNull => "None"
    case JBool(b) => if b then "True" else "False"
    case JInt(i) => IntToString(i)
    case JStr(s) => s
    case _ => "<value>"
  }

  /** Python `len(v)`: defined for strings, lists and dicts only. */
  function Len(j: Json): Option<nat>
  {
    match j
    case JStr(s) => Some(|s|)
    case JList(xs) => Some(|xs|)
    case JObj(m) => Some(|m|)
    case _ => None
  }

  /** `d.get(key)`, with a missing key read as `None`. */
  function GetOrNull(d: Object, key: string): Json
  {
    if key in d then d[key] else JNull
  }

  /** `d.get(key, default)` for a value of any type. */
  function GetOrDefault(d: Object, key: string, default: Json): Json
  {
    if key in d then d[key] else default
  }

  /** `None` is encoded as JSON `null`. */
  function OptStr(o: Option<string>): Json
  {
    match o
    case None => JNull
    case Some(s) => JStr(s)
  }

  /** `d[key]` for a required string field: a missing key is a `KeyError`,
      a value of another type is rejected. */
  function GetStr(d: Object, key: string): (r: Result<string>)
    ensures r.Success? <==> key in d && d[key].JStr?
    ensures r.Success? ==> d[key] == JStr(r.value)
  {
    if key !in d then Failure("KeyError: " + key)
    else if d[key].JStr? then Success(d[key].s)
    else Failure("not a string: " + key)
  }

  /** `d.get(key, default)` for a string field. */
  function GetStrOr(d: Object, key: string, default: string): (r: Result<string>)
    ensures key !in d ==> r == Success(default)
    ensures key in d ==> (r.Success? <==> d[key].JStr?)
    ensures key in d && r.Success? ==> d[key] == JStr(r.value)
  {
    if key !in d then Success(default)
    else if d[key].JStr? then Success(d[key].s)
    else Failure("not a string: " + key)
  }

  /** `d.get(key)` for a field that is a string or `None`. */
  function GetOptStr(d: Object, key: string): (r: Result<Option<string>>)
    ensures key !in d || d[key] == JNull ==> r == Success(None)
    ensures r.Success? && r.value.Some? ==> key in d && d[key] == JStr(r.value.value)
    ensures key in d && d[key].JStr? ==> r == Success(Some(d[key].s))
  {
    if key !in d || d[key] == JNull then Success(None)
    else if d[key].JStr? then Success(Some(d[key].s))
    else Failure("not a string: " + key)
  }

  /** `d.get(key, default)` for an integer field. */
  function GetIntOr(d: Object, key: string, default: int): (r: Result<int>)
    ensures key !in d ==> r == Success(default)
    ensures key in d ==> (r.Success? <==> d[key].JInt?)
    ensures key in d && r.Success? ==> d[key] == JInt(r.value)
  {
    if key !in d then Success(default)
    else if d[key].JInt? then Success(d[key].i)
    else Failure("not an integer: " + key)
  }

  /** `d.get(key, default)` for a number field read as a real: integers
      are accepted and converted, as Python arithmetic would. */
  function GetRealOr(d: Object, key: string, default: real): (r: Result<real>)
    ensures key !in d ==> r == Success(default)
    ensures key in d && d[key].JReal? ==> r == Success(d[key].r)
    ensures key in d && d[key].JInt? ==> r == Success(d[key].i as real)
    ensures r.Failure? ==> key in d && !d[key].JReal? && !d[key].JInt?
  {
    if key !in d then Success(default)
    else if d[key].JReal? then Success(d[key].r)
    else if d[key].JInt? then Success(d[key].i as real)
    else Failure("not a number: " + key)
  }

  /** `d.get(key, default)` for a boolean field. */
  function GetBoolOr(d: Object, key: string, default: bool): (r: Result<bool>)
    ensures key !in d ==> r == Success(default)
    ensures key in d ==> (r.Success? <==> d[key].JBool?)
    ensures key in d && r.Success? ==> d[key] == JBool(r.value)
  {
    if key !in d then Success(default)
    else if d[key].JBool? then Success(d[key].b)
    else Failure("not a boolean: " + key)
  }

  /** `d.get(key, {})` for a dictionary field. */
  function GetObjOr(d: Object, key: string): (r: Result<Object>)
    ensures key !in d ==> r == Success(map[])
    ensures key in d ==> (r.Success? <==> d[key].JObj?)
    ensures key in d && r.Success? ==> d[key] == JObj(r.value)
  {
    if key !in d then Success(map[])
    else if d[key].JObj? then Success(d[key].fields)
    else Failure("not an object: " + key)
  }

  /** `d.get(key, [])` for a list-of-strings field. */
  function GetStrListOr(d: Object, key: string): (r: Result<seq<string>>)
    ensures key !in d ==> r == Success([])
    ensures r.Success? && key in d ==> d[key] == JList(StrList(r.value))
  {
    if key !in d then Success([])
    else if d[key].JList? then StrsOf(d[key].items)
    else Failure("not a list: " + key)
  }

  function StrList(xs: seq<string>): (r: seq<Json>)
    ensures |r| == |xs|
    ensures forall i :: 0 <= i < |xs| ==> r[i] == JStr(xs[i])
  {
    seq(|xs|, i requires 0 <= i < |xs| => JStr(xs[i]))
  }

  /** The strings of a list all of whose elements are strings. */
  function StrsOf(items: seq<Json>): (r: Result<seq<string>>)
    ensures r.Success? <==> forall i :: 0 <= i < |items| ==> items[i].JStr?
    ensures r.Success? ==> items == StrList(r.value)
  {
    if |items| == 0 then Success([])
    else if !items[0].JStr? then Failure("not a string list")
    else
      match StrsOf(items[1..])
      case Failure(e) => Failure(e)
      case Success(rest) =>
        assert items == [items[0]] + items[1..];
        Success([items[0].s] + rest)
  }

  lemma {:induction false} StrsOfStrList(xs: seq<string>)
    ensures StrsOf(StrList(xs)) == Success(xs)
  {
    var r := StrsOf(StrList(xs));
    assert r.Success?;
    assert StrList(r.value) == StrList(xs);
    assert |r.value| == |xs|;
    forall i | 0 <= i < |xs|
      ensures r.value[i] == xs[i]
    {
      assert StrList(r.value)[i] == StrList(xs)[i];
    }
    assert r.value == xs;
  }
}

=== FILE: main_gui.dfy ===
/** The pure parts of the main window: turning an execution result into a
    workflow definition, the checks the workflow editor's "validate"
    button runs, and the settings dictionary assembled from the form's
    controls (their current values are parameters). */
module MainGui {
  import opened Wrappers
  import opened PyStr
  import opened Json
  import opened Seqs

  /* ---------- result-to-workflow conversion ---------- */

  /** The step ids whose type `_derive_step_type` knows. */
  const StepTypes: map<string, string> := map[
    "navigate" := "web_navigation",
    "handle_interruptions" := "interruption_handling",
    "find_search_box" := "element_recognition",
    "input_search_term" := "input_text",
    "submit_search" := "key_press",
    "wait_for_results" := "wait_for_load"]

  /** `_derive_step_type`: the listed type of a known id, "unknown" for any
      other. */
  function DeriveStepType(stepId: string): (r: string)
    ensures r == "unknown" <==> stepId !in StepTypes
    ensures stepId in StepTypes ==> r == StepTypes[stepId]
  {
    if stepId in StepTypes then StepTypes[stepId] else "unknown"
  }

  /** The values a generated step configuration keeps: strings, numbers,
      booleans and `None`. */
  predicate Scalar(j: Json)
  {
    !j.JList? && !j.JObj?
  }

  /** The scalar entries of a step's output. */
  function ScalarEntries(output: Object): (config: Object)
    ensures config.Keys <= output.Keys
    ensures forall k :: k in output ==> (k in config <==> Scalar(output[k]))
    ensures forall k :: k in config ==> config[k] == output[k] && Scalar(config[k])
  {
    map k | k in output && Scalar(output[k]) :: output[k]
  }

  /** One generated step: `step_data.get("output", {})` must be a
      dictionary, and so must the step data itself, or Python raises. */
  function ConvertStep(stepId: string, data: Json): (r: Result<Object>)
    ensures r.Success? <==> data.JObj? && (("output" in data.fields) ==> data.fields["output"].JObj?)
    ensures r.Success? ==>
      && r.value.Keys == {"id", "type", "config"}
      && r.value["id"] == JStr(stepId)
      && r.value["type"] == JStr(DeriveStepType(stepId))
      && r.value["config"] == JObj(ScalarEntries(if "output" in data.fields then data.fields["output"].fields else map[]))
  {
    if !data.JObj? then Failure("AttributeError: step data is not a dict")
    else
      var output := GetOrDefault(data.fields, "output", JObj(map[]));
      if !output.JObj? then Failure("AttributeError: output is not a dict")
      else Success(map["id" := JStr(stepId), "type" := JStr(DeriveStepType(stepId)), "config" := JObj(ScalarEntries(output.fields))])
  }

  /** The steps, one per result entry, in the entries' order. */
  function ConvertSteps(results: seq<(string, Json)>): (r: Result<seq<Json>>)
    ensures r.Success? <==> forall i :: 0 <= i < |results| ==> ConvertStep(results[i].0, results[i].1).Success?
    ensures r.Success? ==> |r.value| == |results|
    ensures r.Success? ==>
      forall i :: 0 <= i < |results| ==> r.value[i] == JObj(ConvertStep(results[i].0, results[i].1).value)
  {
    if |results| == 0 then Success([])
    else
      match ConvertStep(results[0].0, results[0].1)
      case Failure(e) => Failure(e)
      case Success(step) =>
        match ConvertSteps(results[1..])
        case Failure(e) =>
          assert forall i :: 1 <= i < |results| ==> results[i] == results[1..][i - 1];
          Failure(e)
        case Success(rest) =>
          assert forall i :: 1 <= i < |results| ==> results[i] == results[1..][i - 1];
          Success([JObj(step)] + rest)
  }

  /** A JSON value other than a dictionary. */
  type NonDict = j: Json | !j.JObj? witness JNull

  /** What `result_json.get("results", {})` yields: the default when the
      key is absent, a dictionary's entries in order, or some other value
      (which has no `.items()`). */
  datatype StepResults = NoResults | Entries(entries: seq<(string, Json)>) | NotADict(value: NonDict)

  /** The entries `.items()` walks, for the results it can walk. */
  function EntriesOf(rs: StepResults): seq<(string, Json)>
  {
    if rs.Entries? then rs.entries else []
  }

  /** An execution result: its `workflow_id`, its `results`, and how many
      other keys it has. */
  datatype RunResult = RunResult(workflowId: Option<Json>, results: StepResults, otherKeys: nat)

  predicate RunResultTruthy(r: RunResult)
  {
    r.workflowId.Some? || !r.results.NoResults? || r.otherKeys > 0
  }

  /** `convert_result_to_workflow`: `None` for an empty result; otherwise a
      workflow whose id and name default as in the source and which has
      one step per results entry, keyed by the entry's id. A `results`
      value that is not a dictionary makes `.items()` raise. */
  function ConvertResultToWorkflow(run: RunResult): (r: Result<Option<Object>>)
    ensures !RunResultTruthy(run) ==> r == Success(None)
    ensures run.results.NotADict? ==> r.Failure?
    ensures r.Success? && r.value.Some? ==>
      var w := r.value.value;
      && RunResultTruthy(run)
      && w.Keys == {"id", "name", "description", "steps"}
      && w["id"] == run.workflowId.GetOr(JStr("unknown_workflow"))
      && w["name"] == run.workflowId.GetOr(JStr("Unknown Workflow"))
      && w["steps"].JList?
      && |w["steps"].items| == |EntriesOf(run.results)|
      && forall i :: 0 <= i < |w["steps"].items| ==>
           && w["steps"].items[i].JObj?
           && "id" in w["steps"].items[i].fields
           && w["steps"].items[i].fields["id"] == JStr(EntriesOf(run.results)[i].0)
    ensures RunResultTruthy(run) && !run.results.NotADict? ==>
      (r.Success? <==> ConvertSteps(EntriesOf(run.results)).Success?)
  {
    if !RunResultTruthy(run) then Success(None)
    else if run.results.NotADict? then Failure("AttributeError: results has no items()")
    else
      match ConvertSteps(EntriesOf(run.results))
      case Failure(e) => Failure(e)
      case Success(steps) =>
        Success(Some(map[
          "id" := run.workflowId.GetOr(JStr("unknown_workflow")),
          "name" := run.workflowId.GetOr(JStr("Unknown Workflow")),
          "description" := JStr("Generated from execution result"),
          "steps" := JList(steps)]))
  }

  /* ---------- workflow validation ---------- */

  /** Python's `key in value` for a JSON value: dictionary keys, list
      elements, substrings; anything else raises. */
  function In(key: string, j: Json): (r: Result<bool>)
    ensures j.JObj? ==> r == Success(key in j.fields)
    ensures (j.JNull? || j.JBool? || j.JInt? || j.JReal?) <==> r.Failure?
  {
    match j
    case JObj(m) => Success(key in m)
    case JList(xs) => Success(JStr(key) in xs)
    case JStr(s) => Success(Contains(s, key))
    case _ => Failure("TypeError: argument is not iterable")
  }

  /** The outcome the validate button reports. */
  datatype Verdict =
    | EmptyInput
    | BadJson
    | MissingFields(fields: seq<string>)
    | NoSteps
    | StepErrors(errors: seq<string>)
    | Valid

  /** The messages for one step, numbered from 1. */
  function StepMessages(i: nat, step: Json): (r: Result<seq<string>>)
    ensures r.Success? <==> In("id", step).Success?
    ensures r.Success? ==> (r.value == [] <==> In("id", step).value && In("type", step).value)
    ensures r.Success? ==> |r.value| <= 2
  {
    match In("id", step)
    case Failure(e) => Failure(e)
    case Success(hasId) =>
      match In("type", step)
      case Failure(e) => Failure(e)
      case Success(hasType) =>
        var prefix := "단계 " + NatToString(i + 1);
        var idMsgs := if hasId then [] else [prefix + ": id 필드 없음"];
        var typeMsgs := if hasType then [] else [prefix + ": type 필드 없음"];
        Success(idMsgs + typeMsgs)
  }

  /** The messages for the steps from index `from` on. */
  function AllStepMessages(steps: seq<Json>, from: nat): (r: Result<seq<string>>)
    requires from <= |steps|
    ensures r.Success? <==> forall i :: from <= i < |steps| ==> In("id", steps[i]).Success?
    ensures r.Success? ==> (r.value == [] <==>
      forall i :: from <= i < |steps| ==> In("id", steps[i]).value && In("type", steps[i]).value)
    decreases |steps| - from
  {
    if from == |steps| then Success([])
    else
      match StepMessages(from, steps[from])
      case Failure(e) => Failure(e)
      case Success(msgs) =>
        match AllStepMessages(steps, from + 1)
        case Failure(e) => Failure(e)
        case Success(rest) => Success(msgs + rest)
  }

  /** `validate_workflow`'s checks, for the editor text (stripped) and a
      JSON parser; an exception other than a decoding error is a
      `Failure`. */
  function ValidateWorkflow(text: string, parse: string -> Option<Json>): (r: Result<Verdict>)
    ensures Strip(text) == "" ==> r == Success(EmptyInput)
    ensures Strip(text) != "" && parse(Strip(text)).None? ==> r == Success(BadJson)
    ensures r == Success(Valid) <==>
      && Strip(text) != "" && parse(Strip(text)).Some?
      && parse(Strip(text)).value.JObj?
      && "id" in parse(Strip(text)).value.fields && "steps" in parse(Strip(text)).value.fields
      && parse(Strip(text)).value.fields["steps"].JList?
      && |parse(Strip(text)).value.fields["steps"].items| > 0
      && AllStepMessages(parse(Strip(text)).value.fields["steps"].items, 0) == Success([])
    ensures r.Success? && r.value.MissingFields? ==>
      && r.value.fields != []
      && (forall f :: f in r.value.fields ==> f in ["id", "steps"])
      && (r.value.fields == ["id", "steps"] || |r.value.fields| == 1)
    ensures r.Success? && r.value.MissingFields? && parse(Strip(text)).Some? && parse(Strip(text)).value.JObj? ==>
      var w := parse(Strip(text)).value.fields;
      r.value.fields == (if "id" in w then [] else ["id"]) + (if "steps" in w then [] else ["steps"])
  {
    var s := Strip(text);
    if s == "" then Success(EmptyInput)
    else match parse(s)
      case None => Success(BadJson)
      case Some(w) =>
        match In("id", w)
        case Failure(e) => Failure(e)
        case Success(hasId) =>
          match In("steps", w)
          case Failure(e) => Failure(e)
          case Success(hasSteps) =>
            var missing := (if hasId then [] else ["id"]) + (if hasSteps then [] else ["steps"]);
            if missing != [] then Success(MissingFields(missing))
            else if !w.JObj? then Failure("TypeError: indices must be integers")
            else
              var steps := w.fields["steps"];
              if !steps.JList? || |steps.items| == 0 then Success(NoSteps)
              else
                match AllStepMessages(steps.items, 0)
                case Failure(e) => Failure(e)
                case Success(errors) => if errors != [] then Success(StepErrors(errors)) else Success(Valid)
  }

  /** A workflow generated from a result with at least one step passes
      the validator when its text parses back to it. */
  lemma ConvertedWorkflowValidates(run: RunResult, text: string, parse: string -> Option<Json>)
    requires ConvertResultToWorkflow(run).Success? && ConvertResultToWorkflow(run).value.Some?
    requires |EntriesOf(run.results)| > 0
    requires Strip(text) != "" && parse(Strip(text)) == Some(JObj(ConvertResultToWorkflow(run).value.value))
    ensures ValidateWorkflow(text, parse) == Success(Valid)
  {
    var w := ConvertResultToWorkflow(run).value.value;
    var steps := w["steps"].items;
    var conv := ConvertSteps(EntriesOf(run.results)).value;
    assert steps == conv;
    forall i | 0 <= i < |steps| ensures In("id", steps[i]) == Success(true) && In("type", steps[i]) == Success(true) {
      assert steps[i] == JObj(ConvertStep(EntriesOf(run.results)[i].0, EntriesOf(run.results)[i].1).value);
    }
  }

  /* ---------- settings from the form ---------- */

  /** `{0: names[0], 1: names[1], ...}.get(index, default)`: the option a
      combo box index selects. */
  function Choice(names: seq<string>, default: string, index: int): (r: string)
    ensures 0 <= index < |names| ==> r == names[index]
    ensures !(0 <= index < |names|) ==> r == default
  {
    if 0 <= index < |names| then names[index] else default
  }

  /** `mode_map.get(index, "balanced")` */
  function Mode(index: int): (m: string)
    ensures m in ["fast", "balanced", "accurate"]
    ensures m == "fast" <==> index == 0
    ensures m == "accurate" <==> index == 2
  {
    Choice(["fast", "balanced", "accurate"], "balanced", index)
  }

  /** `browser_type_map.get(index, "chromium")` */
  function BrowserType(index: int): (b: string)
    ensures b in ["edge", "chromium", "firefox"]
    ensures b == "edge" <==> index == 0
    ensures b == "firefox" <==> index == 2
  {
    Choice(["edge", "chromium", "firefox"], "chromium", index)
  }

  /** The position of a name in a list of names. */
  function IndexOf(names: seq<string>, x: string): (i: nat)
    requires x in names
    ensures i < |names| && names[i] == x
    ensures forall j :: 0 <= j < i ==> names[j] != x
  {
    if names[0] == x then 0 else 1 + IndexOf(names[1..], x)
  }


  /** The names whose box is checked, in the listed order. */
  function Checked(names: seq<string>, flags: seq<bool>): (r: seq<string>)
    requires |flags| == |names| && Distinct(names)
    ensures forall i :: 0 <= i < |names| ==> (names[i] in r <==> flags[i])
    ensures forall x :: x in r ==> x in names
    ensures forall i, j :: 0 <= i < j < |r| ==> IndexOf(names, r[i]) < IndexOf(names, r[j])
  {
    if |names| == 0 then []
    else
      var rest := Checked(names[1..], flags[1..]);
      assert Distinct(names[1..]) by {
        forall i, j | 0 <= i < j < |names[1..]|
          ensures names[1..][i] != names[1..][j]
        {
          assert names[1..][i] == names[i + 1] && names[1..][j] == names[j + 1];
        }
      }
      forall x | x in rest
        ensures x != names[0] && IndexOf(names, x) == 1 + IndexOf(names[1..], x)
      {
        var k := IndexOf(names[1..], x);
        assert names[k + 1] == x;
      }
      assert forall i :: 1 <= i < |names| ==> names[i] == names[1..][i - 1] && flags[i] == flags[1..][i - 1];
      if flags[0] then [names[0]] + rest else rest
  }

  const InterruptionTypes: seq<string> := ["cookies", "popups", "ads"]
  const RecognitionStrategies: seq<string> := ["selector", "template", "ocr", "aria"]

  /** Python's `int(x)` for a float: truncation toward zero. */
  function Truncate(x: real): (n: int)
    ensures x >= 0.0 ==> n as real <= x < n as real + 1.0
    ensures x < 0.0 ==> n as real - 1.0 < x <= n as real
  {
    if x >= 0.0 then x.Floor else -((-x).Floor)
  }

  /** The controls' values. A timeout field that does not parse as a
      number is `None`. */
  datatype Form = Form(
    modeIndex: int, browserIndex: int, headless: bool, autoClose: bool,
    navigationTimeout: Option<real>, elementTimeout: Option<real>,
    cookies: bool, popups: bool, ads: bool,
    selector: bool, template: bool, ocr: bool, aria: bool)

  /** The `browser_config` part of `get_current_settings`: the timeout is
      the navigation timeout (30 when the field does not parse) in whole
      milliseconds, truncated. */
  function BrowserConfig(f: Form): (c: Object)
    ensures c.Keys == {"browser_type", "headless", "auto_close", "timeout", "use_edge"}
    ensures c["browser_type"] == JStr(BrowserType(f.browserIndex))
    ensures c["use_edge"] == JBool(f.browserIndex == 0)
    ensures c["headless"] == JBool(f.headless) && c["auto_close"] == JBool(f.autoClose)
    ensures c["timeout"] == JInt(Truncate(f.navigationTimeout.GetOr(30.0) * 1000.0))
  {
    var browser := BrowserType(f.browserIndex);
    map[
      "browser_type" := JStr(browser),
      "headless" := JBool(f.headless),
      "auto_close" := JBool(f.autoClose),
      "timeout" := JInt(Truncate(f.navigationTimeout.GetOr(30.0) * 1000.0)),
      "use_edge" := JBool(browser == "edge")]
  }

  /** The `timeouts` part: navigation 30 and element 5 when their fields
      do not parse, and the action timeout half the element timeout. */
  function Timeouts(f: Form): (c: Object)
    ensures c.Keys == {"navigation", "element", "action"}
    ensures c["navigation"] == JReal(f.navigationTimeout.GetOr(30.0))
    ensures c["element"] == JReal(f.elementTimeout.GetOr(5.0))
    ensures c["action"].JReal? && c["action"].r * 2.0 == f.elementTimeout.GetOr(5.0)
  {
    var element := f.elementTimeout.GetOr(5.0);
    map["navigation" := JReal(f.navigationTimeout.GetOr(30.0)), "element" := JReal(element),
        "action" := JReal(element / 2.0)]
  }

  /** `get_current_settings` */
  function CurrentSettings(f: Form): (s: Object)
    ensures s.Keys == {"mode", "browser_config", "ignore_recognition_errors", "timeouts", "interruption_types", "recognition_strategies"}
    ensures s["mode"] == JStr(Mode(f.modeIndex))
    ensures s["ignore_recognition_errors"] == JBool(f.modeIndex == 0)
    ensures s["browser_config"] == JObj(BrowserConfig(f))
    ensures s["timeouts"] == JObj(Timeouts(f))
    ensures s["interruption_types"] == JList(StrList(Checked(InterruptionTypes, [f.cookies, f.popups, f.ads])))
    ensures s["recognition_strategies"] == JList(StrList(Checked(RecognitionStrategies, [f.selector, f.template, f.ocr, f.aria])))
  {
    var mode := Mode(f.modeIndex);
    var types := JList(StrList(Checked(InterruptionTypes, [f.cookies, f.popups, f.ads])));
    var strategies := JList(StrList(Checked(RecognitionStrategies, [f.selector, f.template, f.ocr, f.aria])));
    map[
      "mode" := JStr(mode),
      "browser_config" := JObj(BrowserConfig(f)),
      "ignore_recognition_errors" := JBool(mode == "fast"),
      "timeouts" := JObj(Timeouts(f)),
      "interruption_types" := types,
      "recognition_strategies" := strategies]
  }

  /** The index a stored option name stands for, or -1 for a value that is
      not one of the names. */
  function DecodeIndex(names: seq<string>, j: Json): (i: int)
    ensures -1 <= i < |names|
    ensures i >= 0 ==> j == JStr(names[i])
  {
    if j.JStr? && j.s in names then IndexOf(names, j.s) else -1
  }

  /** The settings give the form back: the mode and browser indices (an
      index outside the combo box reads back as the default, 1), each check
      box, and the timeouts that parsed. */
  lemma SettingsGiveFormBack(f: Form)
    ensures var s := CurrentSettings(f);
      && DecodeIndex(["fast", "balanced", "accurate"], s["mode"]) == (if 0 <= f.modeIndex < 3 then f.modeIndex else 1)
      && DecodeIndex(["edge", "chromium", "firefox"], s["browser_config"].fields["browser_type"])
         == (if 0 <= f.browserIndex < 3 then f.browserIndex else 1)
      && s["interruption_types"].JList? && s["recognition_strategies"].JList?
      && (JStr("cookies") in s["interruption_types"].items <==> f.cookies)
      && (JStr("popups") in s["interruption_types"].items <==> f.popups)
      && (JStr("ads") in s["interruption_types"].items <==> f.ads)
      && (JStr("selector") in s["recognition_strategies"].items <==> f.selector)
      && (JStr("template") in s["recognition_strategies"].items <==> f.template)
      && (JStr("ocr") in s["recognition_strategies"].items <==> f.ocr)
      && (JStr("aria") in s["recognition_strategies"].items <==> f.aria)
      && (f.navigationTimeout.Some? ==> s["timeouts"].fields["navigation"] == JReal(f.navigationTimeout.value))
      && (f.elementTimeout.Some? ==> s["timeouts"].fields["element"] == JReal(f.elementTimeout.value))
  {
    var s := CurrentSettings(f);
    StrListHolds(Checked(InterruptionTypes, [f.cookies, f.popups, f.ads]));
    StrListHolds(Checked(RecognitionStrategies, [f.selector, f.template, f.ocr, f.aria]));
    assert InterruptionTypes[0] == "cookies" && InterruptionTypes[1] == "popups" && InterruptionTypes[2] == "ads";
    assert RecognitionStrategies[0] == "selector" && RecognitionStrategies[1] == "template"
        && RecognitionStrategies[2] == "ocr" && RecognitionStrategies[3] == "aria";
  }

  /** A string is in the JSON list of strings exactly when it is in the list. */
  lemma StrListHolds(xs: seq<string>)
    ensures forall x :: JStr(x) in StrList(xs) <==> x in xs
  {
    forall x | JStr(x) in StrList(xs)
      ensures x in xs
    {
      var i :| 0 <= i < |StrList(xs)| && StrList(xs)[i] == JStr(x);
      assert xs[i] == x;
    }
    forall x | x in xs
      ensures JStr(x) in StrList(xs)
    {
      var i :| 0 <= i < |xs| && xs[i] == x;
      assert StrList(xs)[i] == JStr(x);
    }
  }
}

=== FILE: plugin_manager.dfy ===
/** The name-keyed plugin manager: plugin classes are known by name,
    initialized instances are kept per type and name, and execution is
    gated on the instance being enabled. What a plugin's `initialize`,
    `execute` and `shutdown` do is a parameter. */
module PluginManager {
  import opened Wrappers
  import opened PyStr
  import opened Json

  /** A plugin instance: its class's type and name, the enabled flag and
      the configuration dictionary. */
  datatype Instance = Instance(pluginType: string, name: string, enabled: bool, config: Object)

  /** A freshly constructed instance: enabled, as the base class's
      constructor leaves it, with the configuration its class sets up. */
  function NewInstance(pluginType: string, name: string, config: Object): Instance
  {
    Instance(pluginType, name, true, config)
  }

  /** `enable` */
  function Enable(p: Instance): (r: Instance)
    ensures r.enabled
    ensures r.(enabled := p.enabled) == p
  {
    p.(enabled := true)
  }

  /** `disable` */
  function Disable(p: Instance): (r: Instance)
    ensures !r.enabled
    ensures r.(enabled := p.enabled) == p
  {
    p.(enabled := false)
  }

  /** `configure`: `config.update(given)`. */
  function Configure(p: Instance, given: Object): (r: Instance)
    ensures r.config.Keys == p.config.Keys + given.Keys
    ensures forall k :: k in given ==> r.config[k] == given[k]
    ensures forall k :: k in p.config && k !in given ==> r.config[k] == p.config[k]
    ensures r.(config := p.config) == p
  {
    p.(config := p.config + given)
  }

  /** Configuring twice with the same values is configuring once. */
  lemma ConfigureIdempotent(p: Instance, given: Object)
    ensures Configure(Configure(p, given), given) == Configure(p, given)
  {
    assert Configure(p, given).config + given == p.config + given;
  }

  /** The manager: the known classes by plugin name (each giving its
      plugin type), and the live instances by type and then name. */
  datatype Manager = Manager(classes: map<string, string>, plugins: map<string, map<string, Instance>>)

  /** What a plugin call does: return a value, or raise. */
  datatype Outcome = Returns(value: Json) | Raises

  /** `get_plugin` */
  function GetPlugin(m: Manager, pluginType: string, name: string): (r: Option<Instance>)
    ensures r.Some? <==> pluginType in m.plugins && name in m.plugins[pluginType]
    ensures r.Some? ==> r.value == m.plugins[pluginType][name]
  {
    if pluginType !in m.plugins || name !in m.plugins[pluginType] then None
    else Some(m.plugins[pluginType][name])
  }

  /** `m.plugins` with `p` stored under its type and name, creating the
      type's dictionary if needed. */
  function Store(m: Manager, p: Instance): Manager
  {
    var inner := if p.pluginType in m.plugins then m.plugins[p.pluginType] else map[];
    m.(plugins := m.plugins[p.pluginType := inner[p.name := p]])
  }

  /** `initialize_plugin`: an unknown class name, or an `initialize` that
      returns false or raises, gives false and changes nothing; otherwise a
      fresh instance is stored (replacing any earlier one) and true is
      returned. `init` stands for the new instance's `initialize`, and
      `config` for the configuration the class's constructor and
      `initialize` leave (empty for the base class). */
  function InitializePlugin(m: Manager, name: string, init: string -> Outcome, config: string -> Object)
    : (r: (bool, Manager))
    ensures !r.0 ==> r.1 == m
    ensures r.0 <==> name in m.classes && init(name) != Raises && Truthy(init(name).value)
    ensures r.0 ==> GetPlugin(r.1, m.classes[name], name) == Some(NewInstance(m.classes[name], name, config(name)))
    ensures r.0 ==>
      GetPlugin(r.1, m.classes[name], name).value.enabled
      && GetPlugin(r.1, m.classes[name], name).value.config == config(name)
    ensures r.1.classes == m.classes
    ensures name in m.classes ==> forall t, n :: (t, n) != (m.classes[name], name) ==>
      GetPlugin(r.1, t, n) == GetPlugin(m, t, n)
  {
    if name !in m.classes then (false, m)
    else
      var p := NewInstance(m.classes[name], name, config(name));
      match init(name)
      case Raises => (false, m)
      case Returns(v) => if !Truthy(v) then (false, m) else (true, Store(m, p))
  }

  /** `execute_plugin`: `None` for a missing or disabled plugin and for a
      plugin that raises; otherwise whatever the plugin returned. `run`
      stands for the instance's `execute`. */
  function ExecutePlugin(m: Manager, pluginType: string, name: string, action: string, params: Object,
                         run: (Instance, string, Object) -> Outcome): (r: Json)
    ensures GetPlugin(m, pluginType, name).None? ==> r == JNull
    ensures GetPlugin(m, pluginType, name).Some? && !GetPlugin(m, pluginType, name).value.enabled ==> r == JNull
    ensures r != JNull ==>
      var p := m.plugins[pluginType][name];
      pluginType in m.plugins && name in m.plugins[pluginType] && p.enabled && run(p, action, params) == Returns(r)
  {
    match GetPlugin(m, pluginType, name)
    case None => JNull
    case Some(p) =>
      if !p.enabled then JNull
      else
        match run(p, action, params)
        case Raises => JNull
        case Returns(v) => v
  }

  /** `m` with the instance under `pluginType` and `name` replaced by `p`,
      as a call on the instance `get_plugin` returned would leave it. */
  function Replace(m: Manager, pluginType: string, name: string, p: Instance): (r: Manager)
    requires GetPlugin(m, pluginType, name).Some?
    ensures GetPlugin(r, pluginType, name) == Some(p)
    ensures forall t, n :: (t, n) != (pluginType, name) ==> GetPlugin(r, t, n) == GetPlugin(m, t, n)
  {
    m.(plugins := m.plugins[pluginType := m.plugins[pluginType][name := p]])
  }

  /** A disabled plugin is never run: after `disable` every call to it
      gives `None`; after `enable` it runs as it did before. */
  lemma DisabledNeverRuns(m: Manager, pluginType: string, name: string, action: string, params: Object,
                          run: (Instance, string, Object) -> Outcome)
    requires GetPlugin(m, pluginType, name).Some?
    ensures var p := m.plugins[pluginType][name];
      ExecutePlugin(Replace(m, pluginType, name, Disable(p)), pluginType, name, action, params, run) == JNull
    ensures var p := m.plugins[pluginType][name];
      p.enabled ==>
      ExecutePlugin(Replace(m, pluginType, name, Enable(Disable(p))), pluginType, name, action, params, run)
      == ExecutePlugin(m, pluginType, name, action, params, run)
  {
    var p := m.plugins[pluginType][name];
    assert p.enabled ==> Enable(Disable(p)) == p;
  }

  /** `shutdown_plugin`: false for a missing plugin or one whose
      `shutdown` raises; otherwise `shutdown`'s answer, the plugin being
      removed only when that answer is true. `stop` stands for `shutdown`. */
  function ShutdownPlugin(m: Manager, pluginType: string, name: string, stop: Instance -> Outcome): (r: (bool, Manager))
    ensures GetPlugin(m, pluginType, name).None? ==> r == (false, m)
    ensures !r.0 ==> r.1 == m
    ensures r.0 <==>
      var p := GetPlugin(m, pluginType, name);
      p.Some? && stop(p.value).Returns? && Truthy(stop(p.value).value)
    ensures r.0 ==> GetPlugin(r.1, pluginType, name).None?
    ensures r.1.classes == m.classes && r.1.plugins.Keys == m.plugins.Keys
    ensures forall t, n :: (t, n) != (pluginType, name) ==> GetPlugin(r.1, t, n) == GetPlugin(m, t, n)
  {
    match GetPlugin(m, pluginType, name)
    case None => (false, m)
    case Some(p) =>
      match stop(p)
      case Raises => (false, m)
      case Returns(v) =>
        if Truthy(v) then (true, m.(plugins := m.plugins[pluginType := m.plugins[pluginType] - {name}]))
        else (false, m)
  }

  /** The key `shutdown_all_plugins` reports a plugin under. */
  function ResultKey(pluginType: string, name: string): string
  {
    pluginType + "." + name
  }

  /** All registered (type, name) pairs. */
  function Registered(m: Manager): set<(string, string)>
  {
    set t, n | t in m.plugins && n in m.plugins[t] :: (t, n)
  }

  /** `shutdown_all_plugins`, keyed by (type, name): every registered plugin
      is shut down once; each one's answer does not depend on the others,
      since `shutdown_plugin` touches only its own entry. The method returns
      the answers and the plugins that remain. */
  method ShutdownAll(m: Manager, stop: Instance -> Outcome)
    returns (results: map<(string, string), bool>, left: Manager)
    ensures results.Keys == Registered(m)
    ensures forall k :: k in results ==>
      (results[k] <==> ShutdownPlugin(m, k.0, k.1, stop).0)
    ensures forall t, n :: (GetPlugin(left, t, n).Some? <==> GetPlugin(m, t, n).Some? && !ShutdownPlugin(m, t, n, stop).0)
  {
    results := map[];
    left := m;
    var todo := Registered(m);
    ghost var all := todo;
    while todo != {}
      invariant results.Keys + todo == all && results.Keys !! todo
      invariant Answered(m, results, stop)
      invariant Remaining(m, left, todo, stop)
      decreases |todo|
    {
      var k :| k in todo;
      MoveKey(all, todo, results.Keys, k);
      results, left := ShutdownNext(m, left, todo, k, results, stop);
      todo := todo - {k};
    }
    RemainingNone(m, left, stop);
  }

  lemma MoveKey<K>(all: set<K>, todo: set<K>, done: set<K>, k: K)
    requires done + todo == all && done !! todo && k in todo
    ensures (done + {k}) + (todo - {k}) == all && (done + {k}) !! (todo - {k})
  {
  }

  /** One iteration of `shutdown_all_plugins`' loop. */
  method ShutdownNext(m: Manager, left: Manager, todo: set<(string, string)>, k: (string, string),
                      results: map<(string, string), bool>, stop: Instance -> Outcome)
    returns (results': map<(string, string), bool>, left': Manager)
    requires Remaining(m, left, todo, stop) && Answered(m, results, stop) && k in todo
    ensures results'.Keys == results.Keys + {k}
    ensures Answered(m, results', stop)
    ensures Remaining(m, left', todo - {k}, stop)
  {
    var (ok, next) := ShutdownPlugin(left, k.0, k.1, stop);
    ShutdownStep(m, left, todo, k, results, stop);
    results' := results[k := ok];
    left' := next;
  }

  lemma RemainingNone(m: Manager, left: Manager, stop: Instance -> Outcome)
    requires Remaining(m, left, {}, stop)
    ensures forall t, n :: (GetPlugin(left, t, n).Some? <==> GetPlugin(m, t, n).Some? && !ShutdownPlugin(m, t, n, stop).0)
  {
  }

  /** Each recorded answer is what shutting the plugin down in `m` gives. */
  ghost predicate Answered(m: Manager, results: map<(string, string), bool>, stop: Instance -> Outcome)
  {
    forall k :: k in results ==> (results[k] <==> ShutdownPlugin(m, k.0, k.1, stop).0)
  }

  /** Plugins still to be shut down are as in `m`; the others are present
      exactly when their shutdown did not succeed. */
  ghost predicate Remaining(m: Manager, left: Manager, todo: set<(string, string)>, stop: Instance -> Outcome)
  {
    forall t, n :: GetPlugin(left, t, n) ==
      if (t, n) in todo || !ShutdownPlugin(m, t, n, stop).0 then GetPlugin(m, t, n) else None
  }

  lemma ShutdownStep(m: Manager, left: Manager, todo: set<(string, string)>, k: (string, string),
                     results: map<(string, string), bool>, stop: Instance -> Outcome)
    requires Remaining(m, left, todo, stop) && Answered(m, results, stop) && k in todo
    ensures Answered(m, results[k := ShutdownPlugin(left, k.0, k.1, stop).0], stop)
    ensures Remaining(m, ShutdownPlugin(left, k.0, k.1, stop).1, todo - {k}, stop)
  {
    var next := ShutdownPlugin(left, k.0, k.1, stop).1;
    forall t, n
      ensures GetPlugin(next, t, n) ==
        if (t, n) in todo - {k} || !ShutdownPlugin(m, t, n, stop).0 then GetPlugin(m, t, n) else None
    {
      if (t, n) != k {
        assert GetPlugin(next, t, n) == GetPlugin(left, t, n);
      }
    }
  }

  /** The reported keys are distinct as long as no plugin type contains a
      dot: then `shutdown_all_plugins` returns one entry per plugin. */
  lemma ResultKeysDistinct(t1: string, n1: string, t2: string, n2: string)
    requires !Contains(t1, ".") && !Contains(t2, ".")
    ensures ResultKey(t1, n1) == ResultKey(t2, n2) <==> t1 == t2 && n1 == n2
  {
    if ResultKey(t1, n1) == ResultKey(t2, n2) {
      var s := ResultKey(t1, n1);
      if |t1| < |t2| {
        assert s[|t1|] == '.';
        assert t2[|t1|] == '.';
        assert OccursAt(t2, ".", |t1|);
      } else if |t2| < |t1| {
        assert s[|t2|] == '.';
        assert t1[|t2|] == '.';
        assert OccursAt(t1, ".", |t2|);
      } else {
        assert t1 == s[..|t1|] == t2;
        assert n1 == s[|t1| + 1..] == n2;
      }
    }
  }

  /** With a dot inside a type name two plugins can share a key, and the
      dictionary keeps only one of their answers. */
  lemma ResultKeysCollide()
    ensures ResultKey("a.b", "c") == ResultKey("a", "b.c")
  {
  }
}

=== FILE: plugin_system.dfy ===
/** The typed plugin registry: plugins are registered once per id, kept per
    type in non-increasing priority order, filtered by criteria, and
    initialized together with their dependencies. A plugin instance is
    represented by the `PluginInfo` its class reports, which never changes;
    what its `initialize` and `cleanup` calls do is a parameter. */
module PluginSystem {
  import opened Wrappers
  import opened Sorting

  datatype PluginType = Automation | Recognition | Interruption | Workflow | UI

  datatype PluginInfo = PluginInfo(
    id: string,
    name: string,
    description: string,
    version: string,
    pluginType: PluginType,
    priority: int,
    dependencies: seq<string>)

  /** The dataclass constructor: the priority defaults to 0 and a missing
      dependency list becomes the empty list. */
  function MakeInfo(id: string, name: string, description: string, version: string,
                    pluginType: PluginType, priority: Option<int>, dependencies: Option<seq<string>>)
    : (info: PluginInfo)
    ensures info.id == id && info.name == name && info.pluginType == pluginType
    ensures priority.None? ==> info.priority == 0
    ensures dependencies.None? ==> info.dependencies == []
    ensures dependencies.Some? ==> info.dependencies == dependencies.value
  {
    PluginInfo(id, name, description, version, pluginType, priority.GetOr(0), dependencies.GetOr([]))
  }

  /** The sort key of the per-type lists. */
  function Priority(p: PluginInfo): int
  {
    p.priority
  }

  /** A criterion value. Criteria are compared with Python `!=` and `<`:
      a value of the wrong type never equals an id, a name or a type, and
      only a number (an int, a float or a bool) can be compared with a
      priority. */
  datatype Value = VStr(s: string) | VType(t: PluginType) | VInt(i: int) | VReal(x: real) | VBool(b: bool) | VNone

  /** The number a value stands for in `<`; a bool is 0 or 1. */
  function Number(v: Value): (n: Option<real>)
    ensures n.Some? <==> v.VInt? || v.VReal? || v.VBool?
    ensures v.VInt? ==> n == Some(v.i as real)
    ensures v.VReal? ==> n == Some(v.x)
    ensures v.VBool? ==> n == Some(if v.b then 1.0 else 0.0)
  {
    match v
    case VInt(i) => Some(i as real)
    case VReal(x) => Some(x)
    case VBool(b) => Some(if b then 1.0 else 0.0)
    case _ => None
  }

  /** What one criterion asks of a plugin. Keys other than the four known
      ones ask nothing. */
  predicate Holds(info: PluginInfo, key: string, value: Value)
  {
    && (key == "id" ==> value == VStr(info.id))
    && (key == "name" ==> value == VStr(info.name))
    && (key == "plugin_type" ==> value == VType(info.pluginType))
    && (key == "min_priority" ==> Number(value).Some? && Number(value).value <= info.priority as real)
  }

  /** `match_criteria`: the criteria are scanned in dictionary order and
      the first unmet one gives false; a `min_priority` that is not a
      number and is reached raises a `TypeError`. */
  function MatchCriteria(info: PluginInfo, criteria: seq<(string, Value)>): (r: Result<bool>)
    ensures r == Success(true) <==> forall i :: 0 <= i < |criteria| ==> Holds(info, criteria[i].0, criteria[i].1)
    ensures r.Failure? ==> exists i :: 0 <= i < |criteria| && criteria[i].0 == "min_priority" && Number(criteria[i].1).None?
    ensures (forall i :: 0 <= i < |criteria| && criteria[i].0 == "min_priority" ==> Number(criteria[i].1).Some?) ==> r.Success?
  {
    if |criteria| == 0 then Success(true)
    else
      var (key, value) := criteria[0];
      if key == "id" && value != VStr(info.id) then Success(false)
      else if key == "name" && value != VStr(info.name) then Success(false)
      else if key == "plugin_type" && value != VType(info.pluginType) then Success(false)
      else if key == "min_priority" && Number(value).None? then Failure("TypeError: '<' not supported")
      else if key == "min_priority" && (info.priority as real) < Number(value).value then Success(false)
      else
        var rest := MatchCriteria(info, criteria[1..]);
        assert forall i :: 1 <= i < |criteria| ==> criteria[i] == criteria[1..][i - 1];
        rest
  }

  /** An int priority compares with a float or a bool `min_priority` as
      Python compares numbers; a string one raises. */
  lemma MinPriorityComparesNumbers(info: PluginInfo)
    ensures MatchCriteria(info, [("min_priority", VReal(info.priority as real - 0.5))]) == Success(true)
    ensures MatchCriteria(info, [("min_priority", VReal(info.priority as real + 0.5))]) == Success(false)
    ensures MatchCriteria(info, [("min_priority", VBool(true))]) == Success(info.priority >= 1)
    ensures MatchCriteria(info, [("min_priority", VStr("1"))]).Failure?
  {
  }

  predicate Known(key: string)
  {
    key == "id" || key == "name" || key == "plugin_type" || key == "min_priority"
  }

  /** Criteria under keys the method does not recognise change nothing,
      wherever they stand. */
  lemma {:induction false} UnknownKeysIgnored(info: PluginInfo, criteria: seq<(string, Value)>, key: string, value: Value)
    requires !Known(key)
    ensures MatchCriteria(info, [(key, value)] + criteria) == MatchCriteria(info, criteria)
    ensures MatchCriteria(info, criteria + [(key, value)]) == MatchCriteria(info, criteria)
    decreases |criteria|
  {
    assert ([(key, value)] + criteria)[1..] == criteria;
    if |criteria| > 0 {
      assert (criteria + [(key, value)])[1..] == criteria[1..] + [(key, value)];
      UnknownKeysIgnored(info, criteria[1..], key, value);
    } else {
      assert criteria + [(key, value)] == [(key, value)] + criteria;
    }
  }

  /** The registry: `plugins` holds one priority-ordered list per type,
      `instances` maps ids to plugins, `initialized` is the set of ids whose
      initialization succeeded. */
  datatype Registry = Registry(
    plugins: map<PluginType, seq<PluginInfo>>,
    instances: map<string, PluginInfo>,
    initialized: set<string>)

  function EmptyRegistry(): (r: Registry)
    ensures forall t :: Listed(r, t) == []
    ensures r.instances == map[] && r.initialized == {}
  {
    Registry(map[Automation := [], Recognition := [], Interruption := [], Workflow := [], UI := []], map[], {})
  }

  /** `get_plugins_by_type`: `plugins.get(type, [])`. */
  function Listed(r: Registry, t: PluginType): seq<PluginInfo>
  {
    if t in r.plugins then r.plugins[t] else []
  }

  /** What registration keeps true: each list is sorted by priority and
      holds only plugins of its type that are the registered instance for
      their id; every instance is listed under its type; only registered
      ids are initialized. */
  predicate Consistent(r: Registry)
  {
    && (forall t :: t in r.plugins ==> SortedDesc(r.plugins[t], Priority))
    && (forall t, p :: t in r.plugins && p in r.plugins[t] ==>
          p.pluginType == t && p.id in r.instances && r.instances[p.id] == p)
    && (forall id :: id in r.instances ==>
          r.instances[id].id == id && r.instances[id] in Listed(r, r.instances[id].pluginType))
    && r.initialized <= r.instances.Keys
  }

  lemma EmptyRegistryConsistent()
    ensures Consistent(EmptyRegistry())
  {
  }

  /** `register_plugin`: an id already registered is ignored; otherwise the
      plugin is recorded under its id and its type's list is re-sorted by
      non-increasing priority. */
  function Register(r: Registry, p: PluginInfo): (r': Registry)
    ensures p.id in r.instances ==> r' == r
    ensures p.id !in r.instances ==>
      && r'.instances == r.instances[p.id := p]
      && r'.initialized == r.initialized
      && (forall t :: t != p.pluginType ==> Listed(r', t) == Listed(r, t))
      && multiset(Listed(r', p.pluginType)) == multiset(Listed(r, p.pluginType)) + multiset{p}
      && SortedDesc(Listed(r', p.pluginType), Priority)
  {
    if p.id in r.instances then r
    else
      r.(instances := r.instances[p.id := p],
         plugins := r.plugins[p.pluginType := SortDesc(Listed(r, p.pluginType) + [p], Priority)])
  }

  /** Among plugins of equal priority, one registered later comes after
      those registered before it. */
  lemma RegisterAfterEqualPriorities(r: Registry, p: PluginInfo, v: int)
    requires p.id !in r.instances
    ensures WithKey(Listed(Register(r, p), p.pluginType), Priority, v)
         == WithKey(Listed(r, p.pluginType), Priority, v) + (if p.priority == v then [p] else [])
  {
    var before := Listed(r, p.pluginType);
    SortDescStable(before + [p], Priority, v);
    WithKeyAppend(before, [p], Priority, v);
    assert WithKey([p], Priority, v) == (if p.priority == v then [p] else []) + WithKey([p][1..], Priority, v);
  }

  lemma RegisterKeepsConsistent(r: Registry, p: PluginInfo)
    requires Consistent(r)
    ensures Consistent(Register(r, p))
  {
    if p.id !in r.instances {
      RegisteredListsHoldInstances(r, p);
      RegisteredInstancesListed(r, p);
    }
  }

  lemma RegisteredListsHoldInstances(r: Registry, p: PluginInfo)
    requires Consistent(r) && p.id !in r.instances
    ensures var r' := Register(r, p);
      forall t, q :: t in r'.plugins && q in r'.plugins[t] ==>
        q.pluginType == t && q.id in r'.instances && r'.instances[q.id] == q
  {
    var r' := Register(r, p);
    forall t, q | t in r'.plugins && q in r'.plugins[t]
      ensures q.pluginType == t && q.id in r'.instances && r'.instances[q.id] == q
    {
      if t == p.pluginType {
        InRegisteredList(r, p, q);
      } else {
        assert Listed(r', t) == Listed(r, t);
      }
    }
  }

  /** A plugin in the list of the registered plugin's type after
      registration is that plugin or was listed before. */
  lemma InRegisteredList(r: Registry, p: PluginInfo, q: PluginInfo)
    requires p.id !in r.instances && q in Listed(Register(r, p), p.pluginType)
    ensures q == p || q in Listed(r, p.pluginType)
  {
    assert q in multiset(Listed(Register(r, p), p.pluginType));
    if q != p {
      assert q in multiset(Listed(r, p.pluginType));
    }
  }

  lemma RegisteredInstancesListed(r: Registry, p: PluginInfo)
    requires Consistent(r) && p.id !in r.instances
    ensures var r' := Register(r, p);
      forall id :: id in r'.instances ==>
        r'.instances[id].id == id && r'.instances[id] in Listed(r', r'.instances[id].pluginType)
  {
    var r' := Register(r, p);
    forall id | id in r'.instances
      ensures r'.instances[id].id == id && r'.instances[id] in Listed(r', r'.instances[id].pluginType)
    {
      var q := r'.instances[id];
      if id == p.id {
        assert p in multiset(Listed(r', p.pluginType));
      } else if q.pluginType == p.pluginType {
        assert q in multiset(Listed(r, p.pluginType));
        assert q in multiset(Listed(r', p.pluginType));
      } else {
        assert Listed(r', q.pluginType) == Listed(r, q.pluginType);
      }
    }
  }

  /** `a` is `b` with some elements left out, the rest in their order. */
  predicate Sublist<T(==)>(a: seq<T>, b: seq<T>)
    decreases |b|
  {
    if |a| == 0 then true
    else if |b| == 0 then false
    else if a[0] == b[0] then Sublist(a[1..], b[1..])
    else Sublist(a, b[1..])
  }

  /** The plugins of `list` that the criteria accept, in list order (the
      list is assumed not to raise). */
  function Matching(list: seq<PluginInfo>, criteria: seq<(string, Value)>): (r: seq<PluginInfo>)
    ensures forall p :: p in r <==> p in list && MatchCriteria(p, criteria) == Success(true)
    ensures Sublist(r, list)
  {
    if |list| == 0 then []
    else
      var rest := Matching(list[1..], criteria);
      assert forall p :: p in list <==> p == list[0] || p in list[1..];
      if MatchCriteria(list[0], criteria) == Success(true) then
        assert ([list[0]] + rest)[1..] == rest;
        [list[0]] + rest
      else
        SublistDropHead(rest, list);
        rest
  }

  lemma {:induction false} SublistDropHead<T>(a: seq<T>, b: seq<T>)
    requires |b| > 0 && Sublist(a, b[1..])
    ensures Sublist(a, b)
    decreases |b|, |a|
  {
    if |a| > 0 && a[0] == b[0] {
      SublistTail(a, b[1..]);
    }
  }

  lemma {:induction false} SublistTail<T>(a: seq<T>, b: seq<T>)
    requires |a| > 0 && Sublist(a, b)
    ensures Sublist(a[1..], b)
    decreases |b|, |a|
  {
    if a[0] == b[0] {
      SublistDropHead(a[1..], b);
    } else {
      SublistTail(a, b[1..]);
      SublistDropHead(a[1..], b);
    }
  }

  /** A sublist of a priority-ordered list is priority-ordered. */
  lemma {:induction false} SublistKeepsOrder(a: seq<PluginInfo>, b: seq<PluginInfo>)
    requires Sublist(a, b) && SortedDesc(b, Priority)
    ensures forall x :: x in a ==> x in b
    ensures SortedDesc(a, Priority)
    decreases |b|
  {
    if |a| > 0 {
      assert SortedDesc(b[1..], Priority);
      if a[0] == b[0] {
        SublistKeepsOrder(a[1..], b[1..]);
        forall x | x in a
          ensures x in b
        {
          if x != a[0] {
            assert x in a[1..];
          }
        }
        forall j | 0 < j < |a|
          ensures Priority(a[0]) >= Priority(a[j])
        {
          assert a[j] in a[1..];
          var k :| 0 <= k < |b[1..]| && b[1..][k] == a[j];
          assert b[k + 1] == a[j];
        }
        forall i, j | 0 <= i < j < |a|
          ensures Priority(a[i]) >= Priority(a[j])
        {
          if i > 0 {
            assert a[i] == a[1..][i - 1] && a[j] == a[1..][j - 1];
          }
        }
      } else {
        SublistKeepsOrder(a, b[1..]);
      }
    }
  }

  /** `find_plugins`: the plugins of the type's list that match, in list
      order; a criterion that raises on any plugin makes the call raise. */
  method FindPlugins(r: Registry, t: PluginType, criteria: seq<(string, Value)>) returns (found: Result<seq<PluginInfo>>)
    ensures found.Failure? <==> exists i :: 0 <= i < |Listed(r, t)| && MatchCriteria(Listed(r, t)[i], criteria).Failure?
    ensures found.Success? ==> found.value == Matching(Listed(r, t), criteria)
  {
    var list := Listed(r, t);
    var result: seq<PluginInfo> := [];
    var i := 0;
    while i < |list|
      invariant 0 <= i <= |list|
      invariant forall j :: 0 <= j < i ==> MatchCriteria(list[j], criteria).Success?
      invariant result + Matching(list[i..], criteria) == Matching(list, criteria)
    {
      var m := MatchCriteria(list[i], criteria);
      if m.Failure? {
        return Failure(m.error);
      }
      assert list[i..][1..] == list[i + 1..];
      if m.value {
        result := result + [list[i]];
      }
      i := i + 1;
    }
    return Success(result);
  }

  /** A consistent registry answers `find_plugins` in priority order. */
  lemma FoundInPriorityOrder(r: Registry, t: PluginType, criteria: seq<(string, Value)>)
    requires Consistent(r)
    ensures SortedDesc(Matching(Listed(r, t), criteria), Priority)
  {
    SublistKeepsOrder(Matching(Listed(r, t), criteria), Listed(r, t));
  }

  /** What a plugin's own `initialize` does: succeed, return false, or raise. */
  datatype InitOutcome = Initialized | Declined | Raises

  /** The dependency walk from a plugin of rank at most `top` terminates:
      along the dependencies of every registered, not yet initialized
      plugin of rank at most `top` the rank decreases. Only the plugins the
      walk can reach are constrained, since every other plugin can be given
      a rank above `top`. The source has no guard against a cycle among the
      plugins it reaches, and recurses until Python's recursion limit. */
  predicate RankedFrom(instances: map<string, PluginInfo>, initialized: set<string>, rank: string -> nat, top: nat)
  {
    forall x, j :: x in instances && x !in initialized && rank(x) <= top && 0 <= j < |instances[x].dependencies| ==>
      rank(instances[x].dependencies[j]) < rank(x)
  }

  /** `initialize_plugin`: an initialized id gives true at once, an unknown
      one false; otherwise the dependencies are initialized in order, the
      first failing one gives false, and then the plugin's own outcome
      decides. Returns the answer and the new initialized set. */
  function Initialize(instances: map<string, PluginInfo>, initialized: set<string>, id: string,
                      outcome: string -> InitOutcome, rank: string -> nat): (res: (bool, set<string>))
    requires RankedFrom(instances, initialized, rank, rank(id))
    ensures initialized <= res.1
    ensures forall x :: x in res.1 && x !in initialized ==> x in instances && (x == id || rank(x) < rank(id))
    ensures id in initialized ==> res == (true, initialized)
    ensures id !in initialized && id !in instances ==> res == (false, initialized)
    ensures res.0 <==> id in res.1
    ensures res.0 && id !in initialized ==>
      && outcome(id) == Initialized
      && forall j :: 0 <= j < |instances[id].dependencies| ==> instances[id].dependencies[j] in res.1
    decreases rank(id), 1
  {
    if id in initialized then (true, initialized)
    else if id !in instances then (false, initialized)
    else
      var (depsOk, after) := InitializeDeps(instances, initialized, id, 0, outcome, rank);
      if !depsOk then (false, after)
      else if outcome(id) == Initialized then (true, after + {id})
      else (false, after)
  }

  /** The loop over the dependencies of `id` from index `from` on. */
  function InitializeDeps(instances: map<string, PluginInfo>, initialized: set<string>, id: string, from: nat,
                          outcome: string -> InitOutcome, rank: string -> nat): (res: (bool, set<string>))
    requires RankedFrom(instances, initialized, rank, rank(id))
    requires id in instances && from <= |instances[id].dependencies|
    requires forall j :: 0 <= j < |instances[id].dependencies| ==> rank(instances[id].dependencies[j]) < rank(id)
    ensures initialized <= res.1
    ensures forall x :: x in res.1 && x !in initialized ==> x in instances && rank(x) < rank(id)
    ensures res.0 ==> forall j :: from <= j < |instances[id].dependencies| ==> instances[id].dependencies[j] in res.1
    decreases rank(id), 0, |instances[id].dependencies| - from
  {
    var deps := instances[id].dependencies;
    if from == |deps| then (true, initialized)
    else
      var (ok, mid) := Initialize(instances, initialized, deps[from], outcome, rank);
      if !ok then (false, mid)
      else InitializeDeps(instances, mid, id, from + 1, outcome, rank)
  }

  /** Once every dependency is initialized, initializing a registered plugin
      succeeds exactly when its own `initialize` does. */
  lemma InitializeAfterDependencies(instances: map<string, PluginInfo>, initialized: set<string>, id: string,
                                    outcome: string -> InitOutcome, rank: string -> nat)
    requires RankedFrom(instances, initialized, rank, rank(id))
    requires id in instances && id !in initialized
    requires forall d :: d in instances[id].dependencies ==> d in initialized
    ensures Initialize(instances, initialized, id, outcome, rank).0 <==> outcome(id) == Initialized
    ensures Initialize(instances, initialized, id, outcome, rank).1
         == if outcome(id) == Initialized then initialized + {id} else initialized
  {
    DependenciesDone(instances, initialized, id, 0, outcome, rank);
  }

  lemma {:induction false} DependenciesDone(instances: map<string, PluginInfo>, initialized: set<string>, id: string, from: nat,
                                            outcome: string -> InitOutcome, rank: string -> nat)
    requires RankedFrom(instances, initialized, rank, rank(id))
    requires id in instances && from <= |instances[id].dependencies|
    requires forall j :: 0 <= j < |instances[id].dependencies| ==> rank(instances[id].dependencies[j]) < rank(id)
    requires forall d :: d in instances[id].dependencies ==> d in initialized
    ensures InitializeDeps(instances, initialized, id, from, outcome, rank) == (true, initialized)
    decreases |instances[id].dependencies| - from
  {
    var deps := instances[id].dependencies;
    if from < |deps| {
      assert deps[from] in deps;
      DependenciesDone(instances, initialized, id, from + 1, outcome, rank);
    }
  }

  /** A dependency that is neither registered nor initialized makes the
      plugin fail to initialize. */
  lemma MissingDependencyFails(instances: map<string, PluginInfo>, initialized: set<string>, id: string,
                               outcome: string -> InitOutcome, rank: string -> nat, d: string)
    requires RankedFrom(instances, initialized, rank, rank(id))
    requires id in instances && id !in initialized
    requires d in instances[id].dependencies && d !in instances && d !in initialized
    ensures !Initialize(instances, initialized, id, outcome, rank).0
  {
    var res := Initialize(instances, initialized, id, outcome, rank);
    var j :| 0 <= j < |instances[id].dependencies| && instances[id].dependencies[j] == d;
    assert d !in res.1;
  }

  /** Three plugins: `a` without dependencies, `b` and `c` depending on
      each other. */
  function CycleAside(): map<string, PluginInfo>
  {
    map["a" := PluginInfo("a", "A", "", "1.0", Automation, 0, []),
        "b" := PluginInfo("b", "B", "", "1.0", Automation, 0, ["c"]),
        "c" := PluginInfo("c", "C", "", "1.0", Automation, 0, ["b"])]
  }

  function CycleAsideRank(x: string): nat
  {
    if x == "a" then 0 else 1
  }

  /** A dependency cycle the walk never reaches does not stand in the way:
      `a` initializes exactly when its own `initialize` succeeds. */
  lemma UnreachedCycleIgnored(outcome: string -> InitOutcome)
    ensures RankedFrom(CycleAside(), {}, CycleAsideRank, 0)
    ensures Initialize(CycleAside(), {}, "a", outcome, CycleAsideRank)
         == if outcome("a") == Initialized then (true, {"a"}) else (false, {})
  {
    InitializeAfterDependencies(CycleAside(), {}, "a", outcome, CycleAsideRank);
    var res := Initialize(CycleAside(), {}, "a", outcome, CycleAsideRank);
    assert res.1 == if outcome("a") == Initialized then {"a"} else {};
  }

  /** `cleanup_plugin`: an uninitialized or unregistered id is left alone;
      otherwise the id leaves the initialized set unless `cleanup` raises. */
  function Cleanup(instances: map<string, PluginInfo>, initialized: set<string>, id: string,
                   raises: string -> bool): (r: set<string>)
    ensures r - {id} == initialized - {id}
    ensures id in r <==> id in initialized && (id !in instances || raises(id))
  {
    if id !in initialized then initialized
    else if id !in instances then initialized
    else if raises(id) then initialized
    else initialized - {id}
  }

  /** `cleanup_all`: cleans up every initialized id, in some order. What is
      left is exactly the ids whose cleanup could not run or raised. */
  method CleanupAll(instances: map<string, PluginInfo>, initialized: set<string>, raises: string -> bool)
    returns (left: set<string>)
    ensures left == set x | x in initialized && (x !in instances || raises(x))
  {
    left := initialized;
    var todo := initialized;
    while todo != {}
      invariant todo <= initialized
      invariant forall x :: x in left <==> x in initialized && (x in todo || x !in instances || raises(x))
      decreases |todo|
    {
      var id :| id in todo;
      left := Cleanup(instances, left, id, raises);
      todo := todo - {id};
    }
  }

  /** When every initialized id is registered and no cleanup raises,
      `cleanup_all` empties the initialized set. */
  lemma CleanupAllEmpties(instances: map<string, PluginInfo>, initialized: set<string>, raises: string -> bool)
    requires initialized <= instances.Keys
    requires forall x :: x in initialized ==> !raises(x)
    ensures (set x | x in initialized && (x !in instances || raises(x))) == {}
  {
  }
}

=== FILE: popup_handler_plugin.dfy ===
/** The popup handler plugin: a second, file-backed pattern store with its
    own domain gate, usage statistics and popup detection. Pattern files are
    modelled as a map from file stem (`<id>` of `<id>.json`) to the stored
    dictionary; the directory listing order is a parameter. */
module PopupHandlerPlugin {
  import opened Wrappers
  import opened PyStr
  import opened Json
  import opened Domains
  import opened Browser
  import SettingsManager

  // ---------------------------------------------------------------------
  // The action gate
  // ---------------------------------------------------------------------

  /** `get_capabilities()`. */
  const Capabilities: seq<string> := [
    "detect_popup", "close_popup", "handle_cookie_notice", "add_pattern",
    "remove_pattern", "list_patterns", "get_stats", "reset_stats",
    "is_domain_allowed", "add_whitelist_domain", "add_blacklist_domain",
    "handle_all_interruptions"]

  /** The actions that still run while the plugin is disabled. */
  const AvailableWhenDisabled: seq<string> := [
    "list_patterns", "get_stats", "is_domain_allowed", "add_whitelist_domain", "add_blacklist_domain"]

  datatype Gate = Unsupported | Disabled | Dispatch

  /** The checks `execute` makes before dispatching to the named method: an
      unknown action raises `ValueError`; with `enabled` false only the
      read-only and list-editing actions run, the others answer
      `{"status": "disabled"}`. */
  function ExecuteGate(config: Object, action: string): (g: Gate)
    ensures g == Unsupported <==> action !in Capabilities
    ensures g == Disabled <==> action in Capabilities && action !in AvailableWhenDisabled
                               && !Truthy(GetOrDefault(config, "enabled", JBool(true)))
    ensures g == Dispatch && !Truthy(GetOrDefault(config, "enabled", JBool(true)))
            ==> action in AvailableWhenDisabled
  {
    if action !in Capabilities then Unsupported
    else if !Truthy(GetOrDefault(config, "enabled", JBool(true))) && action !in AvailableWhenDisabled then Disabled
    else Dispatch
  }

  /** Every action that runs while disabled is one of the capabilities. */
  lemma DisabledSubsetOfCapabilities()
    ensures forall a :: a in AvailableWhenDisabled ==> a in Capabilities
  {
  }

  // ---------------------------------------------------------------------
  // The domain gate
  // ---------------------------------------------------------------------

  datatype Scan = Match | NoMatch | Raised

  /** One pass over a domain list as `_is_domain_allowed` makes it: the
      first entry that matches `host` stops the scan; an entry that is not a
      string makes `.startswith` raise. */
  function ScanEntries(entries: seq<Json>, host: string): (r: Scan)
    ensures r == Match ==> exists i :: 0 <= i < |entries| && entries[i].JStr? && EntryMatches(entries[i].s, host)
    ensures r == NoMatch <==> forall i :: 0 <= i < |entries| ==> entries[i].JStr? && !EntryMatches(entries[i].s, host)
    ensures r == Raised ==> exists i :: (0 <= i < |entries| && !entries[i].JStr?
      && forall j :: 0 <= j < i ==> entries[j].JStr? && !EntryMatches(entries[j].s, host))
  {
    if |entries| == 0 then NoMatch
    else if !entries[0].JStr? then Raised
    else if EntryMatches(entries[0].s, host) then Match
    else
      var rest := ScanEntries(entries[1..], host);
      assert forall i :: 1 <= i < |entries| ==> entries[i] == entries[1..][i - 1];
      rest
  }

  /** `_is_domain_allowed`: the blacklist first, then an empty whitelist
      allows everything, then the whitelist; an error allows the page. */
  function IsDomainAllowed(whitelist: seq<Json>, blacklist: seq<Json>, host: string): (allowed: bool)
    ensures (exists i :: (0 <= i < |blacklist| && blacklist[i].JStr? && EntryMatches(blacklist[i].s, host)
                          && forall j :: 0 <= j < i ==> blacklist[j].JStr?)) ==> !allowed
    ensures ScanEntries(blacklist, host) == NoMatch && whitelist == [] ==> allowed
    ensures ScanEntries(blacklist, host) == Raised ==> allowed
  {
    match ScanEntries(blacklist, host)
    case Match => false
    case Raised => true
    case NoMatch =>
      if whitelist == [] then true
      else ScanEntries(whitelist, host) != NoMatch
  }

  function Strs(xs: seq<string>): (r: seq<Json>)
    ensures |r| == |xs| && forall i :: 0 <= i < |xs| ==> r[i] == JStr(xs[i])
  {
    seq(|xs|, i requires 0 <= i < |xs| => JStr(xs[i]))
  }

  /** For lists of strings the plugin's gate agrees with the handler's
      set-based one. */
  lemma {:induction false} GateAgreesWithSets(whitelist: seq<string>, blacklist: seq<string>, host: string)
    ensures IsDomainAllowed(Strs(whitelist), Strs(blacklist), host)
         == ((forall b :: b in blacklist ==> !EntryMatches(b, host))
             && (whitelist == [] || exists w :: w in whitelist && EntryMatches(w, host)))
  {
    var bl := Strs(blacklist);
    var wl := Strs(whitelist);
    assert ScanEntries(bl, host) != Raised by {
      ScanStrsNeverRaises(blacklist, host);
    }
    assert ScanEntries(wl, host) != Raised by {
      ScanStrsNeverRaises(whitelist, host);
    }
    if ScanEntries(bl, host) == Match {
      var i :| 0 <= i < |bl| && bl[i].JStr? && EntryMatches(bl[i].s, host);
      assert blacklist[i] in blacklist;
    } else {
      forall b | b in blacklist ensures !EntryMatches(b, host) {
        var i :| 0 <= i < |blacklist| && blacklist[i] == b;
        assert bl[i] == JStr(b);
      }
      if whitelist != [] {
        if ScanEntries(wl, host) == Match {
          var i :| 0 <= i < |wl| && wl[i].JStr? && EntryMatches(wl[i].s, host);
          assert whitelist[i] in whitelist;
        } else {
          forall w | w in whitelist ensures !EntryMatches(w, host) {
            var i :| 0 <= i < |whitelist| && whitelist[i] == w;
            assert wl[i] == JStr(w);
          }
        }
      }
    }
  }

  lemma {:induction false} ScanStrsNeverRaises(xs: seq<string>, host: string)
    ensures ScanEntries(Strs(xs), host) != Raised
    decreases |xs|
  {
    if |xs| > 0 {
      assert Strs(xs)[1..] == Strs(xs[1..]);
      ScanStrsNeverRaises(xs[1..], host);
    }
  }

  /** A string entry that is not a host name, such as a number, put on the
      blacklist ahead of a matching entry switches the blacklist off: the
      gate raises and the error path allows the page. */
  lemma NonStringEntryDisablesBlacklist(host: string)
    ensures IsDomainAllowed([], [JInt(1), JStr(host)], host)
  {
  }

  /** `for entry in value` over whatever a config key or a pattern's
      `domains` holds: a list is scanned in order, a string yields its
      characters and a dictionary its keys (all strings, so the order does
      not matter), and any other value is not iterable and raises. */
  function ScanValue(v: Json, host: string): (r: Scan)
    ensures v.JList? ==> r == ScanEntries(v.items, host)
    ensures v.JStr? ==> (r == Match <==> exists i :: 0 <= i < |v.s| && EntryMatches([v.s[i]], host))
    ensures v.JStr? ==> r != Raised
    ensures v.JStr? ==> (r == Match <==> |host| == 1 && host[0] in v.s)
    ensures v.JObj? ==> (r == Match <==> exists k :: k in v.fields && EntryMatches(k, host))
    ensures v.JObj? ==> r != Raised
    ensures v.JNull? || v.JBool? || v.JInt? || v.JReal? ==> r == Raised
  {
    match v
    case JList(xs) => ScanEntries(xs, host)
    case JStr(s) =>
      CharEntriesMatch(s, host);
      if exists i :: 0 <= i < |s| && EntryMatches([s[i]], host) then Match else NoMatch
    case JObj(m) => if exists k :: k in m && EntryMatches(k, host) then Match else NoMatch
    case _ => Raised
  }

  /** The characters of a string, taken as entries, match exactly the
      one-character hosts they spell. */
  lemma CharEntriesMatch(s: string, host: string)
    ensures (exists i :: 0 <= i < |s| && EntryMatches([s[i]], host)) <==> |host| == 1 && host[0] in s
  {
    if |host| == 1 && host[0] in s {
      var i :| 0 <= i < |s| && s[i] == host[0];
      assert host == [s[i]];
    }
  }

  /** `self.config.get(key, [])`. */
  function ConfigValue(config: Object, key: string): Json
  {
    GetOrDefault(config, key, JList([]))
  }

  /** `_is_domain_allowed` over the configured values as they are: the
      blacklist first, then a falsy whitelist allows everything, then the
      whitelist; anything that raises allows the page. */
  function DomainGate(config: Object, host: string): (allowed: bool)
    ensures ConfigValue(config, "blacklist_domains").JList? && ConfigValue(config, "whitelist_domains").JList? ==>
      allowed == IsDomainAllowed(ConfigValue(config, "whitelist_domains").items,
                                 ConfigValue(config, "blacklist_domains").items, host)
    ensures ScanValue(ConfigValue(config, "blacklist_domains"), host) == Match ==> !allowed
    ensures ScanValue(ConfigValue(config, "blacklist_domains"), host) == Raised ==> allowed
    ensures ScanValue(ConfigValue(config, "blacklist_domains"), host) == NoMatch ==>
      (allowed <==> !Truthy(ConfigValue(config, "whitelist_domains"))
                    || ScanValue(ConfigValue(config, "whitelist_domains"), host) != NoMatch)
  {
    var bl := ConfigValue(config, "blacklist_domains");
    var wl := ConfigValue(config, "whitelist_domains");
    match ScanValue(bl, host)
    case Match => false
    case Raised => true
    case NoMatch => !Truthy(wl) || ScanValue(wl, host) != NoMatch
  }

  /** A whitelist held as a number, or a blacklist held as `None`, cannot be
      iterated: the gate raises and allows every page. */
  lemma NonIterableListsAllow(host: string)
    ensures DomainGate(map["whitelist_domains" := JInt(5)], host)
    ensures DomainGate(map["blacklist_domains" := JNull, "whitelist_domains" := JList([JStr("x.com")])], host)
  {
  }

  // ---------------------------------------------------------------------
  // Statistics
  // ---------------------------------------------------------------------

  datatype PatternStats = PatternStats(uses: int, successes: int, failures: int, lastUsed: Option<string>)

  datatype Stats = Stats(popupsDetected: int, popupsClosed: int, cookiesAccepted: int,
                         patterns: map<string, PatternStats>)

  const FreshPatternStats: PatternStats := PatternStats(0, 0, 0, None)
  const FreshStats: Stats := Stats(0, 0, 0, map[])

  /** Counters consistent with each use being a success or a failure. */
  predicate Balanced(e: PatternStats)
  {
    e.successes + e.failures == e.uses && e.successes >= 0 && e.failures >= 0
  }

  predicate AllBalanced(s: Stats)
  {
    forall id :: id in s.patterns ==> Balanced(s.patterns[id])
  }

  /** `_update_pattern_stats`: one more use of the pattern, counted as a
      success or a failure; a missing entry starts from zero. */
  function UpdatePatternStats(s: Stats, id: string, success: bool, now: string): (s': Stats)
    ensures id in s'.patterns && s'.patterns.Keys == s.patterns.Keys + {id}
    ensures var before := if id in s.patterns then s.patterns[id] else FreshPatternStats;
      && s'.patterns[id].uses == before.uses + 1
      && s'.patterns[id].successes == before.successes + (if success then 1 else 0)
      && s'.patterns[id].failures == before.failures + (if success then 0 else 1)
      && s'.patterns[id].lastUsed == Some(now)
    ensures forall other :: other in s.patterns && other != id ==> s'.patterns[other] == s.patterns[other]
    ensures s'.popupsDetected == s.popupsDetected && s'.popupsClosed == s.popupsClosed
            && s'.cookiesAccepted == s.cookiesAccepted
  {
    var e := if id in s.patterns then s.patterns[id] else FreshPatternStats;
    var e' := if success then e.(uses := e.uses + 1, successes := e.successes + 1, lastUsed := Some(now))
              else e.(uses := e.uses + 1, failures := e.failures + 1, lastUsed := Some(now));
    s.(patterns := s.patterns[id := e'])
  }

  /** Successes plus failures equal uses for every entry, whatever sequence
      of updates built the statistics from empty. */
  lemma UpdateKeepsBalance(s: Stats, id: string, success: bool, now: string)
    requires AllBalanced(s)
    ensures AllBalanced(UpdatePatternStats(s, id, success, now))
  {
  }

  lemma {:induction false} UpdatesFromFreshAreBalanced(updates: seq<(string, bool)>, now: string)
    ensures AllBalanced(ApplyUpdates(FreshStats, updates, now))
    decreases |updates|
  {
    if |updates| > 0 {
      UpdatesFromFreshAreBalanced(updates[..|updates| - 1], now);
      var last := updates[|updates| - 1];
      UpdateKeepsBalance(ApplyUpdates(FreshStats, updates[..|updates| - 1], now), last.0, last.1, now);
    }
  }

  function ApplyUpdates(s: Stats, updates: seq<(string, bool)>, now: string): Stats
  {
    if |updates| == 0 then s
    else
      var last := updates[|updates| - 1];
      UpdatePatternStats(ApplyUpdates(s, updates[..|updates| - 1], now), last.0, last.1, now)
  }

  function StatsToJson(e: PatternStats): (j: Json)
    ensures j.JObj? && j.fields.Keys == {"uses", "successes", "failures", "last_used"}
    ensures j.fields["uses"] == JInt(e.uses)
    ensures j.fields["last_used"] == (match e.lastUsed case Some(s) => JStr(s) case None => JNull)
  {
    JObj(map["uses" := JInt(e.uses), "successes" := JInt(e.successes),
             "failures" := JInt(e.failures), "last_used" := OptStr(e.lastUsed)])
  }

  datatype ResetOutcome = ResetOne | ResetAll | NotFound

  /** `reset_stats`: with a pattern id, zero that entry only (failing when it
      does not exist); without one, zero everything. */
  function ResetStats(s: Stats, patternId: Json): (res: (ResetOutcome, Stats))
    ensures !Truthy(patternId) ==> res == (ResetAll, FreshStats)
    ensures Truthy(patternId) && res.0 == NotFound ==> res.1 == s
    ensures res.0 == ResetOne <==> Truthy(patternId) && patternId.JStr? && patternId.s in s.patterns
    ensures res.0 == ResetOne ==>
      && res.1.patterns == s.patterns[patternId.s := FreshPatternStats]
      && res.1.popupsDetected == s.popupsDetected && res.1.popupsClosed == s.popupsClosed
      && res.1.cookiesAccepted == s.cookiesAccepted
  {
    if !Truthy(patternId) then (ResetAll, FreshStats)
    else if patternId.JStr? && patternId.s in s.patterns then
      (ResetOne, s.(patterns := s.patterns[patternId.s := FreshPatternStats]))
    else (NotFound, s)
  }

  // ---------------------------------------------------------------------
  // The pattern store
  // ---------------------------------------------------------------------

  /** The plugin's state: its configuration dictionary, the statistics,
      the pattern files and the patterns last loaded from them. */
  datatype Plugin = Plugin(config: Object, stats: Stats, files: map<string, Object>, patterns: seq<Object>)

  /** `_load_patterns`: the pattern files in directory listing order;
      `stats.json` is not a pattern. */
  function LoadPatterns(files: map<string, Object>, listing: seq<string>): (ps: seq<Object>)
    ensures |ps| <= |listing|
    ensures forall p :: p in ps ==> exists k :: k in files && k != "stats" && files[k] == p
    ensures forall k :: k in listing && k in files && k != "stats" ==> files[k] in ps
  {
    if |listing| == 0 then []
    else
      var rest := LoadPatterns(files, listing[1..]);
      var k := listing[0];
      assert forall x :: x in listing ==> x == k || x in listing[1..];
      if k in files && k != "stats" then [files[k]] + rest else rest
  }

  /** The file stem `_save_pattern` writes a pattern to: `f"{id}.json"`. */
  function FileStem(id: Json): (r: string)
    ensures id.JStr? ==> r == id.s
    ensures id.JInt? ==> r == IntToString(id.i)
    ensures id.JBool? ==> r == (if id.b then "True" else "False")
    ensures id.JNull? ==> r == "None"
  {
    Show(id)
  }

  datatype AddOutcome = Added(patternId: Json) | MissingField(field: string) | WriteFailed

  /** The pattern `add_pattern` stores: the caller's fields, with the id,
      name and enabled flag filled in when missing, the creation time set,
      and a falsy id replaced by `pattern_<now>`. */
  function Prepared(pattern: Object, now: nat, nowIso: string): (stored: Object)
    requires "type" in pattern && "selector" in pattern
    ensures stored.Keys == pattern.Keys + {"id", "name", "enabled", "created_at"}
    ensures stored["type"] == pattern["type"] && stored["selector"] == pattern["selector"]
    ensures stored["created_at"] == JStr(nowIso)
    ensures "enabled" in pattern ==> stored["enabled"] == pattern["enabled"]
    ensures "enabled" !in pattern ==> stored["enabled"] == JBool(true)
    ensures "name" in pattern ==> stored["name"] == pattern["name"]
    ensures "id" in pattern && Truthy(pattern["id"]) ==> stored["id"] == pattern["id"]
    ensures "id" !in pattern || !Truthy(pattern["id"]) ==> stored["id"] == JStr("pattern_" + NatToString(now))
  {
    var autoId := JStr("pattern_" + NatToString(now));
    var p1 := if "id" !in pattern then pattern["id" := autoId] else pattern;
    var p2 := if "name" !in p1 then p1["name" := JStr("패턴 " + Show(p1["id"]))] else p1;
    var p3 := if "enabled" !in p2 then p2["enabled" := JBool(true)] else p2;
    var p4 := p3["created_at" := JStr(nowIso)];
    if !Truthy(p4["id"]) then p4["id" := autoId] else p4
  }

  /** `add_pattern` followed by `_save_pattern`: the pattern must carry a
      `type` and a `selector`; a missing id becomes `pattern_<now>`, a
      missing name `패턴 <id>`, a missing `enabled` true, and `created_at`
      is stamped. `_save_pattern` replaces an id that is present but falsy
      by `pattern_<now>` as well. `writeOk` says whether writing the file
      succeeds; `listing` is the directory listing used for reloading. */
  function AddPattern(pl: Plugin, pattern: Object, now: nat, nowIso: string, writeOk: bool,
                      listing: seq<string>): (res: (AddOutcome, Plugin))
    ensures "type" !in pattern ==> res == (MissingField("type"), pl)
    ensures "type" in pattern && "selector" !in pattern ==> res == (MissingField("selector"), pl)
    ensures res.0.Added? ==> "type" in pattern && "selector" in pattern && writeOk
    ensures res.0.Added? ==> FileStem(res.0.patternId) in res.1.files
    ensures res.0.Added? ==>
      var stored := res.1.files[FileStem(res.0.patternId)];
      && (forall k :: k in pattern ==> k in stored)
      && {"id", "type", "selector", "created_at", "enabled", "name"} <= stored.Keys
      && stored["id"] == res.0.patternId
      && stored["type"] == pattern["type"] && stored["selector"] == pattern["selector"]
      && stored["created_at"] == JStr(nowIso)
      && ("enabled" in pattern ==> stored["enabled"] == pattern["enabled"])
      && ("enabled" !in pattern ==> stored["enabled"] == JBool(true))
      && ("name" in pattern ==> stored["name"] == pattern["name"])
      && ("id" in pattern && Truthy(pattern["id"]) ==> res.0.patternId == pattern["id"])
      && ("id" !in pattern || !Truthy(pattern["id"]) ==> res.0.patternId == JStr("pattern_" + NatToString(now)))
    ensures res.0.Added? ==> res.1.files.Keys == pl.files.Keys + {FileStem(res.0.patternId)}
    ensures res.0.Added? ==> forall k :: k in pl.files && k != FileStem(res.0.patternId)
                                         ==> k in res.1.files && res.1.files[k] == pl.files[k]
    ensures !res.0.Added? ==> res.1 == pl
  {
    if "type" !in pattern then (MissingField("type"), pl)
    else if "selector" !in pattern then (MissingField("selector"), pl)
    else
      var p5 := Prepared(pattern, now, nowIso);
      if !writeOk then (WriteFailed, pl)
      else
        var files := pl.files[FileStem(p5["id"]) := p5];
        (Added(p5["id"]), pl.(files := files, patterns := LoadPatterns(files, listing)))
  }

  datatype RemoveOutcome = Removed | NoSuchPattern | IdRequired

  /** `remove_pattern`: deletes the pattern's file, reloads, and drops its
      statistics entry. */
  function RemovePattern(pl: Plugin, patternId: Json, listing: seq<string>): (res: (RemoveOutcome, Plugin))
    ensures !Truthy(patternId) ==> res == (IdRequired, pl)
    ensures Truthy(patternId) && FileStem(patternId) !in pl.files ==> res == (NoSuchPattern, pl)
    ensures res.0 == Removed ==> (FileStem(patternId) in pl.files
      && res.1.files == pl.files - {FileStem(patternId)}
      && (patternId.JStr? ==> patternId.s !in res.1.stats.patterns)
      && (forall id :: id in pl.stats.patterns && JStr(id) != patternId
                       ==> id in res.1.stats.patterns && res.1.stats.patterns[id] == pl.stats.patterns[id]))
  {
    if !Truthy(patternId) then (IdRequired, pl)
    else if FileStem(patternId) !in pl.files then (NoSuchPattern, pl)
    else
      var files := pl.files - {FileStem(patternId)};
      var stats := if patternId.JStr? then pl.stats.(patterns := pl.stats.patterns - {patternId.s}) else pl.stats;
      (Removed, pl.(files := files, patterns := LoadPatterns(files, listing), stats := stats))
  }

  /** The filters of `list_patterns`; the type is compared with Python's
      `!=`, so 1, 1.0 and True name the same type. */
  predicate Listed(p: Object, patternType: Json, enabledOnly: Json)
  {
    && (!Truthy(patternType) || SettingsManager.PyEq(GetOrNull(p, "type"), patternType))
    && (!Truthy(enabledOnly) || Truthy(GetOrDefault(p, "enabled", JBool(true))))
  }

  /** The listed copy of a pattern, with its statistics attached when the
      statistics know its id. */
  function WithStats(p: Object, stats: Stats): (q: Object)
    ensures forall k :: k in p && k != "stats" ==> k in q && q[k] == p[k]
  {
    var id := GetOrNull(p, "id");
    if id.JStr? && id.s in stats.patterns then p["stats" := StatsToJson(stats.patterns[id.s])] else p
  }

  /** `list_patterns`: the patterns that pass the type and enabled filters,
      in load order, with the count and the store size. */
  function ListPatterns(pl: Plugin, patternType: Json, enabledOnly: Json): (res: (seq<Object>, nat, nat))
    ensures res.1 == |res.0| && res.2 == |pl.patterns|
    ensures |res.0| <= |pl.patterns|
    ensures forall q :: q in res.0 ==> exists p :: p in pl.patterns && Listed(p, patternType, enabledOnly)
                                                && q == WithStats(p, pl.stats)
    ensures forall p :: p in pl.patterns && Listed(p, patternType, enabledOnly) ==> WithStats(p, pl.stats) in res.0
    ensures res.0 == FilterListed(pl.patterns, patternType, enabledOnly, pl.stats)
  {
    var xs := FilterListed(pl.patterns, patternType, enabledOnly, pl.stats);
    (xs, |xs|, |pl.patterns|)
  }

  function FilterListed(ps: seq<Object>, patternType: Json, enabledOnly: Json, stats: Stats): (r: seq<Object>)
    ensures |r| <= |ps|
    ensures forall q :: q in r ==> exists p :: p in ps && Listed(p, patternType, enabledOnly) && q == WithStats(p, stats)
    ensures forall p :: p in ps && Listed(p, patternType, enabledOnly) ==> WithStats(p, stats) in r
  {
    if |ps| == 0 then []
    else
      var rest := FilterListed(ps[1..], patternType, enabledOnly, stats);
      assert forall x :: x in ps ==> x == ps[0] || x in ps[1..];
      if Listed(ps[0], patternType, enabledOnly) then [WithStats(ps[0], stats)] + rest else rest
  }

  /** A pattern of type 1.0 is listed under the type filter 1, and one of
      type "1" is not, as Python's `!=` decides. */
  lemma NumericTypeListed()
    ensures Listed(map["type" := JReal(1.0)], JInt(1), JBool(false))
    ensures !Listed(map["type" := JStr("1")], JInt(1), JBool(false))
  {
    assert GetOrNull(map["type" := JReal(1.0)], "type") == JReal(1.0);
    assert GetOrNull(map["type" := JStr("1")], "type") == JStr("1");
  }

  /** One pattern is listed as its copy when it passes and not at all
      otherwise. */
  lemma FilterListedOne(p: Object, patternType: Json, enabledOnly: Json, stats: Stats)
    ensures FilterListed([p], patternType, enabledOnly, stats)
         == if Listed(p, patternType, enabledOnly) then [WithStats(p, stats)] else []
  {
    assert [p][1..] == [];
  }

  /** The listing of two runs of patterns is the listing of the first
      followed by that of the second. With `FilterListedOne` this fixes the
      listing entirely: it keeps load order and repeats a pattern as often
      as the store does. */
  lemma {:induction false} FilterListedAppend(ps: seq<Object>, qs: seq<Object>, patternType: Json, enabledOnly: Json,
                                              stats: Stats)
    ensures FilterListed(ps + qs, patternType, enabledOnly, stats)
         == FilterListed(ps, patternType, enabledOnly, stats) + FilterListed(qs, patternType, enabledOnly, stats)
    decreases |ps|
  {
    if |ps| == 0 {
      assert ps + qs == qs;
    } else {
      assert (ps + qs)[1..] == ps[1..] + qs;
      FilterListedAppend(ps[1..], qs, patternType, enabledOnly, stats);
    }
  }

  // ---------------------------------------------------------------------
  // Domain lists
  // ---------------------------------------------------------------------

  datatype ListEdit = AlreadyPresent | Appended | DomainRequired | EditFailed

  /** Python `domain in xs` on a list: some element equals the domain
      under Python's `==`, so `1`, `1.0` and `True` find one another. */
  predicate DomainListed(xs: seq<Json>, domain: Json)
  {
    exists i :: 0 <= i < |xs| && SettingsManager.PyEq(xs[i], domain)
  }

  /** `add_whitelist_domain` / `add_blacklist_domain` on one list: a present
      domain leaves the list unchanged and still reports success. */
  function AddDomain(xs: seq<Json>, domain: Json): (res: (ListEdit, seq<Json>))
    ensures !Truthy(domain) ==> res == (DomainRequired, xs)
    ensures Truthy(domain) && DomainListed(xs, domain) ==> res == (AlreadyPresent, xs)
    ensures Truthy(domain) && !DomainListed(xs, domain) ==> res == (Appended, xs + [domain])
    ensures Truthy(domain) ==> DomainListed(res.1, domain)
  {
    if !Truthy(domain) then (DomainRequired, xs)
    else if DomainListed(xs, domain) then (AlreadyPresent, xs)
    else
      SettingsManager.PyEqReflexive(domain);
      assert (xs + [domain])[|xs|] == domain;
      (Appended, xs + [domain])
  }

  /** No two entries of the list are equal under Python's `==`. */
  predicate NoDuplicates(xs: seq<Json>)
  {
    forall i, j :: 0 <= i < j < |xs| ==> !SettingsManager.PyEq(xs[i], xs[j])
  }

  /** Adding never introduces two equal entries, and adding twice is adding
      once. */
  lemma AddDomainKeepsDistinct(xs: seq<Json>, domain: Json)
    requires NoDuplicates(xs)
    ensures NoDuplicates(AddDomain(xs, domain).1)
    ensures AddDomain(AddDomain(xs, domain).1, domain).1 == AddDomain(xs, domain).1
  {
    var ys := AddDomain(xs, domain).1;
    if Truthy(domain) && !DomainListed(xs, domain) {
      forall i, j | 0 <= i < j < |ys|
        ensures !SettingsManager.PyEq(ys[i], ys[j])
      {
        if j == |xs| {
          assert ys[i] == xs[i] && ys[j] == domain;
        } else {
          assert ys[i] == xs[i] && ys[j] == xs[j];
        }
      }
    }
  }

  /** `1 in [1.0]` holds in Python, so adding `1` to `[1.0]` finds it. */
  lemma EqualNumberAlreadyPresent()
    ensures AddDomain([JReal(1.0)], JInt(1)) == (AlreadyPresent, [JReal(1.0)])
  {
    var xs := [JReal(1.0)];
    assert SettingsManager.PyEq(xs[0], JInt(1));
    assert DomainListed(xs, JInt(1));
  }

  /** The body both `add_*_domain` actions share, for the config key they
      edit. When the key holds a list, the domain is added to it. `domain in
      value` on a string is a substring test and on a dictionary a key test;
      a domain found that way is reported as present, and otherwise the
      `append` raises. On any other value `in` raises. Every raise ends in
      `success: False` with the config unchanged. */
  function AddToConfigList(config: Object, key: string, domain: Json): (res: (ListEdit, Object))
    ensures res.0 != Appended ==> res.1 == config
    ensures res.0 == Appended <==> (Truthy(domain) && ConfigValue(config, key).JList?
                                    && !DomainListed(ConfigValue(config, key).items, domain))
    ensures Truthy(domain) && ConfigValue(config, key).JList? && DomainListed(ConfigValue(config, key).items, domain) ==>
      res == (AlreadyPresent, config)
    ensures res.0 == Appended ==> res.1 == config[key := JList(ConfigValue(config, key).items + [domain])]
    ensures res.0 == DomainRequired <==> !Truthy(domain)
    ensures Truthy(domain) && ConfigValue(config, key).JStr? ==>
      res.0 == (if domain.JStr? && Contains(ConfigValue(config, key).s, domain.s) then AlreadyPresent else EditFailed)
    ensures Truthy(domain) && ConfigValue(config, key).JObj? ==>
      res.0 == (if domain.JStr? && domain.s in ConfigValue(config, key).fields then AlreadyPresent else EditFailed)
    ensures Truthy(domain) && (ConfigValue(config, key).JNull? || ConfigValue(config, key).JBool?
                               || ConfigValue(config, key).JInt? || ConfigValue(config, key).JReal?) ==>
      res.0 == EditFailed
  {
    if !Truthy(domain) then (DomainRequired, config)
    else match ConfigValue(config, key)
      case JList(xs) =>
        var (e, ys) := AddDomain(xs, domain);
        if e == Appended then (e, config[key := JList(ys)]) else (e, config)
      case JStr(s) =>
        if domain.JStr? && Contains(s, domain.s) then (AlreadyPresent, config) else (EditFailed, config)
      case JObj(m) =>
        if domain.JStr? && domain.s in m then (AlreadyPresent, config) else (EditFailed, config)
      case _ => (EditFailed, config)
  }

  function AddWhitelistDomain(pl: Plugin, domain: Json): (res: (ListEdit, Plugin))
    ensures res.0 != Appended ==> res.1 == pl
    ensures res.0 == Appended ==> ConfigValue(pl.config, "whitelist_domains").JList?
    ensures res.0 == Appended ==> res.1 == pl.(config := pl.config["whitelist_domains" :=
      JList(ConfigValue(pl.config, "whitelist_domains").items + [domain])])
    ensures ConfigValue(res.1.config, "blacklist_domains") == ConfigValue(pl.config, "blacklist_domains")
  {
    var (e, config) := AddToConfigList(pl.config, "whitelist_domains", domain);
    (e, pl.(config := config))
  }

  function AddBlacklistDomain(pl: Plugin, domain: Json): (res: (ListEdit, Plugin))
    ensures res.0 != Appended ==> res.1 == pl
    ensures res.0 == Appended ==> ConfigValue(pl.config, "blacklist_domains").JList?
    ensures res.0 == Appended ==> res.1 == pl.(config := pl.config["blacklist_domains" :=
      JList(ConfigValue(pl.config, "blacklist_domains").items + [domain])])
    ensures ConfigValue(res.1.config, "whitelist_domains") == ConfigValue(pl.config, "whitelist_domains")
  {
    var (e, config) := AddToConfigList(pl.config, "blacklist_domains", domain);
    (e, pl.(config := config))
  }

  /** A blacklist held as a string answers `in` by substring: a domain
      contained in it is reported present although the gate scans the
      string character by character. */
  lemma StringBlacklistReportsPresent(pl: Plugin)
    requires pl.config == map["blacklist_domains" := JStr("ads.example.com")]
    ensures AddBlacklistDomain(pl, JStr("example.com")) == (AlreadyPresent, pl)
    ensures DomainGate(pl.config, "example.com")
  {
    assert OccursAt("ads.example.com", "example.com", 4);
  }

  /** Blacklisting the page's own host makes the gate refuse it, provided
      the blacklist was a list of host names. */
  lemma BlacklistingRefuses(pl: Plugin, host: string)
    requires ConfigValue(pl.config, "blacklist_domains").JList?
    requires forall i :: 0 <= i < |ConfigValue(pl.config, "blacklist_domains").items| ==>
               ConfigValue(pl.config, "blacklist_domains").items[i].JStr?
    ensures host != [] ==> !DomainGate(AddBlacklistDomain(pl, JStr(host)).1.config, host)
  {
    var bl' := ConfigValue(AddBlacklistDomain(pl, JStr(host)).1.config, "blacklist_domains");
    if host != [] {
      assert bl'.JList?;
      var i :| 0 <= i < |bl'.items| && bl'.items[i] == JStr(host);
      assert forall j :: 0 <= j < |bl'.items| ==> bl'.items[j].JStr?;
      assert EntryMatches(bl'.items[i].s, host);
    }
  }

  // ---------------------------------------------------------------------
  // Detection
  // ---------------------------------------------------------------------

  /** The first index at which the probe finds a visible element. */
  function FirstShown(sels: seq<string>, probe: string -> Probe): (r: Option<nat>)
    ensures r.None? <==> forall i :: 0 <= i < |sels| ==> probe(sels[i]) != Shown
    ensures r.Some? ==> r.value < |sels| && probe(sels[r.value]) == Shown
                        && forall j :: 0 <= j < r.value ==> probe(sels[j]) != Shown
  {
    if |sels| == 0 then None
    else if probe(sels[0]) == Shown then Some(0)
    else
      assert forall k :: 1 <= k < |sels| ==> sels[k] == sels[1..][k - 1];
      match FirstShown(sels[1..], probe)
      case None => None
      case Some(k) => Some(k + 1)
  }

  /** Whether a custom pattern's `domains` value admits `host`: an empty
      (falsy) value admits every host; a list is scanned like a domain list;
      a string is iterated character by character and a dictionary by key;
      any other truthy value is not iterable and raises. */
  function PatternDomainsAdmit(domains: Json, host: string): (r: Result<bool>)
    ensures !Truthy(domains) ==> r == Success(true)
    ensures domains.JList? && Truthy(domains) ==>
      (r == Success(true) <==> ScanEntries(domains.items, host) == Match)
    ensures Truthy(domains) ==> (r.Failure? <==> ScanValue(domains, host) == Raised)
    ensures domains.JStr? && Truthy(domains) ==> (r == Success(true) <==> |host| == 1 && host[0] in domains.s)
  {
    if !Truthy(domains) then Success(true)
    else
      match ScanValue(domains, host)
      case Match => Success(true)
      case NoMatch => Success(false)
      case Raised => Failure("not iterable, or an entry is not a string")
  }

  /** A custom pattern the scan finds on the page: enabled, its domains
      admit the host, and its selector is a non-empty string naming a
      visible element. */
  predicate PatternShown(p: Object, host: string, probe: string -> Probe)
  {
    && Truthy(GetOrDefault(p, "enabled", JBool(true)))
    && PatternDomainsAdmit(GetOrDefault(p, "domains", JList([])), host) == Success(true)
    && GetOrNull(p, "selector").JStr? && GetOrNull(p, "selector").s != []
    && probe(GetOrNull(p, "selector").s) == Shown
  }

  datatype Found =
    | Builtin(kind: string, selector: string)
    | Custom(patternType: Json, selector: string, patternId: string, patternName: Json)

  datatype Detection = NotAllowed | Hit(found: Found) | NoPopup | DetectError

  /** The custom-pattern loop of `detect_popup`. A pattern is skipped when
      disabled, when its domains do not admit the host, or when it has no
      selector. A pattern whose probe raises is counted as a failure and
      the scan goes on. A pattern found counts a detection and a success.
      Patterns whose id the statistics cannot record make the loop fail. */
  function ScanPatterns(ps: seq<Object>, host: string, probe: string -> Probe, stats: Stats, now: string)
    : (res: (Detection, Stats))
    ensures res.0 != NotAllowed
    ensures res.0.Hit? ==> res.0.found.Custom?
    ensures res.0.Hit? ==> (exists i :: (0 <= i < |ps| && PatternShown(ps[i], host, probe)
      && GetOrNull(ps[i], "selector") == JStr(res.0.found.selector)
      && GetOrNull(ps[i], "id") == JStr(res.0.found.patternId)
      && forall j :: 0 <= j < i ==> !PatternShown(ps[j], host, probe)))
    ensures res.0 == NoPopup ==> forall j :: 0 <= j < |ps| ==> !PatternShown(ps[j], host, probe)
    ensures res.0.Hit? ==> res.1.popupsDetected == stats.popupsDetected + 1
    ensures res.0 == NoPopup ==> res.1.popupsDetected == stats.popupsDetected
    decreases |ps|
  {
    if |ps| == 0 then (NoPopup, stats)
    else
      var p := ps[0];
      assert forall k :: 1 <= k < |ps| ==> ps[k] == ps[1..][k - 1];
      if !Truthy(GetOrDefault(p, "enabled", JBool(true))) then ScanPatterns(ps[1..], host, probe, stats, now)
      else match PatternDomainsAdmit(GetOrDefault(p, "domains", JList([])), host)
        case Failure(_) => (DetectError, stats)
        case Success(false) => ScanPatterns(ps[1..], host, probe, stats, now)
        case Success(true) =>
          var sel := GetOrNull(p, "selector");
          if !Truthy(sel) then ScanPatterns(ps[1..], host, probe, stats, now)
          else
            var outcome := if sel.JStr? then probe(sel.s) else ProbeError;
            var id := GetOrNull(p, "id");
            match outcome
            case Shown =>
              var counted := stats.(popupsDetected := stats.popupsDetected + 1);
              if !id.JStr? then (DetectError, counted)
              else
                (Hit(Custom(GetOrDefault(p, "type", JStr("popup")), sel.s, id.s,
                            GetOrDefault(p, "name", JStr("Custom Pattern")))),
                 UpdatePatternStats(counted, id.s, true, now))
            case ProbeError =>
              if !id.JStr? then (DetectError, stats)
              else ScanPatterns(ps[1..], host, probe, UpdatePatternStats(stats, id.s, false, now), now)
            case _ => ScanPatterns(ps[1..], host, probe, stats, now)
  }

  /** `detect_popup`. `host` is `None` when no page is given (which raises
      `ValueError`); the popup and cookie selector lists default to the
      configured ones. */
  function DetectPopup(pl: Plugin, host: Option<string>, probe: string -> Probe,
                       popupSelectors: seq<string>, cookieSelectors: seq<string>, now: string)
    : (res: Result<(Detection, Plugin)>)
    ensures host.None? <==> res.Failure?
    ensures res.Success? ==> res.value.1.files == pl.files && res.value.1.patterns == pl.patterns
                             && res.value.1.config == pl.config
    ensures res.Success? && !DomainGate(pl.config, host.value)
            ==> res.value == (NotAllowed, pl)
    ensures res.Success? && res.value.0.Hit? && res.value.0.found.Builtin? ==>
      var sels := popupSelectors + cookieSelectors;
      && FirstShown(sels, probe).Some?
      && res.value.0.found.selector == sels[FirstShown(sels, probe).value]
      && (res.value.0.found.kind == "cookie_notice" <==> res.value.0.found.selector in cookieSelectors)
      && res.value.1.stats == pl.stats.(popupsDetected := pl.stats.popupsDetected + 1)
    ensures res.Success? && res.value.0.Hit? && res.value.0.found.Custom? ==>
      forall s :: s in popupSelectors + cookieSelectors ==> probe(s) != Shown
    ensures res.Success? && res.value.0 != NotAllowed &&
            (exists s :: s in popupSelectors + cookieSelectors && probe(s) == Shown)
            ==> res.value.0.Hit? && res.value.0.found.Builtin?
  {
    if host.None? then Failure("ValueError: page required")
    else if !DomainGate(pl.config, host.value) then
      Success((NotAllowed, pl))
    else
      var sels := popupSelectors + cookieSelectors;
      match FirstShown(sels, probe)
      case Some(i) =>
        var kind := if sels[i] in cookieSelectors then "cookie_notice" else "popup";
        Success((Hit(Builtin(kind, sels[i])),
                 pl.(stats := pl.stats.(popupsDetected := pl.stats.popupsDetected + 1))))
      case None =>
        var (d, stats) := ScanPatterns(pl.patterns, host.value, probe, pl.stats, now);
        Success((d, pl.(stats := stats)))
  }

  /** A selector that appears in both lists is reported as a cookie notice
      even when the popup list is where it was found. */
  lemma SharedSelectorIsCookieNotice(pl: Plugin, host: string, probe: string -> Probe, sel: string, now: string)
    requires DomainGate(pl.config, host)
    requires probe(sel) == Shown
    ensures DetectPopup(pl, Some(host), probe, [sel], [sel], now)
            == Success((Hit(Builtin("cookie_notice", sel)),
                        pl.(stats := pl.stats.(popupsDetected := pl.stats.popupsDetected + 1))))
  {
    assert FirstShown([sel] + [sel], probe) == Some(0);
  }
}


=== FILE: project_models.dfy ===
/** Project membership: the role hierarchy behind `has_permission`, and the
    member count that includes the owner. */
module ProjectModels {

  /** The member roles, from most to least powerful. */
  const Roles: seq<string> := ["host", "admin", "editor", "viewer", "guest"]

  /** The permission types `has_permission` knows. */
  const Permissions: seq<string> := ["view", "edit", "manage", "owner"]

  /** The roles that hold a permission; none for an unknown permission. */
  function RolesFor(permission: string): (roles: seq<string>)
    ensures permission !in Permissions ==> roles == []
    ensures forall r :: r in roles ==> r in Roles
  {
    if permission == "view" then ["host", "admin", "editor", "viewer", "guest"]
    else if permission == "edit" then ["host", "admin", "editor"]
    else if permission == "manage" then ["host", "admin"]
    else if permission == "owner" then ["host"]
    else []
  }

  /** `ProjectMember.has_permission` */
  predicate HasPermission(role: string, permission: string)
    ensures HasPermission(role, permission) ==> role in Roles && permission in Permissions
  {
    role in RolesFor(permission)
  }

  /** An unknown permission is held by nobody, and an unknown role holds
      nothing. */
  lemma UnknownGivesNothing(role: string, permission: string)
    ensures permission !in Permissions ==> !HasPermission(role, permission)
    ensures role !in Roles ==> !HasPermission(role, permission)
  {
  }

  /** The permissions nest: owner implies manage implies edit implies
      view. */
  lemma PermissionsNest(role: string)
    ensures HasPermission(role, "owner") ==> HasPermission(role, "manage")
    ensures HasPermission(role, "manage") ==> HasPermission(role, "edit")
    ensures HasPermission(role, "edit") ==> HasPermission(role, "view")
  {
  }

  /** Every role may view; viewers and guests may not edit; only the host
      is owner. */
  lemma RoleFacts(role: string)
    ensures role in Roles <==> HasPermission(role, "view")
    ensures role in ["viewer", "guest"] ==> !HasPermission(role, "edit")
    ensures HasPermission(role, "owner") <==> role == "host"
  {
  }

  /** `Project.get_members_count`: the member rows plus the owner, who has
      no member row. */
  function MembersCount(members: set<nat>): (n: nat)
    ensures n == |members| + 1
    ensures n >= 1
  {
    |members| + 1
  }

  /** The count is the number of people with access to the project, each
      counted once, as long as the owner holds no member row, which the
      project's unique member rows and the invitation view keep true. An
      owner who did hold a row would be counted twice. */
  lemma MembersCountCountsEveryoneOnce(owner: nat, members: set<nat>)
    ensures owner !in members ==> MembersCount(members) == |members + {owner}|
    ensures owner in members ==> MembersCount(members) == |members + {owner}| + 1
  {
    if owner in members {
      assert members + {owner} == members;
    }
  }
}

=== FILE: pystr.dfy ===
/** The handful of Python `str` operations the core relies on: whitespace
    (`str.isspace`), `strip`, whitespace `split()`, `split(sep)`,
    `sep.join`, substring membership, ASCII case mapping and `str(int)`. */
module PyStr {
  import opened Wrappers

  /** Python's whitespace characters: those for which `str.isspace()` holds
      and on which `str.split()` / `str.strip()` act. */
  predicate IsSpace(c: char)
  {
    ('\U{9}' <= c <= '\U{D}') || ('\U{1C}' <= c <= '\U{20}')
    || c == '\U{85}' || c == '\U{A0}' || c == '\U{1680}'
    || ('\U{2000}' <= c <= '\U{200A}')
    || c == '\U{2028}' || c == '\U{2029}' || c == '\U{202F}' || c == '\U{205F}' || c == '\U{3000}'
  }

  predicate AllSpace(s: string)
  {
    forall i :: 0 <= i < |s| ==> IsSpace(s[i])
  }

  /** Number of leading whitespace characters. */
  function LeadingSpace(s: string): (n: nat)
    ensures n <= |s|
    ensures AllSpace(s[..n])
    ensures n < |s| ==> !IsSpace(s[n])
  {
    if |s| == 0 || !IsSpace(s[0]) then 0
    else
      var k := LeadingSpace(s[1..]);
      assert s[..k + 1] == [s[0]] + s[1..][..k];
      1 + k
  }

  /** Number of trailing whitespace characters. */
  function TrailingSpace(s: string): (n: nat)
    ensures n <= |s|
    ensures AllSpace(s[|s| - n..])
    ensures n < |s| ==> !IsSpace(s[|s| - n - 1])
  {
    if |s| == 0 || !IsSpace(s[|s| - 1]) then 0
    else
      var k := TrailingSpace(s[..|s| - 1]);
      assert s[|s| - (k + 1)..] == s[..|s| - 1][|s| - 1 - k..] + [s[|s| - 1]];
      1 + k
  }

  /** Python `s.strip()`: the longest slice of `s` that neither starts nor
      ends with whitespace, everything cut away being whitespace. */
  function Strip(s: string): (r: string)
    ensures exists i, j :: 0 <= i <= j <= |s| && r == s[i..j] && AllSpace(s[..i]) && AllSpace(s[j..])
    ensures |r| > 0 ==> !IsSpace(r[0]) && !IsSpace(r[|r| - 1])
    ensures r == [] <==> AllSpace(s)
  {
    var i := LeadingSpace(s);
    if i == |s| then
      assert s[i..i] == [] && AllSpace(s[i..]);
      []
    else
      var j := |s| - TrailingSpace(s);
      assert i < j by {
        assert !IsSpace(s[i]);
      }
      assert !AllSpace(s) by { assert !IsSpace(s[i]); }
      s[i..j]
  }

  /** Python `s.startswith(p)`. */
  predicate StartsWith(s: string, p: string)
  {
    |p| <= |s| && s[..|p|] == p
  }

  /** Python `s.endswith(q)`. */
  predicate EndsWith(s: string, q: string)
  {
    |q| <= |s| && s[|s| - |q|..] == q
  }

  /** `sub` occurs in `s` starting at index `i`. */
  predicate OccursAt(s: string, sub: string, i: int)
  {
    0 <= i && i + |sub| <= |s| && s[i..i + |sub|] == sub
  }

  /** Python `sub in s`. */
  predicate Contains(s: string, sub: string)
  {
    exists i :: 0 <= i <= |s| && OccursAt(s, sub, i)
  }

  lemma {:induction false} ContainsSuffixExtension(s: string, x: string, sub: string)
    requires Contains(s, sub)
    ensures Contains(s + x, sub)
  {
    var i :| 0 <= i <= |s| && OccursAt(s, sub, i);
    assert (s + x)[i..i + |sub|] == s[i..i + |sub|];
    assert OccursAt(s + x, sub, i);
  }

  /** Index of the first occurrence of a non-empty `sep` in `s` at or after `from`. */
  function FindFrom(s: string, sep: string, from: nat): (r: Option<nat>)
    requires |sep| > 0
    requires from <= |s|
    ensures r.Some? ==> from <= r.value && OccursAt(s, sep, r.value)
    ensures r.Some? ==> forall k :: from <= k < r.value ==> !OccursAt(s, sep, k)
    ensures r.None? ==> forall k :: from <= k ==> !OccursAt(s, sep, k)
    decreases |s| - from
  {
    if from + |sep| > |s| then None
    else if s[from..from + |sep|] == sep then Some(from)
    else FindFrom(s, sep, from + 1)
  }

  /** Python `s.split(sep)` for a non-empty separator: the pieces between
      occurrences of `sep`, scanning left to right. */
  function Split(s: string, sep: string): (r: seq<string>)
    requires |sep| > 0
    ensures |r| >= 1
    decreases |s|
  {
    match FindFrom(s, sep, 0)
    case None => [s]
    case Some(i) => [s[..i]] + Split(s[i + |sep|..], sep)
  }

  /** Python `sep.join(xs)`. */
  function Join(xs: seq<string>, sep: string): string
  {
    if |xs| == 0 then []
    else if |xs| == 1 then xs[0]
    else xs[0] + sep + Join(xs[1..], sep)
  }

  /** Python `s.split()`: the maximal runs of non-whitespace characters. */
  function SplitWhitespace(s: string): (r: seq<string>)
    ensures forall w :: w in r ==> |w| > 0 && !exists i :: 0 <= i < |w| && IsSpace(w[i])
    decreases |s|
  {
    var lead := LeadingSpace(s);
    if lead == |s| then []
    else
      var rest := s[lead..];
      var n := WordLength(rest);
      [rest[..n]] + SplitWhitespace(rest[n..])
  }

  /** Length of the run of non-whitespace characters that starts `s`. */
  function WordLength(s: string): (n: nat)
    ensures n <= |s|
    ensures forall i :: 0 <= i < n ==> !IsSpace(s[i])
    ensures n < |s| ==> IsSpace(s[n])
    ensures |s| > 0 && !IsSpace(s[0]) ==> n > 0
  {
    if |s| == 0 || IsSpace(s[0]) then 0 else 1 + WordLength(s[1..])
  }

  function LowerChar(c: char): char
  {
    if 'A' <= c <= 'Z' then (c as int + 32) as char else c
  }

  function UpperChar(c: char): char
  {
    if 'a' <= c <= 'z' then (c as int - 32) as char else c
  }

  /** Python `s.lower()`, restricted to the ASCII letters. */
  function Lower(s: string): (r: string)
    ensures |r| == |s|
    ensures forall i :: 0 <= i < |s| ==> r[i] == LowerChar(s[i])
  {
    seq(|s|, i requires 0 <= i < |s| => LowerChar(s[i]))
  }

  /** Python `s.upper()`, restricted to the ASCII letters. */
  function Upper(s: string): (r: string)
    ensures |r| == |s|
    ensures forall i :: 0 <= i < |s| ==> r[i] == UpperChar(s[i])
  {
    seq(|s|, i requires 0 <= i < |s| => UpperChar(s[i]))
  }

  lemma LowerIdempotent(s: string)
    ensures Lower(Lower(s)) == Lower(s)
  {
  }

  function DigitChar(d: nat): char
    requires d < 10
  {
    "0123456789"[d]
  }

  /** Python `str(n)` for a natural number. */
  function NatToString(n: nat): (r: string)
    ensures |r| >= 1
    ensures forall i :: 0 <= i < |r| ==> '0' <= r[i] <= '9'
    ensures r[0] == '0' ==> n == 0
  {
    if n < 10 then [DigitChar(n)] else NatToString(n / 10) + [DigitChar(n % 10)]
  }

  /** Python `str(i)` for any integer. */
  function IntToString(i: int): (r: string)
    ensures |r| >= 1
    ensures i < 0 <==> r[0] == '-'
  {
    if i < 0 then "-" + NatToString(-i) else NatToString(i)
  }

  /** Splitting what `Join` produced with the separator ", " gives the pieces
      back, provided there is at least one and none contains the separator.
      The separator's two characters differ, so no occurrence can straddle
      a piece and the separator that follows it. */
  lemma {:induction false} SplitJoinCommaSpace(xs: seq<string>)
    requires |xs| >= 1
    requires forall x :: x in xs ==> !Contains(x, ", ")
    ensures Split(Join(xs, ", "), ", ") == xs
    decreases |xs|
  {
    var sep := ", ";
    if |xs| == 1 {
      NoOccurrence(xs[0], sep);
    } else {
      var x := xs[0];
      var rest := Join(xs[1..], sep);
      var s := x + sep + rest;
      assert Join(xs, sep) == s;
      FirstSeparator(x, rest);
      assert s[|x| + |sep|..] == rest;
      assert s[..|x|] == x;
      SplitJoinCommaSpace(xs[1..]);
      assert xs == [x] + xs[1..];
    }
  }

  lemma NoOccurrence(x: string, sep: string)
    requires |sep| > 0
    requires !Contains(x, sep)
    ensures FindFrom(x, sep, 0) == None
  {
  }

  lemma FirstSeparator(x: string, rest: string)
    requires !Contains(x, ", ")
    ensures FindFrom(x + ", " + rest, ", ", 0) == Some(|x|)
  {
    var s := x + ", " + rest;
    assert s[|x|..|x| + 2] == ", ";
    forall k | 0 <= k < |x|
      ensures !OccursAt(s, ", ", k)
    {
      if k + 2 <= |x| {
        assert s[k..k + 2] == x[k..k + 2];
        assert !OccursAt(x, ", ", k);
      } else if k + 2 <= |s| {
        assert k + 1 == |x|;
        assert s[k..k + 2][1] == s[k + 1] == ',';
      }
    }
    FindFromFirst(s, ", ", 0, |x|);
  }

  lemma {:induction false} FindFromFirst(s: string, sep: string, from: nat, i: nat)
    requires |sep| > 0
    requires from <= i && OccursAt(s, sep, i)
    requires forall k :: from <= k < i ==> !OccursAt(s, sep, k)
    ensures FindFrom(s, sep, from) == Some(i)
    decreases i - from
  {
    if from < i {
      FindFromFirst(s, sep, from + 1, i);
    }
  }
}

=== FILE: recognition_base.dfy ===
/** The shared part of the recognition plugins: the target and result
    records, their dictionary forms, the initialized flag and the
    `execute_action` entry point that turns a parameter dictionary into a
    call of the plugin's own `recognize`. */
module RecognitionBase {
  import opened Wrappers
  import opened Json

  datatype Method = Selector | Aria | Template | Ocr | Object

  /** The enum's string values. */
  function MethodValue(m: Method): string
  {
    match m
    case Selector => "selector"
    case Aria => "aria"
    case Template => "template"
    case Ocr => "ocr"
    case Object => "object"
  }

  /** A recognition target. The attributes dictionary keeps its insertion
      order, which the attribute selector depends on. */
  datatype Target = Target(kind: string, description: string, context: string, attributes: seq<(string, string)>)

  /** The attributes as a dictionary value. */
  function AttributeObject(attrs: seq<(string, string)>): (o: Object)
    ensures forall k :: k in o <==> exists i :: 0 <= i < |attrs| && attrs[i].0 == k
    decreases |attrs|
  {
    if |attrs| == 0 then map[]
    else
      var last := attrs[|attrs| - 1];
      var rest := AttributeObject(attrs[..|attrs| - 1]);
      assert forall i :: 0 <= i < |attrs| - 1 ==> attrs[..|attrs| - 1][i] == attrs[i];
      rest[last.0 := JStr(last.1)]
  }

  /** `RecognitionTarget.to_dict` */
  function TargetToDict(t: Target): (d: Object)
    ensures d.Keys == {"type", "description", "context", "attributes"}
    ensures d["type"] == JStr(t.kind) && d["description"] == JStr(t.description) && d["context"] == JStr(t.context)
    ensures d["attributes"].JObj?
  {
    map["type" := JStr(t.kind), "description" := JStr(t.description),
        "context" := JStr(t.context), "attributes" := JObj(AttributeObject(t.attributes))]
  }

  /** A target given as a dictionary: each of the four known keys may be
      absent; `others` counts any further keys (they only matter for the
      dictionary's truthiness). */
  datatype TargetDict = TargetDict(
    kind: Option<string>,
    description: Option<string>,
    context: Option<string>,
    attributes: Option<seq<(string, string)>>,
    others: nat)

  /** A target argument: absent (`None`), a `RecognitionTarget`, a
      dictionary, or some other value with the given truthiness. */
  datatype TargetInput = NoTarget | AsTarget(target: Target) | AsDict(dict: TargetDict) | Other(truthy: bool)

  predicate TargetTruthy(t: TargetInput)
  {
    match t
    case NoTarget => false
    case AsTarget(_) => true
    case AsDict(d) => d.kind.Some? || d.description.Some? || d.context.Some? || d.attributes.Some? || d.others > 0
    case Other(b) => b
  }

  /** The conversion of a dictionary target: type defaults to 'unknown',
      the description and context to '', the attributes to {}. */
  function TargetFromDict(d: TargetDict): (t: Target)
    ensures d.kind.None? ==> t.kind == "unknown"
    ensures d.description.None? ==> t.description == ""
    ensures d.context.None? ==> t.context == ""
    ensures d.attributes.None? ==> t.attributes == []
    ensures d.kind.Some? ==> t.kind == d.kind.value
    ensures d.description.Some? ==> t.description == d.description.value
    ensures d.context.Some? ==> t.context == d.context.value
    ensures d.attributes.Some? ==> t.attributes == d.attributes.value
  {
    Target(d.kind.GetOr("unknown"), d.description.GetOr(""), d.context.GetOr(""), d.attributes.GetOr([]))
  }

  /** A recognition result; `location` is (x, y, width, height). */
  datatype Recognition = RecognitionResult(
    success: bool,
    confidence: real,
    usedMethod: Option<Method>,
    target: Option<Target>,
    element: Option<Object>,
    location: Option<(int, int, int, int)>,
    error: Option<string>)

  /** A failed result carrying only an error message. */
  function Failed(error: string): Recognition
  {
    RecognitionResult(false, 0.0, None, None, None, None, Some(error))
  }

  /** The first four entries of `to_dict`: success, confidence, and the
      method and target when they are set. */
  function ResultHead(r: Recognition): (d: Object)
    ensures d.Keys == {"success", "confidence"} + (if r.usedMethod.Some? then {"method"} else {})
                      + (if r.target.Some? then {"target"} else {})
    ensures d["success"] == JBool(r.success) && d["confidence"] == JReal(r.confidence)
    ensures r.usedMethod.Some? ==> d["method"] == JStr(MethodValue(r.usedMethod.value))
    ensures r.target.Some? ==> d["target"] == JObj(TargetToDict(r.target.value))
  {
    var base := map["success" := JBool(r.success), "confidence" := JReal(r.confidence)];
    var m := if r.usedMethod.Some? then base["method" := JStr(MethodValue(r.usedMethod.value))] else base;
    if r.target.Some? then m["target" := JObj(TargetToDict(r.target.value))] else m
  }

  /** `RecognitionResult.to_dict`: success and confidence always; each
      optional field only when it is set and truthy. */
  function ResultToDict(r: Recognition): (d: Object)
    ensures "success" in d && d["success"] == JBool(r.success)
    ensures "confidence" in d && d["confidence"] == JReal(r.confidence)
    ensures "method" in d <==> r.usedMethod.Some?
    ensures "target" in d <==> r.target.Some?
    ensures "element" in d <==> r.element.Some? && r.element.value != map[]
    ensures "location" in d <==> r.location.Some?
    ensures "error" in d <==> r.error.Some? && r.error.value != ""
    ensures d.Keys <= {"success", "confidence", "method", "target", "element", "location", "error"}
    ensures r.usedMethod.Some? ==> d["method"] == JStr(MethodValue(r.usedMethod.value))
    ensures r.target.Some? ==> d["target"] == JObj(TargetToDict(r.target.value))
    ensures r.location.Some? ==>
      var (x, y, w, h) := r.location.value;
      d["location"] == JObj(map["x" := JInt(x), "y" := JInt(y), "width" := JInt(w), "height" := JInt(h)])
    ensures "error" in d ==> d["error"] == JStr(r.error.value)
  {
    var t := ResultHead(r);
    var e := if r.element.Some? && r.element.value != map[] then t["element" := JObj(r.element.value)] else t;
    var l := if r.location.Some? then
        var (x, y, w, h) := r.location.value;
        e["location" := JObj(map["x" := JInt(x), "y" := JInt(y), "width" := JInt(w), "height" := JInt(h)])]
      else e;
    if r.error.Some? && r.error.value != "" then l["error" := JStr(r.error.value)] else l
  }

  /** The state every recognition plugin shares. */
  datatype State = State(initialized: bool, config: Object)

  function NewState(): State
  {
    State(false, map[])
  }

  /** The base `initialize`: a missing or empty configuration becomes {}. */
  function Initialize(s: State, config: Option<Object>): (s': State)
    ensures s'.initialized
    ensures s'.config == if config.Some? then config.value else map[]
  {
    State(true, config.GetOr(map[]))
  }

  /** The base `cleanup` */
  function Cleanup(s: State): (s': State)
    ensures !s'.initialized && s'.config == s.config
  {
    s.(initialized := false)
  }

  /** `_check_initialized`: raises unless initialized. */
  function CheckInitialized(s: State): (r: Result<()>)
    ensures r.Success? <==> s.initialized
  {
    if s.initialized then Success(()) else Failure("RuntimeError: Plugin not initialized")
  }

  lemma CleanupThenCheckRaises(s: State, config: Option<Object>)
    ensures CheckInitialized(Cleanup(s)).Failure?
    ensures CheckInitialized(Initialize(s, config)).Success?
    ensures CheckInitialized(Initialize(Cleanup(s), config)).Success?
  {
  }

  /** An error dictionary `{'success': False, 'error': message}`. */
  function ErrorDict(message: string): Object
  {
    map["success" := JBool(false), "error" := JStr(message)]
  }

  /** `execute_action`: refuses when uninitialized, when the action is not
      'recognize', and when the target is missing or falsy; a dictionary
      target is converted; otherwise the plugin's `recognize` (which may
      raise) decides and its result is returned as a dictionary. `context`
      is whether the context parameter is truthy. */
  function ExecuteAction(s: State, action: string, context: bool, target: TargetInput,
                         recognize: (bool, TargetInput) -> Result<Recognition>): (r: Result<Object>)
    ensures !s.initialized ==> r == Success(ErrorDict("Plugin not initialized"))
    ensures s.initialized && action != "recognize" ==> r == Success(ErrorDict("Unsupported action: " + action))
    ensures s.initialized && action == "recognize" && !TargetTruthy(target) ==>
      r == Success(ErrorDict("Recognition target not specified"))
    ensures s.initialized && action == "recognize" && target.AsDict? && TargetTruthy(target) ==>
      var rr := recognize(context, AsTarget(TargetFromDict(target.dict)));
      (rr.Failure? ==> r == Failure(rr.error)) && (rr.Success? ==> r == Success(ResultToDict(rr.value)))
    ensures s.initialized && action == "recognize" && !target.AsDict? && TargetTruthy(target) ==>
      var rr := recognize(context, target);
      (rr.Failure? ==> r == Failure(rr.error)) && (rr.Success? ==> r == Success(ResultToDict(rr.value)))
    ensures r.Success? && "success" in r.value && r.value["success"] == JBool(true) ==> s.initialized && action == "recognize" && TargetTruthy(target)
  {
    if !s.initialized then Success(ErrorDict("Plugin not initialized"))
    else if action != "recognize" then Success(ErrorDict("Unsupported action: " + action))
    else if !TargetTruthy(target) then Success(ErrorDict("Recognition target not specified"))
    else
      var t := if target.AsDict? then AsTarget(TargetFromDict(target.dict)) else target;
      match recognize(context, t)
      case Failure(e) => Failure(e)
      case Success(res) => Success(ResultToDict(res))
  }
}

=== FILE: selector_plugin.dfy ===
/** The selector-based recognition plugin: five strategies each build a CSS
    selector string from a target (or give none); `initialize` may move
    named strategies to the front; `recognize` collects the selectors the
    strategies produce and returns the first one the page resolves. The
    page lookup is a parameter. */
module SelectorPlugin {
  import opened Wrappers
  import opened PyStr
  import opened Json
  import opened RecognitionBase
  import opened Seqs

  /* ---------- the selector builders ---------- */

  const ButtonSelector := "button, [role='button'], input[type='button'], input[type='submit']"
  const SearchSelector := "input[type='search'], input[placeholder*='search' i], input[aria-label*='search' i], input[name='q'], textarea[name='q'], .gLFyf, .gsfi, [jsname='yZiJbe']"
  const InputSelector := "input[type='text'], input:not([type]), textarea"
  const CheckboxSelector := "input[type='checkbox']"
  const RadioSelector := "input[type='radio']"
  const SelectSelector := "select, [role='combobox'], [role='listbox']"
  const HeaderSelector := "h1, h2, h3, h4, h5, h6"
  /** The selector of the second, later 'search' branch. */
  const ShortSearchSelector := "input[type='search'], input[placeholder*='search' i], input[aria-label*='search' i]"

  /** The target types `_build_default_selector` knows, lower-cased. */
  const DefaultKinds: seq<string> := ["button", "btn", "search", "input", "textbox", "text", "checkbox", "check",
                                      "radio", "select", "dropdown", "combobox", "link", "a", "image", "img",
                                      "form", "header", "heading"]

  /** `_build_default_selector`: a fixed selector per lower-cased type,
      `None` for any other type. The branches are tried in source order,
      including the second 'search' branch. */
  function DefaultSelector(kind: string): (r: Option<string>)
    ensures r.Some? <==> Lower(kind) in DefaultKinds
    ensures r.Some? ==> r.value != ""
  {
    var t := Lower(kind);
    if t in ["button", "btn"] then Some(ButtonSelector)
    else if t in ["search"] then Some(SearchSelector)
    else if t in ["input", "textbox", "text"] then Some(InputSelector)
    else if t in ["checkbox", "check"] then Some(CheckboxSelector)
    else if t in ["radio"] then Some(RadioSelector)
    else if t in ["select", "dropdown", "combobox"] then Some(SelectSelector)
    else if t in ["link", "a"] then Some("a")
    else if t in ["image", "img"] then Some("img")
    else if t in ["form"] then Some("form")
    else if t in ["header", "heading"] then Some(HeaderSelector)
    else if t in ["search"] then Some(ShortSearchSelector)
    else None
  }

  /** The second 'search' branch can never be taken: the first one has
      already answered every type that lower-cases to 'search'. */
  lemma SecondSearchBranchUnreachable(kind: string)
    ensures DefaultSelector(kind) != Some(ShortSearchSelector)
    ensures Lower(kind) == "search" ==> DefaultSelector(kind) == Some(SearchSelector)
  {
    assert ShortSearchSelector != SearchSelector by {
      assert |ShortSearchSelector| != |SearchSelector|;
    }
    assert ShortSearchSelector != ButtonSelector by {
      assert |ShortSearchSelector| != |ButtonSelector|;
    }
    assert ShortSearchSelector != InputSelector by {
      assert |ShortSearchSelector| != |InputSelector|;
    }
    assert ShortSearchSelector != CheckboxSelector by {
      assert |ShortSearchSelector| != |CheckboxSelector|;
    }
    assert ShortSearchSelector != RadioSelector by {
      assert |ShortSearchSelector| != |RadioSelector|;
    }
    assert ShortSearchSelector != SelectSelector by {
      assert |ShortSearchSelector| != |SelectSelector|;
    }
    assert ShortSearchSelector != HeaderSelector by {
      assert |ShortSearchSelector| != |HeaderSelector|;
    }
  }

  /** The type is compared case-insensitively. */
  lemma DefaultSelectorIgnoresCase(kind: string)
    ensures DefaultSelector(Lower(kind)) == DefaultSelector(kind)
  {
    LowerIdempotent(kind);
  }

  /** A string written as `pre + sub + post` contains `sub`. */
  lemma ContainsMiddle(pre: string, sub: string, post: string)
    ensures Contains(pre + sub + post, sub)
  {
    var s := pre + sub + post;
    assert s[|pre|..|pre| + |sub|] == sub;
    assert OccursAt(s, sub, |pre|);
  }

  /** The types `_build_semantic_selector` knows, lower-cased. */
  const SemanticKinds: seq<string> := ["button", "btn", "link", "a", "input", "textbox", "text", "search"]

  /** `_build_semantic_selector`: with a non-empty description, a selector
      that looks for the lower-cased description in the ways the type
      suggests; `None` otherwise. */
  function SemanticSelector(kind: string, description: string): (r: Option<string>)
    ensures r.Some? <==> description != "" && Lower(kind) in SemanticKinds
    ensures r.Some? ==> Contains(r.value, Lower(description))
  {
    var t := Lower(kind);
    var d := Lower(description);
    if d == "" then None
    else if t in ["button", "btn"] then
      var post := "'), [role='button']:has-text('" + d + "'), input[type='button'][value*='" + d
        + "' i], input[type='submit'][value*='" + d + "' i]";
      ContainsMiddle("button:has-text('", d, post);
      Some("button:has-text('" + d + post)
    else if t in ["link", "a"] then
      ContainsMiddle("a:has-text('", d, "')");
      Some("a:has-text('" + d + "')")
    else if t in ["input", "textbox", "text"] then
      var post := "' i], input[aria-label*='" + d + "' i], textarea[placeholder*='" + d
        + "' i], textarea[aria-label*='" + d + "' i]";
      ContainsMiddle("input[placeholder*='", d, post);
      Some("input[placeholder*='" + d + post)
    else if t in ["search"] then
      var post := "' i], input[type='search'][aria-label*='" + d
        + "' i], input[placeholder*='search' i][placeholder*='" + d + "' i]";
      ContainsMiddle("input[type='search'][placeholder*='", d, post);
      Some("input[type='search'][placeholder*='" + d + post)
    else None
  }

  /** The value of the first attribute called `key`. */
  function Lookup(attrs: seq<(string, string)>, key: string): (r: Option<string>)
    ensures r.Some? <==> exists i :: 0 <= i < |attrs| && attrs[i].0 == key
    ensures r.Some? ==> exists i :: 0 <= i < |attrs| && attrs[i] == (key, r.value)
  {
    if |attrs| == 0 then None
    else if attrs[0].0 == key then Some(attrs[0].1)
    else
      var r := Lookup(attrs[1..], key);
      assert forall i :: 1 <= i < |attrs| ==> attrs[i] == attrs[1..][i - 1];
      r
  }

  /** Whether `attributes[key]` exists and is a non-empty string. */
  predicate Set(attrs: seq<(string, string)>, key: string)
  {
    Lookup(attrs, key).Some? && Lookup(attrs, key).value != ""
  }

  /** `"[name='value']"` */
  function AttributePart(name: string, value: string): string
  {
    "[" + name + "='" + value + "']"
  }

  /** `"." + ".".join(classes.split())` */
  function ClassPart(classes: string): string
  {
    "." + Join(SplitWhitespace(classes), ".")
  }

  /** Whether the attribute is one of the "other" ones that contribute a
      part: not `id`, not `class`, and with a non-empty value. */
  predicate OtherAttribute(a: (string, string))
  {
    a.0 != "id" && a.0 != "class" && a.1 != ""
  }

  /** The parts the other attributes contribute, in order. */
  function OtherParts(attrs: seq<(string, string)>): (parts: seq<string>)
    ensures |parts| == 0 <==> forall i :: 0 <= i < |attrs| ==> !OtherAttribute(attrs[i])
    ensures forall i :: 0 <= i < |attrs| && OtherAttribute(attrs[i]) ==> AttributePart(attrs[i].0, attrs[i].1) in parts
  {
    if |attrs| == 0 then []
    else
      var rest := OtherParts(attrs[1..]);
      assert forall i :: 1 <= i < |attrs| ==> attrs[i] == attrs[1..][i - 1];
      if OtherAttribute(attrs[0]) then [AttributePart(attrs[0].0, attrs[0].1)] + rest else rest
  }

  /** `"".join(parts)` */
  function Concat(parts: seq<string>): string
  {
    if |parts| == 0 then "" else parts[0] + Concat(parts[1..])
  }

  lemma {:induction false} ConcatContains(parts: seq<string>, p: string)
    requires p in parts
    ensures Contains(Concat(parts), p)
  {
    if parts[0] == p {
      ContainsMiddle("", p, Concat(parts[1..]));
      assert "" + p + Concat(parts[1..]) == Concat(parts);
    } else {
      ConcatContains(parts[1..], p);
      var i :| 0 <= i <= |Concat(parts[1..])| && OccursAt(Concat(parts[1..]), p, i);
      var s := Concat(parts);
      assert s == parts[0] + Concat(parts[1..]);
      assert s[|parts[0]| + i..|parts[0]| + i + |p|] == Concat(parts[1..])[i..i + |p|];
      assert OccursAt(s, p, |parts[0]| + i);
    }
  }

  /** `_build_attribute_selector`: no attributes gives `None`; a non-empty
      `id` gives exactly `#id`; otherwise the class part (when `class` is
      non-empty) followed by one `[name='value']` part per other non-empty
      attribute, or `None` when there is no part. */
  function AttributeSelector(attrs: seq<(string, string)>): (r: Option<string>)
    ensures attrs == [] ==> r.None?
    ensures Set(attrs, "id") ==> r == Some("#" + Lookup(attrs, "id").value)
    ensures !Set(attrs, "id") ==>
      (r.None? <==> !Set(attrs, "class") && forall i :: 0 <= i < |attrs| ==> !OtherAttribute(attrs[i]))
    ensures !Set(attrs, "id") && Set(attrs, "class") ==>
      r.Some? && StartsWith(r.value, ClassPart(Lookup(attrs, "class").value))
    ensures !Set(attrs, "id") && r.Some? ==>
      forall i :: 0 <= i < |attrs| && OtherAttribute(attrs[i]) ==> Contains(r.value, AttributePart(attrs[i].0, attrs[i].1))
    ensures !Set(attrs, "id") && r.Some? ==>
      r.value == (if Set(attrs, "class") then ClassPart(Lookup(attrs, "class").value) else "") + Concat(OtherParts(attrs))
  {
    if attrs == [] then None
    else if Set(attrs, "id") then Some("#" + Lookup(attrs, "id").value)
    else
      var parts := (if Set(attrs, "class") then [ClassPart(Lookup(attrs, "class").value)] else []) + OtherParts(attrs);
      if parts == [] then None
      else
        var s := Concat(parts);
        assert Set(attrs, "class") ==> s == ClassPart(Lookup(attrs, "class").value) + Concat(parts[1..]);
        assert Set(attrs, "class") ==> parts[1..] == OtherParts(attrs);
        assert !Set(attrs, "class") ==> parts == OtherParts(attrs) && s == "" + s;
        AttributePartsContained(attrs, parts);
        Some(s)
  }

  lemma AttributePartsContained(attrs: seq<(string, string)>, parts: seq<string>)
    requires forall p :: p in OtherParts(attrs) ==> p in parts
    ensures forall i :: 0 <= i < |attrs| && OtherAttribute(attrs[i]) ==> Contains(Concat(parts), AttributePart(attrs[i].0, attrs[i].1))
  {
    forall i | 0 <= i < |attrs| && OtherAttribute(attrs[i])
      ensures Contains(Concat(parts), AttributePart(attrs[i].0, attrs[i].1))
    {
      ConcatContains(parts, AttributePart(attrs[i].0, attrs[i].1));
    }
  }

  /** `_build_text_selector`: the description as given, inside
      `:has-text('…')`; `None` for an empty description. */
  function TextSelector(description: string): (r: Option<string>)
    ensures r.Some? <==> description != ""
    ensures r.Some? ==> Contains(r.value, description) && StartsWith(r.value, ":has-text('")
  {
    if description == "" then None
    else
      ContainsMiddle(":has-text('", description, "')");
      Some(":has-text('" + description + "')")
  }

  /** The suffix the context selector appends. */
  function NearSuffix(context: string): string
  {
    ":near(:has-text('" + context + "'))"
  }

  /** `_build_context_selector`: the default selector for the type, or `*`,
      followed by a `:near` clause naming the context; `None` for an empty
      context. */
  function ContextSelector(kind: string, context: string): (r: Option<string>)
    ensures r.Some? <==> context != ""
    ensures r.Some? ==> EndsWith(r.value, NearSuffix(context)) && Contains(r.value, context)
    ensures r.Some? ==> r.value[..|r.value| - |NearSuffix(context)|] == DefaultSelector(kind).GetOr("*")
  {
    if context == "" then None
    else
      var base := DefaultSelector(kind).GetOr("*");
      SuffixContains(base, context);
      Some(base + NearSuffix(context))
  }

  lemma SuffixContains(base: string, context: string)
    ensures EndsWith(base + NearSuffix(context), NearSuffix(context))
    ensures (base + NearSuffix(context))[..|base|] == base
    ensures Contains(base + NearSuffix(context), context)
  {
    var s := base + NearSuffix(context);
    var at := |base| + |":near(:has-text('"|;
    assert s[at..at + |context|] == NearSuffix(context)[|":near(:has-text('"|..at - |base| + |context|];
    assert OccursAt(s, context, at);
  }

  /* ---------- strategies and their order ---------- */

  datatype Strategy = Default | Semantic | Attribute | Text | Context

  /** The part of the strategy's method name that `strategy_order` names:
      `_build_<name>_selector`. */
  function Name(s: Strategy): string
  {
    match s
    case Default => "default"
    case Semantic => "semantic"
    case Attribute => "attribute"
    case Text => "text"
    case Context => "context"
  }

  lemma NameInjective(a: Strategy, b: Strategy)
    ensures Name(a) == Name(b) <==> a == b
  {
  }

  /** The order the constructor sets up. */
  const AllStrategies: seq<Strategy> := [Default, Semantic, Attribute, Text, Context]

  /** The selector a strategy builds. */
  function Build(s: Strategy, t: Target): Option<string>
  {
    match s
    case Default => DefaultSelector(t.kind)
    case Semantic => SemanticSelector(t.kind, t.description)
    case Attribute => AttributeSelector(t.attributes)
    case Text => TextSelector(t.description)
    case Context => ContextSelector(t.kind, t.context)
  }


  /** The first strategy of `current` called `name`. */
  function Named(current: seq<Strategy>, name: string): (r: Option<Strategy>)
    ensures r.Some? <==> exists s :: s in current && Name(s) == name
    ensures r.Some? ==> r.value in current && Name(r.value) == name
  {
    if |current| == 0 then None
    else if Name(current[0]) == name then Some(current[0])
    else Named(current[1..], name)
  }

  /** The strategies `strategy_order` picks, in its order: for each name,
      the first strategy of that name, if any. */
  function Picked(order: seq<string>, current: seq<Strategy>): (r: seq<Strategy>)
    ensures forall s :: s in r ==> s in current
  {
    if |order| == 0 then []
    else
      var rest := Picked(order[1..], current);
      match Named(current, order[0])
      case None => rest
      case Some(s) => [s] + rest
  }

  /** The names of `order` that some strategy of `current` carries, in order. */
  function KnownNames(order: seq<string>, current: seq<Strategy>): seq<string>
  {
    if |order| == 0 then []
    else
      var rest := KnownNames(order[1..], current);
      if exists s :: s in current && Name(s) == order[0] then [order[0]] + rest else rest
  }

  function Names(ss: seq<Strategy>): (r: seq<string>)
    ensures |r| == |ss|
    ensures forall i :: 0 <= i < |ss| ==> r[i] == Name(ss[i])
  {
    if |ss| == 0 then [] else [Name(ss[0])] + Names(ss[1..])
  }

  /** The elements of `current` not in `picked`, in their order. */
  function Rest(current: seq<Strategy>, picked: seq<Strategy>): (r: seq<Strategy>)
    ensures forall s :: s in r <==> s in current && s !in picked
    ensures Distinct(current) ==> Distinct(r)
  {
    if |current| == 0 then []
    else
      var rest := Rest(current[1..], picked);
      assert forall s :: s in current <==> s == current[0] || s in current[1..];
      if current[0] !in picked then
        assert Distinct(current) ==> current[0] !in current[1..];
        [current[0]] + rest
      else rest
  }

  /** `initialize`'s reordering: a non-empty `strategy_order` moves the
      strategies it names to the front, in its order, followed by the
      others in their previous order. */
  function Reorder(current: seq<Strategy>, order: seq<string>): (r: seq<Strategy>)
    ensures order == [] ==> r == current
    ensures order != [] ==>
      && |Picked(order, current)| <= |r|
      && r[..|Picked(order, current)|] == Picked(order, current)
      && r[|Picked(order, current)|..] == Rest(current, Picked(order, current))
  {
    if order == [] then current
    else
      var picked := Picked(order, current);
      assert (picked + Rest(current, picked))[..|picked|] == picked;
      picked + Rest(current, picked)
  }

  /** The named strategies come first, in the order named, unknown names
      being skipped. */
  lemma {:induction false} PickedFollowsOrder(order: seq<string>, current: seq<Strategy>)
    ensures Names(Picked(order, current)) == KnownNames(order, current)
    decreases |order|
  {
    if |order| > 0 {
      PickedFollowsOrder(order[1..], current);
      var rest := Picked(order[1..], current);
      match Named(current, order[0])
      case None =>
      case Some(s) =>
        assert Names([s] + rest) == [Name(s)] + Names(rest);
    }
  }

  /** Distinct names pick distinct strategies. */
  lemma {:induction false} PickedDistinct(order: seq<string>, current: seq<Strategy>)
    requires Distinct(order)
    ensures Distinct(Picked(order, current))
    ensures forall s :: s in Picked(order, current) ==> Name(s) in order
    decreases |order|
  {
    if |order| > 0 {
      assert Distinct(order[1..]) by {
        forall i, j | 0 <= i < j < |order[1..]|
          ensures order[1..][i] != order[1..][j]
        {
          assert order[1..][i] == order[i + 1] && order[1..][j] == order[j + 1];
        }
      }
      PickedDistinct(order[1..], current);
      var rest := Picked(order[1..], current);
      forall s | s in rest
        ensures Name(s) in order
      {
        assert Name(s) in order[1..];
      }
      match Named(current, order[0])
      case None =>
      case Some(s) =>
        assert order[0] !in order[1..] by {
          forall k | 0 <= k < |order[1..]|
            ensures order[1..][k] != order[0]
          {
            assert order[1..][k] == order[k + 1];
          }
        }
        forall x | x in rest
          ensures x != s
        {
          assert Name(x) in order[1..];
          assert Name(x) != Name(s);
        }
    }
  }

  /** With no name repeated, the reordering is a permutation of a list
      without repetitions. */
  lemma ReorderPermutes(current: seq<Strategy>, order: seq<string>)
    requires Distinct(current) && Distinct(order)
    ensures Distinct(Reorder(current, order))
    ensures forall s :: s in Reorder(current, order) <==> s in current
    ensures multiset(Reorder(current, order)) == multiset(current)
  {
    var r := Reorder(current, order);
    if order != [] {
      var picked := Picked(order, current);
      var rest := Rest(current, picked);
      PickedDistinct(order, current);
      assert r == picked + rest;
      forall i, j | 0 <= i < j < |r|
        ensures r[i] != r[j]
      {
        if i < |picked| && j >= |picked| {
          assert r[j] == rest[j - |picked|];
          assert r[j] !in picked;
        } else if i >= |picked| {
          assert r[i] == rest[i - |picked|] && r[j] == rest[j - |picked|];
        }
      }
      forall s
        ensures s in r <==> s in current
      {
        assert s in r <==> s in picked || s in rest;
      }
    }
    DistinctSameElements(r, current);
  }

  lemma {:induction false} DistinctCount<T>(s: seq<T>, x: T)
    requires Distinct(s)
    ensures multiset(s)[x] == if x in s then 1 else 0
    decreases |s|
  {
    if |s| > 0 {
      assert s == [s[0]] + s[1..];
      assert Distinct(s[1..]) by {
        forall i, j | 0 <= i < j < |s[1..]|
          ensures s[1..][i] != s[1..][j]
        {
          assert s[1..][i] == s[i + 1] && s[1..][j] == s[j + 1];
        }
      }
      DistinctCount(s[1..], x);
      assert s[0] !in s[1..];
      assert x in s <==> x == s[0] || x in s[1..];
    }
  }

  lemma DistinctSameElements<T>(a: seq<T>, b: seq<T>)
    requires Distinct(a) && Distinct(b)
    requires forall x :: x in a <==> x in b
    ensures multiset(a) == multiset(b)
  {
    forall x
      ensures multiset(a)[x] == multiset(b)[x]
    {
      DistinctCount(a, x);
      DistinctCount(b, x);
    }
  }

  /* ---------- the plugin ---------- */

  /** The plugin's state: the base state and the strategy order. */
  datatype Plugin = Plugin(base: State, strategies: seq<Strategy>)

  function NewPlugin(): Plugin
  {
    Plugin(NewState(), AllStrategies)
  }

  /** `initialize`: the base initialization, then the reordering; `order`
      is the sequence of names that iterating the configured
      `strategy_order` yields (empty when it is absent or empty). */
  function InitializePlugin(p: Plugin, config: Option<Object>, order: seq<string>): (r: Plugin)
    ensures r.base.initialized
    ensures r.strategies == Reorder(p.strategies, order)
  {
    Plugin(Initialize(p.base, config), Reorder(p.strategies, order))
  }

  /** The selectors the strategies produce for a target, in strategy
      order, skipping `None` and empty strings. */
  function Candidates(strategies: seq<Strategy>, t: Target): (r: seq<string>)
    ensures forall c :: c in r ==> c != ""
    ensures forall i :: 0 <= i < |strategies| && Build(strategies[i], t).Some? && Build(strategies[i], t).value != "" ==>
      Build(strategies[i], t).value in r
  {
    if |strategies| == 0 then []
    else
      var rest := Candidates(strategies[1..], t);
      assert forall i :: 1 <= i < |strategies| ==> strategies[i] == strategies[1..][i - 1];
      match Build(strategies[0], t)
      case Some(sel) => if sel != "" then [sel] + rest else rest
      case None => rest
  }

  /** What looking a selector up on the page gives. */
  datatype PageLookup = Found | NotFound | LookupRaises

  /** The index of the first selector the page resolves. */
  function FirstFound(selectors: seq<string>, find: string -> PageLookup, from: nat): (r: Option<nat>)
    requires from <= |selectors|
    ensures r.Some? ==> from <= r.value < |selectors| && find(selectors[r.value]) == Found
    ensures r.Some? ==> forall j :: from <= j < r.value ==> find(selectors[j]) != Found
    ensures r.None? ==> forall j :: from <= j < |selectors| ==> find(selectors[j]) != Found
    decreases |selectors| - from
  {
    if from == |selectors| then None
    else if find(selectors[from]) == Found then Some(from)
    else FirstFound(selectors, find, from + 1)
  }

  /** The element information returned with a hit. */
  function ElementInfo(selector: string, hasEvaluate: bool): (o: Object)
    ensures "selector" in o && o["selector"] == JStr(selector)
  {
    var o := map["selector" := JStr(selector)];
    if hasEvaluate then o["tag" := JStr("element")]["visible" := JBool(true)] else o
  }

  /** The target `recognize` works on, if the argument is one it accepts. */
  function AcceptedTarget(target: TargetInput): Option<Target>
  {
    match target
    case AsTarget(t) => Some(t)
    case AsDict(d) => Some(TargetFromDict(d))
    case _ => None
  }

  /** `recognize`: raises unless initialized; fails without a context or
      with a target that is neither a target nor a dictionary, and when no
      strategy yields a selector; otherwise succeeds with the first
      selector the page resolves (confidence 1.0, method SELECTOR), or
      fails with method SELECTOR when none does. `find` stands for the
      page lookup, `hasEvaluate` for whether the context can evaluate. */
  function Recognize(p: Plugin, context: bool, target: TargetInput, find: string -> PageLookup, hasEvaluate: bool)
    : (r: Result<Recognition>)
    ensures r.Success? <==> p.base.initialized
    ensures r.Success? && r.value.success <==>
      && p.base.initialized && context && AcceptedTarget(target).Some?
      && FirstFound(Candidates(p.strategies, AcceptedTarget(target).value), find, 0).Some?
    ensures r.Success? && r.value.success ==>
      var cands := Candidates(p.strategies, AcceptedTarget(target).value);
      var i := FirstFound(cands, find, 0).value;
      && r.value.confidence == 1.0 && r.value.usedMethod == Some(Selector)
      && r.value.target == AcceptedTarget(target)
      && r.value.element.Some? && "selector" in r.value.element.value
      && r.value.element.value["selector"] == JStr(cands[i])
      && (forall j :: 0 <= j < i ==> find(cands[j]) != Found)
    ensures r.Success? && !r.value.success ==> r.value.error.Some? && r.value.element.None?
    ensures (r.Success? && context && AcceptedTarget(target).Some?
             && Candidates(p.strategies, AcceptedTarget(target).value) == []) ==>
      r.value == RecognitionResult(false, 0.0, None, AcceptedTarget(target), None, None, Some("선택자를 생성할 수 없음"))
  {
    if !p.base.initialized then Failure("RuntimeError: Plugin not initialized")
    else if !context then Success(Failed("인식 컨텍스트가 제공되지 않음"))
    else
      match AcceptedTarget(target)
      case None => Success(Failed("지원되지 않는 대상 형식"))
      case Some(t) =>
        var cands := Candidates(p.strategies, t);
        if cands == [] then
          Success(RecognitionResult(false, 0.0, None, Some(t), None, None, Some("선택자를 생성할 수 없음")))
        else
          match FirstFound(cands, find, 0)
          case Some(i) =>
            Success(RecognitionResult(true, 1.0, Some(Selector), Some(t), Some(ElementInfo(cands[i], hasEvaluate)), None, None))
          case None =>
            Success(RecognitionResult(false, 0.0, Some(Selector), Some(t), None, None, Some("모든 선택자 시도 실패")))
  }

  /** A target with a known type always yields at least one selector. */
  lemma KnownTypeYieldsSelector(p: Plugin, t: Target)
    requires Default in p.strategies && Lower(t.kind) in DefaultKinds
    ensures Candidates(p.strategies, t) != []
    ensures DefaultSelector(t.kind).value in Candidates(p.strategies, t)
  {
    var i :| 0 <= i < |p.strategies| && p.strategies[i] == Default;
    assert Build(p.strategies[i], t) == DefaultSelector(t.kind);
  }
}

=== FILE: seqs.dfy ===
/** Sequence facts shared by several modules. */
module Seqs {

  /** No element occurs twice. */
  predicate Distinct<T(==)>(s: seq<T>)
  {
    forall i, j :: 0 <= i < j < |s| ==> s[i] != s[j]
  }
}

=== FILE: settings_manager.dfy ===
/** The settings store of `core/settings_manager.py`: a dictionary of
    sections, read and written by section and key, merged over the defaults
    when loaded, with the interruption white- and blacklists kept as lists
    inside the `interruption` section. Observers are represented by the
    sequence of change notices an operation sends them. */
module SettingsManager {
  import opened Wrappers
  import opened PyStr
  import opened Json

  /** A notice sent to the observers: section and key (`None` for "all"),
      and the new value (`None` on deletion and reset). */
  datatype Change = Change(section: Option<string>, key: Option<string>, value: Json)

  /** `DEFAULT_SETTINGS`. */
  function Defaults(): (d: Object)
    ensures d.Keys == {"system", "plugins", "automation", "interruption", "ui", "favorites"}
    ensures d["interruption"].JObj? && d["plugins"] == JObj(map[])
  {
    map[
      "system" := JObj(map[
        "headless_mode" := JBool(false),
        "log_level" := JStr("INFO"),
        "checkpoint_dir" := JStr(""),
        "max_retries" := JInt(3),
        "auto_recovery" := JBool(true)]),
      "plugins" := JObj(map[]),
      "automation" := JObj(map[
        "default_timeout" := JReal(60.0),
        "default_retry_delay" := JReal(2.0),
        "screenshot_on_error" := JBool(true),
        "browser_type" := JStr("chromium")]),
      "interruption" := JObj(map[
        "enabled" := JBool(true),
        "popup_handling" := JBool(true),
        "ad_blocking" := JBool(true),
        "cookie_handling" := JBool(true),
        "max_interruptions" := JInt(10),
        "whitelist" := JList([]),
        "blacklist" := JList([])]),
      "ui" := JObj(map[
        "theme" := JStr("light"),
        "language" := JStr("ko"),
        "font_size" := JInt(12),
        "show_detailed_logs" := JBool(true)]),
      "favorites" := JList([])]
  }

  // ---------------------------------------------------------------------
  // Python equality
  // ---------------------------------------------------------------------

  /** The numeric value of a boolean, integer or float. */
  function NumOf(j: Json): Option<real>
  {
    match j
    case JBool(b) => Some(if b then 1.0 else 0.0)
    case JInt(i) => Some(i as real)
    case JReal(r) => Some(r)
    case _ => None
  }

  /** Python `==` on JSON values: numbers compare by value across `bool`,
      `int` and `float`; lists elementwise; dicts by keys and values. */
  predicate PyEq(a: Json, b: Json)
    decreases a
  {
    if NumOf(a).Some? || NumOf(b).Some? then NumOf(a) == NumOf(b) && NumOf(a).Some?
    else match a
      case JNull => b == JNull
      case JStr(s) => b == JStr(s)
      case JList(xs) =>
        b.JList? && |xs| == |b.items| && forall i :: 0 <= i < |xs| ==> PyEq(xs[i], b.items[i])
      case JObj(m) =>
        b.JObj? && m.Keys == b.fields.Keys && forall k :: k in m ==> PyEq(m[k], b.fields[k])
      case _ => false
  }

  lemma {:induction false} PyEqReflexive(a: Json)
    ensures PyEq(a, a)
    decreases a
  {
    match a
    case JList(xs) =>
      forall i | 0 <= i < |xs| ensures PyEq(xs[i], xs[i]) {
        PyEqReflexive(xs[i]);
      }
    case JObj(m) =>
      forall k | k in m ensures PyEq(m[k], m[k]) {
        PyEqReflexive(m[k]);
      }
    case _ =>
  }

  /** `True == 1 == 1.0`, though the values differ. */
  lemma PyEqAcrossNumbers()
    ensures PyEq(JBool(true), JInt(1)) && PyEq(JInt(1), JReal(1.0)) && !PyEq(JStr("1"), JInt(1))
  {
  }

  // ---------------------------------------------------------------------
  // Merging and loading
  // ---------------------------------------------------------------------

  /** `_deep_merge(target, source)`: every key of `source` is written into
      `target`; where both values are dictionaries they are merged the same
      way, otherwise the source value replaces the target's. */
  function DeepMerge(target: Object, source: Object): (r: Object)
    ensures r.Keys == target.Keys + source.Keys
    ensures forall k :: k in target && k !in source ==> r[k] == target[k]
    ensures forall k :: k in source && !(k in target && target[k].JObj? && source[k].JObj?) ==> r[k] == source[k]
    ensures forall k :: k in source && k in target && target[k].JObj? && source[k].JObj? ==> r[k].JObj?
    decreases JObj(source)
  {
    map k | k in target.Keys + source.Keys ::
      if k !in source then target[k]
      else if k in target && target[k].JObj? && source[k].JObj? then
        assert JObj(source[k].fields) == source[k];
        JObj(DeepMerge(target[k].fields, source[k].fields))
      else source[k]
  }

  /** The value a dotted path of keys reaches in a nested object. */
  function Lookup(o: Object, path: seq<string>): Option<Json>
    requires |path| > 0
    decreases |path|
  {
    if path[0] !in o then None
    else if |path| == 1 then Some(o[path[0]])
    else if o[path[0]].JObj? then Lookup(o[path[0]].fields, path[1..])
    else None
  }

  /** A leaf of the source (a value that is not itself a dictionary) is
      found at the same path after the merge. */
  lemma {:induction false} MergedLeafFromSource(target: Object, source: Object, path: seq<string>)
    requires |path| > 0
    requires var v := Lookup(source, path); v.Some? && !v.value.JObj?
    ensures Lookup(DeepMerge(target, source), path) == Lookup(source, path)
    decreases |path|
  {
    var k := path[0];
    if |path| > 1 {
      if k in target && target[k].JObj? {
        MergedLeafFromSource(target[k].fields, source[k].fields, path[1..]);
      }
    }
  }

  /** A path that the source does not reach keeps the value it had in the
      target. */
  lemma {:induction false} MergedKeepsTarget(target: Object, source: Object, path: seq<string>)
    requires |path| > 0
    requires forall n :: 1 <= n <= |path| ==> Lookup(source, path[..n]).None? || Lookup(source, path[..n]).value.JObj?
    requires Lookup(source, path).None?
    requires var v := Lookup(target, path); v.Some?
    ensures Lookup(DeepMerge(target, source), path) == Lookup(target, path)
    decreases |path|
  {
    var k := path[0];
    assert path[..1] == [k];
    if |path| > 1 && k in source {
      assert Lookup(source, path[..1]) == Some(source[k]);
      var rest := path[1..];
      forall n | 1 <= n <= |rest|
        ensures Lookup(source[k].fields, rest[..n]).None? || Lookup(source[k].fields, rest[..n]).value.JObj?
      {
        assert path[..n + 1][1..] == rest[..n];
        assert Lookup(source, path[..n + 1]) == Lookup(source[k].fields, rest[..n]);
      }
      MergedKeepsTarget(target[k].fields, source[k].fields, rest);
    }
  }

  /** Merging nothing changes nothing, and merging into nothing copies. */
  lemma {:induction false} DeepMergeUnits(o: Object)
    ensures DeepMerge(o, map[]) == o
    ensures DeepMerge(map[], o) == o
  {
  }

  /** Merging an object into itself gives it back. */
  lemma {:induction false} DeepMergeSelf(o: Object)
    ensures DeepMerge(o, o) == o
    decreases JObj(o)
  {
    forall k | k in o
      ensures DeepMerge(o, o)[k] == o[k]
    {
      if o[k].JObj? {
        assert JObj(o[k].fields) == o[k];
        DeepMergeSelf(o[k].fields);
      }
    }
  }

  /** Merging the same source twice is the same as merging it once. */
  lemma {:induction false} DeepMergeIdempotent(target: Object, source: Object)
    ensures DeepMerge(DeepMerge(target, source), source) == DeepMerge(target, source)
    decreases JObj(source)
  {
    var once := DeepMerge(target, source);
    var twice := DeepMerge(once, source);
    forall k | k in twice.Keys
      ensures twice[k] == once[k]
    {
      if k in source && k in target && target[k].JObj? && source[k].JObj? {
        assert JObj(source[k].fields) == source[k];
        assert once[k] == JObj(DeepMerge(target[k].fields, source[k].fields));
        DeepMergeIdempotent(target[k].fields, source[k].fields);
      } else if k in source && source[k].JObj? {
        assert once[k] == source[k];
        assert JObj(source[k].fields) == source[k];
        DeepMergeSelf(source[k].fields);
      }
    }
    assert twice.Keys == once.Keys;
  }

  /** What the settings file holds, if anything. */
  datatype File = Missing | Unreadable | Parsed(content: Json)

  /** `load_settings` over the defaults: a missing file keeps the defaults
      (and is written); a file that cannot be read or does not hold a
      dictionary is an error that keeps the defaults; otherwise the file
      is merged over them. */
  function LoadSettings(file: File): (res: (bool, Object))
    ensures res.0 <==> file.Missing? || (file.Parsed? && file.content.JObj?)
    ensures !(file.Parsed? && file.content.JObj?) ==> res.1 == Defaults()
    ensures file.Parsed? && file.content.JObj? ==> res.1.Keys == Defaults().Keys + file.content.fields.Keys
  {
    match file
    case Missing => (true, Defaults())
    case Unreadable => (false, Defaults())
    case Parsed(j) => if j.JObj? then (true, DeepMerge(Defaults(), j.fields)) else (false, Defaults())
  }

  // ---------------------------------------------------------------------
  // Reading and writing
  // ---------------------------------------------------------------------

  /** `get(section, key, default)`: the default for a missing section or
      key; the whole section without a key. Asking a section that is not a
      dictionary for a key raises. */
  function Get(settings: Object, section: string, key: Option<string>, default: Json): (r: Result<Json>)
    ensures section !in settings ==> r == Success(default)
    ensures section in settings && key.None? ==> r == Success(settings[section])
    ensures section in settings && key.Some? ==>
      (r.Success? <==> settings[section].JObj?)
      && (r.Success? ==> r.value == GetOrDefault(settings[section].fields, key.value, default))
  {
    if section !in settings then Success(default)
    else if key.None? then Success(settings[section])
    else if settings[section].JObj? then Success(GetOrDefault(settings[section].fields, key.value, default))
    else Failure("AttributeError: section is not a dictionary")
  }

  /** `set(section, key, value)`: a missing section is created; the value is
      stored; the result, and the single notice, say whether the key was
      absent or held a value unequal to the new one under Python `==`.
      A section that is not a dictionary cannot be written into. */
  function Set(settings: Object, section: string, key: string, value: Json)
    : (r: Result<(bool, Object, seq<Change>)>)
    ensures r.Success? <==> section !in settings || settings[section].JObj?
    ensures r.Success? ==>
      var (changed, s', notices) := r.value;
      var before := if section in settings then settings[section].fields else map[];
      && (changed <==> key !in before || !PyEq(before[key], value))
      && s'.Keys == settings.Keys + {section}
      && (forall other :: other in settings && other != section ==> s'[other] == settings[other])
      && s'[section] == JObj(before[key := value])
      && notices == (if changed then [Change(Some(section), Some(key), value)] else [])
  {
    var sec := if section in settings then settings[section] else JObj(map[]);
    if !sec.JObj? then Failure("TypeError: section is not a dictionary")
    else
      var m := sec.fields;
      var changed := key !in m || !PyEq(m[key], value);
      Success((changed, settings[section := JObj(m[key := value])],
               if changed then [Change(Some(section), Some(key), value)] else []))
  }

  /** A value just set is what `get` returns. */
  lemma GetAfterSet(settings: Object, section: string, key: string, value: Json, default: Json)
    requires Set(settings, section, key, value).Success?
    ensures Get(Set(settings, section, key, value).value.1, section, Some(key), default) == Success(value)
  {
  }

  /** Setting the same value twice reports a change at most the first time,
      and the second call notifies nobody. */
  lemma SetTwice(settings: Object, section: string, key: string, value: Json)
    requires Set(settings, section, key, value).Success?
    ensures var s1 := Set(settings, section, key, value).value.1;
      Set(s1, section, key, value) == Success((false, s1, []))
  {
    PyEqReflexive(value);
    var s1 := Set(settings, section, key, value).value.1;
    assert s1[section].fields[key := value] == s1[section].fields;
    assert s1[section := JObj(s1[section].fields)] == s1;
  }

  /** `delete(section, key)`: a missing section, or a key the section does
      not hold, gives false; without a key the section goes. Membership is
      Python's `in`, so on a list or string section it tests elements or
      substrings, and deleting from either raises, as does testing a number,
      boolean or `None`. */
  function Delete(settings: Object, section: string, key: Option<string>)
    : (r: Result<(bool, Object, seq<Change>)>)
    ensures section !in settings ==> r == Success((false, settings, []))
    ensures section in settings && key.None? ==> r == Success((true, settings - {section}, [Change(Some(section), None, JNull)]))
    ensures section in settings && key.Some? && settings[section].JObj? ==>
      var m := settings[section].fields;
      && (key.value !in m ==> r == Success((false, settings, [])))
      && (key.value in m ==> r == Success((true, settings[section := JObj(m - {key.value})],
                                           [Change(Some(section), key, JNull)])))
    ensures r.Success? && r.value.0 ==> section in settings
    ensures r.Failure? ==> section in settings && key.Some? && !settings[section].JObj?
  {
    if section !in settings then Success((false, settings, []))
    else if key.None? then Success((true, settings - {section}, [Change(Some(section), None, JNull)]))
    else
      var k := key.value;
      match settings[section]
      case JObj(m) =>
        if k !in m then Success((false, settings, []))
        else Success((true, settings[section := JObj(m - {k})], [Change(Some(section), key, JNull)]))
      case JList(items) =>
        if JStr(k) in items then Failure("TypeError: list indices must be integers") else Success((false, settings, []))
      case JStr(s) =>
        if Contains(s, k) then Failure("TypeError: str does not support item deletion") else Success((false, settings, []))
      case _ => Failure("TypeError: argument is not iterable")
  }

  /** After a successful delete of a key, `get` gives the default back. */
  lemma GetAfterDelete(settings: Object, section: string, key: string, default: Json)
    requires section in settings && settings[section].JObj?
    ensures var r := Delete(settings, section, Some(key));
      r.Success? && Get(r.value.1, section, Some(key), default) == Success(default)
  {
  }

  /** `reset_to_defaults(section)`: without a section every setting goes
      back to its default; a section with no default is refused; otherwise
      only that section is restored. */
  function ResetToDefaults(settings: Object, section: Option<string>): (r: (bool, Object, seq<Change>))
    ensures section.None? ==> r == (true, Defaults(), [Change(None, None, JNull)])
    ensures section.Some? && section.value !in Defaults() ==> r == (false, settings, [])
    ensures section.Some? && section.value in Defaults() ==>
      && r.0 && r.1.Keys == settings.Keys + {section.value}
      && r.1[section.value] == Defaults()[section.value]
      && (forall other :: other in settings && other != section.value ==> r.1[other] == settings[other])
      && r.2 == [Change(section, None, JNull)]
  {
    match section
    case None => (true, Defaults(), [Change(None, None, JNull)])
    case Some(s) =>
      if s !in Defaults() then (false, settings, [])
      else (true, settings[s := Defaults()[s]], [Change(section, None, JNull)])
  }

  /** Resetting every section one by one agrees with resetting all of them,
      on the sections that have defaults. */
  lemma ResetSectionAgreesWithResetAll(settings: Object, s: string)
    requires s in Defaults()
    ensures ResetToDefaults(settings, Some(s)).1[s] == ResetToDefaults(settings, None).1[s]
  {
  }

  // ---------------------------------------------------------------------
  // Domain lists
  // ---------------------------------------------------------------------

  predicate Hashable(j: Json)
  {
    !j.JList? && !j.JObj?
  }

  /** Python `set(v)` for the values a stored list may hold: the elements
      of a list (all hashable), the one-character strings of a string, the
      keys of a dictionary. Anything else raises. */
  function PySet(v: Json): (r: Result<set<Json>>)
    ensures v.JList? ==> (r.Success? <==> forall i :: 0 <= i < |v.items| ==> Hashable(v.items[i]))
    ensures v.JList? && r.Success? ==> forall x :: x in r.value <==> x in v.items
    ensures v.JObj? ==> r == Success(set k | k in v.fields :: JStr(k))
    ensures r.Failure? ==> v.JList? || v.JNull? || v.JBool? || v.JInt? || v.JReal?
    ensures r.Success? ==> forall x :: x in r.value ==> Hashable(x)
    ensures v == JList([]) ==> r == Success({})
  {
    match v
    case JList(items) =>
      if forall i :: 0 <= i < |items| ==> Hashable(items[i]) then
        if items == [] then Success({}) else Success(set x | x in items)
      else Failure("TypeError: unhashable type")
    case JStr(s) => Success(set i | 0 <= i < |s| :: JStr([s[i]]))
    case JObj(m) => Success(set k | k in m :: JStr(k))
    case _ => Failure("TypeError: object is not iterable")
  }

  /** Python `list(s)`: each element once, in an order the model leaves
      open. */
  ghost function ListOf(s: set<Json>): (xs: seq<Json>)
    ensures forall x :: x in xs <==> x in s
    ensures forall i, j :: 0 <= i < j < |xs| ==> xs[i] != xs[j]
    ensures |xs| == |s|
    decreases |s|
  {
    if s == {} then []
    else
      var x :| x in s;
      var rest := ListOf(s - {x});
      [x] + rest
  }

  /** `get_whitelist_domains` / `get_blacklist_domains`, with `which` the
      key of the list in the `interruption` section. */
  function GetDomains(settings: Object, which: string): (r: Result<set<Json>>)
    ensures "interruption" !in settings ==> r == Success({})
    ensures r.Success? ==> forall x :: x in r.value ==> Hashable(x)
  {
    var v :- Get(settings, "interruption", Some(which), JList([]));
    PySet(v)
  }

  /** The keys of the `interruption` section, or none when it is absent. */
  function DomainSection(settings: Object): map<string, Json>
  {
    if "interruption" in settings && settings["interruption"].JObj? then settings["interruption"].fields else map[]
  }

  /** `s'` is `settings` with only the `interruption` section's `which`
      entry replaced by a list, and `notices` is the one notification of
      that new list. */
  predicate ListStored(settings: Object, s': Object, which: string, notices: seq<Change>)
  {
    && s'.Keys == settings.Keys + {"interruption"}
    && (forall other :: other in settings && other != "interruption" ==> s'[other] == settings[other])
    && s'["interruption"].JObj?
    && s'["interruption"].fields.Keys == DomainSection(settings).Keys + {which}
    && (forall k :: k in DomainSection(settings) && k != which ==>
          s'["interruption"].fields[k] == DomainSection(settings)[k])
    && s'["interruption"].fields[which].JList?
    && notices == [Change(Some("interruption"), Some(which), s'["interruption"].fields[which])]
  }

  /** A changing store of a list into the `interruption` section keeps
      the other sections and entries and notifies that one entry. */
  lemma SetStoresList(settings: Object, which: string, v: Json)
    requires v.JList?
    ensures var r := Set(settings, "interruption", which, v);
      r.Success? && r.value.0 ==> ListStored(settings, r.value.1, which, r.value.2)
  {
    var r := Set(settings, "interruption", which, v);
    if r.Success? && r.value.0 {
      var s' := r.value.1;
      assert DomainSection(settings) == if "interruption" in settings then settings["interruption"].fields else map[];
      assert s'["interruption"].fields == DomainSection(settings)[which := v];
    }
  }

  /** `add_to_whitelist` / `add_to_blacklist`: a domain already listed gives
      false; otherwise the list is stored again with the domain added. */
  ghost function AddDomain(settings: Object, which: string, domain: string)
    : (r: Result<(bool, Object, seq<Change>)>)
    ensures r.Success? <==> GetDomains(settings, which).Success?
    ensures r.Success? && r.value.0 ==> GetDomains(r.value.1, which) == Success(GetDomains(settings, which).value + {JStr(domain)})
    ensures r.Success? && r.value.0 ==> ListStored(settings, r.value.1, which, r.value.2)
    ensures r.Success? ==> (r.value.0 <==> JStr(domain) !in GetDomains(settings, which).value)
    ensures r.Success? && !r.value.0 ==> r.value.1 == settings && r.value.2 == []
  {
    var domains :- GetDomains(settings, which);
    if JStr(domain) in domains then Success((false, settings, []))
    else
      var listed := ListOf(domains + {JStr(domain)});
      StoredListChanges(settings, which, domains, domain, listed);
      SetStoresList(settings, which, JList(listed));
      Set(settings, "interruption", which, JList(listed))
  }

  /** `remove_from_whitelist` / `remove_from_blacklist`: a domain not listed
      gives false; otherwise the list is stored again without it. */
  ghost function RemoveDomain(settings: Object, which: string, domain: string)
    : (r: Result<(bool, Object, seq<Change>)>)
    ensures r.Success? <==> GetDomains(settings, which).Success?
    ensures r.Success? && r.value.0 ==> GetDomains(r.value.1, which) == Success(GetDomains(settings, which).value - {JStr(domain)})
    ensures r.Success? && r.value.0 ==> ListStored(settings, r.value.1, which, r.value.2)
    ensures r.Success? ==> (r.value.0 <==> JStr(domain) in GetDomains(settings, which).value)
    ensures r.Success? && !r.value.0 ==> r.value.1 == settings && r.value.2 == []
  {
    var domains :- GetDomains(settings, which);
    if JStr(domain) !in domains then Success((false, settings, []))
    else
      var listed := ListOf(domains - {JStr(domain)});
      StoredListChangesOnRemove(settings, which, domains, domain, listed);
      SetStoresList(settings, which, JList(listed));
      Set(settings, "interruption", which, JList(listed))
  }

  /** Python `==` against a string holds only for that same string. */
  lemma PyEqStr(a: Json, d: string)
    ensures PyEq(a, JStr(d)) <==> a == JStr(d)
    ensures PyEq(JStr(d), a) <==> a == JStr(d)
  {
  }

  /** A list holding a string that `prev` lacks is unequal to `prev`. */
  lemma UnequalLists(prev: Json, listed: seq<Json>, d: string)
    requires JStr(d) in listed && (prev.JList? ==> JStr(d) !in prev.items)
    ensures !PyEq(prev, JList(listed))
  {
    if prev.JList? && |prev.items| == |listed| {
      var i :| 0 <= i < |listed| && listed[i] == JStr(d);
      PyEqStr(prev.items[i], d);
    }
  }

  /** A list lacking a string that `prev` holds is unequal to `prev`. */
  lemma UnequalListsOnRemove(prev: Json, listed: seq<Json>, d: string)
    requires JStr(d) !in listed && prev.JList? && JStr(d) in prev.items
    ensures !PyEq(prev, JList(listed))
  {
    if |prev.items| == |listed| {
      var i :| 0 <= i < |prev.items| && prev.items[i] == JStr(d);
      PyEqStr(listed[i], d);
    }
  }

  /** The stored value a successful `GetDomains` read. */
  lemma StoredDomains(settings: Object, which: string, domains: set<Json>)
    requires GetDomains(settings, which) == Success(domains)
    ensures "interruption" in settings ==> settings["interruption"].JObj?
    ensures "interruption" in settings && which in settings["interruption"].fields ==>
      PySet(settings["interruption"].fields[which]) == Success(domains)
  {
  }

  /** The list stored by an add differs, under Python `==`, from whatever
      was stored before, so `set` reports the change. */
  lemma StoredListChanges(settings: Object, which: string, domains: set<Json>, domain: string, listed: seq<Json>)
    requires GetDomains(settings, which) == Success(domains) && JStr(domain) !in domains
    requires forall x :: x in listed <==> x in domains + {JStr(domain)}
    ensures var r := Set(settings, "interruption", which, JList(listed));
      r.Success? && r.value.0
      && GetDomains(r.value.1, which) == Success(domains + {JStr(domain)})
  {
    StoredDomains(settings, which, domains);
    if "interruption" in settings && which in settings["interruption"].fields {
      UnequalLists(settings["interruption"].fields[which], listed, domain);
    }
    assert forall i :: 0 <= i < |listed| ==> Hashable(listed[i]) by {
      assert forall i :: 0 <= i < |listed| ==> listed[i] in domains + {JStr(domain)};
    }
    assert (set x | x in listed) == domains + {JStr(domain)};
  }

  /** The list stored by a removal differs from the one before, which held
      the domain. */
  lemma StoredListChangesOnRemove(settings: Object, which: string, domains: set<Json>, domain: string, listed: seq<Json>)
    requires GetDomains(settings, which) == Success(domains) && JStr(domain) in domains
    requires forall x :: x in listed <==> x in domains - {JStr(domain)}
    ensures var r := Set(settings, "interruption", which, JList(listed));
      r.Success? && r.value.0
      && GetDomains(r.value.1, which) == Success(domains - {JStr(domain)})
  {
    StoredDomains(settings, which, domains);
    if "interruption" in settings && which in settings["interruption"].fields {
      var prev := settings["interruption"].fields[which];
      if prev.JList? {
        UnequalListsOnRemove(prev, listed, domain);
      } else {
        UnequalLists(prev, [JStr(domain)], domain);
        assert !PyEq(prev, JList(listed));
      }
    }
    forall i | 0 <= i < |listed|
      ensures Hashable(listed[i])
    {
      assert listed[i] in domains - {JStr(domain)};
    }
    if listed == [] {
      assert domains - {JStr(domain)} == {};
    } else {
      assert (set x | x in listed) == domains - {JStr(domain)};
    }
  }

  /** Adding a domain twice: the second add reports false. */
  lemma AddDomainTwice(settings: Object, which: string, domain: string)
    requires AddDomain(settings, which, domain).Success?
    ensures var s1 := AddDomain(settings, which, domain).value.1;
      AddDomain(s1, which, domain) == Success((false, s1, []))
  {
  }

  /** Removing an added domain gives the domain set back. */
  lemma AddThenRemove(settings: Object, which: string, domain: string)
    requires AddDomain(settings, which, domain).Success? && AddDomain(settings, which, domain).value.0
    ensures var s1 := AddDomain(settings, which, domain).value.1;
      var r := RemoveDomain(s1, which, domain);
      r.Success? && r.value.0 && GetDomains(r.value.1, which) == GetDomains(settings, which)
  {
    var d := GetDomains(settings, which).value;
    assert d + {JStr(domain)} - {JStr(domain)} == d;
  }
}

=== FILE: sorting.dfy ===
/** Python's `sorted(xs, key=k, reverse=True)` and `list.sort(key=k,
    reverse=True)` for integer keys: a stable sort into non-increasing key
    order. Stability is stated as: for every key value, the elements with
    that key appear in the result in their original order. */
module Sorting {

  predicate SortedDesc<T>(s: seq<T>, key: T -> int)
  {
    forall i, j :: 0 <= i < j < |s| ==> key(s[i]) >= key(s[j])
  }

  /** The elements of `s` whose key is `v`, in order. */
  function WithKey<T>(s: seq<T>, key: T -> int, v: int): seq<T>
  {
    if |s| == 0 then []
    else (if key(s[0]) == v then [s[0]] else []) + WithKey(s[1..], key, v)
  }

  /** Inserts `x` before the first element whose key is not greater. */
  function Insert<T>(x: T, t: seq<T>, key: T -> int): (r: seq<T>)
    ensures multiset(r) == multiset{x} + multiset(t)
    ensures |r| == |t| + 1
  {
    if |t| == 0 || key(t[0]) <= key(x) then [x] + t
    else
      var rest := Insert(x, t[1..], key);
      assert t == [t[0]] + t[1..];
      [t[0]] + rest
  }

  /** Stable descending sort. */
  function SortDesc<T>(s: seq<T>, key: T -> int): (r: seq<T>)
    ensures multiset(r) == multiset(s)
    ensures |r| == |s|
    ensures SortedDesc(r, key)
  {
    if |s| == 0 then []
    else
      var t := SortDesc(s[1..], key);
      InsertKeepsSorted(s[0], t, key);
      assert s == [s[0]] + s[1..];
      Insert(s[0], t, key)
  }

  lemma {:induction false} InsertKeepsSorted<T>(x: T, t: seq<T>, key: T -> int)
    requires SortedDesc(t, key)
    ensures SortedDesc(Insert(x, t, key), key)
    decreases |t|
  {
    if |t| == 0 || key(t[0]) <= key(x) {
    } else {
      var rest := Insert(x, t[1..], key);
      InsertKeepsSorted(x, t[1..], key);
      var r := [t[0]] + rest;
      forall j | 0 <= j < |rest|
        ensures key(t[0]) >= key(rest[j])
      {
        assert rest[j] in multiset(rest);
        assert rest[j] == x || rest[j] in multiset(t[1..]);
        if rest[j] != x {
          var k :| 0 <= k < |t[1..]| && t[1..][k] == rest[j];
          assert t[1..][k] == t[k + 1];
        }
      }
    }
  }

  lemma {:induction false} WithKeyAppend<T>(a: seq<T>, b: seq<T>, key: T -> int, v: int)
    ensures WithKey(a + b, key, v) == WithKey(a, key, v) + WithKey(b, key, v)
    decreases |a|
  {
    if |a| == 0 {
      assert a + b == b;
    } else {
      assert (a + b)[1..] == a[1..] + b;
      WithKeyAppend(a[1..], b, key, v);
    }
  }

  lemma {:induction false} InsertWithKey<T>(x: T, t: seq<T>, key: T -> int, v: int)
    ensures WithKey(Insert(x, t, key), key, v)
         == (if key(x) == v then [x] else []) + WithKey(t, key, v)
    decreases |t|
  {
    if |t| == 0 || key(t[0]) <= key(x) {
      assert ([x] + t)[1..] == t;
    } else {
      var rest := Insert(x, t[1..], key);
      assert ([t[0]] + rest)[1..] == rest;
      InsertWithKey(x, t[1..], key, v);
    }
  }

  /** The sort is stable: for each key value, the elements with that key
      keep their original relative order. */
  lemma {:induction false} SortDescStable<T>(s: seq<T>, key: T -> int, v: int)
    ensures WithKey(SortDesc(s, key), key, v) == WithKey(s, key, v)
    decreases |s|
  {
    if |s| > 0 {
      SortDescStable(s[1..], key, v);
      InsertWithKey(s[0], SortDesc(s[1..], key), key, v);
    }
  }
}

=== FILE: task_model.dfy ===
/** The web application's task record: its process list stored as one
    comma-separated string, its conversation stored as JSON text, and who
    may view or edit it. The database relations become plain values: the
    users a task is shared with are a set, and each project a task
    belongs to is given by its owner and its members' roles. JSON decoding
    and encoding are parameters. */
module TaskModel {
  import opened Wrappers
  import opened PyStr
  import opened Json
  import ProjectModels

  /** A requesting user: anonymous, or an authenticated user by id. */
  datatype User = Anonymous | Member(id: nat)

  /** A project a task belongs to: its owner and its members' roles. */
  datatype Project = Project(owner: nat, roles: map<nat, string>)

  datatype Task = Task(
    process: string,
    conversation: string,
    owner: Option<nat>,
    isPublic: bool,
    sharedWith: set<nat>,
    projects: seq<Project>)

  /* ---------- process list ---------- */

  const Separator := ", "

  /** `get_process_list` */
  function GetProcessList(t: Task): (r: seq<string>)
    ensures |r| >= 1
  {
    Split(t.process, Separator)
  }

  /** `set_process_list` */
  function SetProcessList(t: Task, steps: seq<string>): (r: Task)
    ensures r.process == Join(steps, Separator)
    ensures r == t.(process := r.process)
  {
    t.(process := Join(steps, Separator))
  }

  /** Storing a process list and reading it back gives the same list,
      provided it is not empty and no step contains the separator. */
  lemma ProcessListRoundTrip(t: Task, steps: seq<string>)
    requires |steps| >= 1
    requires forall s :: s in steps ==> !Contains(s, Separator)
    ensures GetProcessList(SetProcessList(t, steps)) == steps
  {
    SplitJoinCommaSpace(steps);
  }

  /** The empty list does not survive: it reads back as one empty step. */
  lemma EmptyProcessListReadsBackAsOneStep(t: Task)
    ensures GetProcessList(SetProcessList(t, [])) == [""]
  {
    assert FindFrom("", Separator, 0).None?;
  }

  /* ---------- conversation ---------- */

  /** `get_conversation`: the decoded text, or an empty list when the text
      is empty or does not decode. */
  function GetConversation(t: Task, decode: string -> Option<Json>): (r: Json)
    ensures t.conversation == "" ==> r == JList([])
    ensures t.conversation != "" && decode(t.conversation).Some? ==> r == decode(t.conversation).value
    ensures decode(t.conversation).None? ==> r == JList([])
  {
    if t.conversation == "" then JList([]) else decode(t.conversation).GetOr(JList([]))
  }

  /** The message `add_message` appends. */
  function Message(kind: Json, content: Json, timestamp: string): Json
  {
    JObj(map["type" := kind, "content" := content, "timestamp" := JStr(timestamp)])
  }

  /** `add_message`: the stored conversation with one message appended,
      written back through `encode`. A stored value that is not a list
      cannot be appended to, and Python raises. */
  function AddMessage(t: Task, kind: Json, content: Json, timestamp: string,
                      decode: string -> Option<Json>, encode: Json -> string): (r: Result<(Task, seq<Json>)>)
    ensures r.Success? <==> GetConversation(t, decode).JList?
    ensures r.Success? ==>
      && r.value.1 == GetConversation(t, decode).items + [Message(kind, content, timestamp)]
      && r.value.0 == t.(conversation := encode(JList(r.value.1)))
  {
    match GetConversation(t, decode)
    case JList(items) =>
      var conversation := items + [Message(kind, content, timestamp)];
      Success((t.(conversation := encode(JList(conversation))), conversation))
    case _ => Failure("AttributeError: conversation is not a list")
  }

  /** With an encoding that decodes back and never writes the empty
      string, each added message is read back after the earlier ones. */
  lemma AddMessageReadsBack(t: Task, kind: Json, content: Json, timestamp: string,
                            decode: string -> Option<Json>, encode: Json -> string)
    requires forall j :: decode(encode(j)) == Some(j) && encode(j) != ""
    requires GetConversation(t, decode).JList?
    ensures AddMessage(t, kind, content, timestamp, decode, encode).Success?
    ensures
      var (t', conversation) := AddMessage(t, kind, content, timestamp, decode, encode).value;
      && GetConversation(t', decode) == JList(conversation)
      && |conversation| == |GetConversation(t, decode).items| + 1
      && conversation[..|conversation| - 1] == GetConversation(t, decode).items
      && conversation[|conversation| - 1] == Message(kind, content, timestamp)
  {
    var conversation := AddMessage(t, kind, content, timestamp, decode, encode).value.1;
    assert decode(encode(JList(conversation))) == Some(JList(conversation));
  }

  /* ---------- access ---------- */

  /** Whether the user owns or is a member of some project of a task. */
  predicate InSomeProject(t: Task, id: nat)
  {
    exists i :: 0 <= i < |t.projects| && (t.projects[i].owner == id || id in t.projects[i].roles)
  }

  /** The roles whose project membership lets a user edit a task. */
  const EditorRoles: seq<string> := ["host", "admin", "editor"]

  /** Whether the user owns some project of a task, or is a member with
      an editing role in it. */
  predicate EditorInSomeProject(t: Task, id: nat)
  {
    exists i :: 0 <= i < |t.projects| &&
      (t.projects[i].owner == id || (id in t.projects[i].roles && t.projects[i].roles[id] in EditorRoles))
  }

  /** `can_user_view` */
  predicate CanView(t: Task, u: User)
    ensures t.isPublic ==> CanView(t, u)
    ensures u.Anonymous? ==> (CanView(t, u) <==> t.isPublic)
    ensures u.Member? && (t.owner == Some(u.id) || u.id in t.sharedWith) ==> CanView(t, u)
  {
    match u
    case Anonymous => t.isPublic
    case Member(id) => t.isPublic || t.owner == Some(id) || id in t.sharedWith || InSomeProject(t, id)
  }

  /** `can_user_edit` */
  predicate CanEdit(t: Task, u: User)
    ensures u.Anonymous? ==> !CanEdit(t, u)
    ensures u.Member? && t.owner == Some(u.id) ==> CanEdit(t, u)
    ensures CanEdit(t, u) ==> u.Member? && (t.owner == Some(u.id) || InSomeProject(t, u.id))
  {
    match u
    case Anonymous => false
    case Member(id) => t.owner == Some(id) || EditorInSomeProject(t, id)
  }

  /** Anonymous users see public tasks only and never edit. */
  lemma AnonymousAccess(t: Task)
    ensures CanView(t, Anonymous) <==> t.isPublic
    ensures !CanEdit(t, Anonymous)
  {
  }

  /** The owner may always view and edit. */
  lemma OwnerAccess(t: Task, id: nat)
    requires t.owner == Some(id)
    ensures CanView(t, Member(id)) && CanEdit(t, Member(id))
  {
  }

  /** Whoever may edit may also view. */
  lemma EditImpliesView(t: Task, u: User)
    ensures CanEdit(t, u) ==> CanView(t, u)
  {
    if u.Member? && CanEdit(t, u) && t.owner != Some(u.id) {
      var i :| 0 <= i < |t.projects| &&
        (t.projects[i].owner == u.id || (u.id in t.projects[i].roles && t.projects[i].roles[u.id] in EditorRoles));
      assert t.projects[i].owner == u.id || u.id in t.projects[i].roles;
    }
  }

  /** The editing roles are exactly the roles that hold the project's edit
      permission. */
  lemma EditorRolesHoldEdit(role: string)
    ensures role in EditorRoles <==> ProjectModels.HasPermission(role, "edit")
  {
  }
}

=== FILE: task_parser.dfy ===
/** Choosing which task runs a natural-language command: every loaded task is
    scored, the first task with the best score wins, and a best score under
    three tenths selects nothing. The loaded tasks are given in the order
    they were loaded (module discovery is not part of this model). */
module TaskParser {
  import opened Wrappers
  import opened PyStr
  import opened Json
  import opened BaseTask

  /** The score `get_task_for_command` computes for a task. */
  function ScoreOf(tasks: seq<Task>, i: nat, command: string, search: Search): nat
    requires i < |tasks|
  {
    Score(tasks[i], Lower(command), search)
  }

  /** The scores of all loaded tasks, in load order. */
  function Scores(tasks: seq<Task>, command: string, search: Search): (s: seq<nat>)
    ensures |s| == |tasks|
    ensures forall j :: 0 <= j < |tasks| ==> s[j] == ScoreOf(tasks, j, command, search)
  {
    seq(|tasks|, j requires 0 <= j < |tasks| => ScoreOf(tasks, j, command, search))
  }

  /** Python's `max` by score: the first index whose score no later or
      earlier score exceeds. */
  function Best(scores: seq<nat>, from: nat): (i: nat)
    requires from < |scores|
    ensures from <= i < |scores|
    ensures forall j :: from <= j < |scores| ==> scores[j] <= scores[i]
    ensures forall j :: from <= j < i ==> scores[j] < scores[i]
    decreases |scores| - from
  {
    if from == |scores| - 1 then from
    else
      var later := Best(scores, from + 1);
      if scores[later] > scores[from] then later else from
  }

  /** The score threshold in tenths. */
  const Threshold: nat := 3

  /** `get_task_for_command`: the index of the selected task, if any. */
  function TaskForCommand(tasks: seq<Task>, command: string, search: Search): (r: Option<nat>)
    ensures tasks == [] ==> r.None?
    ensures r.None? <==> forall j :: 0 <= j < |tasks| ==> ScoreOf(tasks, j, command, search) < Threshold
    ensures r.Some? ==> r.value < |tasks| && ScoreOf(tasks, r.value, command, search) >= Threshold
    ensures r.Some? ==> forall j :: 0 <= j < |tasks| ==> ScoreOf(tasks, j, command, search) <= ScoreOf(tasks, r.value, command, search)
    ensures r.Some? ==> forall j :: 0 <= j < r.value ==> ScoreOf(tasks, j, command, search) < ScoreOf(tasks, r.value, command, search)
  {
    if tasks == [] then None
    else
      var scores := Scores(tasks, command, search);
      var i := Best(scores, 0);
      if scores[i] < Threshold then None else Some(i)
  }

  /** The selection is determined by the scores alone: a task list whose
      tasks score the same selects the same index. */
  lemma SelectionDependsOnScores(tasks: seq<Task>, tasks': seq<Task>, command: string, search: Search)
    requires |tasks| == |tasks'|
    requires forall j :: 0 <= j < |tasks| ==> ScoreOf(tasks, j, command, search) == ScoreOf(tasks', j, command, search)
    ensures TaskForCommand(tasks, command, search) == TaskForCommand(tasks', command, search)
  {
    var s, s' := Scores(tasks, command, search), Scores(tasks', command, search);
    assert s == s' by {
      assert forall j :: 0 <= j < |s| ==> s[j] == s'[j];
    }
  }

  /** `parse_and_execute`: raises when no task is selected; otherwise runs
      the selected task on the parameters it extracts from the command.
      `execute` stands for that task's `execute`, which may raise. */
  function ParseAndExecute(tasks: seq<Task>, command: string, search: Search, execute: (Task, Object) -> Result<Json>)
    : (r: Result<Json>)
    ensures TaskForCommand(tasks, command, search).None? ==> r.Failure? && StartsWith(r.error, "ValueError")
    ensures TaskForCommand(tasks, command, search).Some? ==>
      var t := tasks[TaskForCommand(tasks, command, search).value];
      r == execute(t, ExtractParams(t, command, search))
  {
    match TaskForCommand(tasks, command, search)
    case None =>
      var e := "ValueError: 명령어를 처리할 수 있는 작업을 찾을 수 없습니다: " + command;
      assert e[..|"ValueError"|] == "ValueError";
      Failure(e)
    case Some(i) => execute(tasks[i], ExtractParams(tasks[i], command, search))
  }
}

=== FILE: workflow_manager.dfy ===
/** The workflow state machine: workflows made of steps kept in a map plus
    an execution order, the dependency- and condition-gated choice of the
    next step, the bounded retry loop of one step, and the status
    transitions of the manager. Threads are not modelled: a run is the
    sequential loop its thread performs. */
module WorkflowManager {
  import opened Wrappers
  import opened PyStr
  import opened Json

  // ---------------------------------------------------------------------
  // Entities
  // ---------------------------------------------------------------------

  datatype WorkflowStatus = WfPending | WfRunning | WfPaused | WfCompleted | WfFailed | WfCanceled

  datatype StepStatus = Pending | Running | Completed | Failed | Skipped

  /** The enum values written to dictionaries. */
  function StepStatusName(s: StepStatus): (n: string)
    ensures n in {"pending", "running", "completed", "failed", "skipped"}
  {
    match s
    case Pending => "pending"
    case Running => "running"
    case Completed => "completed"
    case Failed => "failed"
    case Skipped => "skipped"
  }

  /** `WorkflowStepStatus(value)`: an unknown value raises `ValueError`. */
  function StepStatusFromName(n: string): (r: Result<StepStatus>)
    ensures r.Success? ==> StepStatusName(r.value) == n
    ensures r.Failure? <==> n !in {"pending", "running", "completed", "failed", "skipped"}
  {
    if n == "pending" then Success(Pending)
    else if n == "running" then Success(Running)
    else if n == "completed" then Success(Completed)
    else if n == "failed" then Success(Failed)
    else if n == "skipped" then Success(Skipped)
    else Failure("ValueError: " + n)
  }

  lemma StepStatusNameRoundTrip(s: StepStatus)
    ensures StepStatusFromName(StepStatusName(s)) == Success(s)
  {
  }

  /** `WorkflowStep`. Times are ISO strings, `None` when unset; `result` is
      `None` (`JNull`) until a step completes. */
  datatype WorkflowStep = WorkflowStep(
    stepId: string,
    name: string,
    action: Object,
    retryCount: int,
    retryDelay: real,
    timeout: real,
    dependencies: seq<string>,
    condition: Option<string>,
    rollbackAction: Json,
    status: StepStatus,
    result: Json,
    error: Option<string>,
    startTime: Option<string>,
    endTime: Option<string>,
    retryAttempts: int)

  /** A freshly constructed step. */
  function NewStep(stepId: string, name: string, action: Object, retryCount: int, retryDelay: real,
                   timeout: real, dependencies: seq<string>, condition: Option<string>,
                   rollbackAction: Json): (s: WorkflowStep)
    ensures s.status == Pending && s.result == JNull && s.error == None
    ensures s.startTime == None && s.endTime == None && s.retryAttempts == 0
    ensures s.stepId == stepId && s.dependencies == dependencies && s.retryCount == retryCount
  {
    WorkflowStep(stepId, name, action, retryCount, retryDelay, timeout, dependencies, condition,
                 rollbackAction, Pending, JNull, None, None, None, 0)
  }

  /** `WorkflowStep.to_dict`. */
  function StepToDict(s: WorkflowStep): (d: Object)
    ensures d.Keys == {"step_id", "name", "action", "retry_count", "retry_delay", "timeout", "dependencies",
                       "condition", "rollback_action", "status", "result", "error", "start_time", "end_time",
                       "retry_attempts"}
    ensures d["status"] == JStr(StepStatusName(s.status))
    ensures d["dependencies"] == JList(StrList(s.dependencies))
  {
    map[
      "step_id" := JStr(s.stepId),
      "name" := JStr(s.name),
      "action" := JObj(s.action),
      "retry_count" := JInt(s.retryCount),
      "retry_delay" := JReal(s.retryDelay),
      "timeout" := JReal(s.timeout),
      "dependencies" := JList(StrList(s.dependencies)),
      "condition" := OptStr(s.condition),
      "rollback_action" := s.rollbackAction,
      "status" := JStr(StepStatusName(s.status)),
      "result" := s.result,
      "error" := OptStr(s.error),
      "start_time" := OptStr(s.startTime),
      "end_time" := OptStr(s.endTime),
      "retry_attempts" := JInt(s.retryAttempts)
    ]
  }

  /** `dependencies or []` over `d.get("dependencies", [])`: any falsy
      value reads as the empty list. */
  function DependenciesField(d: Object): (r: Result<seq<string>>)
    ensures "dependencies" !in d || !Truthy(d["dependencies"]) ==> r == Success([])
    ensures r.Success? && "dependencies" in d && Truthy(d["dependencies"]) ==>
      d["dependencies"] == JList(StrList(r.value))
  {
    if "dependencies" in d && !Truthy(d["dependencies"]) then Success([])
    else GetStrListOr(d, "dependencies")
  }

  /** `d.get("rollback_action")`: whatever value is stored, `None` when
      absent. */
  function RollbackField(d: Object): (r: Json)
    ensures "rollback_action" !in d ==> r == JNull
    ensures "rollback_action" in d ==> r == d["rollback_action"]
  {
    GetOrNull(d, "rollback_action")
  }

  /** A time field: `fromisoformat(v) if v else None`. */
  function TimeField(d: Object, key: string): (r: Result<Option<string>>)
    ensures key !in d ==> r == Success(None)
    ensures r.Success? && r.value.Some? ==> r.value.value != []
  {
    var v := GetOrNull(d, key);
    if !Truthy(v) then Success(None)
    else if v.JStr? then Success(Some(v.s))
    else Failure("not a time: " + key)
  }

  /** The fields of a step fixed at construction: `step_id`, `name` and
      `action` are required, the rest have defaults. */
  datatype Definition = Definition(stepId: string, name: string, action: Object, retryCount: int,
                                   retryDelay: real, timeout: real, dependencies: seq<string>,
                                   condition: Option<string>, rollbackAction: Json)

  /** The fields a run updates. */
  datatype RunState = RunState(status: StepStatus, result: Json, error: Option<string>,
                               startTime: Option<string>, endTime: Option<string>, retryAttempts: int)

  function DefinitionFromDict(d: Object): (r: Result<Definition>)
    ensures "step_id" !in d || "name" !in d || "action" !in d ==> r.Failure?
    ensures r.Success? && "retry_count" !in d ==> r.value.retryCount == 3
    ensures r.Success? && "dependencies" !in d ==> r.value.dependencies == []
  {
    var stepId :- GetStr(d, "step_id");
    var name :- GetStr(d, "name");
    var action :- (if "action" in d && d["action"].JObj? then Success(d["action"].fields)
                   else Failure("action"));
    var retryCount :- GetIntOr(d, "retry_count", 3);
    var retryDelay :- GetRealOr(d, "retry_delay", 2.0);
    var timeout :- GetRealOr(d, "timeout", 60.0);
    var deps :- DependenciesField(d);
    var condition :- GetOptStr(d, "condition");
    var rollback := RollbackField(d);
    Success(Definition(stepId, name, action, retryCount, retryDelay, timeout, deps, condition, rollback))
  }

  function RunStateFromDict(d: Object): (r: Result<RunState>)
    ensures r.Success? && "status" !in d ==> r.value.status == Pending
    ensures r.Success? && "retry_attempts" !in d ==> r.value.retryAttempts == 0
  {
    var statusName :- GetStrOr(d, "status", "pending");
    var status :- StepStatusFromName(statusName);
    var error :- GetOptStr(d, "error");
    var startTime :- TimeField(d, "start_time");
    var endTime :- TimeField(d, "end_time");
    var attempts :- GetIntOr(d, "retry_attempts", 0);
    Success(RunState(status, GetOrNull(d, "result"), error, startTime, endTime, attempts))
  }

  /** `WorkflowStep.from_dict`: the constructor's fields, then the restored
      run state; an unknown status is rejected. */
  function StepFromDict(d: Object): (r: Result<WorkflowStep>)
    ensures "step_id" !in d || "name" !in d || "action" !in d ==> r.Failure?
    ensures r.Success? && "status" !in d ==> r.value.status == Pending
    ensures r.Success? && "retry_count" !in d ==> r.value.retryCount == 3
    ensures r.Success? && "retry_attempts" !in d ==> r.value.retryAttempts == 0
    ensures r.Success? && "dependencies" !in d ==> r.value.dependencies == []
  {
    var def :- DefinitionFromDict(d);
    var st :- RunStateFromDict(d);
    Success(WorkflowStep(def.stepId, def.name, def.action, def.retryCount, def.retryDelay, def.timeout,
                         def.dependencies, def.condition, def.rollbackAction,
                         st.status, st.result, st.error, st.startTime, st.endTime, st.retryAttempts))
  }

  /** Times that survive the trip: an empty time string reads back as unset. */
  predicate StepOk(s: WorkflowStep)
  {
    (s.startTime.Some? ==> s.startTime.value != []) && (s.endTime.Some? ==> s.endTime.value != [])
  }

  lemma DefinitionRoundTrip(s: WorkflowStep)
    ensures DefinitionFromDict(StepToDict(s))
         == Success(Definition(s.stepId, s.name, s.action, s.retryCount, s.retryDelay, s.timeout,
                               s.dependencies, s.condition, s.rollbackAction))
  {
    IdentityFields(s);
    PolicyFields(s);
    LinkFields(s);
  }

  lemma IdentityFields(s: WorkflowStep)
    ensures GetStr(StepToDict(s), "step_id") == Success(s.stepId)
    ensures GetStr(StepToDict(s), "name") == Success(s.name)
    ensures "action" in StepToDict(s) && StepToDict(s)["action"] == JObj(s.action)
  {
  }

  lemma PolicyFields(s: WorkflowStep)
    ensures GetIntOr(StepToDict(s), "retry_count", 3) == Success(s.retryCount)
    ensures GetRealOr(StepToDict(s), "retry_delay", 2.0) == Success(s.retryDelay)
    ensures GetRealOr(StepToDict(s), "timeout", 60.0) == Success(s.timeout)
  {
  }

  lemma LinkFields(s: WorkflowStep)
    ensures DependenciesField(StepToDict(s)) == Success(s.dependencies)
    ensures GetOptStr(StepToDict(s), "condition") == Success(s.condition)
    ensures RollbackField(StepToDict(s)) == s.rollbackAction
  {
    StrsOfStrList(s.dependencies);
  }

  lemma RunStateRoundTrip(s: WorkflowStep)
    requires StepOk(s)
    ensures RunStateFromDict(StepToDict(s))
         == Success(RunState(s.status, s.result, s.error, s.startTime, s.endTime, s.retryAttempts))
  {
    var d := StepToDict(s);
    assert GetStrOr(d, "status", "pending") == Success(StepStatusName(s.status));
    StepStatusNameRoundTrip(s.status);
    assert GetOptStr(d, "error") == Success(s.error);
    assert TimeField(d, "start_time") == Success(s.startTime);
    assert TimeField(d, "end_time") == Success(s.endTime);
    assert GetIntOr(d, "retry_attempts", 0) == Success(s.retryAttempts);
    assert GetOrNull(d, "result") == s.result;
  }

  /** `from_dict(to_dict(s))` restores every field of a step. */
  lemma StepRoundTrip(s: WorkflowStep)
    requires StepOk(s)
    ensures StepFromDict(StepToDict(s)) == Success(s)
  {
    DefinitionRoundTrip(s);
    RunStateRoundTrip(s);
  }

  /** `Workflow`. */
  datatype Workflow = Workflow(
    workflowId: string,
    name: string,
    description: string,
    steps: map<string, WorkflowStep>,
    stepOrder: seq<string>,
    status: WorkflowStatus,
    autoRecovery: bool,
    variables: Object,
    startTime: Option<string>,
    endTime: Option<string>,
    currentStepId: Option<string>,
    error: Option<string>)

  /** Every id in the execution order names a stored step. */
  predicate OrderWithinSteps(w: Workflow)
  {
    forall i :: 0 <= i < |w.stepOrder| ==> w.stepOrder[i] in w.steps
  }

  // ---------------------------------------------------------------------
  // Editing the step map and the order
  // ---------------------------------------------------------------------

  /** `add_step`: stores (or overwrites) the step and appends its id to the
      order unless the id is already there. */
  function AddStep(w: Workflow, step: WorkflowStep): (w': Workflow)
    ensures w'.steps == w.steps[step.stepId := step]
    ensures step.stepId in w.stepOrder ==> w'.stepOrder == w.stepOrder
    ensures step.stepId !in w.stepOrder ==> w'.stepOrder == w.stepOrder + [step.stepId]
    ensures OrderWithinSteps(w) ==> OrderWithinSteps(w')
    ensures step.stepId in w'.stepOrder
  {
    var order := if step.stepId in w.stepOrder then w.stepOrder else w.stepOrder + [step.stepId];
    w.(steps := w.steps[step.stepId := step], stepOrder := order)
  }

  /** Adding the same step twice is adding it once. */
  lemma AddStepIdempotent(w: Workflow, step: WorkflowStep)
    ensures AddStep(AddStep(w, step), step) == AddStep(w, step)
  {
  }

  /** `list.remove(x)`: drops the first occurrence only. */
  function RemoveFirst(xs: seq<string>, x: string): (r: seq<string>)
    ensures x !in xs ==> r == xs
    ensures x in xs ==> |r| == |xs| - 1
    ensures forall y :: y in r ==> y in xs
  {
    if |xs| == 0 then []
    else if xs[0] == x then xs[1..]
    else [xs[0]] + RemoveFirst(xs[1..], x)
  }

  /** `remove_step` as written: the id leaves the map, and its first
      occurrence leaves the order. */
  function RemoveStepAsWritten(w: Workflow, id: string): (res: (bool, Workflow))
    ensures !res.0 <==> id !in w.steps
    ensures !res.0 ==> res.1 == w
    ensures res.0 ==> res.1.steps == w.steps - {id} && res.1.stepOrder == RemoveFirst(w.stepOrder, id)
  {
    if id !in w.steps then (false, w)
    else (true, w.(steps := w.steps - {id}, stepOrder := RemoveFirst(w.stepOrder, id)))
  }

  function RemoveAll(xs: seq<string>, x: string): (r: seq<string>)
    ensures x !in r
    ensures forall y :: y in r <==> y in xs && y != x
    ensures |r| <= |xs|
  {
    if |xs| == 0 then []
    else if xs[0] == x then RemoveAll(xs[1..], x)
    else [xs[0]] + RemoveAll(xs[1..], x)
  }

  /** `remove_step` with every occurrence of the id dropped from the order,
      so that the order never names a removed step. */
  function RemoveStep(w: Workflow, id: string): (res: (bool, Workflow))
    ensures !res.0 <==> id !in w.steps
    ensures !res.0 ==> res.1 == w
    ensures res.0 ==> res.1.steps == w.steps - {id} && id !in res.1.stepOrder
    ensures res.0 ==> forall x :: x in res.1.stepOrder <==> x in w.stepOrder && x != id
    ensures OrderWithinSteps(w) ==> OrderWithinSteps(res.1)
  {
    if id !in w.steps then (false, w)
    else
      var w' := w.(steps := w.steps - {id}, stepOrder := RemoveAll(w.stepOrder, id));
      assert OrderWithinSteps(w) ==> OrderWithinSteps(w') by {
        if OrderWithinSteps(w) {
          forall i | 0 <= i < |w'.stepOrder| ensures w'.stepOrder[i] in w'.steps {
            assert w'.stepOrder[i] in w'.stepOrder;
            var j :| 0 <= j < |w.stepOrder| && w.stepOrder[j] == w'.stepOrder[i];
          }
        }
      }
      (true, w')
  }

  /** When the order holds no duplicate, the two removals agree. */
  lemma RemovalsAgreeWithoutDuplicates(xs: seq<string>, x: string)
    requires forall i, j :: 0 <= i < j < |xs| ==> xs[i] != xs[j]
    ensures RemoveFirst(xs, x) == RemoveAll(xs, x)
  {
    if |xs| > 0 {
      assert forall i, j :: 0 <= i < j < |xs[1..]| ==> xs[1..][i] != xs[1..][j] by {
        forall i, j | 0 <= i < j < |xs[1..]| ensures xs[1..][i] != xs[1..][j] {
          assert xs[1..][i] == xs[i + 1] && xs[1..][j] == xs[j + 1];
        }
      }
      RemovalsAgreeWithoutDuplicates(xs[1..], x);
      if xs[0] == x {
        assert x !in xs[1..] by {
          forall k | 0 <= k < |xs[1..]| ensures xs[1..][k] != x {
            assert xs[1..][k] == xs[k + 1];
          }
        }
        assert RemoveAll(xs[1..], x) == xs[1..];
      }
    }
  }

  lemma RemoveAllAbsent(xs: seq<string>, x: string)
    requires x !in xs
    ensures RemoveAll(xs, x) == xs
  {
  }

  /** `set_step_order`: every id must name a stored step; steps left out of
      the new order are allowed (and only logged). */
  function SetStepOrder(w: Workflow, order: seq<string>): (res: (bool, Workflow))
    ensures res.0 <==> forall i :: 0 <= i < |order| ==> order[i] in w.steps
    ensures !res.0 ==> res.1 == w
    ensures res.0 ==> res.1 == w.(stepOrder := order)
    ensures OrderWithinSteps(res.1) <== OrderWithinSteps(w)
  {
    if forall i :: 0 <= i < |order| ==> order[i] in w.steps then (true, w.(stepOrder := order))
    else (false, w)
  }

  // ---------------------------------------------------------------------
  // Choosing the next step
  // ---------------------------------------------------------------------

  /** The outcome of evaluating a step's condition with `eval` in a
      restricted namespace: truthy, falsy, or raised. */
  datatype CondResult = CondTrue | CondFalse | CondError(message: string)

  predicate Done(s: WorkflowStep)
  {
    s.status == Completed || s.status == Skipped
  }

  /** Every dependency exists and has completed. */
  predicate DepsMet(steps: map<string, WorkflowStep>, s: WorkflowStep)
  {
    forall d :: d in s.dependencies ==> d in steps && steps[d].status == Completed
  }

  /** A position of the order the scan goes past. */
  predicate PassedOver(steps: map<string, WorkflowStep>, id: string)
  {
    id in steps && (Done(steps[id]) || !DepsMet(steps, steps[id]))
  }

  predicate HasCondition(s: WorkflowStep)
  {
    s.condition.Some? && s.condition.value != []
  }

  /** `b` is `a` with some not yet done, conditional steps marked skipped. */
  predicate SkipsOnly(a: map<string, WorkflowStep>, b: map<string, WorkflowStep>)
  {
    a.Keys == b.Keys &&
    forall id :: id in a ==> b[id] == a[id] || (b[id] == a[id].(status := Skipped) && !Done(a[id]) && HasCondition(a[id]))
  }

  lemma SkipsOnlyTransitive(a: map<string, WorkflowStep>, b: map<string, WorkflowStep>, c: map<string, WorkflowStep>)
    requires SkipsOnly(a, b) && SkipsOnly(b, c)
    ensures SkipsOnly(a, c)
  {
  }

  lemma PassedOverStable(a: map<string, WorkflowStep>, b: map<string, WorkflowStep>, id: string)
    requires SkipsOnly(a, b) && PassedOver(a, id)
    ensures PassedOver(b, id)
  {
    if !Done(a[id]) {
      var d :| d in a[id].dependencies && !(d in a && a[d].status == Completed);
      assert d in b[id].dependencies;
    }
  }

  /** The first position of `x` in `xs`. */
  function IndexOf(xs: seq<string>, x: string): (i: nat)
    requires x in xs
    ensures i < |xs| && xs[i] == x && forall j :: 0 <= j < i ==> xs[j] != x
  {
    if xs[0] == x then 0 else 1 + IndexOf(xs[1..], x)
  }

  /** The namespace a condition is evaluated in: the workflow variables,
      then `step_<id>` bound to the result of every completed step of
      `prefix`. */
  function ConditionContext(vars: Object, steps: map<string, WorkflowStep>, prefix: seq<string>): (c: Object)
    ensures forall k :: k in vars ==> k in c
    ensures forall j :: (0 <= j < |prefix| && prefix[j] in steps && steps[prefix[j]].status == Completed
                         ==> "step_" + prefix[j] in c && c["step_" + prefix[j]] == steps[prefix[j]].result)
    ensures forall k :: k in c && !StartsWith(k, "step_") ==> k in vars && c[k] == vars[k]
  {
    if |prefix| == 0 then vars
    else
      var init := ConditionContext(vars, steps, prefix[..|prefix| - 1]);
      var id := prefix[|prefix| - 1];
      assert StartsWith("step_" + id, "step_");
      if id in steps && steps[id].status == Completed then init["step_" + id := steps[id].result] else init
  }

  /** The namespace for the step at position `at` of the order: the
      scan of earlier steps stops at the first occurrence of its id. */
  function ContextFor(w: Workflow, steps: map<string, WorkflowStep>, id: string): Object
    requires id in w.stepOrder
  {
    ConditionContext(w.variables, steps, w.stepOrder[..IndexOf(w.stepOrder, id) + 1])
  }

  datatype NextOutcome =
    | NoStep
    | Next(at: nat)
    | ConditionFailed(at: nat, message: string)
    | MissingStep(at: nat)

  /** The loop of `get_next_step` from position `i`, with `steps` as the
      step map has become so far. */
  function ScanFrom(w: Workflow, steps: map<string, WorkflowStep>, eval: (string, Object) -> CondResult, i: nat)
    : (res: (NextOutcome, map<string, WorkflowStep>))
    requires i <= |w.stepOrder|
    ensures SkipsOnly(steps, res.1)
    ensures res.0.NoStep? ==> forall j :: i <= j < |w.stepOrder| ==> PassedOver(res.1, w.stepOrder[j])
    ensures !res.0.NoStep? ==> (i <= res.0.at < |w.stepOrder|
      && forall j :: i <= j < res.0.at ==> PassedOver(res.1, w.stepOrder[j]))
    ensures res.0.MissingStep? ==> w.stepOrder[res.0.at] !in steps
    ensures res.0.Next? || res.0.ConditionFailed? ==>
      var id := w.stepOrder[res.0.at];
      && id in res.1 && !Done(res.1[id]) && DepsMet(res.1, res.1[id]) && res.1[id] == steps[id]
    ensures res.0.Next? ==>
      var id := w.stepOrder[res.0.at];
      !HasCondition(res.1[id]) || eval(res.1[id].condition.value, ContextFor(w, res.1, id)) == CondTrue
    ensures res.0.ConditionFailed? ==>
      var id := w.stepOrder[res.0.at];
      HasCondition(res.1[id]) && eval(res.1[id].condition.value, ContextFor(w, res.1, id)) == CondError(res.0.message)
    decreases |w.stepOrder| - i
  {
    if i == |w.stepOrder| then (NoStep, steps)
    else
      var id := w.stepOrder[i];
      if id !in steps then (MissingStep(i), steps)
      else
        var s := steps[id];
        if Done(s) || !DepsMet(steps, s) then
          var res := ScanFrom(w, steps, eval, i + 1);
          PassedOverStable(steps, res.1, id);
          res
        else if HasCondition(s) then
          match eval(s.condition.value, ContextFor(w, steps, id))
          case CondTrue => (Next(i), steps)
          case CondError(e) => (ConditionFailed(i, e), steps)
          case CondFalse =>
            var skipped := steps[id := s.(status := Skipped)];
            var res := ScanFrom(w, skipped, eval, i + 1);
            SkipsOnlyTransitive(steps, skipped, res.1);
            assert PassedOver(skipped, id);
            PassedOverStable(skipped, res.1, id);
            res
        else (Next(i), steps)
  }

  /** `get_next_step`. Outside `RUNNING` there is no next step. Otherwise
      the order is scanned: done steps and steps whose dependencies are not
      all completed are passed over; a step whose condition is falsy is
      marked skipped and passed over; the first remaining step is returned.
      A condition that raises marks its step failed and ends the scan
      without a step; an order entry without a step raises `KeyError`. */
  function NextStep(w: Workflow, eval: (string, Object) -> CondResult): (res: (NextOutcome, Workflow))
    ensures w.status != WfRunning ==> res == (NoStep, w)
    ensures res.1.steps.Keys == w.steps.Keys && res.1.stepOrder == w.stepOrder
    ensures res.1 == w.(steps := res.1.steps)
    ensures res.0.Next? ==> (res.0.at < |w.stepOrder|
      && var id := w.stepOrder[res.0.at];
         id in res.1.steps && !Done(res.1.steps[id]) && DepsMet(res.1.steps, res.1.steps[id])
         && (forall j :: 0 <= j < res.0.at ==> PassedOver(res.1.steps, w.stepOrder[j])))
    ensures res.0.Next? ==>
      var id := w.stepOrder[res.0.at];
      !HasCondition(res.1.steps[id]) || eval(res.1.steps[id].condition.value, ContextFor(w, res.1.steps, id)) == CondTrue
    ensures res.0.NoStep? && w.status == WfRunning ==>
      forall j :: 0 <= j < |w.stepOrder| ==> PassedOver(res.1.steps, w.stepOrder[j])
    ensures res.0.MissingStep? ==> res.0.at < |w.stepOrder| && w.stepOrder[res.0.at] !in w.steps
    ensures res.0.ConditionFailed? ==> (res.0.at < |w.stepOrder| && w.stepOrder[res.0.at] in res.1.steps
      && res.1.steps[w.stepOrder[res.0.at]].status == Failed)
    ensures !res.0.ConditionFailed? ==> SkipsOnly(w.steps, res.1.steps)
  {
    if w.status != WfRunning then (NoStep, w)
    else
      var (outcome, steps) := ScanFrom(w, w.steps, eval, 0);
      match outcome
      case ConditionFailed(at, e) =>
        var id := w.stepOrder[at];
        (outcome, w.(steps := steps[id := steps[id].(status := Failed, error := Some("조건 평가 오류: " + e))]))
      case _ => (outcome, w.(steps := steps))
  }

  /** With the order naming only stored steps, the scan never raises
      `KeyError`. */
  lemma NoMissingStepWhenOrderValid(w: Workflow, eval: (string, Object) -> CondResult)
    requires OrderWithinSteps(w)
    ensures !NextStep(w, eval).0.MissingStep?
  {
  }

  /** A step left behind in the order after `remove_step` makes the next
      scan raise `KeyError`: `set_step_order(["a", "a"])` is accepted, and
      removing `a` afterwards drops only one of the two entries. */
  lemma RemoveStepAsWrittenLeavesDanglingId(s: WorkflowStep, eval: (string, Object) -> CondResult)
    requires s.stepId == "a" && s.status == Pending && s.dependencies == []
    ensures var w := Workflow("w", "w", "", map["a" := s], ["a"], WfRunning, true, map[], None, None, None, None);
      var (ok1, w1) := SetStepOrder(w, ["a", "a"]);
      var (ok2, w2) := RemoveStepAsWritten(w1, "a");
      ok1 && ok2 && OrderWithinSteps(w) && NextStep(w2, eval).0 == MissingStep(0)
  {
    var w := Workflow("w", "w", "", map["a" := s], ["a"], WfRunning, true, map[], None, None, None, None);
    var w1 := SetStepOrder(w, ["a", "a"]).1;
    assert w1.stepOrder == ["a", "a"];
    var w2 := RemoveStepAsWritten(w1, "a").1;
    assert w2.stepOrder == ["a"];
    assert w2.steps == map[];
  }

  /** The corrected removal keeps the order valid, so the scan that follows
      cannot raise. */
  lemma RemoveStepKeepsScanTotal(w: Workflow, id: string, eval: (string, Object) -> CondResult)
    requires OrderWithinSteps(w)
    ensures !NextStep(RemoveStep(w, id).1, eval).0.MissingStep?
  {
    NoMissingStepWhenOrderValid(RemoveStep(w, id).1, eval);
  }

  // ---------------------------------------------------------------------
  // Executing one step
  // ---------------------------------------------------------------------

  /** What one attempt of a step's plugin call gives: the value returned by
      `execute_plugin` (`None` read as `JNull`) or the message of the
      exception raised (the time-out check included). */
  datatype Attempt = Returned(value: Json) | Raised(message: string)

  /** The plugin's behaviour, per step id and attempt number. */
  type Plugins = (string, nat) -> Attempt

  /** The attempts of the step stored under `id`. */
  function Outcomes(plugins: Plugins, id: string): nat -> Attempt
  {
    (k: nat) => plugins(id, k)
  }

  predicate Succeeds(a: Attempt)
  {
    a.Returned? && a.value != JNull
  }

  /** The first attempt in `[k, n)` that returns a value. */
  function FirstSuccess(outcome: nat -> Attempt, k: nat, n: int): (r: Option<nat>)
    ensures r.Some? ==> (k <= r.value < n && Succeeds(outcome(r.value))
      && forall j :: k <= j < r.value ==> !Succeeds(outcome(j)))
    ensures r.None? ==> forall j :: k <= j < n ==> !Succeeds(outcome(j))
    decreases n - k
  {
    if k >= n then None
    else if Succeeds(outcome(k)) then Some(k)
    else FirstSuccess(outcome, k + 1, n)
  }

  function ResultKey(id: string): string
  {
    "step_" + id + "_result"
  }

  /** The attempt loop of `execute_step` from attempt `k` on, for a step
      whose retry count is `s.retryCount`: attempts `0..retry_count`, the
      first value returned completes the step and is stored in the
      variables; an exception on the last attempt fails the step. Returns
      the step, the variables, the success flag and the attempts made. */
  function Attempts(s: WorkflowStep, vars: Object, k: nat, now: string, outcome: nat -> Attempt)
    : (res: (WorkflowStep, Object, bool, nat))
    ensures res.0.stepId == s.stepId && res.0.name == s.name && res.0.retryCount == s.retryCount
    ensures res.0.dependencies == s.dependencies && res.0.condition == s.condition && res.0.startTime == s.startTime
    decreases s.retryCount + 1 - k
  {
    if k > s.retryCount then (s, vars, false, 0)
    else
      var s1 := if k > 0 then s.(retryAttempts := k) else s;
      match outcome(k)
      case Returned(v) =>
        if v != JNull then
          (s1.(result := v, status := Completed, endTime := Some(now)), vars[ResultKey(s.stepId) := v], true, 1)
        else
          var (s2, vars2, ok, n) := Attempts(s1, vars, k + 1, now, outcome);
          (s2, vars2, ok, n + 1)
      case Raised(e) =>
        var s2 := s1.(error := Some(e));
        if k >= s.retryCount then (s2.(status := Failed, endTime := Some(now)), vars, false, 1)
        else
          var (s3, vars3, ok, n) := Attempts(s2, vars, k + 1, now, outcome);
          (s3, vars3, ok, n + 1)
  }

  /** The loop succeeds exactly when some remaining attempt returns a
      value. */
  lemma {:induction false} AttemptsSucceedIff(s: WorkflowStep, vars: Object, k: nat, now: string, outcome: nat -> Attempt)
    ensures Attempts(s, vars, k, now, outcome).2 <==> FirstSuccess(outcome, k, s.retryCount + 1).Some?
    decreases s.retryCount + 1 - k
  {
    if k < s.retryCount && !Succeeds(outcome(k)) {
      AttemptsUnfoldFailed(s, vars, k, now, outcome);
      AttemptsSucceedIff(NextAttemptStep(s, k, outcome), vars, k + 1, now, outcome);
    }
  }

  /** The first attempt that returns a value ends the loop: its value
      becomes the step's result and is stored under `step_<id>_result`,
      and no later attempt is made. */
  lemma {:induction false} AttemptsSuccess(s: WorkflowStep, vars: Object, k: nat, now: string, outcome: nat -> Attempt)
    requires FirstSuccess(outcome, k, s.retryCount + 1).Some?
    ensures var res := Attempts(s, vars, k, now, outcome);
      var j := FirstSuccess(outcome, k, s.retryCount + 1).value;
      && res.0.status == Completed && res.0.result == outcome(j).value
      && res.1 == vars[ResultKey(s.stepId) := outcome(j).value]
      && res.3 == j + 1 - k && res.0.endTime == Some(now)
    decreases s.retryCount + 1 - k
  {
    var j := FirstSuccess(outcome, k, s.retryCount + 1).value;
    if j != k {
      var s2 := NextAttemptStep(s, k, outcome);
      assert FirstSuccess(outcome, k + 1, s.retryCount + 1).value == j;
      AttemptsSuccess(s2, vars, k + 1, now, outcome);
      AttemptsUnfoldFailed(s, vars, k, now, outcome);
    }
  }

  /** The step as the next attempt sees it after attempt `k` failed. */
  function NextAttemptStep(s: WorkflowStep, k: nat, outcome: nat -> Attempt): WorkflowStep
  {
    var s1 := if k > 0 then s.(retryAttempts := k) else s;
    if outcome(k).Raised? then s1.(error := Some(outcome(k).message)) else s1
  }

  /** An attempt that neither returns a value nor is the last one passes
      on to the next attempt and counts itself. */
  lemma AttemptsUnfoldFailed(s: WorkflowStep, vars: Object, k: nat, now: string, outcome: nat -> Attempt)
    requires k < s.retryCount
    requires outcome(k).Raised? || outcome(k).value == JNull
    ensures var r := Attempts(NextAttemptStep(s, k, outcome), vars, k + 1, now, outcome);
      Attempts(s, vars, k, now, outcome) == (r.0, r.1, r.2, r.3 + 1)
  {
  }

  /** When no attempt returns a value, every remaining attempt is made, the
      variables are untouched, and the step fails iff the last attempt
      raised; otherwise its status is left as it was. */
  lemma {:induction false} AttemptsFail(s: WorkflowStep, vars: Object, k: nat, now: string, outcome: nat -> Attempt)
    requires FirstSuccess(outcome, k, s.retryCount + 1).None?
    ensures var res := Attempts(s, vars, k, now, outcome);
      && res.1 == vars && res.3 == (if k <= s.retryCount then s.retryCount + 1 - k else 0)
      && (k <= s.retryCount ==> res.0.status == if outcome(s.retryCount).Raised? then Failed else s.status)
      && (k > s.retryCount ==> res.0 == s)
    decreases s.retryCount + 1 - k
  {
    if k < s.retryCount {
      AttemptsUnfoldFailed(s, vars, k, now, outcome);
      AttemptsFail(NextAttemptStep(s, k, outcome), vars, k + 1, now, outcome);
    }
  }

  /** `execute_step`. Without a plugin manager nothing happens. Otherwise
      the step becomes current and running, and at most `retry_count + 1`
      attempts are made; the step succeeds iff one of them returns a value.
      When every attempt returns `None` without raising, the step is left
      `RUNNING` and the result is false. The rollback call made after a
      final failure has no effect on the workflow's state. */
  function ExecuteStep(w: Workflow, id: string, hasPluginManager: bool, now: string, outcome: nat -> Attempt)
    : (res: (bool, nat, Workflow))
    requires id in w.steps
    ensures !hasPluginManager ==> res == (false, 0, w)
    ensures res.2.steps.Keys == w.steps.Keys && res.2.stepOrder == w.stepOrder
    ensures res.2 == w.(currentStepId := res.2.currentStepId, steps := res.2.steps, variables := res.2.variables)
    ensures forall other :: other in w.steps && other != id ==> res.2.steps[other] == w.steps[other]
    ensures res.2.steps[id].name == w.steps[id].name
    ensures hasPluginManager ==> res.2.currentStepId == Some(id) && res.2.steps[id].startTime == Some(now)
  {
    if !hasPluginManager then (false, 0, w)
    else
      var s0 := w.steps[id].(status := Running, startTime := Some(now), retryAttempts := 0);
      var (s', vars', ok, n) := Attempts(s0, w.variables, 0, now, outcome);
      (ok, n, w.(currentStepId := Some(id), steps := w.steps[id := s'], variables := vars'))
  }

  /** What `execute_step` promises: success iff some attempt among the
      first `retry_count + 1` returns a value, and then the step is
      completed with that value, which is also stored in the variables;
      at most `retry_count + 1` attempts; on failure the variables are
      untouched, and the step is failed iff the last attempt raised and
      otherwise left running. */
  lemma ExecuteStepOutcome(w: Workflow, id: string, now: string, outcome: nat -> Attempt)
    requires id in w.steps
    ensures var (ok, n, w') := ExecuteStep(w, id, true, now, outcome);
      var r := w.steps[id].retryCount;
      var f := FirstSuccess(outcome, 0, r + 1);
      && (ok <==> f.Some?)
      && n <= (if r >= 0 then r + 1 else 0)
      && (ok ==>
            && w'.steps[id].status == Completed && w'.steps[id].result == outcome(f.value).value
            && w'.variables == w.variables[ResultKey(w.steps[id].stepId) := outcome(f.value).value]
            && n == f.value + 1)
      && (!ok ==>
            && w'.variables == w.variables
            && (w'.steps[id].status == Failed <==> r >= 0 && outcome(r).Raised?)
            && (w'.steps[id].status != Failed ==> w'.steps[id].status == Running))
  {
    var s0 := w.steps[id].(status := Running, startTime := Some(now), retryAttempts := 0);
    AttemptsSucceedIff(s0, w.variables, 0, now, outcome);
    if FirstSuccess(outcome, 0, s0.retryCount + 1).Some? {
      AttemptsSuccess(s0, w.variables, 0, now, outcome);
    } else {
      AttemptsFail(s0, w.variables, 0, now, outcome);
    }
  }

  // ---------------------------------------------------------------------
  // Running a workflow
  // ---------------------------------------------------------------------

  datatype RunEnd = Ended(w: Workflow) | OutOfFuel(w: Workflow)

  function OptShow(o: Option<string>): string
  {
    match o
    case None => "None"
    case Some(s) => s
  }

  /** The start of the run thread: running, with a start time and no
      current step. */
  function BeginRun(w: Workflow, now: string): (w': Workflow)
    ensures w'.status == WfRunning && w'.steps == w.steps && w'.stepOrder == w.stepOrder
  {
    w.(status := WfRunning, startTime := Some(now), currentStepId := None)
  }

  /** The loop of `_execute_workflow_thread` as written, for at most `fuel`
      iterations. A scan without a step completes the workflow; a failed
      step fails it unless `auto_recovery` is set; a `KeyError` from the
      scan fails it. */
  function RunAsWritten(w: Workflow, hasPluginManager: bool, eval: (string, Object) -> CondResult,
                        plugins: Plugins, now: string, fuel: nat): (r: RunEnd)
    ensures r.Ended? ==> r.w.status == WfCompleted || r.w.status == WfFailed
    decreases fuel
  {
    if fuel == 0 then OutOfFuel(w)
    else
      var (next, w1) := NextStep(w, eval);
      match next
      case MissingStep(at) =>
        Ended(w1.(status := WfFailed, error := Some("'" + w.stepOrder[at] + "'"), endTime := Some(now)))
      case NoStep => Ended(w1.(status := WfCompleted, endTime := Some(now)))
      case ConditionFailed(_, _) => Ended(w1.(status := WfCompleted, endTime := Some(now)))
      case Next(at) =>
        var id := w.stepOrder[at];
        var (ok, _, w2) := ExecuteStep(w1, id, hasPluginManager, now, Outcomes(plugins, id));
        if !ok && !w2.autoRecovery then
          Ended(w2.(status := WfFailed, endTime := Some(now),
                    error := Some("단계 실패: " + w2.steps[id].name + " - " + OptShow(w2.steps[id].error))))
        else RunAsWritten(w2, hasPluginManager, eval, plugins, now, fuel - 1)
  }

  /** A one-step workflow with `auto_recovery` on, whose step always raises. */
  function FailingWorkflow(s: WorkflowStep): Workflow
  {
    Workflow("w", "w", "", map[s.stepId := s], [s.stepId], WfRunning, true, map[], None, None, None, None)
  }

  /** A plugin that raises on every attempt of every step. */
  function AlwaysRaises(id: string, k: nat): Attempt
  {
    Raised("boom")
  }

  /** The state the failing workflow reaches after its first iteration. */
  function FailedOnce(s: WorkflowStep, now: string): WorkflowStep
  {
    s.(status := Failed, startTime := Some(now), retryAttempts := 0, error := Some("boom"), endTime := Some(now))
  }

  /** With `auto_recovery` on, a step that keeps failing is chosen again by
      the next scan (a failed step is not done), so the run never ends: for
      every bound on the iterations, the loop is still going. */
  lemma {:induction false} AutoRecoveryNeverEnds(s: WorkflowStep, eval: (string, Object) -> CondResult,
                                                 now: string, fuel: nat)
    requires s.retryCount == 0 && s.dependencies == [] && s.condition == None && s.status == Pending
    ensures RunAsWritten(FailingWorkflow(s), true, eval, AlwaysRaises, now, fuel).OutOfFuel?
  {
    NeverEndsFrom(FailingWorkflow(s), s, eval, now, fuel);
  }

  /** `w` is running the one step `s`, with `auto_recovery` on. */
  predicate LoopsOn(w: Workflow, s: WorkflowStep)
  {
    w.steps == map[s.stepId := s] && w.stepOrder == [s.stepId] && w.status == WfRunning && w.autoRecovery
  }

  /** A workflow running only the raising step `s`, not yet attempted,
      runs out of fuel. */
  lemma NeverEndsFrom(w: Workflow, s: WorkflowStep, eval: (string, Object) -> CondResult, now: string, fuel: nat)
    requires s.retryCount == 0 && s.dependencies == [] && s.condition == None && s.status == Pending
    requires LoopsOn(w, s)
    ensures RunAsWritten(w, true, eval, AlwaysRaises, now, fuel).OutOfFuel?
  {
    var w2 := w.(steps := map[s.stepId := FailedOnce(s, now)], currentStepId := Some(s.stepId));
    forall f: nat | 0 < f
      ensures RunAsWritten(w, true, eval, AlwaysRaises, now, f) == RunAsWritten(w2, true, eval, AlwaysRaises, now, f - 1)
    {
      OneIteration(w, s, eval, now, f);
    }
    forall f: nat
      ensures RunAsWritten(w2, true, eval, AlwaysRaises, now, f) == OutOfFuel(w2)
    {
      StuckForever(w2, s, eval, now, f);
    }
  }

  lemma OneIteration(w: Workflow, s: WorkflowStep, eval: (string, Object) -> CondResult, now: string, fuel: nat)
    requires s.retryCount == 0 && s.dependencies == [] && s.condition == None && s.status != Completed
             && s.status != Skipped
    requires w.steps == map[s.stepId := s] && w.stepOrder == [s.stepId] && w.status == WfRunning && w.autoRecovery
    requires fuel > 0
    ensures RunAsWritten(w, true, eval, AlwaysRaises, now, fuel)
         == RunAsWritten(w.(steps := map[s.stepId := FailedOnce(s, now)], currentStepId := Some(s.stepId)),
                         true, eval, AlwaysRaises, now, fuel - 1)
  {
    var (next, w1) := NextStep(w, eval);
    assert next == Next(0);
    assert w1 == w;
    ExecuteRaisingStep(w, s.stepId, now, AlwaysRaises);
    assert w.steps[s.stepId := FailedOnce(s, now)] == map[s.stepId := FailedOnce(s, now)];
  }

  /** A step allowed no retry whose only attempt raises ends failed. */
  lemma ExecuteRaisingStep(w: Workflow, id: string, now: string, plugins: Plugins)
    requires id in w.steps && w.steps[id].retryCount == 0 && plugins(id, 0) == Raised("boom")
    ensures ExecuteStep(w, id, true, now, Outcomes(plugins, id))
         == (false, 1, w.(currentStepId := Some(id), steps := w.steps[id := FailedOnce(w.steps[id], now)]))
  {
    var s0 := w.steps[id].(status := Running, startTime := Some(now), retryAttempts := 0);
    assert Outcomes(plugins, id)(0) == Raised("boom");
    assert Attempts(s0, w.variables, 0, now, Outcomes(plugins, id))
        == (FailedOnce(w.steps[id], now), w.variables, false, 1);
  }

  lemma StuckForever(w2: Workflow, s: WorkflowStep, eval: (string, Object) -> CondResult,
                     now: string, fuel: nat)
    requires s.retryCount == 0 && s.dependencies == [] && s.condition == None
    requires LoopsOn(w2, FailedOnce(s, now)) && w2.currentStepId == Some(s.stepId)
    ensures RunAsWritten(w2, true, eval, AlwaysRaises, now, fuel).OutOfFuel?
    ensures RunAsWritten(w2, true, eval, AlwaysRaises, now, fuel) == OutOfFuel(w2)
  {
    forall f: nat | 0 < f <= fuel
      ensures RunAsWritten(w2, true, eval, AlwaysRaises, now, f) == RunAsWritten(w2, true, eval, AlwaysRaises, now, f - 1)
    {
      StuckStep(w2, s, eval, now, f);
    }
    var run := (f: nat) => RunAsWritten(w2, true, eval, AlwaysRaises, now, f);
    NoFuel(w2, eval, now);
    Unchanging(run, fuel);
  }

  /** A run that gives the same end with one turn fewer, for every number
      of turns up to `fuel`, gives with `fuel` turns what it gives with none. */
  lemma {:induction false} Unchanging(run: nat -> RunEnd, fuel: nat)
    requires forall f: nat :: 0 < f <= fuel ==> run(f) == run(f - 1)
    ensures run(fuel) == run(0)
    decreases fuel
  {
    if fuel > 0 {
      Unchanging(run, fuel - 1);
    }
  }

  /** With no turns left, the loop stops where it is. */
  lemma NoFuel(w: Workflow, eval: (string, Object) -> CondResult, now: string)
    ensures RunAsWritten(w, true, eval, AlwaysRaises, now, 0) == OutOfFuel(w)
  {
  }


  /** One more loop turn on the stuck workflow leaves it as it was. */
  lemma StuckStep(w2: Workflow, s: WorkflowStep, eval: (string, Object) -> CondResult, now: string, fuel: nat)
    requires s.retryCount == 0 && s.dependencies == [] && s.condition == None
    requires LoopsOn(w2, FailedOnce(s, now)) && w2.currentStepId == Some(s.stepId)
    requires fuel > 0
    ensures RunAsWritten(w2, true, eval, AlwaysRaises, now, fuel)
         == RunAsWritten(w2, true, eval, AlwaysRaises, now, fuel - 1)
  {
    var s' := FailedOnce(s, now);
    OneIteration(w2, s', eval, now, fuel);
    FailingAgainChangesNothing(w2, s, now);
  }

  /** Failing a step that already failed the same way leaves it as it was. */
  lemma FailingAgainChangesNothing(w2: Workflow, s: WorkflowStep, now: string)
    requires LoopsOn(w2, FailedOnce(s, now)) && w2.currentStepId == Some(s.stepId)
    ensures var s' := FailedOnce(s, now);
      w2.(steps := map[s'.stepId := FailedOnce(s', now)], currentStepId := Some(s'.stepId)) == w2
  {
    var s' := FailedOnce(s, now);
    assert FailedOnce(s', now) == s';
  }

  /** The step ids not yet attempted in a corrected run. */
  function Unattempted(w: Workflow, attempted: set<string>): set<string>
  {
    w.steps.Keys - attempted
  }

  /** The step map as the corrected scan sees it: a step already attempted
      in this run and not completed reads as skipped. Completion is all that
      dependencies and condition contexts look at, so only the choice of
      the next step changes. */
  function Shadow(steps: map<string, WorkflowStep>, attempted: set<string>): (v: map<string, WorkflowStep>)
    ensures v.Keys == steps.Keys
    ensures forall id :: id in steps ==> (v[id].status == Completed <==> steps[id].status == Completed)
    ensures forall id :: id in steps && id in attempted ==> Done(v[id])
    ensures forall id :: id in steps && id !in attempted ==> v[id] == steps[id]
  {
    map id | id in steps :: if id in attempted && steps[id].status != Completed then steps[id].(status := Skipped) else steps[id]
  }

  /** Puts the attempted steps back as they were before the scan. */
  function Restore(scanned: map<string, WorkflowStep>, before: map<string, WorkflowStep>, attempted: set<string>)
    : (r: map<string, WorkflowStep>)
    requires scanned.Keys == before.Keys
    ensures r.Keys == before.Keys
    ensures forall id :: id in r ==> r[id] == if id in attempted then before[id] else scanned[id]
  {
    map id | id in scanned :: if id in attempted then before[id] else scanned[id]
  }

  /** The next-step scan of the corrected loop: `get_next_step` with the
      steps already attempted in this run passed over. */
  function NextUnattempted(w: Workflow, eval: (string, Object) -> CondResult, attempted: set<string>)
    : (res: (NextOutcome, Workflow))
    ensures res.1.steps.Keys == w.steps.Keys && res.1 == w.(steps := res.1.steps)
    ensures res.0.Next? ==> (res.0.at < |w.stepOrder| && w.stepOrder[res.0.at] in w.steps
      && w.stepOrder[res.0.at] !in attempted)
    ensures forall id :: id in attempted && id in w.steps ==> res.1.steps[id] == w.steps[id]
  {
    var (next, w1) := NextStep(w.(steps := Shadow(w.steps, attempted)), eval);
    ChosenIsUnattempted(w, eval, attempted);
    (next, w.(steps := Restore(w1.steps, w.steps, attempted)))
  }

  lemma ChosenIsUnattempted(w: Workflow, eval: (string, Object) -> CondResult, attempted: set<string>)
    ensures var (next, w1) := NextStep(w.(steps := Shadow(w.steps, attempted)), eval);
      next.Next? ==> w.stepOrder[next.at] !in attempted
  {
    var (next, w1) := NextStep(w.(steps := Shadow(w.steps, attempted)), eval);
    if next.Next? {
      var id := w.stepOrder[next.at];
      assert w1.steps[id] == Shadow(w.steps, attempted)[id];
    }
  }

  lemma UnattemptedShrinks(w: Workflow, w2: Workflow, attempted: set<string>, id: string)
    requires id in w.steps && id !in attempted && w2.steps.Keys == w.steps.Keys
    ensures |Unattempted(w2, attempted + {id})| + 1 == |Unattempted(w, attempted)|
  {
    assert Unattempted(w2, attempted + {id}) == Unattempted(w, attempted) - {id};
  }

  /** `xs` names stored steps, none attempted before, each once. */
  predicate FreshRun(xs: seq<string>, keys: set<string>, attempted: set<string>)
  {
    && (forall i :: 0 <= i < |xs| ==> xs[i] in keys && xs[i] !in attempted)
    && (forall i, j :: 0 <= i < j < |xs| ==> xs[i] != xs[j])
  }

  lemma ConsFresh(id: string, xs: seq<string>, keys: set<string>, attempted: set<string>)
    requires id in keys && id !in attempted && FreshRun(xs, keys, attempted + {id})
    ensures FreshRun([id] + xs, keys, attempted)
  {
  }

  /** The run loop with each step attempted at most once per run: a step
      attempted already is passed over like a done one, so a failure under
      `auto_recovery` moves on to the following steps. No bound on the
      iterations is needed, since each one attempts a step not attempted
      before. Returns the final workflow and the steps attempted, in order. */
  function Run(w: Workflow, hasPluginManager: bool, eval: (string, Object) -> CondResult,
               plugins: Plugins, now: string, attempted: set<string>): (r: (Workflow, seq<string>))
    ensures r.0.status == WfCompleted || r.0.status == WfFailed
    ensures FreshRun(r.1, w.steps.Keys, attempted)
    ensures |r.1| <= |Unattempted(w, attempted)|
    ensures r.0.steps.Keys == w.steps.Keys && r.0.stepOrder == w.stepOrder
    decreases |Unattempted(w, attempted)|, 1
  {
    var (next, w1) := NextUnattempted(w, eval, attempted);
    if next.Next? then RunStep(w1, hasPluginManager, eval, plugins, now, attempted, w.stepOrder[next.at])
    else Finish(w1, next, now)
  }

  /** How the loop ends when the scan yields no step to run. */
  function Finish(w: Workflow, next: NextOutcome, now: string): (w': (Workflow, seq<string>))
    requires !next.Next? && (next.MissingStep? ==> next.at < |w.stepOrder|)
    ensures w'.1 == [] && w'.0.steps == w.steps && w'.0.stepOrder == w.stepOrder
    ensures w'.0.status == (if next.MissingStep? then WfFailed else WfCompleted)
  {
    match next
    case MissingStep(at) =>
      (w.(status := WfFailed, error := Some("'" + w.stepOrder[at] + "'"), endTime := Some(now)), [])
    case _ => (w.(status := WfCompleted, endTime := Some(now)), [])
  }

  /** One iteration of the corrected loop that runs step `id`, and the
      rest of the loop. */
  function RunStep(w1: Workflow, hasPluginManager: bool, eval: (string, Object) -> CondResult,
                   plugins: Plugins, now: string, attempted: set<string>, id: string): (r: (Workflow, seq<string>))
    requires id in w1.steps && id !in attempted
    ensures r.0.status == WfCompleted || r.0.status == WfFailed
    ensures FreshRun(r.1, w1.steps.Keys, attempted)
    ensures |r.1| <= |Unattempted(w1, attempted)|
    ensures r.0.steps.Keys == w1.steps.Keys && r.0.stepOrder == w1.stepOrder
    ensures |r.1| >= 1 && r.1[0] == id
    decreases |Unattempted(w1, attempted)|, 0
  {
    var (ok, _, w2) := ExecuteStep(w1, id, hasPluginManager, now, Outcomes(plugins, id));
    UnattemptedShrinks(w1, w2, attempted, id);
    if !ok && !w2.autoRecovery then
      (w2.(status := WfFailed, endTime := Some(now),
           error := Some("단계 실패: " + w2.steps[id].name + " - " + OptShow(w2.steps[id].error))), [id])
    else
      var r := Run(w2, hasPluginManager, eval, plugins, now, attempted + {id});
      ConsFresh(id, r.1, w1.steps.Keys, attempted);
      (r.0, [id] + r.1)
  }

  /** On the workflow whose loop never ends as written, the corrected loop
      attempts the failing step once and completes the workflow. */
  lemma RunEndsAfterOneFailure(s: WorkflowStep, eval: (string, Object) -> CondResult, now: string)
    requires s.retryCount == 0 && s.dependencies == [] && s.condition == None && s.status == Pending
    ensures var r := Run(FailingWorkflow(s), true, eval, AlwaysRaises, now, {});
      r.1 == [s.stepId] && r.0.status == WfCompleted && r.0.steps[s.stepId].status == Failed
  {
    var w := FailingWorkflow(s);
    var plugins: Plugins := AlwaysRaises;
    FirstScanPicksStep(s, eval);
    var w2 := ExecuteStep(w, s.stepId, true, now, Outcomes(plugins, s.stepId)).2;
    FailingStepFailsOnce(s, now);
    SecondRunFinishes(w2, s.stepId, eval, plugins, now);
    assert Run(w, true, eval, plugins, now, {}) == RunStep(w, true, eval, plugins, now, {}, s.stepId);
    RecoveringRunStep(w, true, eval, plugins, now, {}, s.stepId);
    assert {} + {s.stepId} == {s.stepId};
  }

  /** The one attempt of the failing workflow's step raises and fails it. */
  lemma FailingStepFailsOnce(s: WorkflowStep, now: string)
    requires s.retryCount == 0
    ensures var w2 := ExecuteStep(FailingWorkflow(s), s.stepId, true, now, Outcomes(AlwaysRaises, s.stepId)).2;
      && w2.steps == map[s.stepId := FailedOnce(s, now)] && w2.steps.Keys == {s.stepId}
      && w2.stepOrder == [s.stepId] && w2.status == WfRunning && w2.autoRecovery
  {
    var w := FailingWorkflow(s);
    ExecuteRaisingStep(w, s.stepId, now, AlwaysRaises);
    assert w.steps[s.stepId := FailedOnce(s, now)] == map[s.stepId := FailedOnce(s, now)];
  }

  /** With `auto_recovery` on, the loop goes on after a step whatever its
      outcome. */
  lemma RecoveringRunStep(w1: Workflow, hasPluginManager: bool, eval: (string, Object) -> CondResult,
                          plugins: Plugins, now: string, attempted: set<string>, id: string)
    requires id in w1.steps && id !in attempted && w1.autoRecovery
    ensures var w2 := ExecuteStep(w1, id, hasPluginManager, now, Outcomes(plugins, id)).2;
      var r := Run(w2, hasPluginManager, eval, plugins, now, attempted + {id});
      RunStep(w1, hasPluginManager, eval, plugins, now, attempted, id) == (r.0, [id] + r.1)
  {
  }

  lemma SecondRunFinishes(w: Workflow, id: string, eval: (string, Object) -> CondResult, plugins: Plugins, now: string)
    requires w.steps.Keys == {id} && w.stepOrder == [id] && w.status == WfRunning
    ensures var r := Run(w, true, eval, plugins, now, {id});
      r.1 == [] && r.0.status == WfCompleted && r.0.steps[id] == w.steps[id]
  {
    SecondScanFindsNothing(w, id, eval);
    var (next, w1) := NextUnattempted(w, eval, {id});
    assert Run(w, true, eval, plugins, now, {id}) == Finish(w1, NoStep, now);
  }

  lemma FirstScanPicksStep(s: WorkflowStep, eval: (string, Object) -> CondResult)
    requires s.dependencies == [] && s.condition == None && s.status == Pending
    ensures NextUnattempted(FailingWorkflow(s), eval, {}) == (Next(0), FailingWorkflow(s))
  {
    var w := FailingWorkflow(s);
    assert Shadow(w.steps, {}) == w.steps;
    assert w.(steps := w.steps) == w;
    var (next, w1) := NextStep(w, eval);
    assert next == Next(0) && w1 == w;
    assert Restore(w.steps, w.steps, {}) == w.steps;
  }

  lemma SecondScanFindsNothing(w: Workflow, id: string, eval: (string, Object) -> CondResult)
    requires w.steps.Keys == {id} && w.stepOrder == [id] && w.status == WfRunning
    ensures NextUnattempted(w, eval, {id}).0 == NoStep
  {
    var v := w.(steps := Shadow(w.steps, {id}));
    assert Done(v.steps[id]);
    var (next, w1) := NextStep(v, eval);
    assert !next.Next?;
  }

  // ---------------------------------------------------------------------
  // The manager's status transitions
  // ---------------------------------------------------------------------

  type Workflows = map<string, Workflow>

  /** A step as a fresh run finds it: pending, with result, error, times
      and attempts cleared. */
  function ResetStep(s: WorkflowStep): (s': WorkflowStep)
    ensures s'.status == Pending && s'.result == JNull && s'.error == None
    ensures s'.startTime == None && s'.endTime == None && s'.retryAttempts == 0
    ensures s' == NewStep(s.stepId, s.name, s.action, s.retryCount, s.retryDelay, s.timeout,
                          s.dependencies, s.condition, s.rollbackAction)
  {
    s.(status := Pending, result := JNull, error := None, startTime := None, endTime := None, retryAttempts := 0)
  }

  /** Resets the steps that satisfy `which`, leaving the others alone. */
  function ResetWhere(steps: map<string, WorkflowStep>, which: StepStatus -> bool): (r: map<string, WorkflowStep>)
    ensures r.Keys == steps.Keys
    ensures forall id :: id in steps && which(steps[id].status) ==> r[id] == ResetStep(steps[id])
    ensures forall id :: id in steps && !which(steps[id].status) ==> r[id] == steps[id]
  {
    map id | id in steps :: if which(steps[id].status) then ResetStep(steps[id]) else steps[id]
  }

  predicate NotCompleted(st: StepStatus) { st != Completed }
  predicate FailedOrPending(st: StepStatus) { st == Failed || st == Pending }
  predicate AnyStatus(st: StepStatus) { true }

  /** `is_workflow_running`: known and in status `RUNNING`. */
  predicate IsRunning(ws: Workflows, id: string)
    ensures id !in ws ==> !IsRunning(ws, id)
    ensures IsRunning(ws, id) ==> ws[id].status == WfRunning
  {
    id in ws && ws[id].status == WfRunning
  }

  /** `start_workflow`, up to the start of the run: unknown or running
      workflows are refused; otherwise every step not completed is reset
      and completed steps keep their results. The run itself is `Run`
      applied to `BeginRun` of the result. */
  function Start(ws: Workflows, id: string): (res: (bool, Workflows))
    ensures res.0 <==> id in ws && ws[id].status != WfRunning
    ensures !res.0 ==> res.1 == ws
    ensures res.0 ==> (res.1.Keys == ws.Keys
      && (forall other :: other in ws && other != id ==> res.1[other] == ws[other])
      && res.1[id].steps.Keys == ws[id].steps.Keys
      && (forall sid :: sid in ws[id].steps && ws[id].steps[sid].status == Completed
            ==> res.1[id].steps[sid] == ws[id].steps[sid])
      && (forall sid :: sid in ws[id].steps && ws[id].steps[sid].status != Completed
            ==> res.1[id].steps[sid] == ResetStep(ws[id].steps[sid]))
      && res.1[id] == ws[id].(steps := res.1[id].steps))
  {
    if id !in ws || IsRunning(ws, id) then (false, ws)
    else (true, ws[id := ws[id].(steps := ResetWhere(ws[id].steps, NotCompleted))])
  }

  /** `pause_workflow`: only a running workflow is paused. */
  function Pause(ws: Workflows, id: string): (res: (bool, Workflows))
    ensures res.0 <==> id in ws && ws[id].status == WfRunning
    ensures !res.0 ==> res.1 == ws
    ensures res.0 ==> res.1 == ws[id := ws[id].(status := WfPaused)]
  {
    if id !in ws || ws[id].status != WfRunning then (false, ws)
    else (true, ws[id := ws[id].(status := WfPaused)])
  }

  /** `resume_workflow`: only a paused workflow is resumed; it runs again
      from where it was. */
  function Resume(ws: Workflows, id: string): (res: (bool, Workflows))
    ensures res.0 <==> id in ws && ws[id].status == WfPaused
    ensures !res.0 ==> res.1 == ws
    ensures res.0 ==> res.1 == ws[id := ws[id].(status := WfRunning)]
  {
    if id !in ws || ws[id].status != WfPaused then (false, ws)
    else (true, ws[id := ws[id].(status := WfRunning)])
  }

  /** `cancel_workflow`: a workflow that has finished (completed, failed or
      canceled) cannot be canceled. */
  function Cancel(ws: Workflows, id: string, now: string): (res: (bool, Workflows))
    ensures res.0 <==> id in ws && ws[id].status !in {WfCompleted, WfFailed, WfCanceled}
    ensures !res.0 ==> res.1 == ws
    ensures res.0 ==> res.1 == ws[id := ws[id].(status := WfCanceled, endTime := Some(now))]
  {
    if id !in ws || ws[id].status in {WfCompleted, WfFailed, WfCanceled} then (false, ws)
    else (true, ws[id := ws[id].(status := WfCanceled, endTime := Some(now))])
  }

  /** `retry_workflow`: only a failed or canceled workflow is retried. From
      the beginning every step is reset, otherwise the failed and pending
      ones; the workflow goes back to pending with no error and no current
      step, and is started. */
  function Retry(ws: Workflows, id: string, fromBeginning: bool): (res: (bool, Workflows))
    ensures res.0 <==> id in ws && ws[id].status in {WfFailed, WfCanceled}
    ensures !res.0 ==> res.1 == ws
    ensures res.0 ==> (res.1.Keys == ws.Keys && res.1[id].status == WfPending
      && res.1[id].error == None && res.1[id].currentStepId == None
      && res.1[id].steps.Keys == ws[id].steps.Keys
      && (forall other :: other in ws && other != id ==> res.1[other] == ws[other]))
  {
    if id !in ws || ws[id].status !in {WfFailed, WfCanceled} then (false, ws)
    else
      var w := ws[id];
      var steps := if fromBeginning then ResetWhere(w.steps, AnyStatus) else ResetWhere(w.steps, FailedOrPending);
      var w' := w.(steps := steps, status := WfPending, error := None, currentStepId := None);
      Start(ws[id := w'], id)
  }

  /** `delete_workflow`: unknown and running workflows are not deleted. */
  function Delete(ws: Workflows, id: string): (res: (bool, Workflows))
    ensures res.0 <==> id in ws && ws[id].status != WfRunning
    ensures res.0 ==> res.1 == ws - {id}
    ensures !res.0 ==> res.1 == ws
  {
    if id !in ws || IsRunning(ws, id) then (false, ws)
    else (true, ws - {id})
  }

  /** The moves between workflow statuses the manager's operations allow,
      stated on their own. */
  predicate ManagerMove(from: WorkflowStatus, to: WorkflowStatus)
  {
    || (from == WfRunning && to == WfPaused)
    || (from == WfPaused && to == WfRunning)
    || (from in {WfPending, WfRunning, WfPaused} && to == WfCanceled)
    || (from in {WfFailed, WfCanceled} && to == WfPending)
    || from == to
  }

  /** Every accepted pause, resume, cancel and retry moves the workflow's
      status along `ManagerMove`, and a refused one changes nothing. */
  lemma TransitionsAreManagerMoves(ws: Workflows, id: string, now: string, fromBeginning: bool)
    requires id in ws
    ensures Pause(ws, id).0 ==> ManagerMove(ws[id].status, Pause(ws, id).1[id].status)
    ensures Resume(ws, id).0 ==> ManagerMove(ws[id].status, Resume(ws, id).1[id].status)
    ensures Cancel(ws, id, now).0 ==> ManagerMove(ws[id].status, Cancel(ws, id, now).1[id].status)
    ensures Retry(ws, id, fromBeginning).0 ==> ManagerMove(ws[id].status, Retry(ws, id, fromBeginning).1[id].status)
    ensures Start(ws, id).1[id].status == ws[id].status
  {
  }

  /** Pausing and then resuming gives back the workflows as they were. */
  lemma PauseResume(ws: Workflows, id: string)
    requires Pause(ws, id).0
    ensures Resume(Pause(ws, id).1, id) == (true, ws)
  {
    assert ws[id := ws[id].(status := WfPaused)][id := ws[id]] == ws;
  }

  /** A canceled workflow cannot be canceled, paused or resumed again. */
  lemma CanceledIsFinal(ws: Workflows, id: string, now: string, later: string)
    requires Cancel(ws, id, now).0
    ensures var ws' := Cancel(ws, id, now).1;
      !Cancel(ws', id, later).0 && !Pause(ws', id).0 && !Resume(ws', id).0
  {
  }

  /** Retrying from the failed step resets exactly the steps a retry from
      the beginning leaves unfinished: the start that follows resets every
      step that is not completed anyway, so completed steps keep their
      results and all others come back pending. */
  lemma {:induction false} RetryResetsUnfinished(ws: Workflows, id: string)
    requires Retry(ws, id, false).0
    ensures var w := Retry(ws, id, false).1[id];
      forall sid :: sid in ws[id].steps ==>
        if ws[id].steps[sid].status == Completed then w.steps[sid] == ws[id].steps[sid]
        else w.steps[sid] == ResetStep(ws[id].steps[sid])
  {
    var w0 := ws[id];
    var steps := ResetWhere(w0.steps, FailedOrPending);
    var w' := w0.(steps := steps, status := WfPending, error := None, currentStepId := None);
    var w := Retry(ws, id, false).1[id];
    assert Retry(ws, id, false) == Start(ws[id := w'], id);
    forall sid | sid in w0.steps
      ensures if w0.steps[sid].status == Completed then w.steps[sid] == w0.steps[sid]
              else w.steps[sid] == ResetStep(w0.steps[sid])
    {
      assert ResetStep(ResetStep(w0.steps[sid])) == ResetStep(w0.steps[sid]);
    }
  }

  /** Retrying from the beginning resets every step, completed ones
      included. */
  lemma RetryFromBeginningResetsAll(ws: Workflows, id: string)
    requires Retry(ws, id, true).0
    ensures var w := Retry(ws, id, true).1[id];
      forall sid :: sid in ws[id].steps ==> w.steps[sid] == ResetStep(ws[id].steps[sid])
  {
    var w0 := ws[id];
    var w' := w0.(steps := ResetWhere(w0.steps, AnyStatus), status := WfPending, error := None, currentStepId := None);
    assert Retry(ws, id, true) == Start(ws[id := w'], id);
    forall sid | sid in w0.steps
      ensures Retry(ws, id, true).1[id].steps[sid] == ResetStep(w0.steps[sid])
    {
      assert ResetStep(ResetStep(w0.steps[sid])) == ResetStep(w0.steps[sid]);
    }
  }

  /** The thread started by `start_workflow` and `resume_workflow`, run to
      its end with each step attempted at most once. */
  function StartAndRun(ws: Workflows, id: string, hasPluginManager: bool, eval: (string, Object) -> CondResult,
                       plugins: Plugins, now: string): (res: (bool, Workflows))
    ensures res.0 <==> id in ws && ws[id].status != WfRunning
    ensures !res.0 ==> res.1 == ws
    ensures res.0 ==> (res.1.Keys == ws.Keys && res.1[id].status in {WfCompleted, WfFailed}
      && res.1[id].steps.Keys == ws[id].steps.Keys)
  {
    var (ok, ws1) := Start(ws, id);
    if !ok then (false, ws)
    else (true, ws1[id := Run(BeginRun(ws1[id], now), hasPluginManager, eval, plugins, now, {}).0])
  }
}

=== FILE: wrappers.dfy ===
/** Failure-compatible wrappers used throughout the model: `Option` for the
    Python `None`-or-value convention and `Result` for operations whose
    Python counterpart raises an exception. */
module Wrappers {

  datatype Option<+T> = None | Some(value: T) {
    predicate IsFailure() { None? }

    function PropagateFailure<U>(): Option<U>
      requires None?
    {
      None
    }

    function Extract(): T
      requires Some?
    {
      value
    }

    /** The value, or `default` when absent (Python's `x if x is not None else d`). */
    function GetOr(default: T): T {
      match this
      case Some(v) => v
      case None => default
    }
  }

  /** `Failure(msg)` stands for a raised exception whose message is `msg`. */
  datatype Result<+R> = Success(value: R) | Failure(error: string) {
    predicate IsFailure() { Failure? }

    function PropagateFailure<U>(): Result<U>
      requires Failure?
    {
      Failure(error)
    }

    function Extract(): R
      requires Success?
    {
      value
    }
  }
}
